=== FILE: README.md ===
# DevStudio core, modelled in Dafny

This project models the core of the DevStudio editor (`vscode-clone`): its
extension host, the text processing behind its AI coding workflow, the
parsers and tables of its Electron main process, and the state machines of
its IDE components. Dafny proves properties about that model. There is one
Dafny module per source file.

**Extension host**
- `ExtensionRegistry` (registry.dfy) is the `ExtensionRegistry` class of
  `src/modules/core/ExtensionRegistry.js`. It holds:
  - the command map, sidebar items and panels, the settings schema,
    status-bar items and editor buttons;
  - the two subscriber lists and the `initialized` flag.
- `initialize` is a loop over the fixed list of four modules. Each module's
  `activate` is a script of registration calls, and the script may end in a
  throw.
- `ExtensionApi` (api.dfy) holds the types the modules and the registry
  share.
- `LiveServer`, `Prettier`, `Gemini` and `AiHistoryChat` model the four
  extension modules, their metadata and settings, their `activate` scripts
  and the handlers those scripts register. `LiveServer` includes the
  module-level `serverRunning` flag.

**AI text processing**
- `CodeParser` (code_parser.dfy) covers `parseAIResponse`,
  `extractCodeBlocks`, `computeDiff` and `suggestFilePath` of
  `src/lib/aiCodingService.js`.
- `RegexScan` (regex_scan.dfy) contains hand-written scanners with the match
  semantics of the FILE, COMMAND, GIT and code-fence patterns. This includes
  the backtracking of `\s*`.
- `StreamHandlers` (stream_handlers.dfy) covers the `data:` line reading of
  `handleStreamResponse` and `handleAnthropicStream`.
- `ProjectContext` (project_context.dfy) covers `getProjectStructure`,
  `detectLanguage` and `buildSystemPrompt`.
- `AIExecutor` (ai_executor.dfy) covers `src/lib/aiExecutor.js`:
  - operation parsing and ordering;
  - the execution loop that continues past failures;
  - path resolution, command and file execution;
  - the file list of the smart prompt.

**Desktop main process**
- `DesktopMain` (desktop_main.dfy) covers `electron/main.cjs`:
  - `normalizePath`;
  - the terminal table;
  - the recursive directory scan over an in-memory tree;
  - the porcelain status parser and the branch parser;
  - token injection for push;
  - the file sanitising and command list of publish;
  - the live-server start.

**IDE components**
- `FileExplorer`, `Layout`, `CodeEditorWithAI`, `AIChat`, `CommandPalette`,
  `SettingsPanel`, `TerminalPanel` (`Terminal.jsx`), `PublishModal`,
  `ActivityBar` and `MenuBar` model the React components of the same names.
- A component's state (`useState`) is a class whose fields its handlers
  update. Its pure helpers (path cleaning, filters, label mapping, diff
  classification) are functions with lemmas.

**Shared modules**
- `Optional`, `Strings` and `Lists` hold the option type, the JavaScript
  string operations the code uses (split, join, trim, lower-casing,
  `indexOf`, `includes`), and list filtering.

**How effects are modelled**
- Callbacks into the host, backend replies and other effects are
  parameters or returned values. Examples:
  - what a handler hands to `onSave`, or which action a click sends;
  - whether the desktop bridge exists, or the id a new terminal got.

## Where the code and its description differ

The model follows the code in each of these cases.
- Status-bar items and editor buttons are appended without removing an
  earlier item with the same id. They are neither replaced nor ignored.
- `executeCommand` discards the handler's result and returns nothing.
- A successful live-server start with the desktop backend shows the item
  `🌐 Port: null` and the toast `Server is live at http://localhost:undefined`.
  The backend reply has no `port` field: `updateStatusBar`'s parameter then
  takes its default `null`, while the toast reads the missing field directly.
- The Prettier backend passes only the code and `filepath` to Prettier. The
  `tabWidth`, `semi`, `singleQuote`, `trailingComma` and `printWidth` of the
  request never reach the formatter.
- `cleanPath` is not idempotent: `root` cleans to the empty string, but a
  path like `/root` cleans to `root`, which then cleans to the empty string.
- Languages disagree for `.jsx` files. `detectLanguage` answers `react`; the
  editor's `getLanguage` answers `javascript`.
- A reply with a fenced code block and no FILE block proposes nothing in
  the editor. `parseAIResponse` turns the block into a code operation, so the
  operation list is not empty and the code-block fallback is never reached.
- The settings search matches extension setting items by their label only,
  because those items carry `description`, not `desc`.
- `Layout` passes `installedExtensions`, not `extensionItems`, to the
  activity bar.
- `handleCreateFolderDirect` throws when no project is stored, where the file
  handler reports `No project open`.
- Removing the last terminal tab leaves the removed id active.
- The command palette does not reset its selection when the query changes.

## Model

| member | source | states |
|---|---|---|
| ExtensionRegistry.UntilThrow | vscode-clone/src/modules/core/ExtensionRegistry.js:59-124 | the calls of an `activate` that take effect are the longest prefix with no throw; the call after them, if any, is the throw |
| ExtensionRegistry.ApplyAllKeepsSubscribers | vscode-clone/src/modules/core/ExtensionRegistry.js:61-117 | context calls never change the two subscriber lists or the initialized flag |
| ExtensionRegistry.InitializeKeepsSubscribers | vscode-clone/src/modules/core/ExtensionRegistry.js:33-130 | `initialize` keeps both subscriber lists (they belong to the window) and sets the flag |
| ExtensionRegistry.ApplyAllIgnoresFlag | vscode-clone/src/modules/core/ExtensionRegistry.js:61-117 | context calls never read the initialized flag: runs from states that differ only in it differ only in it |
| ExtensionRegistry.LoadAllIgnoresFlag | vscode-clone/src/modules/core/ExtensionRegistry.js:45-126 | the module loop never reads the initialized flag |
| ExtensionRegistry.InitializeForgetsPreviousContributions | vscode-clone/src/modules/core/ExtensionRegistry.js:36-43 | after `initialize`, two registries with the same subscribers are identical, whatever commands, panels, items, buttons and settings they held before |
| ExtensionRegistry.ApplyAllKeepsSettings | vscode-clone/src/modules/core/ExtensionRegistry.js:61-117 | no context call touches the settings schema |
| ExtensionRegistry.ApplyAll | vscode-clone/src/modules/core/ExtensionRegistry.js:61-117 | applying context calls only adds: every list keeps its entries as a prefix, every map keeps its ids, and the settings are untouched |
| ExtensionRegistry.LoadModule | vscode-clone/src/modules/core/ExtensionRegistry.js:46-126 | a module without metadata is skipped; otherwise its manifest settings are appended and the rest only grows |
| ExtensionRegistry.LoadAll | vscode-clone/src/modules/core/ExtensionRegistry.js:45-126 | loading a module list only adds to what is registered |
| ExtensionRegistry.LoadAllSettings | vscode-clone/src/modules/core/ExtensionRegistry.js:45-56 | the module loop appends the settings of each module with metadata, in module order |
| ExtensionRegistry.InitializeSettings | vscode-clone/src/modules/core/ExtensionRegistry.js:36-56 | after `initialize` the schema is exactly the concatenated settings of the modules with metadata, whatever their `activate` does; a module without metadata changes nothing |
| ExtensionRegistry.LoadAllAppend | vscode-clone/src/modules/core/ExtensionRegistry.js:45 | the `forEach` over `a + b` is the loop over `a` followed by the loop over `b`, effects in order |
| ExtensionRegistry.ThrowingActivateIsContained | vscode-clone/src/modules/core/ExtensionRegistry.js:59-124 | a module whose `activate` throws after k calls keeps its settings and those k registrations, and every later module is loaded exactly as without the throw |
| ExtensionRegistry.CommandsLastWriteWins | vscode-clone/src/modules/core/ExtensionRegistry.js:65-68 | an id is registered after the calls iff it was before or some call registers it, and maps to the handler of the last such call |
| ExtensionRegistry.SidebarPanels | vscode-clone/src/modules/core/ExtensionRegistry.js:71-75 | every panel registration appends a sidebar item, while the panel map keeps only the last renderer per id |
| ExtensionRegistry.ItemsAndButtonsAppended | vscode-clone/src/modules/core/ExtensionRegistry.js:84-115 | status-bar items and editor buttons are appended one per call, in call order, without de-duplication by id |
| ExtensionRegistry.NotifyReaches | vscode-clone/src/modules/core/ExtensionRegistry.js:91-97 | a subscriber listed once is called exactly once with the new item; one not listed is never called |
| ExtensionRegistry.ReplayDelivers | vscode-clone/src/modules/core/ExtensionRegistry.js:179-185 | a replay hands the new subscriber every stored item, in stored order |
| ExtensionRegistry.EarlySubscriberSeesCreatedItems | vscode-clone/src/modules/core/ExtensionRegistry.js:84-98 | a status-bar subscriber present during the calls receives each created item once, in creation order, and nothing else |
| ExtensionRegistry.SubscribersSeeStoredItems | vscode-clone/src/modules/core/ExtensionRegistry.js:84-186 | a subscriber registered before `initialize` and one registered after it both receive exactly the stored status-bar items, in order |
| ExtensionRegistry.NoReplayBeforeInitialize | vscode-clone/src/modules/core/ExtensionRegistry.js:172-211 | before the first `initialize`, subscribing replays nothing and only appends the callback |
| ExtensionRegistry.RemoveCons | vscode-clone/src/modules/core/ExtensionRegistry.js:189-219 | one step of the cleanup's filter: the first callback stays, in front, exactly when it is another callback |
| ExtensionRegistry.RemoveAppend | vscode-clone/src/modules/core/ExtensionRegistry.js:189-219 | the cleanup's filter keeps the order of the remaining callbacks: removing from a concatenation removes from each part |
| ExtensionRegistry.RemoveExactlyThatCallback | vscode-clone/src/modules/core/ExtensionRegistry.js:189-219 | the cleanup function removes every copy of its callback, keeps every other entry with its multiplicity, and a second call changes nothing |
| ExtensionRegistry.RunScriptNoThrow | vscode-clone/src/modules/core/ExtensionRegistry.js:59-124 | an `activate` that does not throw runs all its calls |
| ExtensionRegistry.LoadGemini | vscode-clone/src/modules/extensions/gemini-ai/index.jsx:34-145 | loading the Gemini module adds its settings, its `Gemini AI` sidebar entry and panel, and the `gemini.hello` command, and nothing else |
| ExtensionRegistry.LoadPrettier | vscode-clone/src/modules/extensions/prettier-formatter/index.jsx:14-83 | loading the formatter adds the `prettier.format` command and the Format button, and nothing else |
| ExtensionRegistry.LoadLiveServer | vscode-clone/src/modules/extensions/live-server/index.jsx:11-60 | loading the live server adds the start and stop commands and the `Go Live` status-bar item, and nothing else |
| ExtensionRegistry.LoadAiHistoryChat | vscode-clone/src/modules/extensions/ai-history-chat/index.jsx:34-190 | loading the AI chat module adds its settings, its `AI Chat` sidebar entry and panel, and the `ai.chat` command, and nothing else |
| ExtensionRegistry.LoadBuiltIns | vscode-clone/src/modules/core/ExtensionRegistry.js:8-45 | the loop over the built-ins loads Gemini, the formatter, the live server and the AI chat, one after the other |
| ExtensionRegistry.BuiltInContributions | vscode-clone/src/modules/core/ExtensionRegistry.js:33-130 | after `initialize` the registry holds exactly five commands, the two sidebar entries, the `Go Live` item, the Format button and the Gemini then AI chat settings |
| ExtensionRegistry.BuiltInsFrom | vscode-clone/src/modules/core/ExtensionRegistry.js:45-126 | what loading the four built-ins adds to any registry state, field by field |
| ExtensionRegistry.Registry.constructor | vscode-clone/src/modules/core/ExtensionRegistry.js:7-31 | the registry starts with the four built-in modules, empty collections and the flag unset |
| ExtensionRegistry.Registry.RegisterCommand | vscode-clone/src/modules/core/ExtensionRegistry.js:65-68 | sets the command's handler and changes nothing else |
| ExtensionRegistry.Registry.RegisterSidebarPanel | vscode-clone/src/modules/core/ExtensionRegistry.js:71-75 | appends `{id, ...item}` and sets the panel renderer; nothing else changes |
| ExtensionRegistry.Registry.CreateStatusBarItem | vscode-clone/src/modules/core/ExtensionRegistry.js:84-98 | stores the item, then calls every status-bar subscriber with it, in order |
| ExtensionRegistry.Registry.RegisterEditorButton | vscode-clone/src/modules/core/ExtensionRegistry.js:101-115 | stores the button, then calls every editor-button subscriber with it, in order |
| ExtensionRegistry.Registry.Apply | vscode-clone/src/modules/core/ExtensionRegistry.js:61-117 | one context call has exactly the effect the pure model gives it |
| ExtensionRegistry.Registry.Run | vscode-clone/src/modules/core/ExtensionRegistry.js:59-124 | runs an `activate` script inside `try`: it stops at the first throw and keeps what the earlier calls did |
| ExtensionRegistry.Registry.Load | vscode-clone/src/modules/core/ExtensionRegistry.js:46-125 | one step of the module loop: skip without metadata, append settings, run `activate` |
| ExtensionRegistry.Registry.Initialize | vscode-clone/src/modules/core/ExtensionRegistry.js:33-130 | clears the six collections, loads every module in order and sets the flag |
| ExtensionRegistry.Registry.GetSidebarPanel | vscode-clone/src/modules/core/ExtensionRegistry.js:141-143 | a renderer exactly for a registered id, the registered one |
| ExtensionRegistry.Registry.ExecuteCommand | vscode-clone/src/modules/core/ExtensionRegistry.js:158-169 | a registered handler is called exactly once with the arguments; an unknown id does nothing and nothing is returned |
| ExtensionRegistry.Registry.OnStatusBarUpdate | vscode-clone/src/modules/core/ExtensionRegistry.js:172-186 | subscribes, and replays the stored items only once initialized |
| ExtensionRegistry.Registry.UnsubscribeStatusBar | vscode-clone/src/modules/core/ExtensionRegistry.js:189-194 | the cleanup filters the callback out of the status-bar subscribers |
| ExtensionRegistry.Registry.OnEditorButtonUpdate | vscode-clone/src/modules/core/ExtensionRegistry.js:197-211 | subscribes, and replays the stored buttons only once initialized |
| ExtensionRegistry.Registry.UnsubscribeEditorButtons | vscode-clone/src/modules/core/ExtensionRegistry.js:214-219 | the cleanup filters the callback out of the editor-button subscribers |
| Gemini.Hello | vscode-clone/src/modules/extensions/gemini-ai/index.jsx:140-142 | the `gemini.hello` handler shows exactly one toast, the success toast `Hello from Gemini Extension!` |
| Gemini.ModelName | vscode-clone/src/modules/extensions/gemini-ai/index.jsx:75-77 | the model is the configured one when it is truthy and `gemini-1.5-flash` otherwise; it is never falsy |
| Gemini.GeminiPanel.constructor | vscode-clone/src/modules/extensions/gemini-ai/index.jsx:56-58 | an empty input, the greeting as response, not loading |
| Gemini.GeminiPanel.HandleAsk | vscode-clone/src/modules/extensions/gemini-ai/index.jsx:60-87 | a blank input does nothing; without a key the warning is shown and nothing is requested; otherwise the model request carries the key, the model name and the input, a reply replaces the response and clears the input, a failure shows `❌ Error: ` and its message; loading ends on every path that started it |
| Prettier.TabWidth | vscode-clone/src/modules/extensions/prettier-formatter/index.jsx:47 | the tab width is the `tabSize` setting when truthy and 2 otherwise |
| Prettier.Format | vscode-clone/src/modules/extensions/prettier-formatter/index.jsx:18-67 | no back end: the error message only; no open file or empty content: the warning only; otherwise the request carries the content, the file path (`realPath`, else `path`, else `name`) and the tab width after the `Formatting code...` message; new content appears exactly when the back end formats successfully, with `✅ Code formatted successfully!`, and each failure shows its error message |
| Prettier.OnKeydown | vscode-clone/src/modules/extensions/prettier-formatter/index.jsx:130-142 | the default is prevented exactly for Ctrl or Cmd with Shift and `f` in either case, and the command runs exactly then when a registry is on the window |
| LiveServer.StatusItem | vscode-clone/src/modules/extensions/live-server/index.jsx:15-23 | the button's id is fixed; stopped it reads `Go Live` and starts the server, running it shows `🌐 Port: ` and the port, or `null` when there is none, and stops it |
| LiveServer.Start | vscode-clone/src/modules/extensions/live-server/index.jsx:26-45 | already running: a warning; no root: an error; otherwise the starting toast, the back-end call, and on success the running item and the success toast; the flag is set exactly on success |
| LiveServer.Stop | vscode-clone/src/modules/extensions/live-server/index.jsx:48-55 | not running: only a warning; running: the back end is called, the Go Live item comes back and the stopped toast follows; the flag ends unset |
| LiveServer.StartWithDesktopBackend | vscode-clone/src/modules/extensions/live-server/index.jsx:36-41 | with the desktop back end, which returns no port, the running item reads `🌐 Port: null` (the parameter's default) and the toast names `http://localhost:undefined` |
| LiveServer.ItemFollowsFlag | vscode-clone/src/modules/extensions/live-server/index.jsx:38-44 | a start creates a status item exactly when it changes the flag, and that item's command stops the server |
| LiveServer.StopRestoresGoLive | vscode-clone/src/modules/extensions/live-server/index.jsx:48-55 | a stop that changes the flag creates exactly the Go Live item, whose command starts the server |
| LiveServer.ServerFlag.constructor | vscode-clone/src/modules/extensions/live-server/index.jsx:9 | the module-level flag starts unset |
| LiveServer.ServerFlag.RunStart | vscode-clone/src/modules/extensions/live-server/index.jsx:26-45 | the start handler on the module-level flag does what `Start` describes |
| LiveServer.ServerFlag.RunStop | vscode-clone/src/modules/extensions/live-server/index.jsx:48-55 | the stop handler on the module-level flag does what `Stop` describes |
| AiHistoryChat.ChatReply | vscode-clone/src/modules/extensions/ai-history-chat/index.jsx:173-187 | the reply is exactly one of the four canned answers immediately followed by ` You said: "`, the prompt and a closing quote, so it is never empty |
| AiHistoryChat.ChatPanel.constructor | vscode-clone/src/modules/extensions/ai-history-chat/index.jsx:58-62 | the welcome message only, an empty input, not loading |
| AiHistoryChat.ChatPanel.HandleSend | vscode-clone/src/modules/extensions/ai-history-chat/index.jsx:64-92 | a blank input does nothing; otherwise the user message is appended, the command gets the new history and the prompt, the input clears, a truthy reply or the failure message is appended and loading ends |
| AiHistoryChat.UndefinedReplyShowsNothing | vscode-clone/src/modules/extensions/ai-history-chat/index.jsx:75-88 | an `undefined` reply (what `executeCommand` returns) adds no message, a rejection adds the error message, any non-empty text adds itself |
| AIExecutor.InsertByIndexPermutes | vscode-clone/src/lib/aiExecutor.js:117 | inserting an operation into a list adds exactly that operation |
| AIExecutor.InsertByIndex | vscode-clone/src/lib/aiExecutor.js:117 | inserting gives one more operation, the inserted one among them |
| AIExecutor.InsertByIndexSorted | vscode-clone/src/lib/aiExecutor.js:117 | inserting into a list sorted by match index keeps it sorted |
| AIExecutor.SortByIndexSpec | vscode-clone/src/lib/aiExecutor.js:117 | the `sort` by `a.index - b.index` returns a permutation of its input ordered by match index |
| AIExecutor.SortByIndex | vscode-clone/src/lib/aiExecutor.js:117 | the sorted list has as many operations as the input |
| AIExecutor.ParseOperations | vscode-clone/src/lib/aiExecutor.js:88-120 | the two `exec` loops followed by the sort compute the operation list of the reply |
| AIExecutor.OperationsSpec | vscode-clone/src/lib/aiExecutor.js:88-120 | the parsed operations are ordered by match index, are a permutation of the COMMAND operations followed by the FILE operations, include the operation of every COMMAND and every FILE match, and are nothing but COMMAND and FILE operations |
| AIExecutor.ResolvePath | vscode-clone/src/lib/aiExecutor.js:183-196 | a drive-letter or `/` path is kept; any other path goes under the stored project root (or the terminal path) after a separator, with each `/` turned into that separator: a backslash when the root holds one, else `/`, and always a backslash without a root |
| AIExecutor.ResolvedRelativePart | vscode-clone/src/lib/aiExecutor.js:186-195 | the part after the root gives the relative path back once the separator is turned back into `/` when the path holds no backslash, and holds no `/` under a backslash separator |
| AIExecutor.TerminalPath | vscode-clone/src/lib/aiExecutor.js:25-31 | the current terminal path when the getter is given, else `USERPROFILE`, else `HOME`, else `C:\Users` |
| AIExecutor.RunCommand | vscode-clone/src/lib/aiExecutor.js:139-178 | two progress events, `Running: ` first; the second is a success exactly when the command succeeded; the result carries the output on success and the error on a failure or a throw |
| AIExecutor.BaseNameSpec | vscode-clone/src/lib/aiExecutor.js:209 | `split(/[/\\]/).pop()` is the ending of the path with no separator that follows the last separator |
| AIExecutor.WriteFile | vscode-clone/src/lib/aiExecutor.js:181-245 | a `Creating: ` progress event first and progress events only; the file is written exactly when the back end reports success, at the resolved path; a failure carries the back end's error or `Failed to create file`; an open request is made exactly when the write succeeds and an open callback is given |
| AIExecutor.ExecuteOperation | vscode-clone/src/lib/aiExecutor.js:123-136 | a command is run, a file is written, any other type fails with `Unknown operation type` and emits nothing |
| AIExecutor.AttemptOne | vscode-clone/src/lib/aiExecutor.js:55-81 | one pass of the loop: the `Executing:` event, the operation's own events, and an error report exactly when it failed |
| AIExecutor.AttemptAll | vscode-clone/src/lib/aiExecutor.js:54-82 | the loop attempts every operation in order, whatever became of the ones before: its events are the log of all the passes and its results one per operation |
| AIExecutor.Execute | vscode-clone/src/lib/aiExecutor.js:34-85 | always reports success; no operation gives the explanation notice and an empty result list; otherwise every operation is executed in order under the terminal path and its result is collected, failures included |
| AIExecutor.EveryOperationAttempted | vscode-clone/src/lib/aiExecutor.js:54-82 | the loop announces every operation, in order: a failure does not stop it |
| AIExecutor.EveryFailureReported | vscode-clone/src/lib/aiExecutor.js:65-74 | the error reports name exactly the operations that failed, in order |
| AIExecutor.NamedAttempt | vscode-clone/src/lib/aiExecutor.js:55-81 | one attempt announces its operation once and reports it as failed exactly when its result is a failure |
| AIExecutor.FileEntry | vscode-clone/src/lib/aiExecutor.js:277 | one listing line is `   - ` followed by the path when truthy, otherwise by the name |
| AIExecutor.FileEntries | vscode-clone/src/lib/aiExecutor.js:277 | the listing has one line for each of the first ten files, in order |
| AIExecutor.FileListingRoundTrip | vscode-clone/src/lib/aiExecutor.js:277 | splitting the listing on newlines gives back its lines, at most ten, when no name or path holds a newline |
| AIExecutor.ProjectStatus | vscode-clone/src/lib/aiExecutor.js:250-258 | the empty-project status for no file list or an empty one, otherwise `✅ ` with the file count and ` files` |
| AIExecutor.SmartPromptFacts | vscode-clone/src/lib/aiExecutor.js:249-278 | the prompt's terminal line falls back to `Not detected`, its root line to the empty-workspace text, and it lists files exactly when there are some |
| AIExecutor.ResultsAt | vscode-clone/src/lib/aiExecutor.js:54-82 | the k-th collected result is the result of the k-th operation |
| CodeParser.FileOps | vscode-clone/src/lib/aiCodingService.js:469-477 | one `file` operation per FILE match, in match order, with the trimmed path, the language or `plaintext`, and the trimmed content |
| CodeParser.CodeOps | vscode-clone/src/lib/aiCodingService.js:481-488 | one `code` operation per fenced block with a language, in match order, with the trimmed content |
| CodeParser.CommandOps | vscode-clone/src/lib/aiCodingService.js:492-498 | one `command` operation per COMMAND match, in match order, with the trimmed command |
| CodeParser.GitOps | vscode-clone/src/lib/aiCodingService.js:501-508 | one `git` operation per GIT match, in match order, with the trimmed command |
| CodeParser.ParseAIResponse | vscode-clone/src/lib/aiCodingService.js:462-522 | the four `exec` loops and the flags compute the parsed reply |
| CodeParser.OperationsByKind | vscode-clone/src/lib/aiCodingService.js:463-508 | the file operations are exactly those of the FILE matches; the code operations are those of the fenced blocks only when there is no FILE match; the command and git operations are exactly those of their matches |
| CodeParser.OperationsRanked | vscode-clone/src/lib/aiCodingService.js:463-508 | operations come in the order file or code, then command, then git |
| CodeParser.OperationsFlags | vscode-clone/src/lib/aiCodingService.js:514-518 | `hasCode` holds exactly when there is a FILE match or a fenced block with a language, `hasCommands` exactly when there is a COMMAND match, `hasGit` exactly when there is a GIT match |
| CodeParser.GitNeedsApproval | vscode-clone/src/lib/aiCodingService.js:501-508 | every git operation asks for approval |
| CodeParser.ParseProperties | vscode-clone/src/lib/aiCodingService.js:462-522 | the parsed reply of a response, stated in terms of the matches of the four patterns: operations by kind and the three flags |
| CodeParser.Parse | vscode-clone/src/lib/aiCodingService.js:462-522 | one operation per FILE match, plus one per code match when there is no FILE match, plus one per COMMAND and GIT match |
| CodeParser.SummaryOfReply | vscode-clone/src/lib/aiCodingService.js:510-519 | the summary has at most 200 characters and begins the trimmed first five lines; a response of at most five lines and 200 trimmed characters is summarised by its trimmed self |
| CodeParser.BlocksOfAt | vscode-clone/src/lib/aiCodingService.js:529-534 | one block per fence match, in order |
| CodeParser.PushBlocks | vscode-clone/src/lib/aiCodingService.js:529-534 | the `exec` loop pushes the block of every match, in order |
| CodeParser.ExtractCodeBlocks | vscode-clone/src/lib/aiCodingService.js:524-537 | the blocks are those of every fence match of the text, in order, with the given default language for a fence that names none (`plaintext` here; the chat panel copy in `AIChat.jsx` lines 100-108 uses `text`) |
| CodeParser.ExtractRendered | vscode-clone/src/lib/aiCodingService.js:524-537 | a text that is one fence around code with no backticks gives back exactly that block, its code trimmed |
| CodeParser.ChangesBelowStep | vscode-clone/src/lib/aiCodingService.js:547-558 | one loop pass appends the change of that line, if any, and keeps the earlier ones |
| CodeParser.CountAddsBelow | vscode-clone/src/lib/aiCodingService.js:551-552 | the additions are the new lines past the end of the old code |
| CodeParser.CountRemovesBelow | vscode-clone/src/lib/aiCodingService.js:553-554 | the deletions are the old lines past the end of the new code |
| CodeParser.CountsPartition | vscode-clone/src/lib/aiCodingService.js:560-565 | additions, deletions and modifications add up to the number of changes |
| CodeParser.ChangesBelowSound | vscode-clone/src/lib/aiCodingService.js:547-558 | every change names a line that exists and is the change of that line |
| CodeParser.ChangesBelowIncreasing | vscode-clone/src/lib/aiCodingService.js:547-558 | changes come in increasing line order |
| CodeParser.ChangesBelowComplete | vscode-clone/src/lib/aiCodingService.js:547-558 | a line has a change exactly when the old and new line differ or one is missing |
| CodeParser.SameTextNoChanges | vscode-clone/src/lib/aiCodingService.js:555 | comparing a text with itself finds no change |
| CodeParser.CollectChanges | vscode-clone/src/lib/aiCodingService.js:545-558 | the `for` loop collects the changes of every line up to the longer length |
| CodeParser.ComputeDiff | vscode-clone/src/lib/aiCodingService.js:539-566 | the changes of both split texts, with counts: additions are the extra new lines, deletions the extra old lines, and all three add up to the changes; the same text gives no change |
| CodeParser.SuggestFilePath | vscode-clone/src/lib/aiCodingService.js:569-590 | JavaScript or TypeScript that looks like React goes to `src/App.jsx`, other JavaScript or TypeScript that calls `express(` to `src/server.js`; every other case of a known language, whatever the content, to its default path; an unknown language to `untitled.txt` |
| RegexScan.SkipSpace | vscode-clone/src/lib/aiCodingService.js:466 | `\s*` consumes the longest run of white space |
| RegexScan.LineEnd | vscode-clone/src/lib/aiCodingService.js:492 | `[^\n]+` runs up to the first newline or the end of the text |
| RegexScan.WordEnd | vscode-clone/src/lib/aiCodingService.js:526 | `(\w+)` consumes the longest run of word characters |
| RegexScan.FenceAt | vscode-clone/src/lib/aiCodingService.js:526 | a fence match opens with three backticks, closes at the first later three backticks, has a body without them, and has a language whenever the pattern demands one |
| RegexScan.CaptureAt | vscode-clone/src/lib/aiCodingService.js:492 | a `LABEL:\s*([^\n]+)` match starting here captures a non-empty text with no newline |
| RegexScan.TryCaptures | vscode-clone/src/lib/aiCodingService.js:466 | `\s*` backs off from the longest white-space run until the rest of the pattern matches, and the text captured after it is non-empty with no newline |
| RegexScan.MatchAt | vscode-clone/src/lib/aiCodingService.js:466-501 | a match found at a position starts there and ends after it, inside the text |
| RegexScan.Table | vscode-clone/src/lib/aiCodingService.js:466-501 | the match table has one entry per position, each starting at its position |
| RegexScan.TableAt | vscode-clone/src/lib/aiCodingService.js:466-501 | the table's entry at a position is the match at that position |
| RegexScan.Exec | vscode-clone/src/lib/aiCodingService.js:469 | one `exec` call from `lastIndex` returns the leftmost match at or after it, or none when no position after it matches |
| RegexScan.ScanSound | vscode-clone/src/lib/aiCodingService.js:469-477 | the repeated `exec` calls return matches in order, without overlap, and skip no position where a match starts |
| RegexScan.Collect | vscode-clone/src/lib/aiCodingService.js:469-477 | the `while` loop over `exec` collects the scan of the whole text |
| RegexScan.ScanUnique | vscode-clone/src/lib/aiCodingService.js:469-477 | any list of matches with the properties of the scan is the scan |
| RegexScan.OrderedStarts | vscode-clone/src/lib/aiCodingService.js:469-477 | in a scan, an earlier match ends before a later one starts |
| RegexScan.FenceAtRendered | vscode-clone/src/lib/aiCodingService.js:526 | a rendered fence after any prefix matches at its opening and gives back its language and code |
| RegexScan.FenceRoundTrip | vscode-clone/src/lib/aiCodingService.js:526 | a fenced block around code without backticks is matched exactly once, whole, with its language and code |
| RegexScan.FileRoundTrip | vscode-clone/src/lib/aiCodingService.js:466 | a FILE block written out is matched exactly once, whole, with its path, language and code |
| StreamHandlers.ConcatAppend | vscode-clone/src/lib/aiCodingService.js:399 | the accumulated text of two runs of deltas is the text of one then the other |
| StreamHandlers.LineDelta | vscode-clone/src/lib/aiCodingService.js:391-404 | a line yields a delta exactly when it starts with `data: `, is not the skipped `[DONE]` marker and the rest extracts to non-empty content; the delta is that content |
| StreamHandlers.LinesDeltasAppend | vscode-clone/src/lib/aiCodingService.js:390-406 | the deltas of two runs of lines are the deltas of one then the other |
| StreamHandlers.LinesDeltas | vscode-clone/src/lib/aiCodingService.js:390-406 | each line passes at most one delta |
| StreamHandlers.BlankLineYieldsNothing | vscode-clone/src/lib/aiCodingService.js:388 | a blank line yields no delta |
| StreamHandlers.BlankFilterRedundant | vscode-clone/src/lib/aiCodingService.js:388 | filtering out blank lines does not change the deltas |
| StreamHandlers.ChunkDeltasSpec | vscode-clone/src/lib/aiCodingService.js:387-406 | the deltas of a chunk are those of its non-blank lines, in order |
| StreamHandlers.ChunkDeltasSplit | vscode-clone/src/lib/aiCodingService.js:387-406 | the deltas of a chunk are those of all its lines, in order |
| StreamHandlers.ChunkDeltas | vscode-clone/src/lib/aiCodingService.js:387-406 | a chunk passes at most one delta per line, so at most its length plus one |
| StreamHandlers.LinesDeltasNonEmpty | vscode-clone/src/lib/aiCodingService.js:398-401 | no delta is empty |
| StreamHandlers.HandleLines | vscode-clone/src/lib/aiCodingService.js:390-406 | the `for` loop over lines emits the deltas of those lines |
| StreamHandlers.HandleChunk | vscode-clone/src/lib/aiCodingService.js:387-406 | one chunk emits its deltas |
| StreamHandlers.StreamStep | vscode-clone/src/lib/aiCodingService.js:383-407 | a read failure ends the stream; a chunk adds its deltas before the rest |
| StreamHandlers.HandleStream | vscode-clone/src/lib/aiCodingService.js:377-413 | the chunks emitted are the stream's deltas, none empty; `onComplete` gets their concatenation; a text is returned exactly when no read failed, and it is that concatenation |
| StreamHandlers.ReadLoop | vscode-clone/src/lib/aiCodingService.js:383-407 | the read loop stops at the first failure or the end, having emitted the deltas of the chunks before it and kept their concatenation |
| StreamHandlers.StreamUpToFailure | vscode-clone/src/lib/aiCodingService.js:383-407 | the stream's deltas are those of the chunks before the first failure |
| StreamHandlers.StreamDeltas | vscode-clone/src/lib/aiCodingService.js:383-407 | a stream whose first read fails passes nothing, and no line of a chunk read passes more than one delta |
| StreamHandlers.ReadChunk | vscode-clone/src/lib/aiCodingService.js:384-406 | one read of a chunk extends the emitted deltas and the text by that chunk's deltas |
| StreamHandlers.StreamDeltasSnoc | vscode-clone/src/lib/aiCodingService.js:383-407 | a further chunk appends its deltas |
| StreamHandlers.StreamDeltasNonEmpty | vscode-clone/src/lib/aiCodingService.js:398-401 | no delta of the stream is empty |
| StreamHandlers.DoneCheckRedundantForChunk | vscode-clone/src/lib/aiCodingService.js:393 | when `[DONE]` yields no content, skipping it explicitly changes nothing for a chunk |
| StreamHandlers.DoneCheckRedundant | vscode-clone/src/lib/aiCodingService.js:393 | when `[DONE]` yields no content, the OpenAI handler's explicit skip and the Anthropic handler's absence of one give the same deltas |
| StreamHandlers.StreamDeltasAppend | vscode-clone/src/lib/aiCodingService.js:383-407 | without a failure in the first part, the deltas of two parts of a stream are those of one then the other |
| ProjectContext.SummariesOf | vscode-clone/src/lib/aiCodingService.js:92-96 | one summary per file, with the same name, path and type |
| ProjectContext.GetProjectStructure | vscode-clone/src/lib/aiCodingService.js:91-97 | the first ten files (all of them when fewer), in order, unchanged |
| ProjectContext.DetectLanguage | vscode-clone/src/lib/aiCodingService.js:99-108 | a language of the table or `plaintext`, and `plaintext` for an extension the table lacks |
| ProjectContext.DetectLanguageByExtension | vscode-clone/src/lib/aiCodingService.js:99-108 | for `stem.ext`, the language is the table's entry for the lower-cased extension, or `plaintext`, whatever the stem holds |
| ProjectContext.ActiveFileOf | vscode-clone/src/lib/aiCodingService.js:77-83 | the active-file entry keeps name, path and content and takes its language from the name |
| ProjectContext.PreviewSpec | vscode-clone/src/lib/aiCodingService.js:232-239 | content of at most 800 characters is previewed whole; longer content by its first 800 characters followed by `...(truncated)` |
| ProjectContext.StructureLines | vscode-clone/src/lib/aiCodingService.js:248 | one `- path` line per structure entry, in order |
| ProjectContext.HeadingsDiffer | vscode-clone/src/lib/aiCodingService.js:233-250 | the frameworks, structure and empty-project headings all differ from the current-file heading |
| ProjectContext.TailOpening | vscode-clone/src/lib/aiCodingService.js:243-251 | what follows the current-file section opens with a heading other than the current-file one |
| ProjectContext.SectionsOpening | vscode-clone/src/lib/aiCodingService.js:231-251 | the sections open with the current-file heading exactly when there is an active file |
| ProjectContext.SectionsEnding | vscode-clone/src/lib/aiCodingService.js:231-251 | the sections end with the structure section |
| ProjectContext.PromptOpening | vscode-clone/src/lib/aiCodingService.js:179-241 | the prompt opens with the fixed preamble, followed by the current-file heading exactly when the context has an active file |
| ProjectContext.BuildSystemPrompt | vscode-clone/src/lib/aiCodingService.js:179-253 | the prompt opens with the fixed preamble and always has more after it |
| ProjectContext.PromptEnding | vscode-clone/src/lib/aiCodingService.js:247-253 | the prompt ends with the structure listing when there are entries, and with the empty-project notice otherwise |
| ProjectContext.StructureListingRoundTrip | vscode-clone/src/lib/aiCodingService.js:248 | splitting the structure listing on newlines gives back one `- path` line per entry when no path holds a newline |
| DesktopMain.NormalizePath | vscode-clone/electron/main.cjs:20 | every backslash becomes a slash and nothing else changes |
| DesktopMain.NormalizePathIdempotent | vscode-clone/electron/main.cjs:20 | normalizing twice is normalizing once, and a path without backslashes is kept |
| DesktopMain.ShellFor | vscode-clone/electron/main.cjs:25 | `powershell.exe` exactly on Windows, `bash` elsewhere |
| DesktopMain.TargetPath | vscode-clone/electron/main.cjs:24 | the requested directory when it is given and exists, the home directory otherwise |
| DesktopMain.TerminalTable.constructor | vscode-clone/electron/main.cjs:15 | no terminal at start |
| DesktopMain.TerminalTable.Create | vscode-clone/electron/main.cjs:23-47 | a fresh 80 by 30 terminal on the platform's shell in the target directory under the given id, which is returned |
| DesktopMain.TerminalTable.Write | vscode-clone/electron/main.cjs:61 | data goes to an existing terminal only; an unknown id changes nothing |
| DesktopMain.TerminalTable.Resize | vscode-clone/electron/main.cjs:62 | an existing terminal takes the new size unless the resize throws; otherwise nothing changes |
| DesktopMain.TerminalTable.Kill | vscode-clone/electron/main.cjs:63 | the terminal is gone afterwards and every other terminal is kept unchanged |
| DesktopMain.ListEntry | vscode-clone/electron/main.cjs:93-109 | one entry's listing uses slashes only and lists no skipped name; `node_modules`, `.git` and `dist` add nothing |
| DesktopMain.ListEntries | vscode-clone/electron/main.cjs:89-112 | a directory's listing uses slashes only and lists no skipped name |
| DesktopMain.FileFolder | vscode-clone/electron/main.cjs:97-107 | a file directly inside a folder reports that folder's relative path as its folder |
| DesktopMain.TopLevelFileFolder | vscode-clone/electron/main.cjs:107 | a file at the root reports `''` as its folder, not `.` |
| DesktopMain.ListEntriesSnoc | vscode-clone/electron/main.cjs:93-109 | each further entry appends its files and folders after those so far |
| DesktopMain.ReadEntry | vscode-clone/electron/main.cjs:99-108 | reading one entry gives that entry's listing: a file, or a folder followed by everything beneath it |
| DesktopMain.ReadDirectory | vscode-clone/electron/main.cjs:89-112 | a readable directory gives the listing of its entries in order; an unreadable one gives empty lists |
| DesktopMain.OpenPath | vscode-clone/electron/main.cjs:82-87 | a missing path gives `null`; an existing one its listing and its root with slashes |
| DesktopMain.PorcelainPath | vscode-clone/electron/main.cjs:146-147 | the trimmed text after the two status columns, its surrounding quotes removed; a lone double quote gives the empty name |
| DesktopMain.ChangeOf | vscode-clone/electron/main.cjs:151-154 | `??` means untracked; otherwise `D` means deleted, then `A` added, else modified |
| DesktopMain.StatusLine | vscode-clone/electron/main.cjs:145-156 | an entry has the line's path and status, and is staged exactly when its first column is neither a space nor `?` |
| DesktopMain.PorcelainOrder | vscode-clone/electron/main.cjs:145 | the entries of two blocks of output are those of one then the other |
| DesktopMain.ParsePorcelain | vscode-clone/electron/main.cjs:145-147 | at most one entry per line, and each entry is the entry of a non-blank line of the output |
| DesktopMain.EntriesOfLines | vscode-clone/electron/main.cjs:145-147 | a list of lines gives at most one entry per line, each from a non-blank line |
| DesktopMain.PorcelainLine | vscode-clone/electron/main.cjs:145 | a blank line gives no entry; any other line gives exactly its own entry |
| DesktopMain.BranchOf | vscode-clone/electron/main.cjs:137-138 | the trimmed first line of the output, or `HEAD` when it is empty |
| DesktopMain.GitStatusOf | vscode-clone/electron/main.cjs:126-162 | no `.git` gives an empty non-repository; otherwise branch and remote from the first command, and the porcelain entries, or none when `git status` fails |
| DesktopMain.Dedupe | vscode-clone/electron/main.cjs:185 | `new Set` keeps each name once and loses none |
| DesktopMain.DedupeDistinct | vscode-clone/electron/main.cjs:185 | a list without repeats is kept as it is |
| DesktopMain.DedupeKeepsFirst | vscode-clone/electron/main.cjs:185 | each name keeps the place of its first occurrence |
| DesktopMain.DedupeIdempotent | vscode-clone/electron/main.cjs:185 | de-duplicating twice is de-duplicating once |
| DesktopMain.GetBranches | vscode-clone/electron/main.cjs:184-186 | a failed command gives no branch; otherwise each kept branch name once, `* ` and `remotes/origin/` removed |
| DesktopMain.PushUrl | vscode-clone/electron/main.cjs:195-204 | no remote URL gives `No remote found`; the trimmed URL is used as it is unless a token is given and it is a GitHub HTTPS URL |
| DesktopMain.PushUrlToken | vscode-clone/electron/main.cjs:200 | with a token, a GitHub HTTPS URL carries the token before the host, its `$` patterns expanded as `replace` expands them; a token without `$` goes in as it is |
| DesktopMain.Sanitize | vscode-clone/electron/main.cjs:229 | one trailing slash or backslash is dropped, nothing else |
| DesktopMain.SanitizeAll | vscode-clone/electron/main.cjs:229 | every file is sanitized, in order |
| DesktopMain.SanitizeDropsOne | vscode-clone/electron/main.cjs:229 | a folder written with one trailing separator gets its name back |
| DesktopMain.AddCommand | vscode-clone/electron/main.cjs:232 | `git add .` exactly when no file is named |
| DesktopMain.PublishCommands | vscode-clone/electron/main.cjs:233 | six commands, from `git init` and the add command to `git push -u origin main` |
| DesktopMain.RunCommands | vscode-clone/electron/main.cjs:235-237 | the commands run in order; the run stops at the first error that mentions neither `warning` nor `exists`, and that error is the answer |
| DesktopMain.PublishRemote | vscode-clone/electron/main.cjs:223-227 | a created repository's clone URL with the token; an existing one's URL built from the login and the name; any other refusal gives the API's message |
| DesktopMain.Publish | vscode-clone/electron/main.cjs:210-241 | a bad token gives `Invalid Token` and runs nothing; a refusal gives its message and runs nothing; otherwise it succeeds exactly when all six commands pass, and then all six ran; a failure carries the error of the first command whose error is not tolerated, every command before it having passed |
| DesktopMain.StartLiveServer | vscode-clone/electron/main.cjs:244-249 | with a non-empty root path, success at `http://localhost:5500`; otherwise `No root path`; never a port field |
| FileExplorer.DropLeadingSpec | vscode-clone/src/components/ide/FileExplorer.jsx:32 | `replace(/^\/+/, '')` removes the longest run of leading slashes and keeps the rest |
| FileExplorer.DropTrailingSpec | vscode-clone/src/components/ide/FileExplorer.jsx:32 | `replace(/\/+$/, '')` removes the longest run of trailing slashes and keeps the rest |
| FileExplorer.CleanPathShape | vscode-clone/src/components/ide/FileExplorer.jsx:30-33 | an absent path or `root` is cleaned to `''`; a cleaned path has no backslash and neither starts nor ends with a slash |
| FileExplorer.CleanPathIdempotent | vscode-clone/src/components/ide/FileExplorer.jsx:30-33 | cleaning a cleaned path changes nothing, unless the cleaned path is `root` |
| FileExplorer.CleanPathRoot | vscode-clone/src/components/ide/FileExplorer.jsx:30-33 | `/root` is cleaned to `root`, which cleans again to `''`: cleaning is not idempotent there |
| FileExplorer.DirectlyUnderIff | vscode-clone/src/components/ide/FileExplorer.jsx:419-423 | a clean path is shown directly under a clean folder exactly when it is that folder, a slash and one non-empty segment |
| FileExplorer.NoChildFoldersAtRoot | vscode-clone/src/components/ide/FileExplorer.jsx:419-423 | under the root the child-folder filter shows nothing, since a clean path never starts with a slash |
| FileExplorer.ChildFiles | vscode-clone/src/components/ide/FileExplorer.jsx:425 | the files shown under a folder are exactly those whose cleaned folder is the cleaned parent |
| FileExplorer.RootFolders | vscode-clone/src/components/ide/FileExplorer.jsx:476-478 | the root folders are exactly those whose cleaned path has no slash |
| FileExplorer.RootFiles | vscode-clone/src/components/ide/FileExplorer.jsx:479-481 | the root files are exactly those whose cleaned folder is empty |
| FileExplorer.RootFilesAreRootChildren | vscode-clone/src/components/ide/FileExplorer.jsx:425 | the children of the folder `root` are the root files |
| FileExplorer.FolderNamedRootShownAtRoot | vscode-clone/src/components/ide/FileExplorer.jsx:479-481 | a file whose folder is literally `root` is shown at the root |
| FileExplorer.FilterItems | vscode-clone/src/components/ide/FileExplorer.jsx:409-414 | a blank query keeps every item; otherwise exactly the items whose name contains the query, ignoring case |
| FileExplorer.InlineKey | vscode-clone/src/components/ide/FileExplorer.jsx:47-55 | Enter with a non-blank value completes with the trimmed value; Escape cancels; any other key does nothing |
| FileExplorer.Explorer.constructor | vscode-clone/src/components/ide/FileExplorer.jsx:337-340 | no folder expanded, the project expanded, no creation and no rename under way |
| FileExplorer.Explorer.ToggleFolder | vscode-clone/src/components/ide/FileExplorer.jsx:352-354 | the folder's expansion flips and every other folder and state is kept |
| FileExplorer.Explorer.CollapseAll | vscode-clone/src/components/ide/FileExplorer.jsx:357-359 | no folder is expanded afterwards |
| FileExplorer.Explorer.ExpandAll | vscode-clone/src/components/ide/FileExplorer.jsx:362-368 | exactly the listed folders are expanded afterwards |
| FileExplorer.Explorer.StartCreation | vscode-clone/src/components/ide/FileExplorer.jsx:370-383 | the cleaned parent is expanded, or the project when it is the root, and a creation starts there |
| FileExplorer.Explorer.CompleteCreation | vscode-clone/src/components/ide/FileExplorer.jsx:385-400 | with no creation under way nothing is requested; otherwise a file or a folder of that name is requested in the creation's folder and the creation ends |
| FileExplorer.Explorer.SubmitRename | vscode-clone/src/components/ide/FileExplorer.jsx:108-113 | a rename to the new name is requested exactly when it is non-blank and differs from the current name; rename mode ends either way |
| Layout.NewRecents | vscode-clone/src/Layout.jsx:512 | the opened root comes first, no other copy of it remains, the other projects keep their order, and the list has at most five entries |
| Layout.Normalized | vscode-clone/src/Layout.jsx:317 | every slash and backslash of the folder becomes the separator and nothing else changes |
| Layout.CreatePath | vscode-clone/src/Layout.jsx:304-327 | the new path is the target directory, the root's separator and the name |
| Layout.CreatePathShape | vscode-clone/src/Layout.jsx:307-327 | no folder or `root` puts the entry directly under the root; a folder holding the root is used as given; any other folder goes under the root with only the root's separator between the root and the name |
| Layout.CreateRequest | vscode-clone/src/Layout.jsx:287-339 | no API or no name does nothing; with no stored project the file handler reports `No project open` and the folder handler throws; otherwise the entry is created at the computed path |
| Layout.DirectoryOf | vscode-clone/src/Layout.jsx:419-425 | the real path up to its last backslash, or its last slash when it has none |
| Layout.RenameKeepsDirectory | vscode-clone/src/Layout.jsx:415-428 | renaming under a backslash-separated directory keeps the directory and replaces the last segment |
| Layout.RenameSlashPath | vscode-clone/src/Layout.jsx:422-428 | renaming under a slash-separated directory still joins the new name with a backslash |
| Layout.TargetDir | vscode-clone/src/Layout.jsx:306-323 | no folder or `root` gives the root; any other target directory starts with the root, or is a given folder that holds the root |
| Layout.RenamedPath | vscode-clone/src/Layout.jsx:419-428 | the new path ends with a backslash and the new name, and a name without a backslash stays in the old directory |
| Layout.RenameTreePathExpandsPattern | vscode-clone/src/Layout.jsx:444 | renaming `a.js` at `src/a.js` to `b$&.js` shows the tree path `src/ba.js.js`, since `replace` expands `$&` to the old name |
| Layout.Window.constructor | vscode-clone/src/Layout.jsx:26-129 | no file, folder, tab, active file, unsaved file or recent project; the `DEVSTUDIO` title; the stored last project and settings; a 300-pixel sidebar; no dialog and nothing unsaved; the tabs are valid |
| Layout.Window.LoadLastProject | vscode-clone/src/Layout.jsx:167-190 | the stored recents are taken in; with a stored, non-empty last project and the API, an opened tree replaces the files and folders and names the project while the tabs stay, and a project that no longer opens is forgotten; otherwise only the recents change |
| Layout.Window.FileClick | vscode-clone/src/Layout.jsx:254-262 | the file, its content read first when empty, becomes active; it gets a tab only when no tab has its id; tabs stay distinct and the active file keeps a tab; every other field is unchanged |
| Layout.Window.TabClose | vscode-clone/src/Layout.jsx:272-278 | the tab of that id is gone and the others stay; closing the active tab activates the last remaining one or none; otherwise the active file is kept; tabs stay valid and every other field is unchanged |
| Layout.Window.ContentChange | vscode-clone/src/Layout.jsx:280-284 | the file of that id takes the content, so does the active file when it is that file, and the id is marked unsaved; tabs stay valid and every other field is unchanged |
| Layout.Window.OpenProject | vscode-clone/src/Layout.jsx:521-537 | a missing folder changes nothing at all; an opened one replaces the files and folders, closes every tab, names the project after its last path segment in upper case and moves it to the front of the recents, leaving the settings, unsaved files, width and dialogs alone |
| Layout.Window.Load | vscode-clone/src/Layout.jsx:526-533 | the listing replaces the files and folders, the tabs close, the project becomes the last one and heads the recents; the tabs are valid and the settings, unsaved files, width and dialogs are untouched |
| Layout.Window.RenameFile | vscode-clone/src/Layout.jsx:415-469 | no API, an empty name or the same name does nothing; a successful rename gives the file, its tab and the active file the new name, real path and id, and the tree entry a path through `replace` with its `$` patterns; a refused one changes nothing; tabs stay valid unless the new path is another tab's id; every other field is unchanged |
| Layout.Window.Resize | vscode-clone/src/Layout.jsx:142-147 | while dragging, the width follows the mouse only strictly between 170 and 800; nothing else changes |
| Layout.Window.SettingChange | vscode-clone/src/Layout.jsx:95-98 | the setting takes the value and the settings become unsaved; nothing else changes |
| Layout.Window.SettingsClose | vscode-clone/src/Layout.jsx:101-107 | with unsaved settings the warning opens and the dialog stays; otherwise the dialog closes; nothing else changes |
| Layout.Window.ConfirmCloseWithoutSaving | vscode-clone/src/Layout.jsx:110-115 | both dialogs close and the unsaved flag clears, the values kept; nothing else changes |
| Layout.Window.SaveSettings | vscode-clone/src/Layout.jsx:85-92 | the settings are stored as they are and the unsaved flag clears; nothing else changes |
| Layout.ClosingDropsId | vscode-clone/src/Layout.jsx:273 | no tab of the closed id is left |
| Layout.ClosingKeepsOthers | vscode-clone/src/Layout.jsx:273 | every other open tab stays open |
| Layout.FilterKeepsDistinct | vscode-clone/src/Layout.jsx:273 | filtering keeps the tabs distinct by id |
| Layout.RenamingKeepsValid | vscode-clone/src/Layout.jsx:454-457 | giving the tabs of one id a path no other tab has keeps the tabs distinct and the active file among them |
| CodeEditorWithAI.GetLanguage | vscode-clone/src/components/ide/CodeEditorWithAI.jsx:35-44 | no file name gives `javascript`; otherwise a language of the editor's table or `plaintext` |
| CodeEditorWithAI.GetLanguageByExtension | vscode-clone/src/components/ide/CodeEditorWithAI.jsx:35-44 | for `stem.ext`, the table's entry for the lower-cased extension, or `plaintext`, whatever the stem holds |
| CodeEditorWithAI.JsxLanguagesDiffer | vscode-clone/src/components/ide/CodeEditorWithAI.jsx:39 | a `.jsx` file is `javascript` to the editor but `react` to the AI context |
| CodeEditorWithAI.MarkAt | vscode-clone/src/components/ide/CodeEditorWithAI.jsx:180-204 | a line is marked removed exactly when only the old text has it, and modified exactly when both have it and it differs |
| CodeEditorWithAI.MarkAgreesWithDiff | vscode-clone/src/components/ide/CodeEditorWithAI.jsx:180-204 | the editor marks a line removed or modified exactly when the service's diff reports that line as removed or modified; added lines get no mark |
| CodeEditorWithAI.DecorationsBelowSound | vscode-clone/src/components/ide/CodeEditorWithAI.jsx:179-205 | the decorations are exactly one per marked line, with its mark, in increasing line order |
| CodeEditorWithAI.DiffDecorations | vscode-clone/src/components/ide/CodeEditorWithAI.jsx:174-205 | the `for` loop collects the decorations of every line up to the longer length |
| CodeEditorWithAI.FirstFileOp | vscode-clone/src/components/ide/CodeEditorWithAI.jsx:138 | `find` returns a file operation of the list, and none only when the list has no file operation |
| CodeEditorWithAI.FirstFileOpIsFirstOfKind | vscode-clone/src/components/ide/CodeEditorWithAI.jsx:138 | the operation found is the first file operation |
| CodeEditorWithAI.FileReplyProposesFirstFile | vscode-clone/src/components/ide/CodeEditorWithAI.jsx:137-149 | a reply with a FILE block proposes the trimmed content of the first one |
| CodeEditorWithAI.CodeOnlyReplyProposesNothing | vscode-clone/src/components/ide/CodeEditorWithAI.jsx:137-163 | a reply with no FILE block but a fenced block naming a language, a COMMAND block or a GIT block proposes nothing: it has operations, none of which is a file |
| CodeEditorWithAI.PlainReplyProposesFirstFence | vscode-clone/src/components/ide/CodeEditorWithAI.jsx:150-163 | a reply with no block the parser knows proposes the trimmed body of its first fenced block, or nothing when it has none |
| CodeEditorWithAI.Editor.constructor | vscode-clone/src/components/ide/CodeEditorWithAI.jsx:29-33 | an empty prompt, not generating, no pending code and no decorations |
| CodeEditorWithAI.Editor.ApplyCode | vscode-clone/src/components/ide/CodeEditorWithAI.jsx:240-248 | the code goes to the file, the pending code and the decorations are cleared |
| CodeEditorWithAI.Editor.RejectCode | vscode-clone/src/components/ide/CodeEditorWithAI.jsx:250-256 | the pending code and the decorations are cleared and nothing else changes |
| CodeEditorWithAI.Editor.ShowDiff | vscode-clone/src/components/ide/CodeEditorWithAI.jsx:171-212 | once the editor is mounted, the decorations are those of the two texts; before that nothing changes |
| CodeEditorWithAI.Editor.Generate | vscode-clone/src/components/ide/CodeEditorWithAI.jsx:116-169 | a blank prompt or a running request does nothing; without a key the AI settings open; otherwise a proposal is applied with auto-apply or an empty project and is left pending with its decorations otherwise, a failure or no proposal keeps the pending code, and generating always ends |
| CodeEditorWithAI.ButtonDispatch | vscode-clone/src/components/ide/CodeEditorWithAI.jsx:269-275 | a button with a command runs it through the window's handler when there is one; otherwise its own handler runs, if any |
| AIChat.Section | vscode-clone/src/components/ide/AIChat.jsx:46-48 | an output section appears exactly when its stream is non-empty |
| AIChat.ExecOutputBare | vscode-clone/src/components/ide/AIChat.jsx:45-48 | the command reply opens with the command header, and is that header alone exactly when stdout, stderr and error are all empty |
| AIChat.RouteOf | vscode-clone/src/components/ide/AIChat.jsx:41-73 | a message starting with `/exec ` runs the rest as a command; otherwise, without a key, the warning; otherwise the AI gets the provider (`gemini` by default), the key and the conversation including the new message |
| AIChat.Chat.constructor | vscode-clone/src/components/ide/AIChat.jsx:8-15 | the conversation holds the greeting only, the input is empty and nothing is loading |
| AIChat.Chat.SetInput | vscode-clone/src/components/ide/AIChat.jsx:14 | the input takes the text and nothing else changes |
| AIChat.Chat.Send | vscode-clone/src/components/ide/AIChat.jsx:31-85 | blank input or a pending request does nothing; otherwise the trimmed message and exactly one assistant answer for its route are appended, the input is cleared, loading ends and the greeting stays first |
| AIChat.Chat.NewChat | vscode-clone/src/components/ide/AIChat.jsx:122 | only the greeting remains |
| CommandPalette.ExtensionLabel | vscode-clone/src/components/ide/CommandPalette.jsx:25 | an extension command's label starts with `Ext: ` |
| CommandPalette.ExtensionLabelNoDot | vscode-clone/src/components/ide/CommandPalette.jsx:25 | an id without a dot is shown after the prefix as it is |
| CommandPalette.ExtensionLabelFirstDot | vscode-clone/src/components/ide/CommandPalette.jsx:25 | only the first dot of an id becomes `: `; later dots stay |
| CommandPalette.ExtensionCommands | vscode-clone/src/components/ide/CommandPalette.jsx:23-28 | one `Extension` entry per registered command id, in order, with its label |
| CommandPalette.EmptyQueryKeepsAll | vscode-clone/src/components/ide/CommandPalette.jsx:36-38 | the empty query shows every command |
| CommandPalette.FilteredMembers | vscode-clone/src/components/ide/CommandPalette.jsx:36-38 | exactly the commands whose label contains the query, ignoring case, are shown |
| CommandPalette.Filtered | vscode-clone/src/components/ide/CommandPalette.jsx:36-38 | at most the listed commands, and exactly those whose label contains the query, ignoring case |
| CommandPalette.Down | vscode-clone/src/components/ide/CommandPalette.jsx:50 | Arrow Down moves one entry down but never past the last shown entry |
| CommandPalette.Up | vscode-clone/src/components/ide/CommandPalette.jsx:51 | Arrow Up moves one entry up but never above the first |
| CommandPalette.ArrowsStayInRange | vscode-clone/src/components/ide/CommandPalette.jsx:50-51 | from a shown entry, both arrows land on a shown entry |
| CommandPalette.Select | vscode-clone/src/components/ide/CommandPalette.jsx:40-47 | a registered command runs in the registry; any other id goes to the window's action handler |
| CommandPalette.Palette.constructor | vscode-clone/src/components/ide/CommandPalette.jsx:15-17 | an empty query, the first entry selected, the static commands |
| CommandPalette.Palette.Open | vscode-clone/src/components/ide/CommandPalette.jsx:20-34 | the static commands then the extension commands, all shown, with an empty query and the first entry selected |
| CommandPalette.Palette.SetQuery | vscode-clone/src/components/ide/CommandPalette.jsx:15 | the query changes and the selected index stays as it was |
| CommandPalette.Palette.Hover | vscode-clone/src/components/ide/CommandPalette.jsx:16 | pointing at an entry selects it |
| CommandPalette.Palette.KeyDown | vscode-clone/src/components/ide/CommandPalette.jsx:49-54 | the arrows move the selection within the shown entries; Enter chooses the selected shown entry when there is one; Escape closes; other keys do nothing |
| MenuBar.ItemDispatch | vscode-clone/src/components/ide/MenuBar.jsx:66-73 | a coming-soon item shows the notice with its label; otherwise a toggle flips its setting; otherwise its action is sent |
| MenuBar.AutoSaveIsTheOnlyToggle | vscode-clone/src/components/ide/MenuBar.jsx:4-26 | in the File menu only Auto Save is a toggle, and it flips `autoSave` |
| MenuBar.Bar.constructor | vscode-clone/src/components/ide/MenuBar.jsx:49 | no menu is open |
| MenuBar.Bar.MenuClick | vscode-clone/src/components/ide/MenuBar.jsx:62-64 | clicking the open menu closes it; clicking another opens that one |
| MenuBar.Bar.ItemClick | vscode-clone/src/components/ide/MenuBar.jsx:66-75 | the item's dispatch is sent and the menu closes |
| MenuBar.Bar.Hover | vscode-clone/src/components/ide/MenuBar.jsx:83 | hovering switches menus only while one is open |
| MenuBar.Bar.ClickOutside | vscode-clone/src/components/ide/MenuBar.jsx:52-60 | a press outside the bar closes the menu |
| ActivityBar.GetIcon | vscode-clone/src/components/ide/ActivityBar.jsx:9-32 | the icon table's entry for the lower-cased name; the Blocks icon for a missing or unknown name |
| ActivityBar.GetIconIgnoresCase | vscode-clone/src/components/ide/ActivityBar.jsx:30-31 | two names equal up to case get the same icon |
| ActivityBar.ActivityClick | vscode-clone/src/components/ide/ActivityBar.jsx:55-62 | clicking the active view toggles the sidebar; clicking another view selects it and opens the sidebar |
| ActivityBar.ClickHighlights | vscode-clone/src/components/ide/ActivityBar.jsx:85 | after a click the clicked view is active, and it is highlighted exactly when it was not highlighted before |
| ActivityBar.ClickActiveTwice | vscode-clone/src/components/ide/ActivityBar.jsx:55-57 | clicking the active view twice restores the bar's state |
| ActivityBar.ExtensionClick | vscode-clone/src/components/ide/ActivityBar.jsx:64-73 | an item with its own handler runs it; any other item becomes the active view with the sidebar open and highlighted |
| ActivityBar.ExtensionClickNeverCloses | vscode-clone/src/components/ide/ActivityBar.jsx:64-73 | clicking a highlighted extension item leaves the sidebar open, while a core activity click there would close it |
| PublishModal.ProposedName | vscode-clone/src/components/ide/PublishModal.jsx:24-26 | the last piece of the last project's path after both separators, or `my-project` when there is none |
| PublishModal.Toggled | vscode-clone/src/components/ide/PublishModal.jsx:32-36 | a selected path is removed; an unselected one is appended; every other path keeps its membership |
| PublishModal.ToggleTwice | vscode-clone/src/components/ide/PublishModal.jsx:32-36 | toggling a path twice restores which paths are selected |
| PublishModal.Dialog.constructor | vscode-clone/src/components/ide/PublishModal.jsx:7-10 | step 1, an empty name, private, no file selected |
| PublishModal.Dialog.Open | vscode-clone/src/components/ide/PublishModal.jsx:12-30 | step 1, private, the proposed name; every file selected when there are files, the old selection otherwise |
| PublishModal.Dialog.SetRepoName | vscode-clone/src/components/ide/PublishModal.jsx:67 | only the name changes |
| PublishModal.Dialog.SetPrivate | vscode-clone/src/components/ide/PublishModal.jsx:78-89 | only the visibility changes |
| PublishModal.Dialog.ToggleFile | vscode-clone/src/components/ide/PublishModal.jsx:114 | only the selection changes, by one toggle |
| PublishModal.Dialog.Next | vscode-clone/src/components/ide/PublishModal.jsx:38-41 | a name that is not blank moves to step 2; a blank one stays; nothing else changes |
| PublishModal.Dialog.FinalPublish | vscode-clone/src/components/ide/PublishModal.jsx:43-46 | the request carries the name, the visibility and the selected paths |
| TerminalPanel.RemovingKeepsOthers | vscode-clone/src/components/ide/Terminal.jsx:156 | removing a tab keeps exactly the tabs with another id, and no tab with the removed id is left |
| TerminalPanel.Removing | vscode-clone/src/components/ide/Terminal.jsx:156 | removing never adds a tab |
| TerminalPanel.RemovingAbsent | vscode-clone/src/components/ide/Terminal.jsx:156 | removing an id no tab has changes nothing |
| TerminalPanel.CopyTextParts | vscode-clone/src/components/ide/Terminal.jsx:15 | the copied text opens with the severity in brackets, its first `]` closes it, and it ends with ` - ` and the message |
| TerminalPanel.CopyText | vscode-clone/src/components/ide/Terminal.jsx:15 | the copied text is `[severity] file:`, then the decimal line number (read back by `SettingsPanel.NatToStringDigits`), then ` - ` and the message |
| TerminalPanel.Panel.constructor | vscode-clone/src/components/ide/Terminal.jsx:126-128 | no tab, no active terminal, nothing attached |
| TerminalPanel.Panel.AddTerminal | vscode-clone/src/components/ide/Terminal.jsx:142-149 | with the desktop bridge and a created id, a PowerShell tab for it is appended and becomes active; otherwise nothing changes |
| TerminalPanel.Panel.Open | vscode-clone/src/components/ide/Terminal.jsx:130-132 | opening the panel with no tab adds the first one as `AddTerminal` does; with tabs it changes nothing |
| TerminalPanel.Panel.RemoveTerminal | vscode-clone/src/components/ide/Terminal.jsx:151-161 | with the bridge, the terminal is killed, its tab and attachment go, and removing the active tab activates the last remaining one when one remains; without the bridge nothing changes |
| TerminalPanel.Panel.Attach | vscode-clone/src/components/ide/Terminal.jsx:202 | a mounted terminal is attached with nothing written to it yet |
| TerminalPanel.Panel.Incoming | vscode-clone/src/components/ide/Terminal.jsx:136-138 | data for an attached terminal is appended to what it was sent; data for any other id is dropped |
| TerminalPanel.Panel.Select | vscode-clone/src/components/ide/Terminal.jsx:212 | clicking a tab makes it active and changes nothing else |
| SettingsPanel.KeepCategory | vscode-clone/src/components/ide/SettingsPanel.jsx:334-347 | a pinned category is kept whole; another is kept exactly when one of its entries matches, with exactly its matching entries |
| SettingsPanel.KeptCategoriesMembers | vscode-clone/src/components/ide/SettingsPanel.jsx:330-350 | the filtered schema holds exactly what each category's filtering keeps |
| SettingsPanel.FilteredSchema | vscode-clone/src/components/ide/SettingsPanel.jsx:330-350 | an empty search keeps the schema; otherwise no more categories than the schema, exactly those that each category's filtering keeps |
| SettingsPanel.PinnedAlwaysShown | vscode-clone/src/components/ide/SettingsPanel.jsx:335-337 | the extensions manager and the accounts category survive every search |
| SettingsPanel.EmptyCategoryHidden | vscode-clone/src/components/ide/SettingsPanel.jsx:345-347 | a category with no entries, unless pinned, is hidden by a search |
| SettingsPanel.DisplayValue | vscode-clone/src/components/ide/SettingsPanel.jsx:135-138 | a control shows the local value when there is one, else the entry's default, else the empty string |
| SettingsPanel.DigitRun | vscode-clone/src/components/ide/SettingsPanel.jsx:154 | the length of the leading run of digits: all before it are digits and the next character is not |
| SettingsPanel.NatToStringDigits | vscode-clone/src/components/ide/SettingsPanel.jsx:154 | the decimal form of a whole number is all digits and reads back as that number |
| SettingsPanel.NumberValueRoundTrip | vscode-clone/src/components/ide/SettingsPanel.jsx:154 | typing the decimal form of any integer stores that integer |
| SettingsPanel.NumberValue | vscode-clone/src/components/ide/SettingsPanel.jsx:154 | blank text gives 0, a negative value needs a leading minus, and text of digits alone gives its decimal value |
| SettingsPanel.ManagerFilter | vscode-clone/src/components/ide/SettingsPanel.jsx:197-203 | the whole list for an empty search; otherwise exactly the extensions whose name or description contains the search, ignoring case |
| SettingsPanel.Panel.constructor | vscode-clone/src/components/ide/SettingsPanel.jsx:65-70 | the given settings, no unsaved change, an empty search, the built-in schema |
| SettingsPanel.Panel.Sync | vscode-clone/src/components/ide/SettingsPanel.jsx:78-81 | new settings from the window replace the local ones and clear the unsaved flag |
| SettingsPanel.Panel.Change | vscode-clone/src/components/ide/SettingsPanel.jsx:103-106 | the one key takes the new value and the unsaved flag is set |
| SettingsPanel.Panel.ChangeNumber | vscode-clone/src/components/ide/SettingsPanel.jsx:154 | a numeric control stores the parsed number of the typed text, 0 when there is none |
| SettingsPanel.Panel.Save | vscode-clone/src/components/ide/SettingsPanel.jsx:108-112 | the local settings are handed out unchanged and the unsaved flag is cleared |
| SettingsPanel.Panel.SetSearch | vscode-clone/src/components/ide/SettingsPanel.jsx:69 | only the search text changes |

## Left out

- Network clients: the OpenAI, Anthropic and Gemini requests, the GitHub API calls of publish and the AI services. Their replies are parameters.
- Processes and the file system: every `git` and shell `exec`, node-pty, `live-server`, the Prettier formatter, the chokidar watcher and window creation. Their outputs are given strings, replies or an in-memory tree.
- Timers, randomness and scheduling: blur timeouts, the delayed auto-open, fake streaming delays, the `ai.chat` delay and its random pick (an input). Handlers run as sequential steps, and unhandled asynchronous rejections are out of scope.
- Local storage and JSON: `AISettingsManager`, `detectDependencies`, `detectFrameworks` and the rest of `buildContext`. Stored values are fields or parameters. The JSON payload of a stream event is a parameter that yields its text.
- The fixed instruction text of the system prompts. Only the parts that depend on the inputs are modelled.
- Server-sent events split across chunk boundaries: each chunk is split on its own, as the code does.
- Rendering: React effects, DOM listeners, Monaco and its decoration ids (the model keeps the decorations as values), xterm, clipboard access, toasts and alerts, and icons as components.
- `sortItems`: `localeCompare` ordering is not modelled.
- `path.join`: its normalisation of `..` and repeated separators is not modelled; paths are joined with `/`.
- Publish: the removal of an old `.git` folder and the GitHub repository creation are left out; the remote URL is a parameter.
- Prototype keys such as `constructor` in JavaScript object lookups are not modelled; tables are maps.
- Aliasing: a file object edited in place and shared between tabs and the tree is modelled as separate values.
- UTF-16: JavaScript lengths count UTF-16 units. The model counts characters, which differs for characters outside the Basic Multilingual Plane (the 200-character summary, the 800-character preview).
- Strings.ToLower: only ASCII letters are lower-cased; `toLowerCase` on other scripts is not modelled. The same holds for Strings.ToUpper (`toUpperCase`, used by `Layout.ProjectName`).
- SettingsPanel.NumberValue: `parseInt` reads a `0x` prefix as hexadecimal, which the model does not. The field is a `type="number"` input (`SettingsPanel.jsx` lines 151-154), so such text does not reach it. Text such as `Infinity` gives 0 in the model, as `parseInt` (NaN) followed by `|| 0` does.
- Layout.Window.SaveSettings: `discardSettingsChanges` (`Layout.jsx` lines 118-120) has no member of its own. It only clears the unsaved flag and stores nothing, which is SaveSettings' change of state without the returned copy. Storage itself is not modelled.
- Not modelled in `Layout.jsx`: `handleRenameFolder`, `confirmDelete`, `handleMenuAction` and the file watcher's refresh. They only forward to the desktop back end and reload the tree.
- `loadExtensions` and `toggleExtension` of the settings panel: the mount effect (`SettingsPanel.jsx` lines 84-100) first calls `registry.getAllExtensions()`, which the registry does not define. The TypeError escapes the effect before its `setSchema` runs. `Layout.jsx` line 704 renders the panel with no error boundary in between, so React unmounts the tree up to the nearest boundary above `Layout` (or the whole root), and the panel does not stay on screen. `SettingsPanel.Panel` models the panel as if that effect did not throw, with the extension list and the Extension Settings items empty. `toggleExtension` calls the equally undefined `setExtensionEnabled`.
- The `/exec` route of `AIChat.jsx`: it calls `execCommand`, which the desktop bridge does not expose, so in the application this route always ends in the execution-error reply. `AIChat.Chat.Send` keeps the general case: the outcome of `execCommand` is a parameter, and a resolved outcome is shown as the command output.
- The Prettier shortcut needs `window.registry`, which nothing assigns. The listener is modelled, with the registry's presence as a parameter.
- `deactivate` of the AI History Chat module is exported, but the registry never calls it. It is recorded as exported only.
- What subscriber callbacks and command handlers do. Each call is recorded as an effect. Because the code catches what they throw and goes on, a throw changes nothing in the model.
- CommandPalette.Palette.Open: the extension command ids are a parameter, not tied to the registry. The palette lists `Array.from(registry.getCommands().keys())` (`CommandPalette.jsx` lines 22-29), in the insertion order of a JavaScript `Map`, where a re-registered id keeps its first place. The registry's command table is a map without order, so the order of the extension entries is not modelled.
- AIChat: the active file that `generateAIResponse` receives as its fourth argument (`AIChat.jsx` line 73) is not part of the modelled request; `aiService.js` is not part of this model.

=== FILE: activity_bar.dfy ===
/**
 * The activity bar (`ActivityBar.jsx`): the icon of an extension item, and how
 * a click changes the window's active view and side bar.
 */
module ActivityBar {
  import opened Optional
  import opened Strings

  /** The icons the bar can draw. */
  datatype Icon = Sparkles | Zap | Box | TerminalIcon | Globe | User | Settings | MessageSquare | Files | Search | GitBranch | Bug | Blocks

  /** The icon table, by lower-cased name. */
  const IconMap: map<string, Icon> := map[
    "sparkles" := Sparkles, "zap" := Zap, "box" := Box, "terminal" := TerminalIcon,
    "globe" := Globe, "user" := User, "settings" := Settings, "messagesquare" := MessageSquare,
    "bot" := MessageSquare, "files" := Files, "search" := Search, "git" := GitBranch,
    "debug" := Bug, "extensions" := Blocks]

  /** `getIcon`: the table's icon for the lower-cased name; `Blocks` for a missing or unknown name. */
  function GetIcon(name: Option<string>): (icon: Icon)
    ensures name.None? ==> icon == Blocks
    ensures name.Some? && ToLower(name.value) in IconMap ==> icon == IconMap[ToLower(name.value)]
    ensures name.Some? && ToLower(name.value) !in IconMap ==> icon == Blocks
  {
    var key := if name.Some? then ToLower(name.value) else "";
    if key in IconMap then IconMap[key] else Blocks
  }

  /** The icon name is matched case-insensitively. */
  lemma GetIconIgnoresCase(a: string, b: string)
    requires ToLower(a) == ToLower(b)
    ensures GetIcon(Some(a)) == GetIcon(Some(b))
  {
  }

  /** The window's view state the bar drives. */
  datatype View = View(activeView: string, sidebarOpen: bool)

  /** An item is highlighted when it is the active view and the side bar is open. */
  predicate Highlighted(v: View, id: string) {
    v.activeView == id && v.sidebarOpen
  }

  /** `handleActivityClick`: the active view only toggles the side bar; another view becomes active and opens a closed side bar. */
  function ActivityClick(v: View, id: string): (w: View)
    ensures v.activeView == id ==> w == v.(sidebarOpen := !v.sidebarOpen)
    ensures v.activeView != id ==> w == View(id, true)
  {
    if v.activeView == id then v.(sidebarOpen := !v.sidebarOpen)
    else View(id, true)
  }

  /** After a click the item is highlighted, unless it was highlighted already, in which case the side bar closes. */
  lemma ClickHighlights(v: View, id: string)
    ensures Highlighted(ActivityClick(v, id), id) <==> !Highlighted(v, id)
    ensures ActivityClick(v, id).activeView == id
  {
  }

  /** Clicking the active view twice restores the window. */
  lemma ClickActiveTwice(v: View)
    ensures ActivityClick(ActivityClick(v, v.activeView), v.activeView) == v
  {
  }

  /** An extension item of the bar; `hasOnClick` says it brings its own handler. */
  datatype ExtensionItem = ExtensionItem(id: string, icon: Option<string>, hasOnClick: bool)

  /** What clicking an extension item does: its own handler, or opening its view. */
  datatype ExtClick = OwnHandler | Opened(view: View)

  /** `handleExtClick`: an item with its own handler only calls it; otherwise it becomes the active view with the side bar open. */
  function ExtensionClick(v: View, item: ExtensionItem): (r: ExtClick)
    ensures item.hasOnClick <==> r.OwnHandler?
    ensures r.Opened? ==> r.view == View(item.id, true) && Highlighted(r.view, item.id)
  {
    if item.hasOnClick then OwnHandler
    else Opened(View(item.id, true))
  }

  /** Unlike a core view, an extension item without a handler never closes the side bar, even when it is already active. */
  lemma ExtensionClickNeverCloses(v: View, item: ExtensionItem)
    requires !item.hasOnClick && Highlighted(v, item.id)
    ensures ExtensionClick(v, item) == Opened(v)
    ensures !ActivityClick(v, item.id).sidebarOpen
  {
  }
}

=== FILE: ai_chat.dfy ===
/**
 * The AI chat side panel (`AIChat.jsx`): the conversation, the input box and
 * the loading flag, and how a message is routed: a `/exec ` command to the
 * desktop back end, a missing API key to a warning, anything else to the AI.
 */
module AIChat {
  import opened Optional
  import opened Strings

  datatype Role = User | Assistant

  datatype Message = Message(role: Role, content: string)

  const Greeting: Message := Message(Assistant, "Hi! I'm your AI coding assistant. I can help you write, debug, and improve your code. What would you like to work on?")

  const ExecPrefix: string := "/exec "
  const DefaultProvider: string := "gemini"
  const MissingKeyWarning: string := "⚠️ **API Key Missing!**\n\nPlease go to **Settings** (Click the Gear icon ⚙️) and enter your API Key for Google Gemini, OpenAI, or OpenRouter to start chatting."

  /** What `execCommand` resolves to. */
  datatype ExecResult = ExecResult(stdout: Option<string>, stderr: Option<string>, error: Option<string>)

  /** A call into the back end or the AI: its value, or the message of what it threw. */
  datatype Reply<T> = Resolved(value: T) | Threw(message: string)

  /** The request the AI service receives: provider, key, and the conversation including the new message (the active file, its fourth argument, is not modelled). */
  datatype ChatRequest = ChatRequest(provider: string, apiKey: string, messages: seq<Message>)

  /** The first line of a command's output message. */
  function CommandHeader(command: string): string {
    "**Command:** `" + command + "`\n\n"
  }

  /** One fenced output section, present only for a non-empty stream. */
  function Section(title: string, stream: Option<string>): (s: string)
    ensures Truthy(stream) <==> s != ""
  {
    if Truthy(stream) then "**" + title + ":**\n```\n" + stream.value + "\n```\n" else ""
  }

  /** The reply to a command: the header, then the stdout, stderr and error sections. */
  function ExecOutput(command: string, r: ExecResult): string {
    CommandHeader(command) + Section("Stdout", r.stdout) + Section("Stderr", r.stderr) + Section("Error", r.error)
  }

  /** The command's output is the bare header exactly when stdout, stderr and error are all empty or absent. */
  lemma ExecOutputBare(command: string, r: ExecResult)
    ensures StartsWith(ExecOutput(command, r), CommandHeader(command))
    ensures ExecOutput(command, r) == CommandHeader(command) <==> !Truthy(r.stdout) && !Truthy(r.stderr) && !Truthy(r.error)
  {
    var h := CommandHeader(command);
    var o := ExecOutput(command, r);
    assert o[..|h|] == h;
  }

  /** The reply to a command that could not run. */
  function ExecFailure(message: string): string {
    "❌ **Execution Error:** " + message
  }

  /** The reply to a failed AI request. */
  function AiFailure(message: string): string {
    "❌ **Error:** " + message + "\n\nPlease check your API Key in settings."
  }

  /** The route a sent message takes. */
  datatype Route = ExecRoute(command: string) | NoKeyRoute | AiRoute(request: ChatRequest)

  /**
   * Where a trimmed message goes: a `/exec ` message runs the text after its
   * first six characters; without a key nothing is requested; otherwise the AI
   * receives the provider (`gemini` by default), the key and the conversation.
   */
  function RouteOf(message: string, conversation: seq<Message>, apiKey: Option<string>, provider: Option<string>): (r: Route)
    ensures StartsWith(message, ExecPrefix) <==> r.ExecRoute?
    ensures r.ExecRoute? ==> ExecPrefix + r.command == message
    ensures !StartsWith(message, ExecPrefix) && !Truthy(apiKey) ==> r == NoKeyRoute
    ensures r.AiRoute? ==> Truthy(apiKey) && r.request == ChatRequest(OrElse(provider, DefaultProvider), apiKey.value, conversation)
  {
    if StartsWith(message, ExecPrefix) then
      assert message == message[..6] + message[6..];
      ExecRoute(message[6..])
    else if !Truthy(apiKey) then NoKeyRoute
    else AiRoute(ChatRequest(OrElse(provider, DefaultProvider), apiKey.value, conversation))
  }

  /** The one assistant message a route ends with. */
  function Answer(route: Route, exec: Reply<ExecResult>, ai: Reply<string>): Message {
    match route
    case ExecRoute(command) => Message(Assistant, match exec case Resolved(r) => ExecOutput(command, r) case Threw(m) => ExecFailure(m))
    case NoKeyRoute => Message(Assistant, MissingKeyWarning)
    case AiRoute(_) => Message(Assistant, match ai case Resolved(text) => text case Threw(m) => AiFailure(m))
  }

  /** The panel's state. */
  class Chat {
    var messages: seq<Message>
    var input: string
    var isLoading: bool

    /** The conversation always opens with the greeting. */
    predicate Valid()
      reads this
    {
      |messages| >= 1 && messages[0] == Greeting
    }

    constructor()
      ensures Valid() && messages == [Greeting] && input == "" && !isLoading
    {
      messages, input, isLoading := [Greeting], "", false;
    }

    method SetInput(text: string)
      modifies this
      ensures input == text && messages == old(messages) && isLoading == old(isLoading)
    {
      input := text;
    }

    /**
     * `handleSend`, with the back end's and the AI's answers as parameters:
     * nothing for blank input or while loading; otherwise the trimmed message,
     * then exactly one assistant answer, are appended, the input is cleared and
     * loading ends. `route` says where the message went (the AI is asked only
     * on `AiRoute`).
     */
    method Send(apiKey: Option<string>, provider: Option<string>, exec: Reply<ExecResult>, ai: Reply<string>) returns (route: Option<Route>)
      requires Valid()
      modifies this
      ensures Valid()
      ensures Blank(old(input)) || old(isLoading) ==> route.None? && messages == old(messages) && input == old(input) && isLoading == old(isLoading)
      ensures !(Blank(old(input)) || old(isLoading)) ==>
        var sent := Message(User, Trim(old(input)));
        && route == Some(RouteOf(Trim(old(input)), old(messages) + [sent], apiKey, provider))
        && messages == old(messages) + [sent, Answer(route.value, exec, ai)]
        && input == "" && !isLoading
    {
      TrimEmptyIffBlank(input);
      if Trim(input) == "" || isLoading {
        return None;
      }
      var userMessage := Trim(input);
      input := "";
      var newMessages := messages + [Message(User, userMessage)];
      messages := newMessages;
      isLoading := true;
      var r := RouteOf(userMessage, newMessages, apiKey, provider);
      messages := messages + [Answer(r, exec, ai)];
      isLoading := false;
      route := Some(r);
    }

    /** "New Chat": only the greeting remains. */
    method NewChat()
      requires Valid()
      modifies this
      ensures Valid() && messages == [Greeting]
      ensures input == old(input) && isLoading == old(isLoading)
    {
      messages := [messages[0]];
    }
  }
}

=== FILE: ai_executor.dfy ===
/**
 * The `AIExecutor`: it reads the COMMAND and FILE operations out of a model
 * reply in the order they appear, runs them one after the other through the
 * terminal and file callbacks, reports every step to `onProgress` and every
 * failure to `onError`, and goes on past failures. Also the file list of the
 * smart system prompt.
 *
 * The callbacks are modelled by what they return: a `Backend` gives the reply of
 * `executeCommand` for a command and of `createFile` for a path and content, and
 * the events the executor emits are collected in a list, in order.
 */
module AIExecutor {
  import opened Optional
  import opened Strings
  import opened RegexScan
  import CodeParser

  // ---- parseOperations ----

  /** The FILE pattern of the executor: like the reply parser's, but case-insensitive. */
  const FileScan: Pattern := FileBlock(true)

  /** An operation with the index its match starts at in the reply. */
  datatype Op =
    | CommandOp(command: string, index: nat)
    | FileOp(path: string, language: string, content: string, index: nat)
    | OtherOp(kind: string, index: nat)   // an object of a type the executor does not know

  /** The operation a COMMAND match pushes. */
  function CommandOpAt(m: Match): Op {
    CommandOp(Trim(m.head), m.start)
  }

  /** The operation a FILE match pushes; a block without a language is `plaintext`. */
  function FileOpAt(m: Match): Op {
    FileOp(Trim(m.head), m.language.GetOr("plaintext"), Trim(m.body), m.start)
  }

  function CommandOpsAt(ms: seq<Match>): (ops: seq<Op>)
    ensures |ops| == |ms|
    ensures forall k | 0 <= k < |ops| :: ops[k] == CommandOpAt(ms[k])
  {
    seq(|ms|, k requires 0 <= k < |ms| => CommandOpAt(ms[k]))
  }

  function FileOpsAt(ms: seq<Match>): (ops: seq<Op>)
    ensures |ops| == |ms|
    ensures forall k | 0 <= k < |ops| :: ops[k] == FileOpAt(ms[k])
  {
    seq(|ms|, k requires 0 <= k < |ms| => FileOpAt(ms[k]))
  }

  /** The operations in the order the two loops push them: every COMMAND match, then every FILE match. */
  function Found(response: string): seq<Op> {
    CommandOpsAt(AllMatches(CodeParser.CommandPattern, response)) + FileOpsAt(AllMatches(FileScan, response))
  }

  /** Ordered by start index, as `sort((a, b) => a.index - b.index)` leaves them. */
  predicate SortedByIndex(ops: seq<Op>) {
    forall i, j | 0 <= i < j < |ops| :: ops[i].index <= ops[j].index
  }

  /** `op` put in front of the first operation that does not start before it. */
  function InsertByIndex(op: Op, ops: seq<Op>): (r: seq<Op>)
    ensures |r| == |ops| + 1 && op in r
  {
    if ops == [] || op.index <= ops[0].index then [op] + ops
    else [ops[0]] + InsertByIndex(op, ops[1..])
  }

  /**
   * The stable sort of `Array.prototype.sort` with the index comparator, as an
   * insertion sort: an operation goes before every later one with the same index.
   */
  function SortByIndex(ops: seq<Op>): (r: seq<Op>)
    ensures |r| == |ops|
  {
    if ops == [] then [] else InsertByIndex(ops[0], SortByIndex(ops[1..]))
  }

  /** Inserting adds exactly the inserted operation. */
  lemma {:induction false} InsertByIndexPermutes(op: Op, ops: seq<Op>)
    ensures multiset(InsertByIndex(op, ops)) == multiset(ops) + multiset{op}
    decreases |ops|
  {
    if ops != [] && op.index > ops[0].index {
      InsertByIndexPermutes(op, ops[1..]);
      assert ops == [ops[0]] + ops[1..];
    }
  }

  /** An operation that starts no later than any of an ordered list can go in front of it. */
  lemma ConsSorted(op: Op, ops: seq<Op>)
    requires SortedByIndex(ops)
    requires forall x | x in ops :: op.index <= x.index
    ensures SortedByIndex([op] + ops)
  {
    var r := [op] + ops;
    forall i, j | 0 <= i < j < |r| ensures r[i].index <= r[j].index {
      assert r[j] == ops[j - 1];
      if i > 0 {
        assert r[i] == ops[i - 1];
      }
    }
  }

  /** Inserting into an ordered list keeps it ordered. */
  lemma {:induction false} InsertByIndexSorted(op: Op, ops: seq<Op>)
    requires SortedByIndex(ops)
    ensures SortedByIndex(InsertByIndex(op, ops))
    decreases |ops|
  {
    if ops == [] || op.index <= ops[0].index {
      forall x | x in ops ensures op.index <= x.index {
        var k :| 0 <= k < |ops| && ops[k] == x;
      }
      ConsSorted(op, ops);
    } else {
      var tail := ops[1..];
      assert SortedByIndex(tail) by {
        forall i, j | 0 <= i < j < |tail| ensures tail[i].index <= tail[j].index {
          assert tail[i] == ops[i + 1] && tail[j] == ops[j + 1];
        }
      }
      InsertByIndexSorted(op, tail);
      InsertByIndexPermutes(op, tail);
      var rest := InsertByIndex(op, tail);
      forall x | x in rest ensures ops[0].index <= x.index {
        assert x in multiset(rest);
        if x != op {
          assert x in multiset(tail);
          var k :| 0 <= k < |tail| && tail[k] == x;
          assert ops[k + 1] == x;
        }
      }
      ConsSorted(ops[0], rest);
    }
  }

  /** The sort orders the operations by index and keeps every one of them. */
  lemma {:induction false} SortByIndexSpec(ops: seq<Op>)
    ensures SortedByIndex(SortByIndex(ops))
    ensures multiset(SortByIndex(ops)) == multiset(ops)
    decreases |ops|
  {
    if ops != [] {
      SortByIndexSpec(ops[1..]);
      InsertByIndexSorted(ops[0], SortByIndex(ops[1..]));
      InsertByIndexPermutes(ops[0], SortByIndex(ops[1..]));
      assert ops == [ops[0]] + ops[1..];
    }
  }

  /** `parseOperations`, as a value. */
  function Operations(response: string): seq<Op> {
    SortByIndex(Found(response))
  }

  /**
   * `parseOperations`: the COMMAND loop, the FILE loop, then the sort by the
   * index each match starts at.
   */
  method ParseOperations(response: string) returns (ops: seq<Op>)
    ensures ops == Operations(response)
  {
    var commandMatches := Collect(Table(CodeParser.CommandPattern, response));
    var fileMatches := Collect(Table(FileScan, response));
    ops := CommandOpsAt(commandMatches) + FileOpsAt(fileMatches);
    ops := SortByIndex(ops);
  }

  /** Each COMMAND match has its operation among the pushed ones. */
  lemma CommandsPushed(cm: seq<Match>, fm: seq<Match>)
    ensures forall m | m in cm :: CommandOpAt(m) in CommandOpsAt(cm) + FileOpsAt(fm)
  {
    var found := CommandOpsAt(cm) + FileOpsAt(fm);
    forall m | m in cm ensures CommandOpAt(m) in found {
      var k :| 0 <= k < |cm| && cm[k] == m;
      assert found[k] == CommandOpAt(m);
    }
  }

  /** Each FILE match has its operation among the pushed ones. */
  lemma FilesPushed(cm: seq<Match>, fm: seq<Match>)
    ensures forall m | m in fm :: FileOpAt(m) in CommandOpsAt(cm) + FileOpsAt(fm)
  {
    var c, f := CommandOpsAt(cm), FileOpsAt(fm);
    forall m | m in fm ensures FileOpAt(m) in c + f {
      var k :| 0 <= k < |fm| && fm[k] == m;
      InRightPart(c, f, k);
    }
  }

  /** An element of the right part of a concatenation is in the concatenation. */
  lemma InRightPart(a: seq<Op>, b: seq<Op>, k: nat)
    requires k < |b|
    ensures b[k] in a + b
  {
    assert (a + b)[|a| + k] == b[k];
  }

  /** The pushed operations are COMMAND and FILE operations only. */
  lemma OnlyPushed(cm: seq<Match>, fm: seq<Match>)
    ensures forall op | op in CommandOpsAt(cm) + FileOpsAt(fm) :: op.CommandOp? || op.FileOp?
  {
    var c := CommandOpsAt(cm);
    var f := FileOpsAt(fm);
    assert forall k | 0 <= k < |c| :: c[k].CommandOp?;
    assert forall k | 0 <= k < |f| :: f[k].FileOp?;
    assert forall k | 0 <= k < |c + f| :: (c + f)[k].CommandOp? || (c + f)[k].FileOp?;
  }

  /** Reordering keeps membership. */
  lemma SameMembers(a: seq<Op>, b: seq<Op>)
    requires multiset(a) == multiset(b)
    ensures forall x | x in a :: x in b
    ensures forall x | x in b :: x in a
  {
    forall x | x in a ensures x in b {
      assert x in multiset(a);
    }
    forall x | x in b ensures x in a {
      assert x in multiset(b);
    }
  }

  /**
   * The parsed operations are ordered by where they start in the reply, and they
   * are exactly the COMMAND and FILE matches: each one is there, and nothing else.
   */
  lemma OperationsSpec(response: string)
    ensures SortedByIndex(Operations(response))
    ensures multiset(Operations(response)) == multiset(Found(response))
    ensures forall m | m in AllMatches(CodeParser.CommandPattern, response) :: CommandOpAt(m) in Operations(response)
    ensures forall m | m in AllMatches(FileScan, response) :: FileOpAt(m) in Operations(response)
    ensures forall op | op in Operations(response) :: op.CommandOp? || op.FileOp?
  {
    var cm := AllMatches(CodeParser.CommandPattern, response);
    var fm := AllMatches(FileScan, response);
    SortByIndexSpec(Found(response));
    SameMembers(Operations(response), Found(response));
    CommandsPushed(cm, fm);
    FilesPushed(cm, fm);
    OnlyPushed(cm, fm);
  }

  // ---- executeFileOperation: path resolution ----

  /** `/^[A-Z]:\\/i`: a drive letter, a colon and a backslash at the start. */
  predicate HasDrive(path: string) {
    |path| >= 3 && (('A' <= path[0] <= 'Z') || ('a' <= path[0] <= 'z')) && path[1] == ':' && path[2] == '\\'
  }

  /** A path the executor leaves as it is. */
  predicate IsAbsolute(path: string) {
    HasDrive(path) || (|path| > 0 && path[0] == '/')
  }

  /** The separator used under a project root: a backslash when the root holds one, else `/`. */
  function SeparatorFor(root: string): char {
    if '\\' in root then '\\' else '/'
  }

  /** The directory a relative path goes under: the stored project root if any, else the terminal path. */
  function PrefixFor(basePath: string, projectRoot: Option<string>): string {
    if Truthy(projectRoot) then projectRoot.value else basePath
  }

  /** The separator under that directory; with no project root it is always a backslash. */
  function SeparatorUnder(projectRoot: Option<string>): char {
    if Truthy(projectRoot) then SeparatorFor(projectRoot.value) else '\\'
  }

  /**
   * The full path of a FILE operation: an absolute path is kept; a relative one
   * goes under the project root (or the terminal path) with every `/` turned
   * into the separator.
   */
  function ResolvePath(path: string, basePath: string, projectRoot: Option<string>): (full: string)
    ensures IsAbsolute(path) ==> full == path
    ensures !IsAbsolute(path) ==>
      var prefix := PrefixFor(basePath, projectRoot);
      var sep := SeparatorUnder(projectRoot);
      && |full| == |prefix| + 1 + |path|
      && full[..|prefix|] == prefix
      && full[|prefix|] == sep
      && forall k | 0 <= k < |path| :: full[|prefix| + 1 + k] == if path[k] == '/' then sep else path[k]
  {
    if IsAbsolute(path) then path
    else
      var prefix := PrefixFor(basePath, projectRoot);
      var sep := SeparatorUnder(projectRoot);
      var full := prefix + [sep] + ReplaceAllChar(path, '/', sep);
      assert forall k | 0 <= k < |path| :: full[|prefix| + 1 + k] == ReplaceAllChar(path, '/', sep)[k];
      full
  }

  /**
   * The relative part of a resolved path gives the path back once the separator
   * is turned into `/` again, when the path held no backslash; with a backslash
   * separator no `/` is left in it.
   */
  lemma ResolvedRelativePart(path: string, basePath: string, projectRoot: Option<string>)
    requires !IsAbsolute(path)
    ensures var prefix := PrefixFor(basePath, projectRoot);
      var rest := ResolvePath(path, basePath, projectRoot)[|prefix| + 1..];
      && ('\\' !in path ==> ReplaceAllChar(rest, '\\', '/') == path)
      && (SeparatorUnder(projectRoot) == '\\' ==> '/' !in rest)
  {
    var prefix := PrefixFor(basePath, projectRoot);
    var sep := SeparatorUnder(projectRoot);
    var full := ResolvePath(path, basePath, projectRoot);
    var rest := full[|prefix| + 1..];
    var mapped := ReplaceAllChar(path, '/', sep);
    assert rest == mapped by {
      assert |rest| == |mapped|;
      forall k | 0 <= k < |rest| ensures rest[k] == mapped[k] {
        assert rest[k] == full[|prefix| + 1 + k];
      }
    }
    SeparatorBack(path, sep);
  }

  /** Turning `/` into a slash or backslash and the backslashes back into `/` restores a path without backslashes. */
  lemma SeparatorBack(path: string, sep: char)
    requires sep == '\\' || sep == '/'
    ensures var mapped := ReplaceAllChar(path, '/', sep);
      && ('\\' !in path ==> ReplaceAllChar(mapped, '\\', '/') == path)
      && (sep == '\\' ==> '/' !in mapped)
  {
    var mapped := ReplaceAllChar(path, '/', sep);
    if '\\' !in path {
      var back := ReplaceAllChar(mapped, '\\', '/');
      forall k | 0 <= k < |path| ensures back[k] == path[k] {
        assert path[k] != '\\' by { assert path[k] in path; }
      }
    }
    if sep == '\\' {
      forall k | 0 <= k < |mapped| ensures mapped[k] != '/' {
      }
    }
  }

  // ---- executeOperation ----

  /** What `executeCommand` answers, or the message of what it throws. */
  datatype CommandReply =
    | CommandReply(success: bool, output: Option<string>, error: Option<string>)
    | CommandThrew(message: string)

  /** What `createFile` answers, or the message of what it throws. */
  datatype CreateReply =
    | CreateReply(success: bool, error: Option<string>)
    | CreateThrew(message: string)

  /**
   * The executor's surroundings: the replies of the terminal and file callbacks,
   * the project root stored under `devstudio-last-project`, whether an
   * `openFile` callback was given, and what the terminal path comes from.
   */
  datatype Backend = Backend(
    run: string -> CommandReply,
    create: (string, string) -> CreateReply,
    projectRoot: Option<string>,
    canOpen: bool,
    currentTerminal: Option<string>,
    userProfile: Option<string>,
    home: Option<string>)

  /**
   * `getTerminalPath`: the answer of `getCurrentTerminalPath` when that callback
   * was given, else `USERPROFILE`, `HOME` or `C:\Users`, the first that is set.
   */
  function TerminalPath(env: Backend): (path: string)
    ensures env.currentTerminal.Some? ==> path == env.currentTerminal.value
    ensures env.currentTerminal.None? && Truthy(env.userProfile) ==> path == env.userProfile.value
    ensures env.currentTerminal.None? && !Truthy(env.userProfile) && Truthy(env.home) ==> path == env.home.value
    ensures env.currentTerminal.None? && !Truthy(env.userProfile) && !Truthy(env.home) ==> path == "C:\\Users"
  {
    if env.currentTerminal.Some? then env.currentTerminal.value
    else OrElse(env.userProfile, OrElse(env.home, "C:\\Users"))
  }

  /** The `type` field of a progress event. */
  datatype ProgressKind = Info | Command | Success | Error | File

  /**
   * What the executor reports: an `onProgress` call (the `executing` one, which
   * carries the operation, is `Announce`), an `onError` call, and the request to
   * open a created file in the editor.
   */
  datatype Event =
    | Progress(kind: ProgressKind, message: string)
    | Announce(op: Op, message: string)
    | ErrorReport(op: Op, error: Option<string>, message: string)
    | OpenRequest(realPath: string, path: string, name: string, content: string)

  /** The result object of one operation: `{success: true, output}`, `{success: true, path}` or `{success: false, error}`. */
  datatype OpResult =
    | Ran(output: Option<string>)
    | Written(path: string)
    | Failed(error: Option<string>)

  /** What one operation reports and returns. */
  datatype Step = Step(events: seq<Event>, result: OpResult)

  const UnknownType: string := "Unknown operation type"
  const CreateFailed: string := "Failed to create file"
  const Tick: string := "✅ "
  const Cross: string := "❌ "

  /** Only `onProgress` and the editor hear from one operation. */
  predicate ProgressOnly(events: seq<Event>) {
    forall k | 0 <= k < |events| :: events[k].Progress? || events[k].OpenRequest?
  }

  /**
   * `executeCommandOperation`: a `command` event, then a `success` or an `error`
   * event; the backend's success gives its output, its failure its error, and a
   * throw the thrown message.
   */
  function RunCommand(command: string, env: Backend): (s: Step)
    ensures |s.events| == 2 && s.events[0] == Progress(Command, "Running: " + command)
    ensures s.events[1].Progress? && (s.events[1].kind == Success <==> !s.result.Failed?)
    ensures s.events[1].Progress? && (s.events[1].kind == Error <==> s.result.Failed?)
    ensures !s.result.Written?
    ensures s.result.Ran? <==> env.run(command).CommandReply? && env.run(command).success
    ensures s.result.Ran? ==> s.result.output == env.run(command).output
    ensures env.run(command).CommandReply? && !env.run(command).success ==> s.result == Failed(env.run(command).error)
    ensures env.run(command).CommandThrew? ==> s.result == Failed(Some(env.run(command).message))
  {
    var running := Progress(Command, "Running: " + command);
    match env.run(command)
    case CommandReply(success, output, error) =>
      if success then Step([running, Progress(Success, Tick + "Executed: " + command)], Ran(output))
      else Step([running, Progress(Error, Cross + "Failed: " + OrElse(error, "Unknown error"))], Failed(error))
    case CommandThrew(message) =>
      Step([running, Progress(Error, Cross + "Error: " + message)], Failed(Some(message)))
  }

  predicate IsSeparator(c: char) {
    c == '/' || c == '\\'
  }

  /** `path.split(/[/\\]/).pop()`: the text after the last `/` or `\`. */
  function BaseName(path: string): string {
    if path == [] || IsSeparator(path[|path| - 1]) then []
    else BaseName(path[..|path| - 1]) + [path[|path| - 1]]
  }

  lemma {:induction false} BaseNameNoSeparator(path: string)
    ensures forall c | c in BaseName(path) :: !IsSeparator(c)
    decreases |path|
  {
    if path != [] && !IsSeparator(path[|path| - 1]) {
      BaseNameNoSeparator(path[..|path| - 1]);
    }
  }

  lemma {:induction false} BaseNameEndsPath(path: string)
    ensures EndsWith(path, BaseName(path))
    decreases |path|
  {
    if path != [] && !IsSeparator(path[|path| - 1]) {
      var init := path[..|path| - 1];
      BaseNameEndsPath(init);
      var n0 := BaseName(init);
      assert path[|path| - |n0| - 1..] == init[|init| - |n0|..] + [path[|path| - 1]];
    } else {
      assert path[|path|..] == [];
    }
  }

  lemma {:induction false} BaseNameAfterSeparator(path: string)
    ensures |BaseName(path)| < |path| ==> IsSeparator(path[|path| - |BaseName(path)| - 1])
    decreases |path|
  {
    if path != [] && !IsSeparator(path[|path| - 1]) {
      var init := path[..|path| - 1];
      BaseNameAfterSeparator(init);
      if |BaseName(path)| < |path| {
        assert path[|path| - |BaseName(path)| - 1] == init[|init| - |BaseName(init)| - 1];
      }
    }
  }

  /** The base name ends the path, holds no separator, and follows one unless it is the whole path. */
  lemma BaseNameSpec(path: string)
    ensures var name := BaseName(path);
      && EndsWith(path, name)
      && (forall c | c in name :: !IsSeparator(c))
      && (|name| < |path| ==> IsSeparator(path[|path| - |name| - 1]))
  {
    BaseNameNoSeparator(path);
    BaseNameEndsPath(path);
    BaseNameAfterSeparator(path);
  }

  /** The success message of a created file: its name and its line count. */
  function CreatedMessage(path: string, content: string): string {
    Tick + "Created: " + BaseName(path) + " (" + NatToString(|Split(content, '\n')|) + " lines)"
  }

  /** The error a failed `createFile` turns into: its own text, else `Failed to create file`. */
  function CreateError(reply: CreateReply): string {
    match reply
    case CreateReply(_, error) => OrElse(error, CreateFailed)
    case CreateThrew(message) => message
  }

  /**
   * `executeFileOperation`: a `file` event for the resolved path, then on success
   * a `success` event, the request to open the file when an `openFile` callback
   * exists, and the resolved path as result; on failure an `error` event and the
   * error text.
   */
  function WriteFile(path: string, content: string, basePath: string, env: Backend): (s: Step)
    ensures |s.events| >= 2 && s.events[0] == Progress(File, "Creating: " + path)
    ensures ProgressOnly(s.events)
    ensures !s.result.Ran?
    ensures var reply := env.create(ResolvePath(path, basePath, env.projectRoot), content);
      && (s.result.Written? <==> reply.CreateReply? && reply.success)
      && (s.result.Written? ==> s.result.path == ResolvePath(path, basePath, env.projectRoot))
      && (s.result.Failed? ==> s.result.error == Some(CreateError(reply)))
    ensures s.result.Written? && env.canOpen <==> OpenRequest(ResolvePath(path, basePath, env.projectRoot), path, BaseName(path), content) in s.events
  {
    var full := ResolvePath(path, basePath, env.projectRoot);
    var creating := Progress(File, "Creating: " + path);
    var reply := env.create(full, content);
    if reply.CreateReply? && reply.success then
      var open := if env.canOpen then [OpenRequest(full, path, BaseName(path), content)] else [];
      Step([creating, Progress(Success, CreatedMessage(path, content))] + open, Written(full))
    else
      var message := CreateError(reply);
      Step([creating, Progress(Error, Cross + "Failed to create " + path + ": " + message)], Failed(Some(message)))
  }

  /**
   * `executeOperation`: a command goes to the terminal, a file to `createFile`,
   * and any other type fails at once without a report of its own.
   */
  function ExecuteOperation(op: Op, basePath: string, env: Backend): (s: Step)
    ensures ProgressOnly(s.events)
    ensures op.CommandOp? ==> s == RunCommand(op.command, env)
    ensures op.FileOp? ==> s == WriteFile(op.path, op.content, basePath, env)
    ensures op.OtherOp? ==> s.events == [] && s.result == Failed(Some(UnknownType))
  {
    match op
    case CommandOp(command, _) => RunCommand(command, env)
    case FileOp(path, _, content, _) => WriteFile(path, content, basePath, env)
    case OtherOp(_, _) => Step([], Failed(Some(UnknownType)))
  }

  // ---- execute ----

  const ExplanationNotice: string := "AI provided explanation without executable operations"

  /** The `type` an operation shows in messages. */
  function TypeName(op: Op): string {
    match op
    case CommandOp(_, _) => "command"
    case FileOp(_, _, _, _) => "file"
    case OtherOp(kind, _) => kind
  }

  /** `op.command || op.path || 'operation'`. */
  function Label(op: Op): string {
    match op
    case CommandOp(command, _) => if command != "" then command else "operation"
    case FileOp(path, _, _, _) => if path != "" then path else "operation"
    case OtherOp(_, _) => "operation"
  }

  /** The text a template literal prints for an error that may be `undefined`. */
  function ErrorText(error: Option<string>): string {
    error.GetOr("undefined")
  }

  /** How the loop runs one operation: `executeOperation` with the terminal path and the surroundings. */
  function Runner(basePath: string, env: Backend): Op -> Step {
    op => ExecuteOperation(op, basePath, env)
  }

  /** The `executing` event of an operation. */
  function Announcement(op: Op): Event {
    Announce(op, "Executing: " + TypeName(op) + " - " + Label(op))
  }

  /** The `onError` call for an unsuccessful result. */
  function FailureReport(op: Op, error: Option<string>): Event {
    ErrorReport(op, error, Cross + "Failed: " + TypeName(op) + " - " + ErrorText(error))
  }

  /**
   * One pass of the loop, given what the operation reported and returned: the
   * `executing` event, the operation's own events, and an `onError` call when its
   * result is unsuccessful.
   */
  function Attempt(op: Op, s: Step): seq<Event> {
    [Announcement(op)] + s.events + (if s.result.Failed? then [FailureReport(op, s.result.error)] else [])
  }

  /** Everything the loop reports over a list of operations, in order. */
  function Log(ops: seq<Op>, exec: Op -> Step): seq<Event> {
    if ops == [] then []
    else Log(ops[..|ops| - 1], exec) + Attempt(ops[|ops| - 1], exec(ops[|ops| - 1]))
  }

  /** The `results` list: one result per operation, in order. */
  function Results(ops: seq<Op>, exec: Op -> Step): (rs: seq<OpResult>)
    ensures |rs| == |ops|
  {
    if ops == [] then [] else Results(ops[..|ops| - 1], exec) + [exec(ops[|ops| - 1]).result]
  }

  /** The object `execute` returns. */
  datatype Outcome = Outcome(success: bool, results: seq<OpResult>, isExplanation: bool)

  /** One pass of the `for (const op of operations)` loop. */
  method AttemptOne(op: Op, basePath: string, env: Backend) returns (events: seq<Event>, result: OpResult)
    ensures events == Attempt(op, Runner(basePath, env)(op))
    ensures result == Runner(basePath, env)(op).result
  {
    events := [Announcement(op)];
    var s := ExecuteOperation(op, basePath, env);
    events := events + s.events;
    result := s.result;
    if result.Failed? {
      events := events + [FailureReport(op, result.error)];
    }
  }

  /**
   * `execute`: with no operation in the reply, one `info` event and an
   * explanation outcome; otherwise every operation in order, whatever became of
   * the ones before, and always `success: true`.
   */
  method Execute(response: string, env: Backend) returns (events: seq<Event>, outcome: Outcome)
    ensures outcome.success
    ensures Operations(response) == [] ==>
      events == [Progress(Info, ExplanationNotice)] && outcome.results == [] && outcome.isExplanation
    ensures Operations(response) != [] ==>
      && events == Log(Operations(response), Runner(TerminalPath(env), env))
      && outcome.results == Results(Operations(response), Runner(TerminalPath(env), env))
      && !outcome.isExplanation
  {
    var terminalPath := TerminalPath(env);
    var ops := ParseOperations(response);
    if |ops| == 0 {
      events := [Progress(Info, ExplanationNotice)];
      outcome := Outcome(true, [], true);
      return;
    }
    var results;
    events, results := AttemptAll(ops, terminalPath, env);
    outcome := Outcome(true, results, false);
  }

  /** The `for (const op of operations)` loop: each operation in turn, its events and its result appended. */
  method AttemptAll(ops: seq<Op>, basePath: string, env: Backend) returns (events: seq<Event>, results: seq<OpResult>)
    ensures events == Log(ops, Runner(basePath, env))
    ensures results == Results(ops, Runner(basePath, env))
  {
    ghost var exec := Runner(basePath, env);
    events := [];
    results := [];
    for i := 0 to |ops|
      invariant events == Log(ops[..i], exec)
      invariant results == Results(ops[..i], exec)
    {
      var attempted, result := AttemptOne(ops[i], basePath, env);
      LogSnoc(ops, i, exec);
      events := events + attempted;
      results := results + [result];
    }
    assert ops[..|ops|] == ops;
  }

  /** One more operation adds its pass to the log and its result to the results. */
  lemma LogSnoc(ops: seq<Op>, i: nat, exec: Op -> Step)
    requires i < |ops|
    ensures Log(ops[..i + 1], exec) == Log(ops[..i], exec) + Attempt(ops[i], exec(ops[i]))
    ensures Results(ops[..i + 1], exec) == Results(ops[..i], exec) + [exec(ops[i]).result]
  {
    var p := ops[..i + 1];
    assert p[..i] == ops[..i] && p[i] == ops[i];
  }

  /** Entry `k` of the results is what operation `k` returned. */
  lemma {:induction false} ResultsAt(ops: seq<Op>, exec: Op -> Step, k: nat)
    requires k < |ops|
    ensures Results(ops, exec)[k] == exec(ops[k]).result
    decreases |ops|
  {
    if k < |ops| - 1 {
      ResultsAt(ops[..|ops| - 1], exec, k);
    }
  }

  // ---- what the log says ----

  /** Whether an event names its operation as attempted (`errors == false`) or as failed (`errors == true`). */
  predicate Names(e: Event, errors: bool) {
    if errors then e.ErrorReport? else e.Announce?
  }

  /** The operations the events of one kind name, in order. */
  function Named(events: seq<Event>, errors: bool): seq<Op> {
    if events == [] then []
    else
      var last := events[|events| - 1];
      Named(events[..|events| - 1], errors) + (if Names(last, errors) then [last.op] else [])
  }

  /** The operations whose result is unsuccessful, in order. */
  function Failures(ops: seq<Op>, exec: Op -> Step): seq<Op> {
    if ops == [] then []
    else
      var last := ops[|ops| - 1];
      Failures(ops[..|ops| - 1], exec) + (if exec(last).result.Failed? then [last] else [])
  }

  lemma {:induction false} NamedAppend(a: seq<Event>, b: seq<Event>, errors: bool)
    ensures Named(a + b, errors) == Named(a, errors) + Named(b, errors)
    decreases |b|
  {
    if b == [] {
      assert a + b == a;
    } else {
      var b0 := b[..|b| - 1];
      assert (a + b)[..|a + b| - 1] == a + b0;
      assert (a + b)[|a + b| - 1] == b[|b| - 1];
      NamedAppend(a, b0, errors);
    }
  }

  /** Progress events and open requests name no operation. */
  lemma {:induction false} NamedProgressOnly(events: seq<Event>, errors: bool)
    requires ProgressOnly(events)
    ensures Named(events, errors) == []
    decreases |events|
  {
    if events != [] {
      var init := events[..|events| - 1];
      assert ProgressOnly(init) by {
        assert forall k | 0 <= k < |init| :: init[k] == events[k];
      }
      NamedProgressOnly(init, errors);
    }
  }

  /**
   * One pass names its operation once as attempted, and once as failed exactly
   * when its result is unsuccessful, when the operation itself reports only progress.
   */
  lemma NamedAttempt(op: Op, s: Step)
    requires ProgressOnly(s.events)
    ensures Named(Attempt(op, s), false) == [op]
    ensures Named(Attempt(op, s), true) == if s.result.Failed? then [op] else []
  {
    var announce := [Announcement(op)];
    var report := if s.result.Failed? then [FailureReport(op, s.result.error)] else [];
    NamedProgressOnly(s.events, false);
    NamedProgressOnly(s.events, true);
    NamedAppend(announce, s.events, false);
    NamedAppend(announce + s.events, report, false);
    NamedAppend(announce, s.events, true);
    NamedAppend(announce + s.events, report, true);
    assert announce[..0] == [] && report[..0] == [];
  }

  /** `executeOperation` reports only through `onProgress` and the editor. */
  lemma RunnerProgressOnly(basePath: string, env: Backend)
    ensures forall op :: ProgressOnly(Runner(basePath, env)(op).events)
  {
    forall op ensures ProgressOnly(Runner(basePath, env)(op).events) {
      assert Runner(basePath, env)(op) == ExecuteOperation(op, basePath, env);
    }
  }

  /**
   * Every operation is attempted, in order, whatever became of the ones before
   * it: the `executing` events name exactly the operations.
   */
  lemma {:induction false} EveryOperationAttempted(ops: seq<Op>, exec: Op -> Step)
    requires forall op :: ProgressOnly(exec(op).events)
    ensures Named(Log(ops, exec), false) == ops
    decreases |ops|
  {
    if ops != [] {
      var init := ops[..|ops| - 1];
      var last := ops[|ops| - 1];
      EveryOperationAttempted(init, exec);
      NamedAppend(Log(init, exec), Attempt(last, exec(last)), false);
      NamedAttempt(last, exec(last));
      InitLast(ops);
    }
  }

  lemma InitLast(ops: seq<Op>)
    requires ops != []
    ensures ops[..|ops| - 1] + [ops[|ops| - 1]] == ops
  {
  }

  /** `onError` is called once for each unsuccessful result, in order, and for nothing else. */
  lemma {:induction false} EveryFailureReported(ops: seq<Op>, exec: Op -> Step)
    requires forall op :: ProgressOnly(exec(op).events)
    ensures Named(Log(ops, exec), true) == Failures(ops, exec)
    decreases |ops|
  {
    if ops != [] {
      var init := ops[..|ops| - 1];
      var last := ops[|ops| - 1];
      EveryFailureReported(init, exec);
      NamedAppend(Log(init, exec), Attempt(last, exec(last)), true);
      NamedAttempt(last, exec(last));
    }
  }

  // ---- generateSmartSystemPrompt ----

  /** A workspace file as the prompt sees it: either field may be missing. */
  datatype PromptFile = PromptFile(path: Option<string>, name: Option<string>)

  /** The prompt lists at most this many files. */
  const ListedFiles: nat := 10

  /** One line of the file list: the path, or the name when the path is falsy. */
  function FileEntry(f: PromptFile): (line: string)
    ensures |line| >= 5 && line[..5] == "   - "
    ensures Truthy(f.path) ==> line[5..] == f.path.value
    ensures !Truthy(f.path) && f.name.Some? ==> line[5..] == f.name.value
  {
    "   - " + OrElse(f.path, TemplateText(f.name))
  }

  /** The entries of the first ten files, in order. */
  function FileEntries(files: seq<PromptFile>): (lines: seq<string>)
    ensures |lines| == if |files| < ListedFiles then |files| else ListedFiles
    ensures forall k | 0 <= k < |lines| :: lines[k] == FileEntry(files[k])
  {
    var shown := if |files| < ListedFiles then files else files[..ListedFiles];
    seq(|shown|, k requires 0 <= k < |shown| => FileEntry(shown[k]))
  }

  /** The file list of the prompt: the entries joined by newlines. */
  function FileListing(files: seq<PromptFile>): string {
    Join(FileEntries(files), "\n")
  }

  /**
   * Reading the file list back: splitting it on newlines gives one entry per
   * listed file, at most ten, in the files' order, when no path or name holds a
   * newline.
   */
  lemma FileListingRoundTrip(files: seq<PromptFile>)
    requires files != []
    requires forall k | 0 <= k < |files| :: NoNewline(files[k])
    ensures |Split(FileListing(files), '\n')| <= ListedFiles
    ensures Split(FileListing(files), '\n') == FileEntries(files)
  {
    var lines := FileEntries(files);
    forall k | 0 <= k < |lines| ensures '\n' !in lines[k] {
      EntryNoNewline(files[k]);
    }
    assert "\n" == ['\n'];
    SplitJoin(lines, '\n');
  }

  predicate NoNewline(f: PromptFile) {
    (f.path.Some? ==> '\n' !in f.path.value) && (f.name.Some? ==> '\n' !in f.name.value)
  }

  lemma EntryNoNewline(f: PromptFile)
    requires NoNewline(f)
    ensures '\n' !in FileEntry(f)
  {
    var e := FileEntry(f);
    assert e == "   - " + e[5..];
    assert '\n' !in "   - ";
    assert '\n' !in "undefined";
  }

  const EmptyStatus: string := "⚠️ EMPTY - No files exist"
  const FileCountMark: string := "✅ "

  /** The project status: empty when the file list is missing or has no entry, otherwise its count. */
  function ProjectStatus(files: Option<seq<PromptFile>>): (status: string)
    ensures files.None? || files.value == [] ==> status == EmptyStatus
    ensures files.Some? && files.value != [] ==> status == FileCountMark + NatToString(|files.value|) + " files"
  {
    if files.None? || |files.value| == 0 then EmptyStatus
    else FileCountMark + NatToString(|files.value|) + " files"
  }

  /**
   * The parts of the prompt that depend on the surroundings: the terminal and
   * project lines, the status line, and, for a non-empty project, the file list.
   */
  datatype PromptFacts = PromptFacts(terminalLine: string, rootLine: string, status: string, listing: Option<string>)

  function SmartPromptFacts(terminalPath: Option<string>, projectRoot: Option<string>, files: Option<seq<PromptFile>>): (p: PromptFacts)
    ensures p.terminalLine == OrElse(terminalPath, "Not detected")
    ensures p.rootLine == OrElse(projectRoot, "No project open (empty workspace)")
    ensures p.status == ProjectStatus(files)
    ensures p.listing.Some? <==> files.Some? && files.value != []
    ensures p.listing.Some? ==> p.listing.value == FileListing(files.value)
  {
    var empty := files.None? || |files.value| == 0;
    PromptFacts(OrElse(terminalPath, "Not detected"), OrElse(projectRoot, "No project open (empty workspace)"),
      ProjectStatus(files), if empty then None else Some(FileListing(files.value)))
  }
}


=== FILE: ai_history_chat.dfy ===
/**
 * The built-in AI History Chat extension: its manifest and two settings, its
 * activation (one sidebar panel and the `ai.chat` command), the simulated reply
 * of `ai.chat`, and the chat panel's send action. The delay before the reply and
 * the random choice of sentence are inputs.
 */
module AiHistoryChat {
  import opened Optional
  import opened Strings
  import opened ExtensionApi

  const Id: string := "devstudio.ai-history-chat"

  const Metadata: Manifest := Manifest(
    Id, "AI History Chat", Some("1.0.0"),
    "A contextual chat with history support. Ask questions and get AI responses with conversation context.",
    Some("DevStudio Team"), Some("MessageSquare"))

  const Settings: seq<SettingItem> := [
    SettingItem("aiHistoryChat.provider", "AI Provider", "select", ["gemini", "openai", "local"],
      Some(Str("gemini")), "Select the AI service provider for chat", "extensions", Id),
    SettingItem("aiHistoryChat.maxHistory", "Max History Length", "number", [],
      Some(Num(50)), "Maximum number of messages to keep in history", "extensions", Id)
  ]

  const PanelId: string := "ai-history-panel"
  const Panel: Renderer := Renderer("AIChatPanel")
  const ChatCommand: string := "ai.chat"
  const ChatHandler: Handler := Handler("ai.chat")

  /** `activate`: one sidebar panel, then the `ai.chat` command. */
  const Activation: seq<Call> := [
    RegisterSidebarPanel(PanelId, "sparkles", "AI Chat", Panel),
    RegisterCommand(ChatCommand, ChatHandler)
  ]

  const Module: ExtModule := ExtModule(Some(Metadata), Some(Settings), Some(Activation), true)

  /** The four canned sentences `ai.chat` chooses from. */
  const Responses: seq<string> := [
    "That's an interesting question! Let me help you with that.",
    "Based on what you've asked, here's my understanding...",
    "I can help you with that. Here's what I think...",
    "Great question! Let me provide some insights."
  ]

  /** The suffix every reply ends with. */
  function Echo(prompt: string): string {
    " You said: \"" + prompt + "\""
  }

  /** The `ai.chat` handler's reply; `pick` is `Math.floor(Math.random() * 4)`. */
  function ChatReply(prompt: string, pick: nat): (r: string)
    requires pick < |Responses|
    ensures exists k | 0 <= k < |Responses| :: StartsWith(r, Responses[k])
    ensures exists k | 0 <= k < |Responses| :: r == Responses[k] + Echo(prompt)
    ensures EndsWith(r, Echo(prompt))
    ensures r != ""
  {
    var r := Responses[pick] + Echo(prompt);
    assert r[..|Responses[pick]|] == Responses[pick];
    assert r[|r| - |Echo(prompt)|..] == Echo(prompt);
    r
  }

  const Welcome: ChatMessage := ChatMessage("model", "Hello! I am your AI assistant. How can I help you today?")
  const ErrorReply: string := "❌ Error: Failed to get response"

  /** What `await context.executeCommand('ai.chat', …)` produced: a value (maybe `undefined`) or an exception. */
  datatype CommandReply = Replied(value: Option<string>) | Rejected

  /** `if (reply)`: a present, non-empty string. */
  predicate TruthyReply(r: CommandReply) {
    r.Replied? && r.value.Some? && r.value.value != ""
  }

  /** The messages one send appends after the user's message. */
  function ReplyMessages(reply: CommandReply): seq<ChatMessage> {
    if TruthyReply(reply) then [ChatMessage("model", reply.value.value)]
    else if reply.Rejected? then [ChatMessage("model", ErrorReply)]
    else []
  }

  /** The state of one AI History Chat panel. */
  class ChatPanel {
    var messages: seq<ChatMessage>
    var input: string
    var loading: bool

    constructor ()
      ensures messages == [Welcome] && input == "" && !loading
    {
      messages := [Welcome];
      input := "";
      loading := false;
    }

    /**
     * `handleSend`: blank input does nothing. Otherwise the untrimmed input is
     * appended as the user's message before the command is invoked with the new
     * history, then the reply (if truthy) or the fixed error text (if the command
     * threw) is appended; the input is cleared and loading ends false.
     */
    method HandleSend(reply: CommandReply) returns (request: Option<Args>)
      modifies this
      ensures Blank(old(input)) ==> request.None? && messages == old(messages) && input == old(input) && loading == old(loading)
      ensures !Blank(old(input)) ==>
        var user := ChatMessage("user", old(input));
        request == Some(ChatRequest(old(messages) + [user], old(input)))
        && messages == old(messages) + [user] + ReplyMessages(reply)
        && input == "" && !loading
    {
      TrimEmptyIffBlank(input);
      if Trim(input) == [] {
        return None;
      }
      loading := true;
      var prompt := input;
      var userMsg := ChatMessage("user", prompt);
      var newHistory := messages + [userMsg];
      messages := newHistory;
      input := "";
      request := Some(ChatRequest(newHistory, prompt));
      match reply {
        case Replied(value) =>
          if value.Some? && value.value != "" {
            messages := messages + [ChatMessage("model", value.value)];
          }
        case Rejected =>
          messages := messages + [ChatMessage("model", ErrorReply)];
      }
      loading := false;
    }
  }

  /**
   * The registry's `executeCommand` returns nothing, so if the panel's
   * `context.executeCommand` is the registry's, a send appends only the user's
   * message and the canned reply is never shown.
   */
  lemma UndefinedReplyShowsNothing()
    ensures ReplyMessages(Replied(None)) == []
    ensures ReplyMessages(Rejected) == [ChatMessage("model", ErrorReply)]
    ensures forall v: string | v != "" :: ReplyMessages(Replied(Some(v))) == [ChatMessage("model", v)]
  {
  }
}

=== FILE: api.dfy ===
/**
 * The values the extension host and its built-in extension modules exchange:
 * contributions (commands, sidebar panels, status-bar items, editor buttons,
 * settings), module manifests, and the calls an extension makes on the context
 * object it is activated with.
 *
 * JavaScript function values (command handlers, panel renderers, subscriber
 * callbacks) are modelled as tokens whose identity is their name: two handlers
 * are the same function exactly when their tokens are equal.
 */
module ExtensionApi {
  import opened Optional

  /** A command handler function, identified by name. */
  datatype Handler = Handler(name: string)

  /** A sidebar panel component, identified by name. */
  datatype Renderer = Renderer(name: string)

  /** An item handed to `context.window.createStatusBarItem`. */
  datatype StatusBarItem = StatusBarItem(id: string, text: string, command: string, tooltip: string, color: string)

  /** A button handed to `context.window.registerEditorButton` (`caption` is its `label`). */
  datatype EditorButton = EditorButton(id: string, caption: string, icon: string, tooltip: string, command: string, position: string)

  /** The `{id, ...item}` record `registerSidebarPanel` stores (`caption` is its `label`). */
  datatype SidebarItem = SidebarItem(id: string, icon: string, caption: string)

  /** A setting value as the settings store holds it. */
  datatype SettingValue = Str(s: string) | Num(n: int) | Bool(b: bool) {
    /** JavaScript truthiness: `''`, `0` and `false` are falsy. */
    predicate Truthy() {
      match this
      case Str(s) => s != ""
      case Num(n) => n != 0
      case Bool(b) => b
    }
  }

  /** A truthy optional setting: present and not falsy (`undefined` is falsy). */
  predicate TruthySetting(v: Option<SettingValue>) {
    v.Some? && v.value.Truthy()
  }

  /** One entry of a module's static `settings` array (`caption` is its `label`, `kind` its `type`). */
  datatype SettingItem = SettingItem(
    id: string,
    caption: string,
    kind: string,
    options: seq<string>,
    default: Option<SettingValue>,
    description: string,
    section: string,
    extensionId: string)

  /** A module's exported `metadata`. */
  datatype Manifest = Manifest(
    id: string,
    name: string,
    version: Option<string>,
    description: string,
    author: Option<string>,
    icon: Option<string>)

  /** The four `toast` functions of the host context. */
  datatype ToastKind = Success | Warning | Error | Info

  /**
   * One call an extension makes on its activation context. `Throw` stands for an
   * exception that ends the running `activate` (or handler) at that point.
   */
  datatype Call =
    | RegisterCommand(commandId: string, handler: Handler)
    | RegisterSidebarPanel(panelId: string, icon: string, caption: string, panel: Renderer)
    | CreateStatusBarItem(item: StatusBarItem)
    | RegisterEditorButton(button: EditorButton)
    | ShowInformationMessage(info: string)
    | ShowWarningMessage(warning: string)
    | ShowErrorMessage(error: string)
    | Toast(kind: ToastKind, message: string)
    | AddKeydownListener
    | Throw

  /** The status-bar items a list of calls creates, in call order. */
  function StatusBarItemsOf(calls: seq<Call>): seq<StatusBarItem> {
    if calls == [] then []
    else
      var c := calls[|calls| - 1];
      StatusBarItemsOf(calls[..|calls| - 1]) + (if c.CreateStatusBarItem? then [c.item] else [])
  }

  /** The editor buttons a list of calls registers, in call order. */
  function EditorButtonsOf(calls: seq<Call>): seq<EditorButton> {
    if calls == [] then []
    else
      var c := calls[|calls| - 1];
      EditorButtonsOf(calls[..|calls| - 1]) + (if c.RegisterEditorButton? then [c.button] else [])
  }

  /** The `{id, ...item}` records a list of calls adds to the sidebar, in call order. */
  function SidebarItemsOf(calls: seq<Call>): seq<SidebarItem> {
    if calls == [] then []
    else
      var c := calls[|calls| - 1];
      SidebarItemsOf(calls[..|calls| - 1])
        + (if c.RegisterSidebarPanel? then [SidebarItem(c.panelId, c.icon, c.caption)] else [])
  }

  /** The exports of one extension module: each may be missing. */
  datatype ExtModule = ExtModule(
    metadata: Option<Manifest>,
    settings: Option<seq<SettingItem>>,
    activate: Option<seq<Call>>,
    exportsDeactivate: bool)

  /** The argument object `executeCommand` forwards to a handler. */
  datatype Args = NoArgs | ChatRequest(history: seq<ChatMessage>, prompt: string)

  /** One `{role, parts}` message of the history chat panel. */
  datatype ChatMessage = ChatMessage(role: string, parts: string)
}

=== FILE: code_editor_ai.dfy ===
/**
 * The editor with its AI bar (`CodeEditorWithAI.jsx`): the editor language of
 * a file name, the line decorations that preview a proposed change, how an AI
 * reply becomes proposed code, and applying or rejecting it.
 */
module CodeEditorWithAI {
  import opened Optional
  import opened Strings
  import opened RegexScan
  import opened CodeParser
  import ProjectContext

  /** The editor's extension table. */
  const EditorLanguages: map<string, string> := map[
    "js" := "javascript", "jsx" := "javascript", "ts" := "typescript", "tsx" := "typescript",
    "css" := "css", "html" := "html", "json" := "json", "md" := "markdown", "py" := "python",
    "java" := "java", "cpp" := "cpp", "c" := "c", "sql" := "sql", "go" := "go", "rs" := "rust"]

  /** `getLanguage`: `javascript` without a name; else the table's entry for the lower-cased last `.` piece, `plaintext` otherwise. */
  function GetLanguage(filename: Option<string>): (language: string)
    ensures !Truthy(filename) ==> language == "javascript"
    ensures language == "javascript" || language == "plaintext" || language in EditorLanguages.Values
  {
    if !Truthy(filename) then "javascript"
    else
      var ext := ToLower(LastPiece(filename.value, '.'));
      if ext in EditorLanguages then EditorLanguages[ext] else "plaintext"
  }

  /** The language of `stem.ext` depends on the extension alone, ignoring case. */
  lemma GetLanguageByExtension(stem: string, ext: string)
    requires '.' !in ext
    ensures GetLanguage(Some(stem + "." + ext))
      == if ToLower(ext) in EditorLanguages then EditorLanguages[ToLower(ext)] else "plaintext"
  {
    ProjectContext.LastPieceAfter(stem, '.', ext);
  }

  /** The editor and the AI context name a `.jsx` file differently: `javascript` here, `react` there. */
  lemma JsxLanguagesDiffer(stem: string)
    ensures GetLanguage(Some(stem + ".jsx")) == "javascript"
    ensures ProjectContext.DetectLanguage(stem + ".jsx") == "react"
  {
    assert stem + ".jsx" == stem + "." + "jsx";
    GetLanguageByExtension(stem, "jsx");
    assert ToLower("jsx") == "jsx";
    ProjectContext.DetectLanguageByExtension(stem, "jsx");
  }

  // ---- diff preview ----

  datatype Mark = RemovedLine | ModifiedLine

  /** A whole-line decoration at a 1-based line. */
  datatype Decoration = Decoration(line: nat, mark: Mark)

  /** The mark of index `i`: a line only in the old text is removed; a line in both that differs is modified; an added line gets none. */
  function MarkAt(o: seq<string>, n: seq<string>, i: nat): (m: Option<Mark>)
    ensures m == Some(RemovedLine) <==> i < |o| && i >= |n|
    ensures m == Some(ModifiedLine) <==> i < |o| && i < |n| && o[i] != n[i]
  {
    if i < |o| && i >= |n| then Some(RemovedLine)
    else if i >= |o| && i < |n| then None
    else if i < |o| && i < |n| && o[i] != n[i] then Some(ModifiedLine)
    else None
  }

  /** The marks are the reply diff's removals and modifications: its additions are not shown. */
  lemma MarkAgreesWithDiff(o: seq<string>, n: seq<string>, i: nat)
    ensures MarkAt(o, n, i) == Some(RemovedLine) <==> ChangeAt(o, n, i).Some? && ChangeAt(o, n, i).value.Remove?
    ensures MarkAt(o, n, i) == Some(ModifiedLine) <==> ChangeAt(o, n, i).Some? && ChangeAt(o, n, i).value.Modify?
  {
  }

  /** The decorations of the indices below `i`, in line order. */
  function DecorationsBelow(o: seq<string>, n: seq<string>, i: nat): seq<Decoration> {
    if i == 0 then []
    else DecorationsBelow(o, n, i - 1) + DecorationOf(o, n, i)
  }

  /** The decoration of 1-based line `line`, if it has a mark. */
  function DecorationOf(o: seq<string>, n: seq<string>, line: nat): seq<Decoration>
    requires line >= 1
  {
    match MarkAt(o, n, line - 1)
    case Some(m) => [Decoration(line, m)]
    case None => []
  }

  /** Each decoration's line is below the next one's. */
  predicate LinesIncrease(ds: seq<Decoration>) {
    forall a, b | 0 <= a < b < |ds| :: ds[a].line < ds[b].line
  }

  /** A decoration is present exactly for each marked line up to `i`, and the lines strictly increase. */
  lemma {:induction false} DecorationsBelowSound(o: seq<string>, n: seq<string>, i: nat)
    ensures forall d :: d in DecorationsBelow(o, n, i) <==> 1 <= d.line <= i && MarkAt(o, n, d.line - 1) == Some(d.mark)
    ensures LinesIncrease(DecorationsBelow(o, n, i))
    ensures forall d | d in DecorationsBelow(o, n, i) :: d.line <= i
  {
    if i > 0 {
      DecorationsBelowSound(o, n, i - 1);
      var prev := DecorationsBelow(o, n, i - 1);
      var ds := DecorationsBelow(o, n, i);
      forall a, b | 0 <= a < b < |ds| ensures ds[a].line < ds[b].line {
        var last := DecorationOf(o, n, i);
        assert ds == prev + last;
        assert ds[a] == prev[a];
        if b >= |prev| {
          assert prev[a] in prev;
          assert prev[a].line <= i - 1;
          assert ds[b] == last[b - |prev|];
          assert last[b - |prev|].line == i;
        } else {
          assert ds[b] == prev[b];
          assert LinesIncrease(prev);
        }
      }
    }
  }

  /** `showDiffHighlight`'s loop: one pass over the longer of the two line lists. */
  method DiffDecorations(oldCode: string, newCode: string) returns (decorations: seq<Decoration>)
    ensures var o, n := Split(oldCode, '\n'), Split(newCode, '\n');
      decorations == DecorationsBelow(o, n, Max(|o|, |n|))
  {
    var oldLines := Split(oldCode, '\n');
    var newLines := Split(newCode, '\n');
    decorations := [];
    var i := 0;
    while i < Max(|oldLines|, |newLines|)
      invariant 0 <= i <= Max(|oldLines|, |newLines|)
      invariant decorations == DecorationsBelow(oldLines, newLines, i)
    {
      if i < |oldLines| && i >= |newLines| {
        decorations := decorations + [Decoration(i + 1, RemovedLine)];
      } else if i >= |oldLines| && i < |newLines| {
      } else if oldLines[i] != newLines[i] {
        decorations := decorations + [Decoration(i + 1, ModifiedLine)];
      }
      i := i + 1;
    }
  }

  // ---- from a reply to proposed code ----

  /** `operations.find(op => op.type === 'file')`. */
  function FirstFileOp(ops: seq<Operation>): (r: Option<Operation>)
    ensures r.Some? ==> r.value in ops && r.value.FileOp?
    ensures r.None? ==> forall k | 0 <= k < |ops| :: !ops[k].FileOp?
  {
    if ops == [] then None
    else if ops[0].FileOp? then Some(ops[0])
    else FirstFileOp(ops[1..])
  }

  /**
   * The code a reply proposes: with any operation, the content of the first
   * FILE operation (code blocks are not consulted); with none, the code of the
   * first fenced block. The lemmas below say what that means for a reply's text.
   */
  function Proposal(response: string): Option<string> {
    var ops := Parse(response).operations;
    if ops != [] then
      match FirstFileOp(ops)
      case Some(op) => Some(op.content)
      case None => None
    else
      var blocks := BlocksOf(AllMatches(Fence(false), response), "plaintext");
      if blocks != [] then Some(blocks[0].code) else None
  }

  /** The first FILE operation is the head of the FILE operations, in list order. */
  lemma {:induction false} FirstFileOpIsFirstOfKind(ops: seq<Operation>)
    ensures var files := OfKind(ops, FileKind);
      FirstFileOp(ops) == if files == [] then None else Some(files[0])
  {
    if ops != [] {
      FirstFileOpIsFirstOfKind(ops[1..]);
    }
  }

  /** A reply with a FILE block proposes the trimmed body of its first FILE block. */
  lemma FileReplyProposesFirstFile(response: string)
    requires AllMatches(FilePattern, response) != []
    ensures Proposal(response) == Some(Trim(AllMatches(FilePattern, response)[0].body))
  {
    var fm := AllMatches(FilePattern, response);
    ParseProperties(response);
    FirstFileOpIsFirstOfKind(Parse(response).operations);
    assert OfKind(Parse(response).operations, FileKind)[0] == FileOpOf(fm[0]);
  }

  /**
   * A reply with no FILE block but a fenced block that names a language, a
   * COMMAND block or a GIT block proposes nothing: its operation list is not
   * empty, so the fenced blocks are never read, and none of its operations is a
   * FILE one.
   */
  lemma CodeOnlyReplyProposesNothing(response: string)
    requires AllMatches(FilePattern, response) == []
    requires AllMatches(CodePattern, response) != [] || AllMatches(CommandPattern, response) != [] || AllMatches(GitPattern, response) != []
    ensures Proposal(response).None?
  {
    ParseProperties(response);
    FirstFileOpIsFirstOfKind(Parse(response).operations);
    assert |Parse(response).operations| > 0 by {
      var cm := AllMatches(CodePattern, response);
      var xm := AllMatches(CommandPattern, response);
      var gm := AllMatches(GitPattern, response);
      assert |Parse(response).operations| == |cm| + |xm| + |gm|;
    }
  }

  /**
   * A reply with no block of any kind the parser knows proposes the trimmed
   * body of its first fenced block, with or without a language, and nothing
   * when it has none.
   */
  lemma PlainReplyProposesFirstFence(response: string)
    requires AllMatches(FilePattern, response) == [] && AllMatches(CodePattern, response) == []
    requires AllMatches(CommandPattern, response) == [] && AllMatches(GitPattern, response) == []
    ensures var fences := AllMatches(Fence(false), response);
      Proposal(response) == if fences != [] then Some(Trim(fences[0].body)) else None
  {
    ParseProperties(response);
    assert Parse(response).operations == [];
    BlocksOfAt(AllMatches(Fence(false), response), "plaintext");
  }

  /** What a press of the AI button leads to. */
  datatype Outcome =
    | Ignored                    // blank prompt, or a request already running
    | AskedForKey                // no key: the AI settings open
    | NothingProposed
    | Applied(fileId: string, code: string)   // `onContentChange(file.id, code)`
    | Pending(code: string)
    | Failed(message: string)    // the alert of a failed request

  /** A request's reply, or the message of what it threw. */
  datatype Reply = Answered(text: string) | Threw(message: string)

  /** The editor's AI state. */
  class Editor {
    var aiPrompt: string
    var isGenerating: bool
    var pendingCode: Option<string>
    var diffDecorations: seq<Decoration>
    var showAISettings: bool

    constructor()
      ensures aiPrompt == "" && !isGenerating && pendingCode.None? && diffDecorations == [] && !showAISettings
    {
      aiPrompt, isGenerating, pendingCode, diffDecorations, showAISettings := "", false, None, [], false;
    }

    /**
     * `applyCode`: the code goes to the window as the file's new content; the
     * pending code and the decorations clear.
     */
    method ApplyCode(fileId: string, code: string) returns (outcome: Outcome)
      modifies this
      ensures outcome == Applied(fileId, code)
      ensures pendingCode.None? && diffDecorations == []
      ensures aiPrompt == old(aiPrompt) && isGenerating == old(isGenerating) && showAISettings == old(showAISettings)
    {
      outcome := Applied(fileId, code);
      pendingCode := None;
      if |diffDecorations| > 0 {
        diffDecorations := [];
      }
    }

    /** `rejectCode`: the pending code and the decorations clear, and nothing reaches the window. */
    method RejectCode()
      modifies this
      ensures pendingCode.None? && diffDecorations == []
      ensures aiPrompt == old(aiPrompt) && isGenerating == old(isGenerating) && showAISettings == old(showAISettings)
    {
      pendingCode := None;
      if |diffDecorations| > 0 {
        diffDecorations := [];
      }
    }

    /** `showDiffHighlight`: only with a mounted editor, the decorations of the change. */
    method ShowDiff(oldCode: string, newCode: string, mounted: bool)
      modifies this
      ensures mounted ==> diffDecorations == DecorationsBelow(Split(oldCode, '\n'), Split(newCode, '\n'),
        Max(|Split(oldCode, '\n')|, |Split(newCode, '\n')|))
      ensures !mounted ==> diffDecorations == old(diffDecorations)
      ensures aiPrompt == old(aiPrompt) && isGenerating == old(isGenerating) && pendingCode == old(pendingCode)
      ensures showAISettings == old(showAISettings)
    {
      if mounted {
        diffDecorations := DiffDecorations(oldCode, newCode);
      }
    }

    /**
     * `handleAIGenerate`, with the reply as a parameter: nothing for a blank
     * prompt or while generating; without a key the AI settings open and
     * nothing is requested; otherwise the proposed code is applied at once when
     * auto-apply is on or the project has no file, and is left pending with its
     * decorations otherwise. Generating ends on every path that started it.
     */
    method Generate(apiKey: Option<string>, autoApply: bool, projectEmpty: bool, fileId: string, fileContent: string,
                    mounted: bool, reply: Reply) returns (outcome: Outcome)
      modifies this
      ensures Blank(old(aiPrompt)) || old(isGenerating) ==>
        (outcome == Ignored && isGenerating == old(isGenerating) && pendingCode == old(pendingCode)
         && diffDecorations == old(diffDecorations) && showAISettings == old(showAISettings))
      ensures !(Blank(old(aiPrompt)) || old(isGenerating)) && !Truthy(apiKey) ==>
        (outcome == AskedForKey && showAISettings && !isGenerating && pendingCode == old(pendingCode))
      ensures !(Blank(old(aiPrompt)) || old(isGenerating)) && Truthy(apiKey) ==>
        (!isGenerating && showAISettings == old(showAISettings)
         && match reply
            case Threw(m) => outcome == Failed(m) && pendingCode == old(pendingCode)
            case Answered(text) =>
              match Proposal(text)
              case None => outcome == NothingProposed && pendingCode == old(pendingCode)
              case Some(code) =>
                if autoApply || projectEmpty then outcome == Applied(fileId, code) && pendingCode.None? && diffDecorations == []
                else
                  && outcome == Pending(code) && pendingCode == Some(code)
                  && (mounted ==> diffDecorations == DecorationsBelow(Split(fileContent, '\n'), Split(code, '\n'),
                                                                      Max(|Split(fileContent, '\n')|, |Split(code, '\n')|))))
      ensures aiPrompt == old(aiPrompt)
    {
      TrimEmptyIffBlank(aiPrompt);
      if Trim(aiPrompt) == "" || isGenerating {
        return Ignored;
      }
      if !Truthy(apiKey) {
        showAISettings := true;
        return AskedForKey;
      }
      isGenerating := true;
      match reply {
        case Threw(m) =>
          outcome := Failed(m);
        case Answered(text) =>
          var code := Proposal(text);
          if code.None? {
            outcome := NothingProposed;
          } else if autoApply || projectEmpty {
            outcome := ApplyCode(fileId, code.value);
          } else {
            pendingCode := Some(code.value);
            ShowDiff(fileContent, code.value, mounted);
            outcome := Pending(code.value);
          }
      }
      isGenerating := false;
    }
  }

  /** An extension button of the editor bar. */
  datatype EditorButtonView = EditorButtonView(id: string, command: Option<string>, hasOnClick: bool)

  /** What a click on an extension button does. */
  datatype ButtonClick = RunCommand(command: string) | OwnHandler | NoEffect

  /** A button with a command, when the window handles commands, runs it; otherwise the button's own handler runs, if any. */
  function ButtonDispatch(b: EditorButtonView, windowHandles: bool): (c: ButtonClick)
    ensures c.RunCommand? <==> Truthy(b.command) && windowHandles
    ensures c.RunCommand? ==> c.command == b.command.value
    ensures c == OwnHandler <==> !(Truthy(b.command) && windowHandles) && b.hasOnClick
  {
    if Truthy(b.command) && windowHandles then RunCommand(b.command.value)
    else if b.hasOnClick then OwnHandler
    else NoEffect
  }
}

=== FILE: code_parser.dfy ===
/**
 * The `CodeParser` of the AI coding service: reading a model reply into FILE,
 * code, COMMAND and GIT operations with a short summary; extracting fenced code
 * blocks; the line-by-line diff between two texts; and the file path suggested
 * for generated code.
 */
module CodeParser {
  import opened Optional
  import opened Strings
  import opened RegexScan

  const FilePattern: Pattern := FileBlock(false)
  const CodePattern: Pattern := Fence(true)
  const CommandPattern: Pattern := Directive("COMMAND:")
  const GitPattern: Pattern := Directive("GIT:")

  datatype Operation =
    | FileOp(path: string, language: string, content: string)
    | CodeOp(language: string, content: string)
    | CommandOp(command: string)
    | GitOp(command: string, requiresApproval: bool)

  datatype OpKind = FileKind | CodeKind | CommandKind | GitKind

  function KindOf(op: Operation): OpKind {
    match op
    case FileOp(_, _, _) => FileKind
    case CodeOp(_, _) => CodeKind
    case CommandOp(_) => CommandKind
    case GitOp(_, _) => GitKind
  }

  /** The operations of one kind, in list order. */
  function OfKind(ops: seq<Operation>, kind: OpKind): seq<Operation> {
    if ops == [] then []
    else (if KindOf(ops[0]) == kind then [ops[0]] else []) + OfKind(ops[1..], kind)
  }

  /** `operations.some(op => …)` for a test on the operation's type. */
  predicate AnyOf(ops: seq<Operation>, kinds: set<OpKind>) {
    exists k | 0 <= k < |ops| :: KindOf(ops[k]) in kinds
  }

  /** What `parseAIResponse` returns. */
  datatype ParsedResponse = ParsedResponse(
    operations: seq<Operation>,
    hasCode: bool,
    hasCommands: bool,
    hasGit: bool,
    summary: string,
    rawResponse: string)

  /** The operation each kind of match pushes. */
  function FileOpOf(m: Match): Operation {
    FileOp(Trim(m.head), m.language.GetOr("plaintext"), Trim(m.body))
  }

  function CodeOpOf(m: Match): Operation {
    CodeOp(m.language.GetOr(""), Trim(m.body))
  }

  function CommandOpOf(m: Match): Operation {
    CommandOp(Trim(m.head))
  }

  function GitOpOf(m: Match): Operation {
    GitOp(Trim(m.head), true)
  }

  function FileOps(ms: seq<Match>): (ops: seq<Operation>)
    ensures |ops| == |ms|
    ensures forall k | 0 <= k < |ops| :: ops[k] == FileOpOf(ms[k])
  {
    seq(|ms|, k requires 0 <= k < |ms| => FileOpOf(ms[k]))
  }

  function CodeOps(ms: seq<Match>): (ops: seq<Operation>)
    ensures |ops| == |ms|
    ensures forall k | 0 <= k < |ops| :: ops[k] == CodeOpOf(ms[k])
  {
    seq(|ms|, k requires 0 <= k < |ms| => CodeOpOf(ms[k]))
  }

  function CommandOps(ms: seq<Match>): (ops: seq<Operation>)
    ensures |ops| == |ms|
    ensures forall k | 0 <= k < |ops| :: ops[k] == CommandOpOf(ms[k])
  {
    seq(|ms|, k requires 0 <= k < |ms| => CommandOpOf(ms[k]))
  }

  function GitOps(ms: seq<Match>): (ops: seq<Operation>)
    ensures |ops| == |ms|
    ensures forall k | 0 <= k < |ops| :: ops[k] == GitOpOf(ms[k])
  {
    seq(|ms|, k requires 0 <= k < |ms| => GitOpOf(ms[k]))
  }

  function Min(a: int, b: int): int {
    if a < b then a else b
  }

  /** `response.split('\n').slice(0, 5).join('\n')`. */
  function FirstLines(response: string): string {
    var lines := Split(response, '\n');
    Join(lines[..Min(5, |lines|)], "\n")
  }

  /** The summary: the first five lines, trimmed, cut to 200 characters. */
  function Summary(response: string): string {
    var t := Trim(FirstLines(response));
    t[..Min(200, |t|)]
  }

  /**
   * The operation list built from the FILE, code, COMMAND and GIT matches: the
   * code matches are read only when there is no FILE match.
   */
  function Operations(fm: seq<Match>, cm: seq<Match>, xm: seq<Match>, gm: seq<Match>): seq<Operation> {
    FileOps(fm) + (if fm == [] then CodeOps(cm) else []) + CommandOps(xm) + GitOps(gm)
  }

  /** The result object for a reply and its operation list. */
  function Assemble(response: string, ops: seq<Operation>): ParsedResponse {
    ParsedResponse(
      ops,
      AnyOf(ops, {FileKind, CodeKind}),
      AnyOf(ops, {CommandKind}),
      AnyOf(ops, {GitKind}),
      Summary(response),
      response)
  }

  /** `parseAIResponse`, as a value. */
  function Parse(response: string): (r: ParsedResponse)
    ensures |r.operations| == |AllMatches(FilePattern, response)|
      + (if AllMatches(FilePattern, response) == [] then |AllMatches(CodePattern, response)| else 0)
      + |AllMatches(CommandPattern, response)| + |AllMatches(GitPattern, response)|
  {
    Assemble(response, Operations(
      AllMatches(FilePattern, response), AllMatches(CodePattern, response),
      AllMatches(CommandPattern, response), AllMatches(GitPattern, response)))
  }

  /**
   * `parseAIResponse`: the FILE loop, the standalone code loop (only when no FILE
   * operation was found), the COMMAND loop and the GIT loop, then the flags and
   * the summary.
   */
  method ParseAIResponse(response: string) returns (r: ParsedResponse)
    ensures r == Parse(response)
  {
    var fileMatches := Collect(Table(FilePattern, response));
    var codeMatches: seq<Match> := [];
    if |fileMatches| == 0 {
      codeMatches := Collect(Table(CodePattern, response));
    }
    var commandMatches := Collect(Table(CommandPattern, response));
    var gitMatches := Collect(Table(GitPattern, response));
    r := Assemble(response, Operations(fileMatches, codeMatches, commandMatches, gitMatches));
  }

  /** The position of a kind in the reply's operation list: FILE or code, then COMMAND, then GIT. */
  function Rank(op: Operation): nat {
    match op
    case FileOp(_, _, _) => 0
    case CodeOp(_, _) => 0
    case CommandOp(_) => 1
    case GitOp(_, _) => 2
  }

  lemma {:induction false} OfKindAppend(a: seq<Operation>, b: seq<Operation>, kind: OpKind)
    ensures OfKind(a + b, kind) == OfKind(a, kind) + OfKind(b, kind)
    decreases |a|
  {
    if a == [] {
      assert a + b == b;
    } else {
      var head := if KindOf(a[0]) == kind then [a[0]] else [];
      assert (a + b)[0] == a[0];
      assert (a + b)[1..] == a[1..] + b;
      OfKindAppend(a[1..], b, kind);
      calc {
        OfKind(a + b, kind);
        head + OfKind(a[1..] + b, kind);
        head + (OfKind(a[1..], kind) + OfKind(b, kind));
        (head + OfKind(a[1..], kind)) + OfKind(b, kind);
        OfKind(a, kind) + OfKind(b, kind);
      }
    }
  }

  /** Every operation of the list has the given kind. */
  predicate Uniform(ops: seq<Operation>, kind: OpKind) {
    forall k | 0 <= k < |ops| :: KindOf(ops[k]) == kind
  }

  /** A list whose operations all have one kind keeps all of them for that kind and none for another. */
  lemma {:induction false} OfKindUniform(ops: seq<Operation>, kind: OpKind, other: OpKind)
    requires Uniform(ops, kind)
    ensures OfKind(ops, other) == (if other == kind then ops else [])
    decreases |ops|
  {
    if ops != [] {
      OfKindUniform(ops[1..], kind, other);
      assert ops == [ops[0]] + ops[1..];
    }
  }

  /** `some` over a concatenation is `some` over either part. */
  lemma AnyOfAppend(a: seq<Operation>, b: seq<Operation>, kinds: set<OpKind>)
    ensures AnyOf(a + b, kinds) <==> AnyOf(a, kinds) || AnyOf(b, kinds)
  {
    if AnyOf(a + b, kinds) {
      var k :| 0 <= k < |a + b| && KindOf((a + b)[k]) in kinds;
      if k >= |a| {
        assert b[k - |a|] == (a + b)[k];
      }
    }
    if AnyOf(a, kinds) {
      var k :| 0 <= k < |a| && KindOf(a[k]) in kinds;
      assert (a + b)[k] == a[k];
    }
    if AnyOf(b, kinds) {
      var k :| 0 <= k < |b| && KindOf(b[k]) in kinds;
      assert (a + b)[|a| + k] == b[k];
    }
  }

  /** `some` over a list of one kind holds exactly when the list is non-empty and the kind is one of those asked about. */
  lemma AnyOfUniform(ops: seq<Operation>, kind: OpKind, kinds: set<OpKind>)
    requires Uniform(ops, kind)
    ensures AnyOf(ops, kinds) <==> ops != [] && kind in kinds
  {
    if ops != [] && kind in kinds {
      assert KindOf(ops[0]) in kinds;
    }
  }

  /** The four parts of the operation list, each of one kind. */
  lemma PartsUniform(fm: seq<Match>, cm: seq<Match>, xm: seq<Match>, gm: seq<Match>)
    ensures Uniform(FileOps(fm), FileKind)
    ensures Uniform(if fm == [] then CodeOps(cm) else [], CodeKind)
    ensures Uniform(CommandOps(xm), CommandKind)
    ensures Uniform(GitOps(gm), GitKind)
  {
    forall k | 0 <= k < |fm| ensures KindOf(FileOps(fm)[k]) == FileKind {
    }
    forall k | 0 <= k < |cm| ensures KindOf(CodeOps(cm)[k]) == CodeKind {
    }
    forall k | 0 <= k < |xm| ensures KindOf(CommandOps(xm)[k]) == CommandKind {
    }
    forall k | 0 <= k < |gm| ensures KindOf(GitOps(gm)[k]) == GitKind {
    }
  }

  /** The operations of one kind in a list made of four single-kind parts. */
  lemma OfKindParts(a: seq<Operation>, b: seq<Operation>, c: seq<Operation>, d: seq<Operation>, kind: OpKind)
    requires Uniform(a, FileKind) && Uniform(b, CodeKind) && Uniform(c, CommandKind) && Uniform(d, GitKind)
    ensures OfKind(a + b + c + d, kind) ==
      match kind
      case FileKind => a
      case CodeKind => b
      case CommandKind => c
      case GitKind => d
  {
    OfKindAppend(a + b + c, d, kind);
    OfKindAppend(a + b, c, kind);
    OfKindAppend(a, b, kind);
    OfKindUniform(a, FileKind, kind);
    OfKindUniform(b, CodeKind, kind);
    OfKindUniform(c, CommandKind, kind);
    OfKindUniform(d, GitKind, kind);
  }

  /** `some` over a list made of four single-kind parts. */
  lemma AnyOfParts(a: seq<Operation>, b: seq<Operation>, c: seq<Operation>, d: seq<Operation>, kinds: set<OpKind>)
    requires Uniform(a, FileKind) && Uniform(b, CodeKind) && Uniform(c, CommandKind) && Uniform(d, GitKind)
    ensures AnyOf(a + b + c + d, kinds) <==>
      (a != [] && FileKind in kinds) || (b != [] && CodeKind in kinds)
      || (c != [] && CommandKind in kinds) || (d != [] && GitKind in kinds)
  {
    AnyOfAppend(a + b + c, d, kinds);
    AnyOfAppend(a + b, c, kinds);
    AnyOfAppend(a, b, kinds);
    AnyOfUniform(a, FileKind, kinds);
    AnyOfUniform(b, CodeKind, kinds);
    AnyOfUniform(c, CommandKind, kinds);
    AnyOfUniform(d, GitKind, kinds);
  }

  /**
   * The reply's operations, kind by kind: the FILE blocks in text order; the
   * standalone code blocks in text order only when there is no FILE block; the
   * COMMAND lines; the GIT lines.
   */
  lemma OperationsByKind(fm: seq<Match>, cm: seq<Match>, xm: seq<Match>, gm: seq<Match>)
    ensures var ops := Operations(fm, cm, xm, gm);
      && OfKind(ops, FileKind) == FileOps(fm)
      && OfKind(ops, CodeKind) == (if fm == [] then CodeOps(cm) else [])
      && OfKind(ops, CommandKind) == CommandOps(xm)
      && OfKind(ops, GitKind) == GitOps(gm)
  {
    var code := if fm == [] then CodeOps(cm) else [];
    PartsUniform(fm, cm, xm, gm);
    OfKindParts(FileOps(fm), code, CommandOps(xm), GitOps(gm), FileKind);
    OfKindParts(FileOps(fm), code, CommandOps(xm), GitOps(gm), CodeKind);
    OfKindParts(FileOps(fm), code, CommandOps(xm), GitOps(gm), CommandKind);
    OfKindParts(FileOps(fm), code, CommandOps(xm), GitOps(gm), GitKind);
  }

  /** Where an index of a four-part list falls. */
  lemma PartAt(a: seq<Operation>, b: seq<Operation>, c: seq<Operation>, d: seq<Operation>, k: nat)
    requires k < |a| + |b| + |c| + |d|
    ensures (a + b + c + d)[k] ==
      if k < |a| then a[k]
      else if k < |a| + |b| then b[k - |a|]
      else if k < |a| + |b| + |c| then c[k - |a| - |b|]
      else d[k - |a| - |b| - |c|]
  {
  }

  /** FILE and code operations come first, then COMMAND, then GIT. */
  lemma OperationsRanked(fm: seq<Match>, cm: seq<Match>, xm: seq<Match>, gm: seq<Match>)
    ensures var ops := Operations(fm, cm, xm, gm);
      forall i, j | 0 <= i < j < |ops| :: Rank(ops[i]) <= Rank(ops[j])
  {
    var files := FileOps(fm);
    var code := if fm == [] then CodeOps(cm) else [];
    var commands := CommandOps(xm);
    var gits := GitOps(gm);
    var ops := Operations(fm, cm, xm, gm);
    var n0 := |files| + |code|;
    var n1 := n0 + |commands|;
    forall k | 0 <= k < |ops|
      ensures Rank(ops[k]) == (if k < n0 then 0 else if k < n1 then 1 else 2)
    {
      PartAt(files, code, commands, gits, k);
    }
  }

  /**
   * `hasCode`, `hasCommands` and `hasGit` say whether the reply holds a FILE or
   * standalone code block, a COMMAND line and a GIT line.
   */
  lemma OperationsFlags(fm: seq<Match>, cm: seq<Match>, xm: seq<Match>, gm: seq<Match>)
    ensures var ops := Operations(fm, cm, xm, gm);
      && (AnyOf(ops, {FileKind, CodeKind}) <==> fm != [] || cm != [])
      && (AnyOf(ops, {CommandKind}) <==> xm != [])
      && (AnyOf(ops, {GitKind}) <==> gm != [])
  {
    var code := if fm == [] then CodeOps(cm) else [];
    PartsUniform(fm, cm, xm, gm);
    AnyOfParts(FileOps(fm), code, CommandOps(xm), GitOps(gm), {FileKind, CodeKind});
    AnyOfParts(FileOps(fm), code, CommandOps(xm), GitOps(gm), {CommandKind});
    AnyOfParts(FileOps(fm), code, CommandOps(xm), GitOps(gm), {GitKind});
  }

  /** An operation that is not a GIT one, or a GIT one that asks for approval. */
  predicate Approved(op: Operation) {
    op.GitOp? ==> op.requiresApproval
  }

  /** Every GIT operation asks for approval. */
  lemma GitNeedsApproval(fm: seq<Match>, cm: seq<Match>, xm: seq<Match>, gm: seq<Match>)
    ensures var ops := Operations(fm, cm, xm, gm);
      forall k | 0 <= k < |ops| :: Approved(ops[k])
  {
    var files := FileOps(fm);
    var code := if fm == [] then CodeOps(cm) else [];
    var commands := CommandOps(xm);
    var gits := GitOps(gm);
    var ops := Operations(fm, cm, xm, gm);
    forall k | 0 <= k < |ops| ensures Approved(ops[k]) {
      PartAt(files, code, commands, gits, k);
    }
  }

  /** The two lemmas above for the matches the four patterns find in a reply. */
  lemma ParseProperties(response: string)
    ensures var fm := AllMatches(FilePattern, response);
      var cm := AllMatches(CodePattern, response);
      var xm := AllMatches(CommandPattern, response);
      var gm := AllMatches(GitPattern, response);
      var p := Parse(response);
      && p.operations == Operations(fm, cm, xm, gm)
      && OfKind(p.operations, FileKind) == FileOps(fm)
      && OfKind(p.operations, CodeKind) == (if fm == [] then CodeOps(cm) else [])
      && OfKind(p.operations, CommandKind) == CommandOps(xm)
      && OfKind(p.operations, GitKind) == GitOps(gm)
      && (p.hasCode <==> fm != [] || cm != [])
      && (p.hasCommands <==> xm != [])
      && (p.hasGit <==> gm != [])
  {
    var fm := AllMatches(FilePattern, response);
    var cm := AllMatches(CodePattern, response);
    var xm := AllMatches(CommandPattern, response);
    var gm := AllMatches(GitPattern, response);
    OperationsByKind(fm, cm, xm, gm);
    OperationsFlags(fm, cm, xm, gm);
  }

  /**
   * The summary holds at most 200 characters and is the start of the trimmed
   * text before the fifth line break, which is itself the start of the reply and
   * holds exactly its first five lines. A reply of at most five lines whose
   * trimmed text is at most 200 characters long is its own summary, trimmed.
   */
  lemma SummaryOfReply(response: string)
    ensures |Summary(response)| <= 200
    ensures var head := FirstLines(response);
      var lines := Split(response, '\n');
      && StartsWith(response, head)
      && Split(head, '\n') == lines[..Min(5, |lines|)]
      && StartsWith(Trim(head), Summary(response))
    ensures |Split(response, '\n')| <= 5 && |Trim(response)| <= 200 ==> Summary(response) == Trim(response)
  {
    var lines := Split(response, '\n');
    SplitPieces(response, '\n');
    JoinFirstPieces(response, '\n', 5);
    SplitJoin(lines[..Min(5, |lines|)], '\n');
  }

  /** One block `extractCodeBlocks` returns. */
  datatype CodeBlock = CodeBlock(language: string, code: string)

  /** The block a fence match gives. */
  function BlockOf(m: Match, defaultLanguage: string): CodeBlock {
    CodeBlock(m.language.GetOr(defaultLanguage), Trim(m.body))
  }

  /** The blocks of a list of fence matches, one per match. */
  function BlocksOf(ms: seq<Match>, defaultLanguage: string): seq<CodeBlock> {
    if ms == [] then [] else BlocksOf(ms[..|ms| - 1], defaultLanguage) + [BlockOf(ms[|ms| - 1], defaultLanguage)]
  }

  /** One block per match, in match order. */
  lemma {:induction false} BlocksOfAt(ms: seq<Match>, defaultLanguage: string)
    ensures |BlocksOf(ms, defaultLanguage)| == |ms|
    ensures forall k | 0 <= k < |ms| :: BlocksOf(ms, defaultLanguage)[k] == BlockOf(ms[k], defaultLanguage)
  {
    if ms != [] {
      var init := ms[..|ms| - 1];
      BlocksOfAt(init, defaultLanguage);
      forall k | 0 <= k < |init| ensures ms[k] == init[k] {
      }
    }
  }

  /**
   * `extractCodeBlocks`: every fenced block in text order, with its language
   * (`defaultLanguage` when the fence names none) and its trimmed code.
   * The service passes `plaintext`; the chat panel's own copy passes `text`.
   */
  method ExtractCodeBlocks(text: string, defaultLanguage: string) returns (blocks: seq<CodeBlock>)
    ensures blocks == BlocksOf(AllMatches(Fence(false), text), defaultLanguage)
  {
    var ms := Collect(Table(Fence(false), text));
    blocks := PushBlocks(ms, defaultLanguage);
  }

  /** The `blocks.push` of the `extractCodeBlocks` loop, once per match. */
  method PushBlocks(ms: seq<Match>, defaultLanguage: string) returns (blocks: seq<CodeBlock>)
    ensures blocks == BlocksOf(ms, defaultLanguage)
  {
    blocks := [];
    var i := 0;
    while i < |ms|
      invariant 0 <= i <= |ms|
      invariant blocks == BlocksOf(ms[..i], defaultLanguage)
    {
      blocks := blocks + [BlockOf(ms[i], defaultLanguage)];
      assert ms[..i + 1][..i] == ms[..i];
      i := i + 1;
    }
    assert ms[..i] == ms;
  }

  /** A block written in the documented format is extracted as that one block, with its code trimmed. */
  lemma ExtractRendered(language: string, code: string, defaultLanguage: string)
    requires IsWord(language) && FenceFree(code)
    ensures BlocksOf(AllMatches(Fence(false), RenderFence(language, code)), defaultLanguage)
      == [CodeBlock(language, Trim(code))]
  {
    FenceRoundTrip(language, code, false);
  }

  // ---- computeDiff ----

  datatype Change =
    | Add(line: nat, content: string)
    | Remove(line: nat, content: string)
    | Modify(line: nat, oldContent: string, newContent: string)

  datatype Diff = Diff(changes: seq<Change>, additions: nat, deletions: nat, modifications: nat)

  function Max(a: int, b: int): int {
    if a < b then b else a
  }

  /** The change at index `i` (line `i + 1`): a line only in the new text, only in the old one, or different in both. */
  function ChangeAt(o: seq<string>, n: seq<string>, i: nat): Option<Change> {
    if i >= |o| && i < |n| then Some(Add(i + 1, n[i]))
    else if i < |o| && i >= |n| then Some(Remove(i + 1, o[i]))
    else if i < |o| && i < |n| && o[i] != n[i] then Some(Modify(i + 1, o[i], n[i]))
    else None
  }

  /** The changes at indices below `i`, in index order. */
  function ChangesBelow(o: seq<string>, n: seq<string>, i: nat): seq<Change> {
    if i == 0 then []
    else
      var c := ChangeAt(o, n, i - 1);
      ChangesBelow(o, n, i - 1) + (if c.Some? then [c.value] else [])
  }

  /** How many changes of each constructor a list holds (`changes.filter(…).length`). */
  function CountAdds(cs: seq<Change>): nat {
    if cs == [] then 0 else CountAdds(cs[..|cs| - 1]) + (if cs[|cs| - 1].Add? then 1 else 0)
  }

  function CountRemoves(cs: seq<Change>): nat {
    if cs == [] then 0 else CountRemoves(cs[..|cs| - 1]) + (if cs[|cs| - 1].Remove? then 1 else 0)
  }

  function CountModifies(cs: seq<Change>): nat {
    if cs == [] then 0 else CountModifies(cs[..|cs| - 1]) + (if cs[|cs| - 1].Modify? then 1 else 0)
  }

  /** The changes below `i` grow by at most the change at `i - 1`. */
  lemma ChangesBelowStep(o: seq<string>, n: seq<string>, i: nat)
    requires i > 0
    ensures var prev := ChangesBelow(o, n, i - 1);
      var cs := ChangesBelow(o, n, i);
      var c := ChangeAt(o, n, i - 1);
      && (c.None? ==> cs == prev)
      && (c.Some? ==> |cs| == |prev| + 1 && cs[..|prev|] == prev && cs[|prev|] == c.value)
  {
  }

  /** Additions are the lines the new text has past the old text's end. */
  lemma {:induction false} CountAddsBelow(o: seq<string>, n: seq<string>, i: nat)
    ensures CountAdds(ChangesBelow(o, n, i)) == Max(0, Min(i, |n|) - |o|)
  {
    if i > 0 {
      CountAddsBelow(o, n, i - 1);
      ChangesBelowStep(o, n, i);
    }
  }

  /** Deletions are the lines the old text has past the new text's end. */
  lemma {:induction false} CountRemovesBelow(o: seq<string>, n: seq<string>, i: nat)
    ensures CountRemoves(ChangesBelow(o, n, i)) == Max(0, Min(i, |o|) - |n|)
  {
    if i > 0 {
      CountRemovesBelow(o, n, i - 1);
      ChangesBelowStep(o, n, i);
    }
  }

  /** Every change is counted once, under its own kind. */
  lemma {:induction false} CountsPartition(cs: seq<Change>)
    ensures CountAdds(cs) + CountRemoves(cs) + CountModifies(cs) == |cs|
  {
    if cs != [] {
      CountsPartition(cs[..|cs| - 1]);
    }
  }

  /** The line numbers the changes of a list carry. */
  function Lines(cs: seq<Change>): set<nat> {
    set k | 0 <= k < |cs| :: cs[k].line
  }

  /** Each change below `i` is the change at its own line, and that line is at most `i`. */
  lemma {:induction false} ChangesBelowSound(o: seq<string>, n: seq<string>, i: nat)
    ensures var cs := ChangesBelow(o, n, i);
      forall k | 0 <= k < |cs| :: 1 <= cs[k].line <= i && ChangeAt(o, n, cs[k].line - 1) == Some(cs[k])
  {
    if i > 0 {
      ChangesBelowSound(o, n, i - 1);
      ChangesBelowStep(o, n, i);
      var prev := ChangesBelow(o, n, i - 1);
      var cs := ChangesBelow(o, n, i);
      forall k | 0 <= k < |prev| ensures cs[k] == prev[k] {
        if ChangeAt(o, n, i - 1).Some? {
          assert cs[..|prev|][k] == prev[k];
        }
      }
    }
  }

  /** The changes are listed by strictly increasing line. */
  lemma {:induction false} ChangesBelowIncreasing(o: seq<string>, n: seq<string>, i: nat)
    ensures var cs := ChangesBelow(o, n, i);
      forall k | 0 <= k < |cs| - 1 :: cs[k].line < cs[k + 1].line
  {
    if i > 0 {
      ChangesBelowIncreasing(o, n, i - 1);
      ChangesBelowSound(o, n, i - 1);
      ChangesBelowStep(o, n, i);
      var prev := ChangesBelow(o, n, i - 1);
      var cs := ChangesBelow(o, n, i);
      if ChangeAt(o, n, i - 1).Some? {
        forall k | 0 <= k < |prev| ensures cs[k] == prev[k] {
          assert cs[..|prev|][k] == prev[k];
        }
      }
    }
  }

  /** An index below `i` has a change exactly when its line is listed. */
  lemma {:induction false} ChangesBelowComplete(o: seq<string>, n: seq<string>, i: nat)
    ensures var cs := ChangesBelow(o, n, i);
      forall j | 0 <= j < i :: ChangeAt(o, n, j).Some? <==> j + 1 in Lines(cs)
  {
    if i > 0 {
      ChangesBelowComplete(o, n, i - 1);
      ChangesBelowSound(o, n, i - 1);
      ChangesBelowStep(o, n, i);
      var prev := ChangesBelow(o, n, i - 1);
      var cs := ChangesBelow(o, n, i);
      var c := ChangeAt(o, n, i - 1);
      if c.Some? {
        forall k | 0 <= k < |prev| ensures cs[k] == prev[k] {
          assert cs[..|prev|][k] == prev[k];
        }
        forall x ensures x in Lines(cs) <==> x in Lines(prev) || x == i {
          if x in Lines(cs) {
            var k :| 0 <= k < |cs| && cs[k].line == x;
            if k < |prev| {
              assert prev[k].line == x;
            }
          }
          if x in Lines(prev) {
            var k :| 0 <= k < |prev| && prev[k].line == x;
            assert cs[k].line == x;
          }
        }
        assert Lines(cs) == Lines(prev) + {i};
      }
      forall j | 0 <= j < i - 1 ensures ChangeAt(o, n, j).Some? ==> j + 1 != i {
      }
      assert i !in Lines(prev);
    }
  }

  /** Equal texts have no changes. */
  lemma {:induction false} SameTextNoChanges(o: seq<string>, i: nat)
    ensures ChangesBelow(o, o, i) == []
  {
    if i > 0 {
      SameTextNoChanges(o, i - 1);
    }
  }

  /** The `for` loop of `computeDiff`: one step per index below the longer line count. */
  method CollectChanges(oldLines: seq<string>, newLines: seq<string>) returns (changes: seq<Change>)
    ensures changes == ChangesBelow(oldLines, newLines, Max(|oldLines|, |newLines|))
  {
    changes := [];
    var maxLen := Max(|oldLines|, |newLines|);
    var i := 0;
    while i < maxLen
      invariant 0 <= i <= maxLen
      invariant changes == ChangesBelow(oldLines, newLines, i)
    {
      if i >= |oldLines| && i < |newLines| {
        changes := changes + [Add(i + 1, newLines[i])];
      } else if i < |oldLines| && i >= |newLines| {
        changes := changes + [Remove(i + 1, oldLines[i])];
      } else if oldLines[i] != newLines[i] {
        changes := changes + [Modify(i + 1, oldLines[i], newLines[i])];
      }
      i := i + 1;
    }
  }

  /**
   * `computeDiff`: the changes between the lines of the two texts, then the
   * three counts.
   */
  method ComputeDiff(oldCode: string, newCode: string) returns (d: Diff)
    ensures var o := Split(oldCode, '\n');
      var n := Split(newCode, '\n');
      && d.changes == ChangesBelow(o, n, Max(|o|, |n|))
      && d.additions == Max(0, |n| - |o|)
      && d.deletions == Max(0, |o| - |n|)
      && d.additions + d.deletions + d.modifications == |d.changes|
    ensures oldCode == newCode ==> d.changes == [] && d.modifications == 0
  {
    var oldLines := Split(oldCode, '\n');
    var newLines := Split(newCode, '\n');
    var changes := CollectChanges(oldLines, newLines);
    var maxLen := Max(|oldLines|, |newLines|);
    CountAddsBelow(oldLines, newLines, maxLen);
    CountRemovesBelow(oldLines, newLines, maxLen);
    CountsPartition(changes);
    if oldCode == newCode {
      SameTextNoChanges(oldLines, maxLen);
    }
    d := Diff(changes, CountAdds(changes), CountRemoves(changes), CountModifies(changes));
  }

  // ---- suggestFilePath ----

  /** The per-language default paths. */
  const DefaultPaths: map<string, string> := map[
    "javascript" := "src/index.js",
    "typescript" := "src/index.ts",
    "python" := "main.py",
    "html" := "index.html",
    "css" := "styles.css"]

  /** Content that `suggestFilePath` takes for a React component. */
  predicate LooksLikeReact(content: string) {
    Contains(content, "import React") || Contains(content, "export default")
  }

  /** `suggestFilePath`: a React or Express guess for JavaScript and TypeScript, else the language's default path, else `untitled.txt`. */
  function SuggestFilePath(content: string, language: string): (path: string)
    ensures path in {"src/App.jsx", "src/server.js", "untitled.txt"} + DefaultPaths.Values
    ensures language !in DefaultPaths ==> path == "untitled.txt"
    ensures (language == "javascript" || language == "typescript") && LooksLikeReact(content) ==> path == "src/App.jsx"
    ensures (language == "javascript" || language == "typescript") && !LooksLikeReact(content) && Contains(content, "express(") ==>
      path == "src/server.js"
    ensures language in DefaultPaths && !((language == "javascript" || language == "typescript") && (LooksLikeReact(content) || Contains(content, "express(")))
      ==> path == DefaultPaths[language]
  {
    if (language == "javascript" || language == "typescript") && LooksLikeReact(content) then "src/App.jsx"
    else if (language == "javascript" || language == "typescript") && Contains(content, "express(") then "src/server.js"
    else if language in DefaultPaths then DefaultPaths[language]
    else "untitled.txt"
  }
}

=== FILE: command_palette.dfy ===
/**
 * The command palette (`CommandPalette.jsx`): the static commands followed by
 * one entry per extension command, filtered by the query, with a selection
 * index moved by the arrow keys.
 */
module CommandPalette {
  import opened Optional
  import opened Strings
  import opened Lists

  /** A palette entry (its icon is not modelled). */
  datatype Command = Command(id: string, title: string, category: string)

  const StaticCommands: seq<Command> := [
    Command("newFile", "File: New File", "File"),
    Command("openFolder", "File: Open Folder", "File"),
    Command("save", "File: Save", "File"),
    Command("toggleTerminal", "View: Toggle Terminal", "View"),
    Command("openSettings", "Preferences: Open Settings", "Preferences")]

  const ExtensionPrefix: string := "Ext: "

  /** The label of an extension command: the prefix, then the id with its first `.` turned into `: `. */
  function ExtensionLabel(id: string): (title: string)
    ensures StartsWith(title, ExtensionPrefix)
  {
    var title := ExtensionPrefix + ReplaceFirst(id, ".", ": ");
    assert title[..|ExtensionPrefix|] == ExtensionPrefix;
    title
  }

  /** An id without a dot is shown as it is, after the prefix. */
  lemma ExtensionLabelNoDot(id: string)
    requires '.' !in id
    ensures ExtensionLabel(id) == ExtensionPrefix + id
  {
    forall j | 0 <= j < |id| ensures !OccursAt(id, ".", j) {
      assert id[j..j + 1] == [id[j]];
    }
  }

  /** Only the first dot of an id becomes `: `; later dots stay. */
  lemma ExtensionLabelFirstDot(scope: string, rest: string)
    requires '.' !in scope
    ensures ExtensionLabel(scope + "." + rest) == ExtensionPrefix + scope + ": " + rest
  {
    var id := scope + "." + rest;
    assert OccursAt(id, ".", |scope|) by { assert id[|scope|..|scope| + 1] == "."; }
    var found := IndexOfFrom(id, ".", 0);
    forall j | 0 <= j < |scope| ensures !OccursAt(id, ".", j) {
      assert id[j..j + 1] == [scope[j]];
    }
    assert found == Some(|scope|);
    assert id[..|scope|] == scope && id[|scope| + 1..] == rest;
  }

  /** The extension entries, one per registered command id, in the registry's order. */
  function ExtensionCommands(ids: seq<string>): (cmds: seq<Command>)
    ensures |cmds| == |ids|
    ensures forall k | 0 <= k < |ids| :: cmds[k] == Command(ids[k], ExtensionLabel(ids[k]), "Extension")
  {
    seq(|ids|, k requires 0 <= k < |ids| => Command(ids[k], ExtensionLabel(ids[k]), "Extension"))
  }

  /** The entries whose lower-cased label contains the lower-cased query, in order. */
  function Filtered(all: seq<Command>, query: string): (r: seq<Command>)
    ensures |r| <= |all|
    ensures forall cmd :: cmd in r <==> cmd in all && ContainsIgnoringCase(cmd.title, query)
  {
    Filter(all, (cmd: Command) => ContainsIgnoringCase(cmd.title, query))
  }

  /** Every string contains the empty one. */
  lemma ContainsEmpty(s: string)
    ensures Contains(s, "")
  {
    assert OccursAt(s, "", 0);
  }

  /** An empty query keeps every entry, in order. */
  lemma EmptyQueryKeepsAll(all: seq<Command>)
    ensures Filtered(all, "") == all
  {
    forall cmd: Command ensures ContainsIgnoringCase(cmd.title, "") {
      ContainsEmpty(ToLower(cmd.title));
    }
    FilterKeepsAll(all, (cmd: Command) => ContainsIgnoringCase(cmd.title, ""));
  }

  /** The entries an item found by the filter came from: those whose label matches the query. */
  lemma FilteredMembers(all: seq<Command>, query: string, cmd: Command)
    ensures cmd in Filtered(all, query) <==> cmd in all && ContainsIgnoringCase(cmd.title, query)
  {
  }

  /** `ArrowDown`: one further, but not past the last entry (so -1 when there is none). */
  function Down(index: int, count: nat): (next: int)
    ensures next <= count - 1
    ensures index + 1 <= count - 1 ==> next == index + 1
    ensures index + 1 > count - 1 ==> next == count - 1
  {
    if index + 1 < count - 1 then index + 1 else count - 1
  }

  /** `ArrowUp`: one back, but not before the first entry. */
  function Up(index: int): (next: int)
    ensures next >= 0
    ensures index - 1 >= 0 ==> next == index - 1
    ensures index - 1 < 0 ==> next == 0
  {
    if index - 1 > 0 then index - 1 else 0
  }

  /** From a selectable index, both arrows keep the index selectable. */
  lemma ArrowsStayInRange(index: int, count: nat)
    requires 0 <= index < count
    ensures 0 <= Down(index, count) < count
    ensures 0 <= Up(index) < count
  {
  }

  /** What choosing a command does: a registered command runs in the registry, any other id goes to the window. */
  datatype Selection = RunRegistered(id: string) | WindowAction(id: string)

  /** `handleSelect` without its closing of the palette. */
  function Select(id: string, registered: set<string>): (s: Selection)
    ensures s.id == id
    ensures s.RunRegistered? <==> id in registered
  {
    if id in registered then RunRegistered(id) else WindowAction(id)
  }

  /** The keys the palette reacts to. */
  datatype Key = ArrowDown | ArrowUp | Enter | Escape | Other

  /** What a key press asks of the window: nothing, a selection (which also closes), or closing. */
  datatype KeyOutcome = Stay | Chose(selection: Selection) | Close

  /** The palette's state while it is mounted. */
  class Palette {
    var query: string
    var selectedIndex: int
    var allCommands: seq<Command>

    constructor()
      ensures query == "" && selectedIndex == 0 && allCommands == StaticCommands
    {
      query, selectedIndex, allCommands := "", 0, StaticCommands;
    }

    /** The entries on show. */
    function Shown(): seq<Command>
      reads this
    {
      Filtered(allCommands, query)
    }

    /** Opening: the static commands then the extension commands, an empty query and the first entry selected. */
    method Open(commandIds: seq<string>)
      modifies this
      ensures allCommands == StaticCommands + ExtensionCommands(commandIds)
      ensures query == "" && selectedIndex == 0
      ensures Shown() == allCommands
    {
      allCommands := StaticCommands + ExtensionCommands(commandIds);
      query := "";
      selectedIndex := 0;
      EmptyQueryKeepsAll(allCommands);
    }

    /** Typing: the query changes and the selected index is left as it was. */
    method SetQuery(q: string)
      modifies this
      ensures query == q && selectedIndex == old(selectedIndex) && allCommands == old(allCommands)
    {
      query := q;
    }

    /** Pointing at an entry selects it. */
    method Hover(index: nat)
      modifies this
      ensures selectedIndex == index && query == old(query) && allCommands == old(allCommands)
    {
      selectedIndex := index;
    }

    /**
     * `handleKeyDown`: the arrows move the index within the shown entries,
     * Enter chooses the selected entry when there is one, Escape closes.
     */
    method KeyDown(key: Key, registered: set<string>) returns (outcome: KeyOutcome)
      modifies this
      ensures query == old(query) && allCommands == old(allCommands)
      ensures key == ArrowDown ==> selectedIndex == Down(old(selectedIndex), |Shown()|) && outcome == Stay
      ensures key == ArrowUp ==> selectedIndex == Up(old(selectedIndex)) && outcome == Stay
      ensures key == Enter && 0 <= selectedIndex < |Shown()| ==> outcome == Chose(Select(Shown()[selectedIndex].id, registered))
      ensures key == Enter && !(0 <= selectedIndex < |Shown()|) ==> outcome == Stay
      ensures key == Escape ==> outcome == Close
      ensures key == Other ==> outcome == Stay
      ensures key != ArrowDown && key != ArrowUp ==> selectedIndex == old(selectedIndex)
    {
      var shown := Filtered(allCommands, query);
      outcome := Stay;
      match key {
        case ArrowDown => selectedIndex := Down(selectedIndex, |shown|);
        case ArrowUp => selectedIndex := Up(selectedIndex);
        case Enter =>
          if 0 <= selectedIndex < |shown| {
            outcome := Chose(Select(shown[selectedIndex].id, registered));
          }
        case Escape => outcome := Close;
        case Other =>
      }
    }
  }
}

=== FILE: desktop_main.dfy ===
/**
 * The desktop back end's request handlers that are pure computations over their
 * inputs: the live-server start answer, the `git status --porcelain` and
 * `git branch -a` parsers (the short format of git-status(1)), the publish
 * file sanitising and `git add` command, the push URL token injection, the
 * recursive directory listing over an in-memory tree, and the table of open
 * terminals. Processes, the file system and the network are inputs.
 */
module DesktopMain {
  import opened Optional
  import opened Strings
  import opened Lists

  /** `ext:live-server:start` answers: `success`, and `url` or `error`; it never carries a `port`. */
  datatype LiveServerResponse = LiveServerResponse(success: bool, port: Option<nat>, url: Option<string>, error: Option<string>)

  /** `ext:live-server:start` for a root path (`null`/`''` are falsy). */
  function StartLiveServer(rootPath: Option<string>): (r: LiveServerResponse)
    ensures r.port.None?
    ensures r.success <==> rootPath.Some? && rootPath.value != ""
    ensures r.success ==> r.url == Some("http://localhost:5500") && r.error.None?
    ensures !r.success ==> r.error == Some("No root path") && r.url.None?
  {
    if rootPath.None? || rootPath.value == "" then LiveServerResponse(false, None, None, Some("No root path"))
    else LiveServerResponse(true, None, Some("http://localhost:5500"), None)
  }

  // ---- normalizePath ----

  /** `normalizePath`: every backslash becomes a slash. */
  function NormalizePath(p: string): (r: string)
    ensures |r| == |p| && '\\' !in r
    ensures forall i | 0 <= i < |p| :: r[i] == if p[i] == '\\' then '/' else p[i]
  {
    ReplaceAllChar(p, '\\', '/')
  }

  /** Normalizing twice is normalizing once, and a path without backslashes is already normal. */
  lemma NormalizePathIdempotent(p: string)
    ensures NormalizePath(NormalizePath(p)) == NormalizePath(p)
    ensures '\\' !in p ==> NormalizePath(p) == p
  {
    if '\\' !in p {
      assert forall i | 0 <= i < |p| :: p[i] != '\\' by {
        forall i | 0 <= i < |p| ensures p[i] != '\\' {
          assert p[i] in p;
        }
      }
    }
  }

  // ---- git:status ----

  /** The change a porcelain line reports. */
  datatype Change = Untracked | Deleted | Added | Modified

  /** One entry of the status list. */
  datatype StatusEntry = StatusEntry(path: string, status: Change, staged: bool)

  /** `s.substring(from)`: empty when `from` is past the end. */
  function From(s: string, from: nat): string {
    if from <= |s| then s[from..] else ""
  }

  /** `s.substring(0, to)`: the whole of `s` when it is shorter. */
  function UpTo(s: string, to: nat): string {
    if to <= |s| then s[..to] else s
  }

  /** The file name: the text from index 3, trimmed, with one pair of surrounding double quotes removed (a lone `"` leaves nothing). */
  function PorcelainPath(line: string): (name: string)
    ensures var t := Trim(From(line, 3));
      && (|t| >= 2 && t[0] == '"' && t[|t| - 1] == '"' ==> name == t[1..|t| - 1])
      && (!(|t| >= 1 && t[0] == '"' && t[|t| - 1] == '"') ==> name == t)
      && (t == "\"" ==> name == "")
  {
    var t := Trim(From(line, 3));
    if StartsWith(t, "\"") && EndsWith(t, "\"") then (if |t| >= 2 then t[1..|t| - 1] else "") else t
  }

  /** The status of the two-letter code: `??` first, then `D`, then `A`, otherwise a modification. */
  function ChangeOf(code: string): (c: Change)
    ensures c == Untracked <==> Contains(code, "??")
    ensures c == Deleted <==> !Contains(code, "??") && 'D' in code
    ensures c == Added <==> !Contains(code, "??") && 'D' !in code && 'A' in code
  {
    if Contains(code, "??") then Untracked
    else if 'D' in code then Deleted
    else if 'A' in code then Added
    else Modified
  }

  /** One porcelain line: the code is its first two characters, staged when the first is neither a space nor `?`. */
  function StatusLine(line: string): (e: StatusEntry)
    ensures e.path == PorcelainPath(line)
    ensures e.status == ChangeOf(UpTo(line, 2))
    ensures e.staged <==> line == [] || (line[0] != ' ' && line[0] != '?')
  {
    var code := UpTo(line, 2);
    StatusEntry(PorcelainPath(line), ChangeOf(code), code == [] || (code[0] != ' ' && code[0] != '?'))
  }

  /** The entry of one line, none when it is blank. */
  function EntryOf(line: string): seq<StatusEntry> {
    if Trim(line) != "" then [StatusLine(line)] else []
  }

  /** The `files` of `git:status`, from the output of `git status --porcelain`: one entry per non-blank line. */
  function ParsePorcelain(stdout: string): (entries: seq<StatusEntry>)
    ensures |entries| <= |Split(stdout, '\n')|
    ensures forall e | e in entries :: exists line | line in Split(stdout, '\n') :: Trim(line) != "" && e == StatusLine(line)
  {
    EntriesOfLines(Split(stdout, '\n'));
    FlatMap(Split(stdout, '\n'), EntryOf)
  }

  /** Each line gives at most one entry, and every entry is the entry of a non-blank line. */
  lemma {:induction false} EntriesOfLines(lines: seq<string>)
    ensures |FlatMap(lines, EntryOf)| <= |lines|
    ensures forall e | e in FlatMap(lines, EntryOf) :: exists line | line in lines :: Trim(line) != "" && e == StatusLine(line)
    decreases |lines|
  {
    if lines != [] {
      EntriesOfLines(lines[1..]);
      var r := FlatMap(lines, EntryOf);
      forall e | e in r ensures exists line | line in lines :: Trim(line) != "" && e == StatusLine(line) {
        if e in EntryOf(lines[0]) {
          assert lines[0] in lines;
        } else {
          var line :| line in lines[1..] && Trim(line) != "" && e == StatusLine(line);
          assert line in lines;
        }
      }
    }
  }

  /**
   * The entries follow the lines: the output of two pieces of text joined by a
   * newline lists the first piece's entries, then the second's.
   */
  lemma PorcelainOrder(a: string, b: string)
    ensures ParsePorcelain(a + "\n" + b) == ParsePorcelain(a) + ParsePorcelain(b)
  {
    assert "\n" == ['\n'];
    SplitAppend(a, '\n', b);
    FlatMapAppend(Split(a, '\n'), Split(b, '\n'), EntryOf);
  }

  /** A single line gives no entry when it is blank and its own entry otherwise. */
  lemma PorcelainLine(line: string)
    requires '\n' !in line
    ensures Trim(line) == "" ==> ParsePorcelain(line) == []
    ensures Trim(line) != "" ==> ParsePorcelain(line) == [StatusLine(line)]
  {
    IndexOfCharAbsent(line, '\n');
    assert Split(line, '\n') == [line];
    assert [line][1..] == [];
    assert FlatMap([line], EntryOf) == EntryOf(line) + FlatMap([], EntryOf);
  }

  /** What `git:status` answers. */
  datatype GitStatus = GitStatus(isRepo: bool, files: seq<StatusEntry>, branch: string, hasRemote: bool)

  /** The branch: the first line of the output trimmed, or `HEAD` when that line is empty. */
  function BranchOf(output: seq<string>): (branch: string)
    requires |output| >= 1
    ensures output[0] == "" ==> branch == "HEAD"
    ensures output[0] != "" ==> branch == Trim(output[0])
  {
    if output[0] != "" then Trim(output[0]) else "HEAD"
  }

  /** A remote is listed when a second line exists and is not blank. */
  function HasRemote(output: seq<string>): bool {
    |output| > 1 && Trim(output[1]) != ""
  }

  /**
   * `git:status`: with no `.git` an empty answer; otherwise the branch and the
   * remote flag from `git branch --show-current && git remote -v`, and the
   * entries of `git status --porcelain`, none when that command fails.
   */
  function GitStatusOf(hasGitDir: bool, headerOut: string, porcelain: Option<string>): (r: GitStatus)
    ensures !hasGitDir ==> r == GitStatus(false, [], "", false)
    ensures hasGitDir ==>
      && r.isRepo
      && r.branch == BranchOf(Split(headerOut, '\n'))
      && r.hasRemote == HasRemote(Split(headerOut, '\n'))
      && r.files == (if porcelain.Some? then ParsePorcelain(porcelain.value) else [])
  {
    if !hasGitDir then GitStatus(false, [], "", false)
    else
      var output := Split(headerOut, '\n');
      GitStatus(true, if porcelain.Some? then ParsePorcelain(porcelain.value) else [], BranchOf(output), HasRemote(output))
  }

  // ---- git:getBranches ----

  /** A line of `git branch -a`, trimmed and without its first `* `. */
  function CleanBranch(line: string): string {
    ReplaceFirst(Trim(line), "* ", "")
  }

  /** Kept lines are non-empty and not a `->` alias. */
  predicate KeptBranch(b: string) {
    b != "" && !Contains(b, "->")
  }

  /** The branch names before de-duplication. */
  function BranchNames(lines: seq<string>): (r: seq<string>)
    ensures |r| <= |lines|
  {
    if lines == [] then []
    else
      var b := CleanBranch(lines[0]);
      (if KeptBranch(b) then [ReplaceFirst(b, "remotes/origin/", "")] else []) + BranchNames(lines[1..])
  }

  predicate Distinct(xs: seq<string>) {
    forall i, j | 0 <= i < j < |xs| :: xs[i] != xs[j]
  }

  /** `[...new Set(xs)]`: each value once, at the place of its first occurrence. */
  function Dedupe(xs: seq<string>): (r: seq<string>)
    ensures Distinct(r)
    ensures forall x :: x in r <==> x in xs
  {
    if xs == [] then []
    else
      var d := Dedupe(xs[..|xs| - 1]);
      var x := xs[|xs| - 1];
      assert forall y | y in xs :: y in xs[..|xs| - 1] || y == x by {
        assert xs == xs[..|xs| - 1] + [x];
      }
      if x in d then d else d + [x]
  }

  /** A list without repeats is its own de-duplication. */
  lemma {:induction false} DedupeDistinct(xs: seq<string>)
    requires Distinct(xs)
    ensures Dedupe(xs) == xs
    decreases |xs|
  {
    if xs != [] {
      var init := xs[..|xs| - 1];
      assert Distinct(init);
      DedupeDistinct(init);
      assert xs[|xs| - 1] !in init by {
        forall k | 0 <= k < |init| ensures init[k] != xs[|xs| - 1] {
          assert init[k] == xs[k];
        }
      }
      assert xs == init + [xs[|xs| - 1]];
    }
  }

  /** Whatever follows cannot move a value already listed: the de-duplicated prefix stays in front. */
  lemma {:induction false} DedupeKeepsFirst(a: seq<string>, b: seq<string>)
    ensures |Dedupe(a)| <= |Dedupe(a + b)| && Dedupe(a + b)[..|Dedupe(a)|] == Dedupe(a)
    decreases |b|
  {
    if b == [] {
      assert a + b == a;
    } else {
      var b0 := b[..|b| - 1];
      assert (a + b)[..|a + b| - 1] == a + b0;
      DedupeKeepsFirst(a, b0);
      var d := Dedupe(a + b0);
      assert Dedupe(a + b)[..|d|] == d;
    }
  }

  /** De-duplicating twice changes nothing. */
  lemma DedupeIdempotent(xs: seq<string>)
    ensures Dedupe(Dedupe(xs)) == Dedupe(xs)
  {
    DedupeDistinct(Dedupe(xs));
  }

  /** `git:getBranches`: no branch when `git branch -a` fails, otherwise the distinct names in order of first appearance. */
  function GetBranches(out: Option<string>): (r: seq<string>)
    ensures out.None? ==> r == []
    ensures out.Some? ==> Distinct(r) && forall x :: x in r <==> x in BranchNames(Split(out.value, '\n'))
  {
    if out.None? then [] else Dedupe(BranchNames(Split(out.value, '\n')))
  }

  // ---- git:push ----

  const GitHubPrefix: string := "https://github.com/"
  const Scheme: string := "https://"

  /** The URL `git:push` pushes to, or the error it answers with. */
  datatype PushTarget = PushTo(url: string) | NoRemote(error: string)

  /**
   * The remote URL, trimmed; a token is put after `https://` only for a GitHub
   * HTTPS remote; a failed or empty `git remote get-url origin` is an error.
   */
  function PushUrl(url: Option<string>, token: Option<string>): (r: PushTarget)
    ensures url.None? || url.value == "" ==> r == NoRemote("No remote found")
    ensures url.Some? && url.value != "" && !(Truthy(token) && StartsWith(Trim(url.value), GitHubPrefix)) ==> r == PushTo(Trim(url.value))
  {
    if url.None? || url.value == "" then NoRemote("No remote found")
    else
      var repoUrl := Trim(url.value);
      if Truthy(token) && StartsWith(repoUrl, GitHubPrefix) then PushTo(ReplaceFirst(repoUrl, Scheme, Scheme + token.value + "@"))
      else PushTo(repoUrl)
  }

  /**
   * A GitHub HTTPS remote gets the token right after the scheme and keeps the
   * rest of the URL. The token goes through `replace`, so a `$&`, `` $` ``, `$'`
   * or `$$` in it is expanded; a token made of letters, digits and `_`, as
   * GitHub issues them, is inserted as it is.
   */
  lemma PushUrlToken(url: string, token: string)
    requires token != "" && StartsWith(Trim(url), GitHubPrefix)
    ensures var rest := Trim(url)[|Scheme|..];
      PushUrl(Some(url), Some(token)) == PushTo(Scheme + Substitution(token, "", Scheme, rest) + "@" + rest)
    ensures '$' !in token ==> PushUrl(Some(url), Some(token)) == PushTo(Scheme + token + "@" + Trim(url)[|Scheme|..])
  {
    var u := Trim(url);
    var rest := u[|Scheme|..];
    assert u[..|Scheme|] == Scheme by {
      assert u[..|GitHubPrefix|] == GitHubPrefix;
      assert GitHubPrefix[..|Scheme|] == Scheme;
    }
    ReplaceFirstAtStart(u, Scheme, Scheme + token + "@");
    TokenSubstitution(token, rest);
    if '$' !in token {
      SubstitutionPlain(token, "", Scheme, rest);
    }
  }

  /** Only the token part of the replacement `https://` + token + `@` is expanded. */
  lemma TokenSubstitution(token: string, rest: string)
    ensures Substitution(Scheme + token + "@", "", Scheme, rest) == Scheme + Substitution(token, "", Scheme, rest) + "@"
  {
    assert Scheme + token + "@" == Scheme + (token + "@");
    assert '$' !in Scheme;
    SubstitutionPrefix(Scheme, token + "@", "", Scheme, rest);
    assert token + "@" == token + ['@'];
    SubstitutionSnoc(token, '@', "", Scheme, rest);
  }

  // ---- git:publish ----

  /** A selected path without one trailing `/` or `\`. */
  function Sanitize(f: string): (r: string)
    ensures EndsWith(f, "/") || EndsWith(f, "\\") ==> |f| >= 1 && r == f[..|f| - 1]
    ensures !EndsWith(f, "/") && !EndsWith(f, "\\") ==> r == f
  {
    if EndsWith(f, "/") || EndsWith(f, "\\") then f[..|f| - 1] else f
  }

  function SanitizeAll(files: seq<string>): (r: seq<string>)
    ensures |r| == |files|
    ensures forall k | 0 <= k < |r| :: r[k] == Sanitize(files[k])
  {
    seq(|files|, k requires 0 <= k < |files| => Sanitize(files[k]))
  }

  /** `git add` of the selected paths, each quoted, or of everything when none is selected. */
  function AddCommand(files: seq<string>): (cmd: string)
    ensures files == [] <==> cmd == "git add ."
  {
    var sanitized := SanitizeAll(files);
    if |sanitized| > 0 then
      var cmd := "git add \"" + Join(sanitized, "\" \"") + "\"";
      assert cmd[8] == '"';
      cmd
    else "git add ."
  }

  /** A selected path ending in one separator loses it and keeps the rest. */
  lemma SanitizeDropsOne(dir: string, sep: char)
    requires sep == '/' || sep == '\\'
    ensures Sanitize(dir + [sep]) == dir
  {
    var f := dir + [sep];
    assert f[|f| - 1..] == [sep];
  }

  /** The six commands `git:publish` runs, in order. */
  function PublishCommands(files: seq<string>, remoteUrl: string): (cmds: seq<string>)
    ensures |cmds| == 6
    ensures cmds[0] == "git init" && cmds[1] == AddCommand(files) && cmds[5] == "git push -u origin main"
  {
    ["git init", AddCommand(files), "git commit -m \"Initial commit\"", "git branch -M main",
     "git remote add origin \"" + remoteUrl + "\" || git remote set-url origin \"" + remoteUrl + "\"",
     "git push -u origin main"]
  }

  /** A command error `run` lets through: none, or one whose message mentions `warning` or `exists`. */
  predicate Tolerated(err: Option<string>) {
    err.None? || Contains(err.value, "warning") || Contains(err.value, "exists")
  }

  /**
   * The `for (const cmd of commands) await run(cmd)` loop: the commands run in
   * order until one fails with an error that is not tolerated; that error's
   * message is the answer.
   */
  method RunCommands(commands: seq<string>, run: string -> Option<string>) returns (ran: nat, error: Option<string>)
    ensures ran <= |commands|
    ensures forall k | 0 <= k < ran - 1 :: Tolerated(run(commands[k]))
    ensures error.None? <==> ran == |commands| && forall k | 0 <= k < |commands| :: Tolerated(run(commands[k]))
    ensures error.Some? ==> ran >= 1 && !Tolerated(run(commands[ran - 1])) && error == run(commands[ran - 1])
  {
    ran := 0;
    error := None;
    while ran < |commands|
      invariant ran <= |commands|
      invariant forall k | 0 <= k < ran :: Tolerated(run(commands[k]))
    {
      var err := run(commands[ran]);
      ran := ran + 1;
      if !Tolerated(err) {
        error := err;
        return;
      }
    }
  }

  /** What `POST /user/repos` answered. */
  datatype RepoReply = RepoCreated(cloneUrl: string) | RepoRefused(firstError: Option<string>, message: Option<string>)

  const AlreadyExists: string := "name already exists on this account"

  /** The remote to push to, or the message of a refusal. */
  datatype Remote = Remote(url: string) | Refused(message: Option<string>)

  /** The remote URL with the token, or the refusal message when the repository can be neither created nor reused. */
  function PublishRemote(token: string, login: string, repoName: string, reply: RepoReply): (r: Remote)
    ensures reply.RepoCreated? ==> r == Remote(ReplaceFirst(reply.cloneUrl, Scheme, Scheme + token + "@"))
    ensures reply.RepoRefused? && reply.firstError == Some(AlreadyExists) ==>
      r == Remote(Scheme + token + "@github.com/" + login + "/" + repoName + ".git")
    ensures reply.RepoRefused? && reply.firstError != Some(AlreadyExists) ==> r == Refused(reply.message)
  {
    match reply
    case RepoCreated(url) => Remote(ReplaceFirst(url, Scheme, Scheme + token + "@"))
    case RepoRefused(first, message) =>
      if first == Some(AlreadyExists) then Remote(Scheme + token + "@github.com/" + login + "/" + repoName + ".git")
      else Refused(message)
  }

  /** What `git:publish` answers. */
  datatype PublishReply = Published | PublishFailed(error: Option<string>)

  /**
   * `git:publish`: an invalid token stops at once; otherwise the remote URL,
   * then the six commands until one fails for real.
   */
  method Publish(token: string, repoName: string, files: seq<string>, userOk: bool, login: string, reply: RepoReply,
                 run: string -> Option<string>) returns (r: PublishReply, commandsRun: nat)
    ensures !userOk ==> r == PublishFailed(Some("Invalid Token")) && commandsRun == 0
    ensures userOk && PublishRemote(token, login, repoName, reply).Refused? ==>
      r == PublishFailed(PublishRemote(token, login, repoName, reply).message) && commandsRun == 0
    ensures userOk && PublishRemote(token, login, repoName, reply).Remote? ==>
      var cmds := PublishCommands(files, PublishRemote(token, login, repoName, reply).url);
      && 1 <= commandsRun <= 6
      && (r == Published <==> forall k | 0 <= k < 6 :: Tolerated(run(cmds[k])))
      && (forall k | 0 <= k < commandsRun - 1 :: Tolerated(run(cmds[k])))
      && (r == Published ==> commandsRun == 6)
      && (r.PublishFailed? ==> !Tolerated(run(cmds[commandsRun - 1])) && r.error == run(cmds[commandsRun - 1]))
  {
    if !userOk {
      return PublishFailed(Some("Invalid Token")), 0;
    }
    var remote := PublishRemote(token, login, repoName, reply);
    if remote.Refused? {
      return PublishFailed(remote.message), 0;
    }
    var cmds := PublishCommands(files, remote.url);
    var error;
    commandsRun, error := RunCommands(cmds, run);
    if error.None? {
      r := Published;
    } else {
      r := PublishFailed(error);
    }
  }

  // ---- readDirectoryRecursively ----

  /** An entry of the in-memory file tree; a folder that cannot be read lists nothing. */
  datatype Node = File(name: string) | Folder(name: string, readable: bool, children: seq<Node>)

  /** A file as the listing reports it; the content is always empty. */
  datatype FileInfo = FileInfo(id: string, name: string, path: string, folder: string, realPath: string, content: string)

  datatype FolderInfo = FolderInfo(name: string, path: string, realPath: string)

  datatype Listing = Listing(files: seq<FileInfo>, folders: seq<FolderInfo>)

  /** Names skipped at every depth. */
  const Skipped: set<string> := {"node_modules", ".git", "dist"}

  /** The path of an entry relative to the root, with slashes. */
  function RelativeOf(rel: string, name: string): string {
    NormalizePath(if rel == "" then name else rel + "/" + name)
  }

  /** `path.dirname` of a relative path with slashes, `.` read as the empty folder. */
  function ParentFolder(p: string): (folder: string)
    ensures '/' !in p ==> folder == ""
  {
    var i := LastIndexOfChar(p, '/');
    if i < 0 then "" else p[..i]
  }

  /** Listings concatenated, files after files and folders after folders. */
  function Join2(a: Listing, b: Listing): Listing {
    Listing(a.files + b.files, a.folders + b.folders)
  }

  /** Every path of a listing uses slashes only, and no listed name is skipped. */
  predicate Clean(l: Listing) {
    && (forall k | 0 <= k < |l.files| ::
          l.files[k].name !in Skipped && '\\' !in l.files[k].path && '\\' !in l.files[k].realPath && '\\' !in l.files[k].folder)
    && (forall k | 0 <= k < |l.folders| ::
          l.folders[k].name !in Skipped && '\\' !in l.folders[k].path && '\\' !in l.folders[k].realPath)
  }

  lemma CleanJoin(a: Listing, b: Listing)
    requires Clean(a) && Clean(b)
    ensures Clean(Join2(a, b))
  {
    var j := Join2(a, b);
    forall k | |a.files| <= k < |j.files| ensures j.files[k] == b.files[k - |a.files|] { }
    forall k | |a.folders| <= k < |j.folders| ensures j.folders[k] == b.folders[k - |a.folders|] { }
  }

  /** What one entry of the directory `dir` (relative path `rel`) adds to the listing. */
  function ListEntry(dir: string, rel: string, n: Node): (l: Listing)
    ensures Clean(l)
    ensures n.name in Skipped ==> l == Listing([], [])
    decreases n, 1
  {
    if n.name in Skipped then Listing([], [])
    else
      var full := dir + "/" + n.name;
      var relative := RelativeOf(rel, n.name);
      match n
      case File(name) =>
        var realPath := NormalizePath(full);
        Listing([FileInfo(realPath, name, relative, ParentFolder(relative), realPath, "")], [])
      case Folder(name, readable, children) =>
        var here := Listing([], [FolderInfo(name, relative, NormalizePath(full))]);
        if readable then
          var below := ListEntries(full, relative, children);
          CleanJoin(here, below);
          Join2(here, below)
        else here
  }

  /** The listing of the entries of the directory `dir`, in order. */
  function ListEntries(dir: string, rel: string, nodes: seq<Node>): (l: Listing)
    ensures Clean(l)
    decreases nodes, 0
  {
    if nodes == [] then Listing([], [])
    else
      var init := ListEntries(dir, rel, nodes[..|nodes| - 1]);
      var last := ListEntry(dir, rel, nodes[|nodes| - 1]);
      CleanJoin(init, last);
      Join2(init, last)
  }

  /** A file directly inside the folder with relative path `rel` reports `rel` as its folder; at the top that is `''`. */
  lemma FileFolder(rel: string, name: string)
    requires '\\' !in rel && '\\' !in name && '/' !in name
    ensures ParentFolder(RelativeOf(rel, name)) == rel
  {
    var p := if rel == "" then name else rel + "/" + name;
    assert '\\' !in p by {
      if rel != "" {
        forall i | 0 <= i < |p| ensures p[i] != '\\' {
          if i < |rel| { assert p[i] == rel[i]; assert rel[i] in rel; }
          else if i > |rel| { assert p[i] == name[i - |rel| - 1]; assert name[i - |rel| - 1] in name; }
        }
      }
    }
    NormalizePathIdempotent(p);
    if rel != "" {
      var r := LastIndexOfChar(p, '/');
      assert p[|rel|] == '/';
      assert r == |rel|;
      assert p[..r] == rel;
    }
  }

  /** A top-level file with a plain name has the empty folder. */
  lemma TopLevelFileFolder(dir: string, name: string)
    requires name !in Skipped && '\\' !in name && '/' !in name
    ensures ListEntry(dir, "", File(name)).files[0].folder == ""
  {
    FileFolder("", name);
  }

  /** The listing of one more entry is the listing so far followed by that entry's. */
  lemma ListEntriesSnoc(dir: string, rel: string, nodes: seq<Node>, i: nat)
    requires i < |nodes|
    ensures ListEntries(dir, rel, nodes[..i + 1]) == Join2(ListEntries(dir, rel, nodes[..i]), ListEntry(dir, rel, nodes[i]))
  {
    var p := nodes[..i + 1];
    assert p[..i] == nodes[..i] && p[i] == nodes[i];
  }

  /**
   * `readDirectoryRecursively` over a directory whose entries are `nodes`: the
   * files and folders of every entry in order, a folder before what it holds;
   * nothing when the directory cannot be read.
   */
  method ReadDirectory(dir: string, rel: string, readable: bool, nodes: seq<Node>) returns (files: seq<FileInfo>, folders: seq<FolderInfo>)
    ensures readable ==> files == ListEntries(dir, rel, nodes).files && folders == ListEntries(dir, rel, nodes).folders
    ensures !readable ==> files == [] && folders == []
    decreases nodes, 0
  {
    files, folders := [], [];
    if !readable {
      return;
    }
    for i := 0 to |nodes|
      invariant files == ListEntries(dir, rel, nodes[..i]).files
      invariant folders == ListEntries(dir, rel, nodes[..i]).folders
    {
      ListEntriesSnoc(dir, rel, nodes, i);
      var entryFiles, entryFolders := ReadEntry(dir, rel, nodes[i]);
      files := files + entryFiles;
      folders := folders + entryFolders;
    }
    assert nodes[..|nodes|] == nodes;
  }

  /** The `forEach` callback for one entry. */
  method ReadEntry(dir: string, rel: string, n: Node) returns (files: seq<FileInfo>, folders: seq<FolderInfo>)
    ensures files == ListEntry(dir, rel, n).files && folders == ListEntry(dir, rel, n).folders
    decreases n, 1
  {
    if n.name in Skipped {
      return [], [];
    }
    var full := dir + "/" + n.name;
    var relative := RelativeOf(rel, n.name);
    match n
    case File(name) =>
      var realPath := NormalizePath(full);
      files, folders := [FileInfo(realPath, name, relative, ParentFolder(relative), realPath, "")], [];
    case Folder(name, readable, children) =>
      folders := [FolderInfo(name, relative, NormalizePath(full))];
      var subFiles, subFolders := ReadDirectory(full, relative, readable, children);
      files := subFiles;
      folders := folders + subFolders;
  }

  /** What `fs:openPath` answers for an existing path: the listing and the normalized root. */
  datatype Opened = Opened(files: seq<FileInfo>, folders: seq<FolderInfo>, rootPath: string)

  /** `fs:openPath`: nothing for a missing path, otherwise the listing of the whole tree under it. */
  method OpenPath(p: string, present: bool, readable: bool, nodes: seq<Node>) returns (r: Option<Opened>)
    ensures !present ==> r.None?
    ensures present ==> r.Some? && r.value.rootPath == NormalizePath(p) && '\\' !in r.value.rootPath
    ensures present && readable ==> r.value.files == ListEntries(p, "", nodes).files && r.value.folders == ListEntries(p, "", nodes).folders
    ensures present && !readable ==> r.value.files == [] && r.value.folders == []
  {
    if !present {
      return None;
    }
    var files, folders := ReadDirectory(p, "", readable, nodes);
    r := Some(Opened(files, folders, NormalizePath(p)));
  }

  // ---- terminals ----

  /** A pseudo-terminal: its shell, working directory, what was written to it and its size. */
  datatype Pty = Pty(shell: string, cwd: string, input: seq<string>, cols: nat, rows: nat)

  /** The shell of the platform. */
  function ShellFor(windows: bool): (shell: string)
    ensures windows <==> shell == "powershell.exe"
  {
    if windows then "powershell.exe" else "bash"
  }

  /** The working directory: the requested one when it is given and exists, the home directory otherwise. */
  function TargetPath(cwdPath: Option<string>, present: bool, home: string): (target: string)
    ensures Truthy(cwdPath) && present ==> target == cwdPath.value
    ensures !(Truthy(cwdPath) && present) ==> target == home
  {
    if Truthy(cwdPath) && present then cwdPath.value else home
  }

  /** The `terminals` table of the main process, keyed by the id `createTerminal` hands out. */
  class TerminalTable {
    var terminals: map<string, Pty>

    constructor()
      ensures terminals == map[]
    {
      terminals := map[];
    }

    /** `createTerminal`: a new 80 by 30 terminal under the clock-derived `id`, replacing one with the same id. */
    method Create(id: string, cwdPath: Option<string>, present: bool, home: string, windows: bool) returns (r: string)
      modifies this
      ensures r == id
      ensures terminals == old(terminals)[id := Pty(ShellFor(windows), TargetPath(cwdPath, present, home), [], 80, 30)]
    {
      terminals := terminals[id := Pty(ShellFor(windows), TargetPath(cwdPath, present, home), [], 80, 30)];
      r := id;
    }

    /** `terminal:write`: the data goes to the terminal when it exists; nothing happens otherwise. */
    method Write(id: string, data: string)
      modifies this
      ensures id in old(terminals) ==> terminals == old(terminals)[id := old(terminals)[id].(input := old(terminals)[id].input + [data])]
      ensures id !in old(terminals) ==> terminals == old(terminals)
    {
      if id in terminals {
        terminals := terminals[id := terminals[id].(input := terminals[id].input + [data])];
      }
    }

    /** `terminal:resize`: a refused resize is swallowed and changes nothing. */
    method Resize(id: string, cols: nat, rows: nat, refused: bool)
      modifies this
      ensures id in old(terminals) && !refused ==> terminals == old(terminals)[id := old(terminals)[id].(cols := cols, rows := rows)]
      ensures id !in old(terminals) || refused ==> terminals == old(terminals)
    {
      if id in terminals && !refused {
        terminals := terminals[id := terminals[id].(cols := cols, rows := rows)];
      }
    }

    /** `terminal:kill` and the `exit` listener: the entry is removed when present, the others stay. */
    method Kill(id: string)
      modifies this
      ensures terminals == old(terminals) - {id}
      ensures id !in terminals
      ensures forall k | k in old(terminals) && k != id :: k in terminals && terminals[k] == old(terminals)[k]
    {
      if id in terminals {
        terminals := terminals - {id};
      }
    }
  }
}


=== FILE: file_explorer.dfy ===
/**
 * The explorer side bar: `cleanPath`, the choice of the children shown under a
 * folder and at the root, the search filter, and the explorer's own state
 * (expanded folders, the pending creation and the rename in progress).
 */
module FileExplorer {
  import opened Optional
  import opened Strings
  import opened Lists

  /** A file or folder as the explorer receives it; a folder's `folder` is unused. */
  datatype Item = Item(id: string, name: string, path: string, folder: Option<string>)

  /** `s` without its leading run of `c`. */
  function DropLeading(s: string, c: char): string {
    if s != [] && s[0] == c then DropLeading(s[1..], c) else s
  }

  /** `s` without its trailing run of `c`. */
  function DropTrailing(s: string, c: char): string {
    if s != [] && s[|s| - 1] == c then DropTrailing(s[..|s| - 1], c) else s
  }

  /** `DropLeading` cuts a leading run of `c` and nothing else. */
  lemma {:induction false} DropLeadingSpec(s: string, c: char)
    ensures var r := DropLeading(s, c);
      && |r| <= |s| && r == s[|s| - |r|..]
      && (r == [] || r[0] != c)
      && ((s == [] || s[0] != c) ==> r == s)
    decreases |s|
  {
    if s != [] && s[0] == c {
      DropLeadingSpec(s[1..], c);
    }
  }

  /** `DropTrailing` cuts a trailing run of `c` and nothing else. */
  lemma {:induction false} DropTrailingSpec(s: string, c: char)
    ensures var r := DropTrailing(s, c);
      && |r| <= |s| && r == s[..|r|]
      && (r == [] || r[|r| - 1] != c)
      && ((s == [] || s[|s| - 1] != c) ==> r == s)
    decreases |s|
  {
    if s != [] && s[|s| - 1] == c {
      DropTrailingSpec(s[..|s| - 1], c);
    }
  }

  /** The paths `cleanPath` reads as the root: a missing or empty one, or the text `root`. */
  predicate NoPath(p: Option<string>) {
    p.None? || |p.value| == 0
    || (|p.value| == 4 && p.value[0] == 'r' && p.value[1] == 'o' && p.value[2] == 'o' && p.value[3] == 't')
  }

  /** `cleanPath`: empty for a missing path, `''` or `'root'`; otherwise slashes only, trimmed of slashes. */
  function CleanPath(p: Option<string>): string {
    if NoPath(p) then "" else DropTrailing(DropLeading(ReplaceAllChar(p.value, '\\', '/'), '/'), '/')
  }

  /** A clean path has no backslash and neither starts nor ends with a slash; the root's is empty. */
  lemma CleanPathShape(p: Option<string>)
    ensures NoPath(p) ==> CleanPath(p) == ""
    ensures var r := CleanPath(p);
      && '\\' !in r
      && (r == [] || (r[0] != '/' && r[|r| - 1] != '/'))
  {
    if !NoPath(p) {
      var slashed := ReplaceAllChar(p.value, '\\', '/');
      var t := DropLeading(slashed, '/');
      var r := DropTrailing(t, '/');
      DropLeadingSpec(slashed, '/');
      DropTrailingSpec(t, '/');
      forall i | 0 <= i < |r| ensures r[i] != '\\' {
        assert r[i] == t[i] == slashed[i + |slashed| - |t|];
      }
    }
  }

  /** Cleaning a clean path changes nothing, unless it is the text `root`. */
  lemma CleanPathIdempotent(p: Option<string>)
    requires !NoPath(Some(CleanPath(p))) || CleanPath(p) == ""
    ensures CleanPath(Some(CleanPath(p))) == CleanPath(p)
  {
    var r := CleanPath(p);
    CleanPathShape(p);
    if r != "" {
      assert forall i | 0 <= i < |r| :: r[i] != '\\' by {
        forall i | 0 <= i < |r| ensures r[i] != '\\' {
          assert r[i] in r;
        }
      }
      assert ReplaceAllChar(r, '\\', '/') == r;
      DropLeadingSpec(r, '/');
      DropTrailingSpec(r, '/');
    }
  }

  /** `root` is the one clean path that cleans to something else: a path `/root` cleans to `root`, which cleans to `''`. */
  lemma CleanPathRoot()
    ensures CleanPath(Some("/root")) == "root"
    ensures CleanPath(Some("root")) == ""
  {
    var s := "/root";
    assert !NoPath(Some(s));
    var slashed := ReplaceAllChar(s, '\\', '/');
    assert forall i | 0 <= i < |s| :: s[i] != '\\';
    assert slashed == s;
    DropLeadingSpec(s[1..], '/');
    assert s[1..] == "root";
    assert DropLeading(s, '/') == DropLeading(s[1..], '/') == "root";
    DropTrailingSpec("root", '/');
  }

  /** The folder `p` (clean) sits directly under the clean `parent`. */
  predicate DirectlyUnder(p: string, parent: string) {
    StartsWith(p, parent + "/") && '/' !in p[|parent| + 1..]
  }

  /** The child folders `renderTree` shows under a folder. */
  function ChildFolders(folders: seq<Item>, parentPath: Option<string>): seq<Item> {
    var parent := CleanPath(parentPath);
    Filter(folders, (f: Item) => DirectlyUnder(CleanPath(Some(f.path)), parent))
  }

  /**
   * A clean path lies directly under a clean parent exactly when it is the
   * parent, a slash and one non-empty segment without slashes.
   */
  lemma DirectlyUnderIff(parent: string, seg: string)
    requires CleanPath(Some(parent + "/" + seg)) == parent + "/" + seg
    ensures DirectlyUnder(parent + "/" + seg, parent) <==> seg != "" && '/' !in seg
  {
    var p := parent + "/" + seg;
    CleanPathShape(Some(p));
    assert p[|p| - 1] != '/';
    assert p[..|parent + "/"|] == parent + "/";
    assert p[|parent| + 1..] == seg;
  }

  /** Nothing lies directly under the root through this filter: a clean path never starts with a slash. */
  lemma NoChildFoldersAtRoot(folders: seq<Item>, parentPath: Option<string>)
    requires CleanPath(parentPath) == ""
    ensures ChildFolders(folders, parentPath) == []
  {
    forall k | 0 <= k < |folders| ensures !DirectlyUnder(CleanPath(Some(folders[k].path)), "") {
      CleanPathShape(Some(folders[k].path));
      NotUnderRoot(CleanPath(Some(folders[k].path)));
    }
    FilterKeepsNone(folders, (f: Item) => DirectlyUnder(CleanPath(Some(f.path)), ""));
  }

  lemma NotUnderRoot(p: string)
    requires p == [] || p[0] != '/'
    ensures !DirectlyUnder(p, "")
  {
    assert "" + "/" == "/";
  }

  /** The files `renderTree` shows under a folder: those whose cleaned folder is the cleaned parent. */
  function ChildFiles(files: seq<Item>, parentPath: Option<string>): (r: seq<Item>)
    ensures forall f :: f in r <==> f in files && CleanPath(f.folder) == CleanPath(parentPath)
  {
    var parent := CleanPath(parentPath);
    Filter(files, (f: Item) => CleanPath(f.folder) == parent)
  }

  /** The folders at the root: those whose cleaned path has no slash. */
  function RootFolders(folders: seq<Item>): (r: seq<Item>)
    ensures forall f :: f in r <==> f in folders && '/' !in CleanPath(Some(f.path))
  {
    Filter(folders, (f: Item) => '/' !in CleanPath(Some(f.path)))
  }

  /** The files at the root: those whose cleaned folder is empty. */
  function RootFiles(files: seq<Item>): (r: seq<Item>)
    ensures forall f :: f in r <==> f in files && CleanPath(f.folder) == ""
  {
    Filter(files, (f: Item) => CleanPath(f.folder) == "")
  }

  /** The root files are the files shown under the project root. */
  lemma RootFilesAreRootChildren(files: seq<Item>, f: Item)
    ensures f in RootFiles(files) <==> f in ChildFiles(files, Some("root"))
  {
  }

  /** A file whose folder is literally named `root` is shown at the project root. */
  lemma FolderNamedRootShownAtRoot(files: seq<Item>, f: Item)
    requires f in files && f.folder == Some("root")
    ensures f in RootFiles(files)
  {
  }

  /** `filterItems`: everything for a blank query, otherwise the items whose name holds the query, ignoring case. */
  function FilterItems(items: seq<Item>, query: string): (r: seq<Item>)
    ensures Trim(query) == "" ==> r == items
    ensures Trim(query) != "" ==> forall it :: it in r <==> it in items && ContainsIgnoringCase(it.name, query)
  {
    if Trim(query) == "" then items else Filter(items, (it: Item) => ContainsIgnoringCase(it.name, query))
  }

  /** What the inline name input does on a key. */
  datatype InlineAction = Complete(name: string) | Cancel

  /** The inline input's key handler: Enter with a non-blank name completes with it trimmed; Escape cancels. */
  function InlineKey(key: string, value: string): (r: Option<InlineAction>)
    ensures r.Some? && r.value.Complete? ==> key == "Enter" && r.value.name == Trim(value) && r.value.name != ""
    ensures r == Some(Cancel) <==> key == "Escape"
    ensures r.None? <==> key != "Escape" && (key != "Enter" || Trim(value) == "")
  {
    if key == "Enter" && Trim(value) != "" then Some(Complete(Trim(value)))
    else if key == "Escape" then Some(Cancel)
    else None
  }

  datatype Kind = FileKind | FolderKind

  /** The creation in progress: what is created, and under which (clean) folder. */
  datatype Creation = Creation(kind: Kind, parentPath: string)

  /** The call `handleCreationComplete` makes. */
  datatype CreateRequest = CreateFile(name: string, folder: string) | CreateFolder(name: string, folder: string)

  /** The explorer's component state. */
  class Explorer {
    var expanded: map<string, bool>
    var projectExpanded: bool
    var creation: Option<Creation>
    var renamingId: Option<string>

    constructor()
      ensures expanded == map[] && projectExpanded && creation.None? && renamingId.None?
    {
      expanded := map[];
      projectExpanded := true;
      creation := None;
      renamingId := None;
    }

    /** A folder is expanded when its entry is true; a missing entry is falsy. */
    function IsExpanded(path: string): bool
      reads this
    {
      path in expanded && expanded[path]
    }

    /** `toggleFolder`: one entry flips, every other stays. */
    method ToggleFolder(path: string)
      modifies this
      ensures expanded == old(expanded)[path := !old(IsExpanded(path))]
      ensures IsExpanded(path) == !old(IsExpanded(path))
      ensures forall q | q != path :: IsExpanded(q) == old(IsExpanded(q))
      ensures projectExpanded == old(projectExpanded) && creation == old(creation) && renamingId == old(renamingId)
    {
      expanded := expanded[path := !IsExpanded(path)];
    }

    /** `collapseAll`: no folder is expanded. */
    method CollapseAll()
      modifies this
      ensures expanded == map[]
      ensures forall q :: !IsExpanded(q)
      ensures projectExpanded == old(projectExpanded) && creation == old(creation) && renamingId == old(renamingId)
    {
      expanded := map[];
    }

    /** `expandAll`: exactly the folders' paths, each mapped to true. */
    method ExpandAll(folders: seq<Item>)
      modifies this
      ensures expanded.Keys == set k | 0 <= k < |folders| :: folders[k].path
      ensures forall q :: IsExpanded(q) <==> q in expanded
      ensures projectExpanded == old(projectExpanded) && creation == old(creation) && renamingId == old(renamingId)
    {
      var all: map<string, bool> := map[];
      for i := 0 to |folders|
        invariant all.Keys == set k | 0 <= k < i :: folders[k].path
        invariant forall q | q in all :: all[q]
      {
        all := all[folders[i].path := true];
      }
      expanded := all;
    }

    /**
     * `startCreation`: the cleaned parent is stored; a non-empty parent is
     * expanded, and for the root the project itself is expanded.
     */
    method StartCreation(kind: Kind, parentPath: Option<string>)
      modifies this
      ensures creation == Some(Creation(kind, CleanPath(parentPath)))
      ensures CleanPath(parentPath) != "" ==>
        expanded == old(expanded)[CleanPath(parentPath) := true] && projectExpanded == old(projectExpanded)
      ensures CleanPath(parentPath) == "" ==> expanded == old(expanded) && projectExpanded
      ensures renamingId == old(renamingId)
    {
      var cleaned := CleanPath(parentPath);
      if cleaned != "" {
        expanded := expanded[cleaned := true];
      } else {
        projectExpanded := true;
      }
      creation := Some(Creation(kind, cleaned));
    }

    /**
     * `handleCreationComplete`: nothing without a creation in progress;
     * otherwise exactly one create call under the stored parent, and the
     * creation ends.
     */
    method CompleteCreation(name: string) returns (request: Option<CreateRequest>)
      modifies this
      ensures old(creation).None? ==> request.None? && creation.None?
      ensures old(creation).Some? && old(creation).value.kind == FileKind ==>
        request == Some(CreateFile(name, old(creation).value.parentPath))
      ensures old(creation).Some? && old(creation).value.kind == FolderKind ==>
        request == Some(CreateFolder(name, old(creation).value.parentPath))
      ensures creation.None?
      ensures expanded == old(expanded) && projectExpanded == old(projectExpanded) && renamingId == old(renamingId)
    {
      if creation.None? {
        return None;
      }
      var c := creation.value;
      if c.kind == FileKind {
        request := Some(CreateFile(name, c.parentPath));
      } else {
        request := Some(CreateFolder(name, c.parentPath));
      }
      creation := None;
    }

    /**
     * `submitRename`: the rename is requested only for a non-blank name that
     * differs from the current one; rename mode always ends.
     */
    method SubmitRename(file: Item, newName: string) returns (rename: Option<string>)
      modifies this
      ensures rename.Some? <==> Trim(newName) != "" && newName != file.name
      ensures rename.Some? ==> rename.value == newName
      ensures renamingId.None?
      ensures expanded == old(expanded) && projectExpanded == old(projectExpanded) && creation == old(creation)
    {
      rename := None;
      if Trim(newName) != "" && newName != file.name {
        rename := Some(newName);
      }
      renamingId := None;
    }
  }
}

=== FILE: gemini.dfy ===
/**
 * The built-in Gemini extension: its manifest, its two settings, its activation
 * (one sidebar panel and one command) and the guard logic of the panel's
 * "ask" action. The generative-model call itself is an input: the request the
 * panel would send is returned, and the model's answer (or error) is a parameter.
 */
module Gemini {
  import opened Optional
  import opened Strings
  import opened ExtensionApi

  const Id: string := "devstudio.gemini"

  const Metadata: Manifest := Manifest(
    Id, "Gemini AI Assistant", Some("1.2.0"),
    "Google Gemini AI integration for code assistance, explanations, and more.",
    Some("DevStudio Team"), Some("Sparkles"))

  const ApiKeySetting: string := "gemini.apiKey"
  const ModelSetting: string := "gemini.model"
  const DefaultModel: string := "gemini-1.5-flash"

  const Settings: seq<SettingItem> := [
    SettingItem(ApiKeySetting, "Gemini API Key", "password", [], None,
      "Your Google Gemini API key", "extensions", Id),
    SettingItem(ModelSetting, "Model", "select", ["gemini-1.5-flash", "gemini-1.5-pro", "gemini-pro"],
      Some(Str(DefaultModel)), "Select the Gemini model to use", "extensions", Id)
  ]

  const PanelId: string := "gemini-panel-view"
  const Panel: Renderer := Renderer("GeminiPanel")
  const HelloCommand: string := "gemini.hello"
  const HelloHandler: Handler := Handler("gemini.hello")

  /** `activate`: one sidebar panel, then one command. */
  const Activation: seq<Call> := [
    RegisterSidebarPanel(PanelId, "sparkles", "Gemini AI", Panel),
    RegisterCommand(HelloCommand, HelloHandler)
  ]

  const Module: ExtModule := ExtModule(Some(Metadata), Some(Settings), Some(Activation), true)

  /** The `gemini.hello` handler: a single success toast. */
  function Hello(): (calls: seq<Call>)
    ensures |calls| == 1 && calls[0].Toast? && calls[0].kind == Success
    ensures calls == [Toast(Success, "Hello from Gemini Extension!")]
  {
    [Toast(Success, "Hello from Gemini Extension!")]
  }

  const Greeting: string := "Hello! I am your Gemini AI assistant. How can I help you today?"
  const MissingKeyResponse: string := "⚠️ Please set your Gemini API Key in Settings > Extensions."

  /** What `generateContent` produced: the response text, or an exception message. */
  datatype ModelReply = Answered(text: string) | Failed(message: string)

  /** The request `handleAsk` sends: the key, the model name and the prompt. */
  datatype ModelRequest = ModelRequest(apiKey: SettingValue, model: SettingValue, prompt: string)

  /** `s['gemini.model'] || 'gemini-1.5-flash'`. */
  function ModelName(settings: map<string, SettingValue>): (m: SettingValue)
    ensures m.Truthy()
    ensures ModelSetting in settings && settings[ModelSetting].Truthy() ==> m == settings[ModelSetting]
    ensures !(ModelSetting in settings && settings[ModelSetting].Truthy()) ==> m == Str(DefaultModel)
  {
    if ModelSetting in settings && settings[ModelSetting].Truthy() then settings[ModelSetting]
    else Str(DefaultModel)
  }

  /** Looks up a setting the way `s[key]` does: absent keys read as `undefined`. */
  function Lookup(settings: map<string, SettingValue>, key: string): Option<SettingValue> {
    if key in settings then Some(settings[key]) else None
  }

  /** The state of one Gemini sidebar panel. */
  class GeminiPanel {
    var input: string
    var response: string
    var loading: bool

    constructor ()
      ensures input == "" && response == Greeting && !loading
    {
      input := "";
      response := Greeting;
      loading := false;
    }

    /**
     * `handleAsk`: blank input does nothing; a missing or falsy API key shows the
     * warning and sends nothing; otherwise the request goes out and the panel shows
     * the answer (clearing the input) or the error. Loading ends false on every path
     * that started it.
     */
    method HandleAsk(settings: map<string, SettingValue>, reply: ModelReply) returns (request: Option<ModelRequest>)
      modifies this
      ensures Blank(old(input)) ==> request.None? && input == old(input) && response == old(response) && loading == old(loading)
      ensures !Blank(old(input)) ==> !loading
      ensures !Blank(old(input)) && !TruthySetting(Lookup(settings, ApiKeySetting)) ==>
        request.None? && response == MissingKeyResponse && input == old(input)
      ensures !Blank(old(input)) && TruthySetting(Lookup(settings, ApiKeySetting)) ==>
        request == Some(ModelRequest(settings[ApiKeySetting], ModelName(settings), old(input)))
        && (reply.Answered? ==> response == reply.text && input == "")
        && (reply.Failed? ==> response == "❌ Error: " + reply.message && input == old(input))
    {
      TrimEmptyIffBlank(input);
      if Trim(input) == [] {
        return None;
      }
      loading := true;
      var apiKey := Lookup(settings, ApiKeySetting);
      if !TruthySetting(apiKey) {
        response := MissingKeyResponse;
        loading := false;
        return None;
      }
      request := Some(ModelRequest(apiKey.value, ModelName(settings), input));
      match reply {
        case Answered(text) =>
          response := text;
          input := "";
        case Failed(message) =>
          response := "❌ Error: " + message;
      }
      loading := false;
    }
  }
}

=== FILE: layout.dfy ===
/**
 * The editor window's own state (`Layout.jsx`): the open tabs and the active
 * file, the list of recent projects, where a new file or folder goes, the
 * rename path, the side bar width, and the unsaved-settings flow. Calls into
 * the desktop back end are parameters; local storage is the `lastProject` and
 * `recentProjects` fields.
 */
module Layout {
  import opened Optional
  import opened Strings
  import opened Lists
  import DesktopMain
  import ExtensionApi

  type FileInfo = DesktopMain.FileInfo
  type FolderInfo = DesktopMain.FolderInfo
  type SettingValue = ExtensionApi.SettingValue

  /** At most this many recent projects are kept. */
  const RecentLimit: nat := 5

  /** The ids of the open tabs, in order. */
  function Ids(tabs: seq<FileInfo>): (ids: seq<string>)
    ensures |ids| == |tabs|
    ensures forall k | 0 <= k < |tabs| :: ids[k] == tabs[k].id
  {
    seq(|tabs|, k requires 0 <= k < |tabs| => tabs[k].id)
  }

  /** No two open tabs share an id. */
  predicate DistinctIds(tabs: seq<FileInfo>) {
    forall i, j | 0 <= i < j < |tabs| :: tabs[i].id != tabs[j].id
  }

  /** The recents after opening `root`: it first, then the others without any copy of it, at most five. */
  function NewRecents(root: string, recents: seq<string>): (r: seq<string>)
    ensures 1 <= |r| <= RecentLimit && r[0] == root
    ensures root !in r[1..]
    ensures |r| <= |Without(recents, root)| + 1
    ensures r[1..] == Without(recents, root)[..|r| - 1]
  {
    var all := [root] + Without(recents, root);
    var r := all[..if |all| < RecentLimit then |all| else RecentLimit];
    assert r[1..] == Without(recents, root)[..|r| - 1];
    assert forall x | x in r[1..] :: x in Without(recents, root);
    r
  }

  /** `split('\\').pop().split('/').pop()` in upper case: the project name shown in the explorer. */
  function ProjectName(rootPath: string): string {
    ToUpper(BaseName(rootPath))
  }

  /** A stored last project counts only when it is there and not empty (a falsy `''` does not). */
  predicate Remembered(last: Option<string>) {
    last.Some? && last.value != ""
  }

  /** The path separator for a project root: a backslash when the root holds one. */
  function SeparatorOf(rootPath: string): char {
    if '\\' in rootPath then '\\' else '/'
  }

  /** The folder with every slash and backslash turned into the separator. */
  function Normalized(folder: string, sep: char): (r: string)
    ensures |r| == |folder|
    ensures forall i | 0 <= i < |r| :: r[i] == if folder[i] == '/' || folder[i] == '\\' then sep else folder[i]
  {
    ReplaceAllChar(ReplaceAllChar(folder, '/', sep), '\\', sep)
  }

  /**
   * The directory a new file or folder goes into: the root for no folder or
   * `root`; a folder holding the root as it is; otherwise the normalized folder,
   * under the root unless it already starts with it.
   */
  function TargetDir(rootPath: string, folder: Option<string>): (dir: string)
    ensures folder.None? || folder.value == "" || folder.value == "root" ==> dir == rootPath
    ensures StartsWith(dir, rootPath) || (folder.Some? && dir == folder.value && Contains(dir, rootPath))
  {
    if folder.Some? && folder.value != "" && folder.value != "root" then
      if Contains(folder.value, rootPath) then folder.value
      else
        var norm := Normalized(folder.value, SeparatorOf(rootPath));
        if StartsWith(norm, rootPath) then norm
        else
          var under := rootPath + [SeparatorOf(rootPath)] + norm;
          assert under[..|rootPath|] == rootPath;
          under
    else
      assert rootPath[..|rootPath|] == rootPath;
      rootPath
  }

  /** What a create request from the explorer or the dialog leads to. */
  datatype CreateAction =
    | Ignored                 // no desktop API or no name
    | NoProjectOpen           // the file handler's error toast
    | Threw                   // the folder handler reads `includes` of a missing root
    | CreateAt(path: string)

  /** The handlers' target: the target directory, the separator and the name. */
  function CreatePath(rootPath: string, folder: Option<string>, name: string): (path: string)
    ensures StartsWith(path, TargetDir(rootPath, folder))
    ensures |path| == |TargetDir(rootPath, folder)| + 1 + |name|
    ensures path[|TargetDir(rootPath, folder)|] == SeparatorOf(rootPath)
    ensures path[|path| - |name|..] == name
  {
    var dir := TargetDir(rootPath, folder);
    var path := dir + [SeparatorOf(rootPath)] + name;
    assert path[..|dir|] == dir;
    path
  }

  /** A folder argument that names a folder other than the root. */
  predicate NamesFolder(folder: Option<string>) {
    folder.Some? && folder.value != "" && folder.value != "root"
  }

  /**
   * Where a new entry lands: directly under the root for no folder or `root`;
   * under a folder that holds the root as given; and otherwise under the root,
   * with only the root's separator used between the root and the name.
   */
  lemma CreatePathShape(rootPath: string, folder: Option<string>, name: string)
    ensures var path := CreatePath(rootPath, folder, name);
      && (!NamesFolder(folder) ==> path == rootPath + [SeparatorOf(rootPath)] + name)
      && (NamesFolder(folder) && Contains(folder.value, rootPath) ==> StartsWith(path, folder.value))
      && (NamesFolder(folder) && !Contains(folder.value, rootPath) ==>
            && StartsWith(path, rootPath)
            && forall i | |rootPath| <= i < |path| - |name| :: path[i] == '/' || path[i] == '\\' ==> path[i] == SeparatorOf(rootPath))
  {
    var path := CreatePath(rootPath, folder, name);
    var sep := SeparatorOf(rootPath);
    if NamesFolder(folder) && !Contains(folder.value, rootPath) {
      var norm := Normalized(folder.value, sep);
      if StartsWith(norm, rootPath) {
        assert path == norm + [sep] + name;
        assert path[..|rootPath|] == norm[..|rootPath|];
        forall i | |rootPath| <= i < |path| - |name| && (path[i] == '/' || path[i] == '\\') ensures path[i] == sep {
          if i < |norm| {
            assert path[i] == norm[i];
          }
        }
      } else {
        var dir := rootPath + [sep] + norm;
        assert path == dir + [sep] + name;
        assert path[..|rootPath|] == rootPath;
        forall i | |rootPath| <= i < |path| - |name| && (path[i] == '/' || path[i] == '\\') ensures path[i] == sep {
          if |rootPath| < i < |dir| {
            assert path[i] == norm[i - |rootPath| - 1];
          }
        }
      }
    }
  }

  /**
   * `handleCreateFileDirect` (`isFolder` false) and `handleCreateFolderDirect`:
   * nothing without the API or a name; the file handler reports a missing
   * project, where the folder handler throws.
   */
  function CreateRequest(hasApi: bool, name: Option<string>, folder: Option<string>, lastProject: Option<string>, isFolder: bool): (a: CreateAction)
    ensures !hasApi || name.None? || name.value == "" ==> a == Ignored
    ensures hasApi && name.Some? && name.value != "" && lastProject.None? ==> a == (if isFolder then Threw else NoProjectOpen)
    ensures hasApi && name.Some? && name.value != "" && lastProject.Some? && lastProject.value == "" && !isFolder ==> a == NoProjectOpen
    ensures a.CreateAt? ==> lastProject.Some? && a.path == CreatePath(lastProject.value, folder, name.value)
  {
    if !hasApi || name.None? || name.value == "" then Ignored
    else if lastProject.None? then (if isFolder then Threw else NoProjectOpen)
    else if lastProject.value == "" && !isFolder then NoProjectOpen
    else CreateAt(CreatePath(lastProject.value, folder, name.value))
  }

  /** The directory of a real path: up to its last backslash, or its last slash when it has none; empty when it has neither. */
  function DirectoryOf(oldPath: string): (dir: string)
    ensures '\\' in oldPath ==> dir == oldPath[..LastIndexOfChar(oldPath, '\\')]
    ensures '\\' !in oldPath && '/' in oldPath ==> dir == oldPath[..LastIndexOfChar(oldPath, '/')]
    ensures '\\' !in oldPath && '/' !in oldPath ==> dir == ""
  {
    var b := LastIndexOfChar(oldPath, '\\');
    var cut := if b != -1 then b else LastIndexOfChar(oldPath, '/');
    if cut < 0 then "" else oldPath[..cut]
  }

  /** The new real path of a rename: the directory, a backslash, the new name. */
  function RenamedPath(oldPath: string, newName: string): (p: string)
    ensures EndsWith(p, "\\" + newName)
    ensures '\\' !in newName ==> DirectoryOf(p) == DirectoryOf(oldPath)
  {
    var dir := DirectoryOf(oldPath);
    var p := dir + "\\" + newName;
    assert p[|p| - |"\\" + newName|..] == "\\" + newName;
    assert p[|dir|] == '\\';
    assert '\\' !in newName ==> p[..|dir|] == dir && forall j | |dir| < j < |p| :: p[j] != '\\' by {
      if '\\' !in newName {
        forall j | |dir| < j < |p| ensures p[j] != '\\' {
          assert p[j] == newName[j - |dir| - 1];
        }
      }
    }
    p
  }

  /**
   * The tree path of a rename goes through `replace`, so a `$&` in the new name
   * stands for the old name: renaming `a.js` at `src/a.js` to `b$&.js` shows the
   * path `src/ba.js.js`, though the file on disk is named `b$&.js`.
   */
  lemma RenameTreePathExpandsPattern()
    ensures ReplaceFirst("src/a.js", "a.js", "b$&.js") == "src/ba.js.js"
  {
    var s, pat := "src/a.js", "a.js";
    assert OccursAt(s, pat, 4) by { assert s[4..8] == pat; }
    assert IndexOfFrom(s, pat, 4) == Some(4);
    forall j | 0 <= j < 4 ensures !OccursAt(s, pat, j) {
      assert s[j..j + 4][0] == s[j] != 'a' == pat[0];
    }
    assert IndexOfFrom(s, pat, 3) == Some(4);
    assert IndexOfFrom(s, pat, 2) == Some(4);
    assert IndexOfFrom(s, pat, 1) == Some(4);
    assert IndexOfFrom(s, pat, 0) == Some(4);
    assert s[..4] == "src/" && s[8..] == "";
    assert Substitution("b$&.js", "src/", pat, "") == "ba.js.js" by {
      var rep := "b$&.js";
      assert rep[1..] == "$&.js" && rep[3..] == ".js";
      SubstitutionPlain(".js", "src/", pat, "");
      assert Substitution(rep[1..], "src/", pat, "") == pat + ".js";
    }
  }

  /** The rename keeps the directory for a Windows path with a plain new name: the new path is the old one with its last segment replaced. */
  lemma RenameKeepsDirectory(dir: string, oldName: string, newName: string)
    requires '\\' !in oldName
    ensures RenamedPath(dir + "\\" + oldName, newName) == dir + "\\" + newName
  {
    var p := dir + "\\" + oldName;
    assert p[|dir|] == '\\';
    assert '\\' in p;
    var b := LastIndexOfChar(p, '\\');
    assert b == |dir|;
    assert p[..b] == dir;
  }

  /**
   * A rename under a slash-separated directory still joins with a backslash:
   * the new path is the directory, a backslash and the new name.
   */
  lemma RenameSlashPath(dir: string, oldName: string, newName: string)
    requires '\\' !in dir && '\\' !in oldName && '/' !in oldName
    ensures RenamedPath(dir + "/" + oldName, newName) == dir + "\\" + newName
  {
    var p := dir + "/" + oldName;
    assert '\\' !in p by {
      forall i | 0 <= i < |p| ensures p[i] != '\\' {
        if i < |dir| { assert p[i] == dir[i]; }
        else if i > |dir| { assert p[i] == oldName[i - |dir| - 1]; }
      }
    }
    assert LastIndexOfChar(p, '\\') == -1;
    assert p[|dir|] == '/';
    var b := LastIndexOfChar(p, '/');
    assert b == |dir| by {
      forall j | |dir| < j < |p| ensures p[j] != '/' { assert p[j] == oldName[j - |dir| - 1]; }
    }
    assert p[..b] == dir;
  }

  /** `handleFileClick`'s file: its content read from disk first when it has none and the API is there. */
  function Loaded(file: FileInfo, hasApi: bool, read: string -> string): FileInfo {
    if file.content == "" && hasApi then file.(content := read(if file.realPath != "" then file.realPath else file.id)) else file
  }

  /** The file list with the entry of `id` given new content. */
  function WithContent(files: seq<FileInfo>, id: string, content: string): (r: seq<FileInfo>)
    ensures |r| == |files|
    ensures forall k | 0 <= k < |files| :: r[k] == if files[k].id == id then files[k].(content := content) else files[k]
  {
    seq(|files|, k requires 0 <= k < |files| => if files[k].id == id then files[k].(content := content) else files[k])
  }

  /** The window state that the handlers change. */
  class Window {
    var files: seq<FileInfo>
    var folders: seq<FolderInfo>
    var openFiles: seq<FileInfo>
    var activeFile: Option<FileInfo>
    var unsavedFiles: set<string>
    var recentProjects: seq<string>
    var lastProject: Option<string>
    var projectName: string
    var sidebarWidth: int
    var settings: map<string, SettingValue>
    var settingsUnsaved: bool
    var showSettingsModal: bool
    var showUnsavedWarning: bool

    /** The tabs are distinct by id, and the active file, when there is one, has an open tab. */
    predicate Valid()
      reads this
    {
      && DistinctIds(openFiles)
      && (activeFile.Some? ==> activeFile.value.id in Ids(openFiles))
    }

    /** The window as it mounts: empty lists, the `DEVSTUDIO` title, the stored last project and settings. */
    constructor(last: Option<string>, saved: map<string, SettingValue>)
      ensures Valid()
      ensures files == [] && folders == [] && openFiles == [] && activeFile.None? && unsavedFiles == {}
      ensures recentProjects == [] && lastProject == last && projectName == "DEVSTUDIO" && settings == saved
      ensures sidebarWidth == 300 && !settingsUnsaved && !showSettingsModal && !showUnsavedWarning
    {
      files, folders, openFiles, activeFile, unsavedFiles := [], [], [], None, {};
      recentProjects, lastProject, projectName := [], last, "DEVSTUDIO";
      sidebarWidth, settings := 300, saved;
      settingsUnsaved, showSettingsModal, showUnsavedWarning := false, false, false;
    }

    /**
     * The `loadLastProject` effect at start-up: the stored recents are taken in;
     * with a stored last project and the API, a tree that opened replaces the
     * files and folders and names the project (the tabs are left alone), and a
     * path that no longer opens is forgotten.
     */
    method LoadLastProject(storedRecents: seq<string>, hasApi: bool, result: Option<DesktopMain.Opened>)
      requires Valid()
      modifies this
      ensures Valid()
      ensures recentProjects == storedRecents
      ensures Remembered(old(lastProject)) && hasApi && result.Some? ==>
        && files == result.value.files && folders == result.value.folders
        && projectName == ProjectName(result.value.rootPath) && lastProject == old(lastProject)
      ensures Remembered(old(lastProject)) && hasApi && result.None? ==>
        lastProject.None? && unchanged(this`files, this`folders, this`projectName)
      ensures !(Remembered(old(lastProject)) && hasApi) ==> unchanged(this`files, this`folders, this`projectName, this`lastProject)
      ensures unchanged(this`openFiles, this`activeFile, this`unsavedFiles, this`sidebarWidth)
      ensures unchanged(this`settings, this`settingsUnsaved, this`showSettingsModal, this`showUnsavedWarning)
    {
      recentProjects := storedRecents;
      if Remembered(lastProject) && hasApi {
        if result.Some? {
          files, folders := result.value.files, result.value.folders;
          projectName := ProjectName(result.value.rootPath);
        } else {
          lastProject := None;
        }
      }
    }

    /**
     * `handleFileClick`: the file (its content read first when empty) becomes
     * active, and gets a tab only when none has its id.
     */
    method FileClick(file: FileInfo, hasApi: bool, read: string -> string)
      requires Valid()
      modifies this
      ensures Valid()
      ensures activeFile == Some(Loaded(file, hasApi, read))
      ensures file.id in Ids(old(openFiles)) ==> openFiles == old(openFiles)
      ensures file.id !in Ids(old(openFiles)) ==> openFiles == old(openFiles) + [Loaded(file, hasApi, read)]
      ensures file.content == "" && hasApi ==> files == WithContent(old(files), file.id, Loaded(file, hasApi, read).content)
      ensures !(file.content == "" && hasApi) ==> files == old(files)
      ensures unchanged(this`folders, this`unsavedFiles, this`recentProjects, this`lastProject, this`projectName, this`sidebarWidth)
      ensures unchanged(this`settings, this`settingsUnsaved, this`showSettingsModal, this`showUnsavedWarning)
    {
      var f := Loaded(file, hasApi, read);
      if file.content == "" && hasApi {
        files := WithContent(files, file.id, f.content);
      }
      if file.id !in Ids(openFiles) {
        forall k | 0 <= k < |openFiles| ensures openFiles[k].id != f.id {
          assert Ids(openFiles)[k] == openFiles[k].id;
        }
        openFiles := openFiles + [f];
        assert Ids(openFiles)[|openFiles| - 1] == f.id;
      }
      activeFile := Some(f);
    }

    /**
     * `handleTabClose`: the tab of that id goes; a closed active file gives way
     * to the last remaining tab, or to none.
     */
    method TabClose(file: FileInfo)
      requires Valid()
      modifies this
      ensures Valid()
      ensures openFiles == Closing(old(openFiles), file.id)
      ensures file.id !in Ids(openFiles)
      ensures old(activeFile).Some? && old(activeFile).value.id == file.id ==>
        activeFile == (if openFiles != [] then Some(openFiles[|openFiles| - 1]) else None)
      ensures !(old(activeFile).Some? && old(activeFile).value.id == file.id) ==> activeFile == old(activeFile)
      ensures unchanged(this`files, this`folders, this`unsavedFiles, this`recentProjects, this`lastProject, this`projectName, this`sidebarWidth)
      ensures unchanged(this`settings, this`settingsUnsaved, this`showSettingsModal, this`showUnsavedWarning)
    {
      var remaining := Closing(openFiles, file.id);
      FilterKeepsDistinct(openFiles, (f: FileInfo) => f.id != file.id);
      if activeFile.Some? && activeFile.value.id != file.id {
        ClosingKeepsOthers(openFiles, file.id, activeFile.value.id);
      }
      openFiles := remaining;
      if activeFile.Some? && activeFile.value.id == file.id {
        activeFile := if remaining != [] then Some(remaining[|remaining| - 1]) else None;
        assert remaining != [] ==> Ids(remaining)[|remaining| - 1] == remaining[|remaining| - 1].id;
      }
      ClosingDropsId(old(openFiles), file.id);
    }

    /** `handleContentChange`: the file's new content in the list and in the active file, and the file marked unsaved. */
    method ContentChange(fileId: string, content: string)
      requires Valid()
      modifies this
      ensures Valid()
      ensures files == WithContent(old(files), fileId, content)
      ensures old(activeFile).Some? && old(activeFile).value.id == fileId ==> activeFile == Some(old(activeFile).value.(content := content))
      ensures !(old(activeFile).Some? && old(activeFile).value.id == fileId) ==> activeFile == old(activeFile)
      ensures unsavedFiles == old(unsavedFiles) + {fileId}
      ensures unchanged(this`folders, this`openFiles, this`recentProjects, this`lastProject, this`projectName, this`sidebarWidth)
      ensures unchanged(this`settings, this`settingsUnsaved, this`showSettingsModal, this`showUnsavedWarning)
    {
      files := WithContent(files, fileId, content);
      if activeFile.Some? && activeFile.value.id == fileId {
        activeFile := Some(activeFile.value.(content := content));
      }
      unsavedFiles := unsavedFiles + {fileId};
    }

    /**
     * `handleOpenRecent` (and `handleOpenFolder`): a project that opened replaces
     * the files and folders, closes every tab, is remembered as the last project
     * and goes first in the recents; one that did not changes nothing.
     */
    method OpenProject(result: Option<DesktopMain.Opened>)
      requires Valid()
      modifies this
      ensures Valid()
      ensures result.None? ==> unchanged(this)
      ensures result.Some? ==>
        && files == result.value.files && folders == result.value.folders
        && openFiles == [] && activeFile.None?
        && projectName == ProjectName(result.value.rootPath)
        && recentProjects == NewRecents(result.value.rootPath, old(recentProjects))
        && lastProject == Some(result.value.rootPath)
      ensures unchanged(this`unsavedFiles, this`sidebarWidth, this`settings, this`settingsUnsaved, this`showSettingsModal, this`showUnsavedWarning)
    {
      if result.Some? {
        Load(result.value);
      }
    }

    /** The part of `handleOpenRecent` and `handleOpenFolder` that takes in an opened tree. */
    method Load(o: DesktopMain.Opened)
      modifies this
      ensures Valid()
      ensures files == o.files && folders == o.folders && openFiles == [] && activeFile.None?
      ensures projectName == ProjectName(o.rootPath) && lastProject == Some(o.rootPath)
      ensures recentProjects == NewRecents(o.rootPath, old(recentProjects))
      ensures unchanged(this`unsavedFiles, this`sidebarWidth, this`settings, this`settingsUnsaved, this`showSettingsModal, this`showUnsavedWarning)
    {
      var name := ProjectName(o.rootPath);
      var recents := NewRecents(o.rootPath, recentProjects);
      files, folders, openFiles, activeFile := o.files, o.folders, [], None;
      projectName, lastProject, recentProjects := name, Some(o.rootPath), recents;
      assert DistinctIds(openFiles);
    }

    /**
     * `handleRenameFile`: nothing without the API, for an empty name or the same
     * name, or when the back end refuses; otherwise the file's entry, its tab and
     * the active file take the new name and path, and the new path as their id.
     * The tabs stay distinct unless the new path is the id of another tab.
     */
    method RenameFile(file: FileInfo, newName: string, hasApi: bool, renamed: (string, string) -> bool) returns (newPath: Option<string>)
      requires Valid()
      modifies this
      ensures !hasApi || newName == "" || newName == file.name ==> newPath.None?
      ensures newPath.Some? ==> newPath.value == RenamedPath(file.realPath, newName) && renamed(file.realPath, newPath.value)
      ensures newPath.Some? ==>
        && |files| == |old(files)|
        && (forall k | 0 <= k < |files| :: files[k] == if old(files)[k].id == file.id
              then old(files)[k].(name := newName, realPath := newPath.value, id := newPath.value, path := ReplaceFirst(old(files)[k].path, file.name, newName))
              else old(files)[k])
        && |openFiles| == |old(openFiles)|
        && (forall k | 0 <= k < |openFiles| :: openFiles[k] == if old(openFiles)[k].id == file.id
              then old(openFiles)[k].(name := newName, realPath := newPath.value, id := newPath.value)
              else old(openFiles)[k])
      ensures newPath.Some? && old(activeFile).Some? && old(activeFile).value.id == file.id ==>
        activeFile == Some(old(activeFile).value.(name := newName, realPath := newPath.value, id := newPath.value))
      ensures newPath.Some? && !(old(activeFile).Some? && old(activeFile).value.id == file.id) ==> activeFile == old(activeFile)
      ensures newPath.None? ==> unchanged(this)
      ensures newPath.Some? && (forall k | 0 <= k < |old(openFiles)| :: old(openFiles)[k].id != file.id ==> old(openFiles)[k].id != newPath.value) ==>
        Valid()
      ensures unchanged(this`folders, this`unsavedFiles, this`recentProjects, this`lastProject, this`projectName, this`sidebarWidth)
      ensures unchanged(this`settings, this`settingsUnsaved, this`showSettingsModal, this`showUnsavedWarning)
    {
      if !hasApi || newName == "" || newName == file.name {
        return None;
      }
      var target := RenamedPath(file.realPath, newName);
      if !renamed(file.realPath, target) {
        return None;
      }
      files := seq(|files|, k requires 0 <= k < |files| reads this => if files[k].id == file.id
        then files[k].(name := newName, realPath := target, id := target, path := ReplaceFirst(files[k].path, file.name, newName))
        else files[k]);
      if activeFile.Some? && activeFile.value.id == file.id {
        activeFile := Some(activeFile.value.(name := newName, realPath := target, id := target));
      }
      var before := openFiles;
      openFiles := seq(|openFiles|, k requires 0 <= k < |openFiles| reads this => if openFiles[k].id == file.id
        then openFiles[k].(name := newName, realPath := target, id := target)
        else openFiles[k]);
      newPath := Some(target);
      if forall k | 0 <= k < |before| :: before[k].id != file.id ==> before[k].id != target {
        RenamingKeepsValid(before, openFiles, old(activeFile), activeFile, file.id, target);
      }
    }

    /** The resize listener: while dragging, the width follows the mouse only strictly between 170 and 800. */
    method Resize(resizing: bool, clientX: int)
      requires Valid()
      modifies this
      ensures Valid()
      ensures resizing && 170 < clientX - 48 < 800 ==> sidebarWidth == clientX - 48
      ensures !(resizing && 170 < clientX - 48 < 800) ==> sidebarWidth == old(sidebarWidth)
      ensures unchanged(this`files, this`folders, this`openFiles, this`activeFile, this`unsavedFiles, this`recentProjects, this`lastProject, this`projectName)
      ensures unchanged(this`settings, this`settingsUnsaved, this`showSettingsModal, this`showUnsavedWarning)
    {
      if resizing {
        var newWidth := clientX - 48;
        if newWidth > 170 && newWidth < 800 {
          sidebarWidth := newWidth;
        }
      }
    }

    /** `handleSettingChange`: the setting takes the value and the settings become unsaved. */
    method SettingChange(key: string, value: SettingValue)
      requires Valid()
      modifies this
      ensures Valid()
      ensures settings == old(settings)[key := value] && settingsUnsaved
      ensures unchanged(this`files, this`folders, this`openFiles, this`activeFile, this`unsavedFiles, this`recentProjects, this`lastProject, this`projectName)
      ensures unchanged(this`sidebarWidth, this`showSettingsModal, this`showUnsavedWarning)
    {
      settings := settings[key := value];
      settingsUnsaved := true;
    }

    /** `handleSettingsClose`: with unsaved settings the warning opens instead; otherwise the dialog closes. */
    method SettingsClose()
      requires Valid()
      modifies this
      ensures Valid()
      ensures old(settingsUnsaved) ==> showUnsavedWarning && showSettingsModal == old(showSettingsModal)
      ensures !old(settingsUnsaved) ==> !showSettingsModal && showUnsavedWarning == old(showUnsavedWarning)
      ensures unchanged(this`files, this`folders, this`openFiles, this`activeFile, this`unsavedFiles, this`recentProjects, this`lastProject, this`projectName)
      ensures unchanged(this`sidebarWidth, this`settings, this`settingsUnsaved)
    {
      if settingsUnsaved {
        showUnsavedWarning := true;
      } else {
        showSettingsModal := false;
      }
    }

    /** `confirmCloseWithoutSaving`: both dialogs close and the unsaved flag clears; the settings keep their values. */
    method ConfirmCloseWithoutSaving()
      requires Valid()
      modifies this
      ensures Valid()
      ensures !showUnsavedWarning && !showSettingsModal && !settingsUnsaved
      ensures unchanged(this`files, this`folders, this`openFiles, this`activeFile, this`unsavedFiles, this`recentProjects, this`lastProject, this`projectName)
      ensures unchanged(this`sidebarWidth, this`settings)
    {
      showUnsavedWarning, showSettingsModal, settingsUnsaved := false, false, false;
    }

    /**
     * `saveSettings`: the settings are handed to storage as they are and the
     * unsaved flag clears. `discardSettingsChanges` is the same step without
     * the storage write: it only clears the flag.
     */
    method SaveSettings() returns (stored: map<string, SettingValue>)
      requires Valid()
      modifies this
      ensures Valid()
      ensures stored == settings && !settingsUnsaved
      ensures unchanged(this`files, this`folders, this`openFiles, this`activeFile, this`unsavedFiles, this`recentProjects, this`lastProject, this`projectName)
      ensures unchanged(this`sidebarWidth, this`settings, this`showSettingsModal, this`showUnsavedWarning)
    {
      stored := settings;
      settingsUnsaved := false;
    }
  }

  /** Renaming the tabs of one id to a path no other tab has keeps the tabs distinct and the active file open. */
  lemma RenamingKeepsValid(before: seq<FileInfo>, after: seq<FileInfo>, active: Option<FileInfo>, active': Option<FileInfo>, id: string, target: string)
    requires DistinctIds(before) && (active.Some? ==> active.value.id in Ids(before))
    requires |after| == |before|
    requires forall k | 0 <= k < |after| :: after[k].id == if before[k].id == id then target else before[k].id
    requires forall k | 0 <= k < |before| :: before[k].id != id ==> before[k].id != target
    requires active.Some? && active.value.id == id ==> active'.Some? && active'.value.id == target
    requires !(active.Some? && active.value.id == id) ==> active' == active
    ensures DistinctIds(after) && (active'.Some? ==> active'.value.id in Ids(after))
  {
    if active'.Some? {
      var k :| 0 <= k < |before| && Ids(before)[k] == active.value.id;
      assert Ids(after)[k] == after[k].id;
    }
  }

  /** The tabs left after closing the tab of `id`. */
  function Closing(tabs: seq<FileInfo>, id: string): seq<FileInfo> {
    Filter(tabs, (f: FileInfo) => f.id != id)
  }

  /** Closing a tab leaves no tab of its id. */
  lemma ClosingDropsId(tabs: seq<FileInfo>, id: string)
    ensures id !in Ids(Closing(tabs, id))
  {
    var r := Closing(tabs, id);
    forall k | 0 <= k < |r| ensures Ids(r)[k] != id {
      assert r[k] in r;
    }
  }

  /** Closing a tab keeps every other id open. */
  lemma ClosingKeepsOthers(tabs: seq<FileInfo>, id: string, other: string)
    requires other in Ids(tabs) && other != id
    ensures other in Ids(Closing(tabs, id))
  {
    var r := Closing(tabs, id);
    var j :| 0 <= j < |tabs| && Ids(tabs)[j] == other;
    assert tabs[j] in r;
    var m :| 0 <= m < |r| && r[m] == tabs[j];
    assert Ids(r)[m] == other;
  }

  /** Filtering tabs keeps them distinct by id. */
  lemma {:induction false} FilterKeepsDistinct(tabs: seq<FileInfo>, keep: FileInfo -> bool)
    requires DistinctIds(tabs)
    ensures DistinctIds(Filter(tabs, keep))
    decreases |tabs|
  {
    if tabs != [] {
      var init := tabs[..|tabs| - 1];
      var last := tabs[|tabs| - 1];
      FilterKeepsDistinct(init, keep);
      var r := Filter(init, keep);
      if keep(last) {
        forall k | 0 <= k < |r| ensures r[k].id != last.id {
          assert r[k] in init;
          var j :| 0 <= j < |init| && init[j] == r[k];
          assert tabs[j] == init[j];
        }
      }
    }
  }
}

=== FILE: lists.dfy ===
/**
 * The array operations the components use on their lists: `filter`, removal of
 * every copy of a value, and `includes`.
 */
module Lists {
  /** `xs.filter(keep)`: the kept elements, in order. */
  function Filter<T(!new)>(xs: seq<T>, keep: T -> bool): (r: seq<T>)
    ensures |r| <= |xs|
    ensures forall x :: x in r <==> x in xs && keep(x)
  {
    if xs == [] then []
    else
      var last := xs[|xs| - 1];
      assert forall y | y in xs :: y in xs[..|xs| - 1] || y == last by {
        assert xs == xs[..|xs| - 1] + [last];
      }
      Filter(xs[..|xs| - 1], keep) + (if keep(last) then [last] else [])
  }

  /** Filtering a concatenation filters each part, in order. */
  lemma {:induction false} FilterAppend<T(!new)>(a: seq<T>, b: seq<T>, keep: T -> bool)
    ensures Filter(a + b, keep) == Filter(a, keep) + Filter(b, keep)
    decreases |b|
  {
    if b == [] {
      assert a + b == a;
    } else {
      var b0, last := b[..|b| - 1], b[|b| - 1];
      var tail := if keep(last) then [last] else [];
      assert (a + b)[..|a + b| - 1] == a + b0;
      assert (a + b)[|a + b| - 1] == last;
      assert Filter(a + b, keep) == Filter(a + b0, keep) + tail;
      FilterAppend(a, b0, keep);
      assert Filter(b, keep) == Filter(b0, keep) + tail;
    }
  }

  /** `xs.flatMap(f)`: the lists `f` gives for each element, joined in order. */
  function FlatMap<A, B>(xs: seq<A>, f: A -> seq<B>): seq<B> {
    if xs == [] then [] else f(xs[0]) + FlatMap(xs[1..], f)
  }

  /** Flat-mapping a concatenation flat-maps each part, in order. */
  lemma {:induction false} FlatMapAppend<A, B>(a: seq<A>, b: seq<A>, f: A -> seq<B>)
    ensures FlatMap(a + b, f) == FlatMap(a, f) + FlatMap(b, f)
    decreases |a|
  {
    if a == [] {
      assert a + b == b;
    } else {
      assert (a + b)[0] == a[0] && (a + b)[1..] == a[1..] + b;
      FlatMapAppend(a[1..], b, f);
    }
  }

  /** A filter that keeps everything in the list returns the list. */
  lemma {:induction false} FilterKeepsAll<T(!new)>(xs: seq<T>, keep: T -> bool)
    requires forall k | 0 <= k < |xs| :: keep(xs[k])
    ensures Filter(xs, keep) == xs
    decreases |xs|
  {
    if xs != [] {
      var init := xs[..|xs| - 1];
      FilterKeepsAll(init, keep);
      assert xs == init + [xs[|xs| - 1]];
    }
  }

  /** A filter that keeps nothing in the list returns nothing. */
  lemma {:induction false} FilterKeepsNone<T(!new)>(xs: seq<T>, keep: T -> bool)
    requires forall k | 0 <= k < |xs| :: !keep(xs[k])
    ensures Filter(xs, keep) == []
    decreases |xs|
  {
    if xs != [] {
      FilterKeepsNone(xs[..|xs| - 1], keep);
    }
  }

  /** The list without any copy of `x`, the others in order. */
  function Without<T(==,!new)>(xs: seq<T>, x: T): (r: seq<T>)
    ensures x !in r
    ensures forall y | y != x :: y in r <==> y in xs
    ensures |r| <= |xs|
  {
    Filter(xs, y => y != x)
  }
}

=== FILE: live_server.dfy ===
/**
 * The built-in Live Server extension: a two-state machine over the module-level
 * `serverRunning` flag. Each transition shows toasts and re-creates the
 * `live-server-btn` status-bar item through the activation context; the calls
 * a transition makes are returned for the extension host to apply.
 */
module LiveServer {
  import opened Optional
  import opened Strings
  import opened ExtensionApi
  import DesktopMain

  const Metadata: Manifest := Manifest(
    "devstudio.live-server", "Live Server", None,
    "Launch a local development server for static pages.", None, None)

  const StartCommand: string := "liveServer.start"
  const StopCommand: string := "liveServer.stop"
  const StartHandler: Handler := Handler("liveServer.start")
  const StopHandler: Handler := Handler("liveServer.stop")
  const ButtonId: string := "live-server-btn"

  /** `${port}` of the back end's answer: `undefined` when it has none. */
  function PortText(port: Option<nat>): string {
    if port.Some? then NatToString(port.value) else "undefined"
  }

  /** `${port}` inside `updateStatusBar`: a missing port takes the parameter's default `null`. */
  function ItemPortText(port: Option<nat>): string {
    if port.Some? then NatToString(port.value) else "null"
  }

  /** The item `updateStatusBar(isRunning, port)` creates. */
  function StatusItem(isRunning: bool, port: Option<nat>): (item: StatusBarItem)
    ensures item.id == ButtonId
    ensures item.command == (if isRunning then StopCommand else StartCommand)
    ensures !isRunning ==> item.text == "Go Live"
    ensures isRunning ==> item.text == "🌐 Port: " + ItemPortText(port)
    ensures isRunning && port.None? ==> item.text == "🌐 Port: null"
  {
    StatusBarItem(
      ButtonId,
      if isRunning then "🌐 Port: " + ItemPortText(port) else "Go Live",
      if isRunning then StopCommand else StartCommand,
      if isRunning then "Click to stop live server" else "Click to start live server",
      if isRunning then "#34d399" else "#cccccc")
  }

  const GoLiveItem: StatusBarItem := StatusItem(false, None)

  /** `activate`: the two commands, then the initial `Go Live` item. */
  const Activation: seq<Call> := [
    RegisterCommand(StartCommand, StartHandler),
    RegisterCommand(StopCommand, StopHandler),
    CreateStatusBarItem(GoLiveItem)
  ]

  const Module: ExtModule := ExtModule(Some(Metadata), None, Some(Activation), false)

  /** A transition: the new flag, the context calls made, and whether the back end was called. */
  datatype Step = Step(running: bool, calls: seq<Call>, backendCalled: bool)

  /** `getWorkspaceRoot()` is truthy. */
  predicate HasRoot(root: Option<string>) {
    root.Some? && root.value != ""
  }

  /** The `liveServer.start` handler, given the workspace root and the back end's answer. */
  function Start(running: bool, root: Option<string>, response: DesktopMain.LiveServerResponse): (s: Step)
    ensures running ==> s == Step(true, [Toast(Warning, "Server is already running!")], false)
    ensures !running && !HasRoot(root) ==> s == Step(false, [Toast(Error, "Please open a folder first!")], false)
    ensures !running && HasRoot(root) ==> s.backendCalled && |s.calls| >= 2 && s.calls[0] == Toast(Info, "Starting live server...")
    ensures s.running <==> running || (HasRoot(root) && response.success)
    ensures !running && s.running ==>
      s.calls == [Toast(Info, "Starting live server..."),
                  CreateStatusBarItem(StatusItem(true, response.port)),
                  Toast(Success, "Server is live at http://localhost:" + PortText(response.port))]
    ensures !running && HasRoot(root) && !response.success ==>
      s.calls == [Toast(Info, "Starting live server..."),
                  Toast(Error, "Failed to start server: " + TemplateText(response.error))]
  {
    if running then Step(true, [Toast(Warning, "Server is already running!")], false)
    else if !HasRoot(root) then Step(false, [Toast(Error, "Please open a folder first!")], false)
    else
      var starting := Toast(Info, "Starting live server...");
      if response.success then
        Step(true, [starting, CreateStatusBarItem(StatusItem(true, response.port)),
                    Toast(Success, "Server is live at http://localhost:" + PortText(response.port))], true)
      else
        Step(false, [starting, Toast(Error, "Failed to start server: " + TemplateText(response.error))], true)
  }

  /** The `liveServer.stop` handler. */
  function Stop(running: bool): (s: Step)
    ensures !s.running
    ensures s.backendCalled <==> running
    ensures !running ==> s.calls == [Toast(Warning, "Server is not running.")]
    ensures running ==> s.calls == [CreateStatusBarItem(GoLiveItem), Toast(Info, "Live server stopped.")]
  {
    if !running then Step(false, [Toast(Warning, "Server is not running.")], false)
    else Step(false, [CreateStatusBarItem(StatusItem(false, None)), Toast(Info, "Live server stopped.")], true)
  }

  /**
   * With the desktop back end's actual answer, a start from a stopped state with a
   * root creates an item whose text is `🌐 Port: null` (the default of
   * `updateStatusBar`'s `port` parameter) and announces `http://localhost:undefined`
   * (the toast reads the missing `port` directly): the answer carries `url`, not `port`.
   */
  lemma StartWithDesktopBackend(root: Option<string>)
    requires HasRoot(root)
    ensures var s := Start(false, root, DesktopMain.StartLiveServer(root));
      s.running
      && StatusBarItemsOf(s.calls) == [StatusItem(true, None)]
      && StatusItem(true, None).text == "🌐 Port: null"
      && s.calls[2] == Toast(Success, "Server is live at http://localhost:undefined")
  {
    var response := DesktopMain.StartLiveServer(root);
    var s := Start(false, root, response);
    var item := StatusItem(true, None);
    assert s.calls == [Toast(Info, "Starting live server..."), CreateStatusBarItem(item),
                       Toast(Success, "Server is live at http://localhost:" + PortText(None))];
    assert StatusBarItemsOf(s.calls[..1]) == [] by {
      assert s.calls[..1][..0] == [];
    }
    assert StatusBarItemsOf(s.calls[..2]) == [item] by {
      assert s.calls[..2][..1] == s.calls[..1];
    }
    assert s.calls[..2] == s.calls[..|s.calls| - 1];
    assert PortText(None) == "undefined";
  }

  /**
   * Every transition that changes the flag re-creates the status-bar item, and the
   * item's command always switches the flag back: the button toggles the server.
   * A start that does not change the flag creates no item.
   */
  lemma ItemFollowsFlag(running: bool, root: Option<string>, response: DesktopMain.LiveServerResponse)
    ensures var s := Start(running, root, response);
      s.running != running ==>
        StatusBarItemsOf(s.calls) == [StatusItem(true, response.port)]
        && StatusItem(true, response.port).command == StopCommand
    ensures var s := Start(running, root, response);
      s.running == running ==> StatusBarItemsOf(s.calls) == []
  {
    var s := Start(running, root, response);
    if |s.calls| >= 1 {
      assert s.calls[..1][..0] == [];
    }
    if |s.calls| == 3 {
      assert StatusBarItemsOf(s.calls[..1]) == [];
      assert s.calls[..2][..1] == s.calls[..1];
      assert StatusBarItemsOf(s.calls[..2]) == [StatusItem(true, response.port)];
      assert s.calls[..2] == s.calls[..|s.calls| - 1];
    } else if |s.calls| == 2 {
      assert s.calls[..1] == s.calls[..|s.calls| - 1];
    } else {
      assert s.calls[..0] == s.calls[..|s.calls| - 1];
    }
  }

  /** A stop that stops the server re-creates the `Go Live` item, whose command starts it again. */
  lemma StopRestoresGoLive(running: bool)
    ensures var s := Stop(running);
      s.running != running ==> StatusBarItemsOf(s.calls) == [GoLiveItem] && GoLiveItem.command == StartCommand
  {
    var t := Stop(running);
    if running {
      assert t.calls[..1][..0] == [];
      assert t.calls[..1] == t.calls[..|t.calls| - 1];
      assert StatusBarItemsOf(t.calls[..1]) == [GoLiveItem];
    }
  }

  /** The module's `serverRunning` flag; it lives as long as the module, across activations. */
  class ServerFlag {
    var serverRunning: bool

    constructor ()
      ensures !serverRunning
    {
      serverRunning := false;
    }

    method RunStart(root: Option<string>, response: DesktopMain.LiveServerResponse) returns (calls: seq<Call>, backendCalled: bool)
      modifies this
      ensures Start(old(serverRunning), root, response) == Step(serverRunning, calls, backendCalled)
    {
      var s := Start(serverRunning, root, response);
      serverRunning := s.running;
      calls := s.calls;
      backendCalled := s.backendCalled;
    }

    method RunStop() returns (calls: seq<Call>, backendCalled: bool)
      modifies this
      ensures Stop(old(serverRunning)) == Step(serverRunning, calls, backendCalled)
    {
      var s := Stop(serverRunning);
      serverRunning := s.running;
      calls := s.calls;
      backendCalled := s.backendCalled;
    }
  }
}

=== FILE: menu_bar.dfy ===
/**
 * The menu bar (`MenuBar.jsx`): which menu is open, and what clicking an item
 * asks of the window.
 */
module MenuBar {
  import opened Optional

  /** A clickable menu entry (separators are not clickable and are left out). */
  datatype MenuItem = MenuItem(title: string, action: string, comingSoon: bool, toggle: bool)

  /** What an item click asks of the window. */
  datatype Dispatch =
    | ShowComingSoon(title: string)   // `onAction('showComingSoon', label)`
    | ToggleSetting(action: string)   // `onSettingToggle(action)`
    | Action(action: string)          // `onAction(action)`

  /** `handleItemClick`'s dispatch: a coming-soon item first, then a toggle, then the plain action. */
  function ItemDispatch(item: MenuItem): (d: Dispatch)
    ensures d.ShowComingSoon? <==> item.comingSoon
    ensures d.ToggleSetting? <==> !item.comingSoon && item.toggle
    ensures d.ShowComingSoon? ==> d.title == item.title
    ensures !d.ShowComingSoon? ==> d.action == item.action
  {
    if item.comingSoon then ShowComingSoon(item.title)
    else if item.toggle then ToggleSetting(item.action)
    else Action(item.action)
  }

  /** The clickable entries of the File menu, in order. */
  const FileMenu: seq<MenuItem> := [
    MenuItem("New Text File", "newFile", false, false),
    MenuItem("New File...", "newFile", false, false),
    MenuItem("New Window", "newWindow", true, false),
    MenuItem("Open File...", "openFile", true, false),
    MenuItem("Open Folder...", "openFolder", false, false),
    MenuItem("Open Recent", "openRecent", true, false),
    MenuItem("Save", "save", false, false),
    MenuItem("Save As...", "saveAs", true, false),
    MenuItem("Save All", "saveAll", false, false),
    MenuItem("Auto Save", "autoSave", false, true),
    MenuItem("Preferences", "viewSettings", false, false),
    MenuItem("Close Editor", "closeEditor", false, false),
    MenuItem("Close Folder", "closeFolder", false, false),
    MenuItem("Close Window", "closeWindow", false, false),
    MenuItem("Exit", "quit", false, false)]

  /** The one toggle of the File menu is Auto Save, which flips the `autoSave` setting. */
  lemma AutoSaveIsTheOnlyToggle()
    ensures forall k | 0 <= k < |FileMenu| ::
      ItemDispatch(FileMenu[k]).ToggleSetting? <==> FileMenu[k].title == "Auto Save"
    ensures ItemDispatch(FileMenu[9]) == ToggleSetting("autoSave")
  {
  }

  /** The open menu; `None` when every menu is closed. */
  class Bar {
    var activeMenu: Option<string>

    constructor()
      ensures activeMenu.None?
    {
      activeMenu := None;
    }

    /** `handleMenuClick`: clicking the open menu closes it; clicking another opens that one. */
    method MenuClick(name: string)
      modifies this
      ensures old(activeMenu) == Some(name) ==> activeMenu.None?
      ensures old(activeMenu) != Some(name) ==> activeMenu == Some(name)
    {
      activeMenu := if activeMenu == Some(name) then None else Some(name);
    }

    /** `handleItemClick`: the item's dispatch, and every menu closes. */
    method ItemClick(item: MenuItem) returns (d: Dispatch)
      modifies this
      ensures d == ItemDispatch(item)
      ensures activeMenu.None?
    {
      d := ItemDispatch(item);
      activeMenu := None;
    }

    /** Hovering a menu title switches to it only while some menu is open. */
    method Hover(name: string)
      modifies this
      ensures old(activeMenu).Some? ==> activeMenu == Some(name)
      ensures old(activeMenu).None? ==> activeMenu.None?
    {
      if activeMenu.Some? {
        activeMenu := Some(name);
      }
    }

    /** A mouse press outside the bar closes every menu. */
    method ClickOutside()
      modifies this
      ensures activeMenu.None?
    {
      activeMenu := None;
    }
  }
}

=== FILE: optional.dfy ===
/** A value that may be absent: JavaScript's `undefined`/`null` next to a present value. */
module Optional {

  datatype Option<+T> = None | Some(value: T) {

    /** The value, or `default` when absent (JavaScript's `x ?? default`). */
    function GetOr(default: T): T {
      match this
      case Some(v) => v
      case None => default
    }
  }
}

=== FILE: prettier.dfy ===
/**
 * The built-in Prettier extension: its manifest (no settings), its activation
 * (the `prettier.format` command, one editor button and a keydown listener), the
 * format command's guarded steps, and the Ctrl/Meta+Shift+F shortcut test.
 * Formatting itself happens in the desktop back end; its result is an input.
 */
module Prettier {
  import opened Optional
  import opened Strings
  import opened ExtensionApi

  const Metadata: Manifest := Manifest(
    "prettier-formatter", "Prettier Formatter", Some("1.0.0"),
    "Code formatter using Prettier", Some("DevStudio Team"), None)

  const FormatCommand: string := "prettier.format"
  const FormatHandler: Handler := Handler("prettier.format")

  const FormatButton: EditorButton := EditorButton(
    "prettier.formatButton", "Format", "✨",
    "Format document with Prettier (Ctrl+Shift+F)", FormatCommand, "right")

  /** `activate`: the command, the button, then `registerKeyboardShortcut()`. */
  const Activation: seq<Call> := [
    RegisterCommand(FormatCommand, FormatHandler),
    RegisterEditorButton(FormatButton),
    AddKeydownListener
  ]

  /** The module exports no `settings`. */
  const Module: ExtModule := ExtModule(Some(Metadata), None, Some(Activation), true)

  /** The file `getActiveFile` finds; every field may be missing. */
  datatype ActiveFile = ActiveFile(content: Option<string>, realPath: Option<string>, path: Option<string>, name: Option<string>)

  /** What `formatWithPrettier` answered, or the exception its call raised. */
  datatype FormatResult = Formatted(formatted: string) | FormatFailed(error: Option<string>) | FormatThrew(message: string)

  /** The object passed to `formatWithPrettier`. */
  datatype FormatRequest = FormatRequest(
    code: string, filePath: Option<string>, tabWidth: SettingValue,
    semi: bool, singleQuote: bool, trailingComma: string, printWidth: nat)

  /** The messages shown, the request sent (if any) and the new editor content (if any). */
  datatype FormatOutcome = FormatOutcome(calls: seq<Call>, request: Option<FormatRequest>, newContent: Option<string>)

  const ApiMissingMessage: string := "Prettier not available (Electron API missing)"
  const NoFileMessage: string := "No file is currently open or file is empty"

  /** `!activeFile || !activeFile.content` fails. */
  predicate HasContent(f: Option<ActiveFile>) {
    f.Some? && f.value.content.Some? && f.value.content.value != ""
  }

  /** `a || b || c` over optional strings: the first non-empty one. */
  function FirstTruthy(a: Option<string>, b: Option<string>, c: Option<string>): Option<string> {
    if a.Some? && a.value != "" then a
    else if b.Some? && b.value != "" then b
    else c
  }

  /** `settings.tabSize || 2`. */
  function TabWidth(tabSize: Option<SettingValue>): (w: SettingValue)
    ensures w.Truthy()
    ensures TruthySetting(tabSize) ==> w == tabSize.value
    ensures !TruthySetting(tabSize) ==> w == Num(2)
  {
    if TruthySetting(tabSize) then tabSize.value else Num(2)
  }

  /**
   * The `prettier.format` handler. `apiAvailable` says whether the back end exposes
   * `formatWithPrettier`; `result` is what the back end does with the request.
   */
  function Format(apiAvailable: bool, activeFile: Option<ActiveFile>, tabSize: Option<SettingValue>, result: FormatResult): (o: FormatOutcome)
    ensures !apiAvailable ==> o == FormatOutcome([ShowErrorMessage(ApiMissingMessage)], None, None)
    ensures apiAvailable && !HasContent(activeFile) ==> o == FormatOutcome([ShowWarningMessage(NoFileMessage)], None, None)
    ensures o.request.Some? <==> apiAvailable && HasContent(activeFile)
    ensures o.request.Some? ==>
      o.request.value.code == activeFile.value.content.value
      && o.request.value.filePath == FirstTruthy(activeFile.value.realPath, activeFile.value.path, activeFile.value.name)
      && o.request.value.tabWidth == TabWidth(tabSize)
      && |o.calls| == 2 && o.calls[0] == ShowInformationMessage("Formatting code...")
    ensures o.newContent.Some? <==> o.request.Some? && result.Formatted?
    ensures o.newContent.Some? ==> o.newContent.value == result.formatted && o.calls[1].ShowInformationMessage?
    ensures o.request.Some? && result.Formatted? ==> o.calls[1] == ShowInformationMessage("✅ Code formatted successfully!")
    ensures o.request.Some? && result.FormatFailed? ==>
      o.calls[1] == ShowErrorMessage("❌ Format failed: " + TemplateText(result.error))
    ensures o.request.Some? && result.FormatThrew? ==>
      o.calls[1] == ShowErrorMessage("Format error: " + result.message)
  {
    if !apiAvailable then
      FormatOutcome([ShowErrorMessage(ApiMissingMessage)], None, None)
    else if !HasContent(activeFile) then
      FormatOutcome([ShowWarningMessage(NoFileMessage)], None, None)
    else
      var f := activeFile.value;
      var request := FormatRequest(f.content.value, FirstTruthy(f.realPath, f.path, f.name),
        TabWidth(tabSize), true, true, "es5", 80);
      var last := match result
        case Formatted(_) => ShowInformationMessage("✅ Code formatted successfully!")
        case FormatFailed(error) => ShowErrorMessage("❌ Format failed: " + TemplateText(error))
        case FormatThrew(message) => ShowErrorMessage("Format error: " + message);
      var content := if result.Formatted? then Some(result.formatted) else None;
      FormatOutcome([ShowInformationMessage("Formatting code..."), last], Some(request), content)
  }

  /** What one keydown event does: whether it is swallowed and whether it runs the command. */
  datatype KeyOutcome = KeyOutcome(preventDefault: bool, executes: bool)

  /** The listener `registerKeyboardShortcut` installs. */
  function OnKeydown(ctrlKey: bool, metaKey: bool, shiftKey: bool, key: string, registryOnWindow: bool): (r: KeyOutcome)
    ensures r.preventDefault <==> (ctrlKey || metaKey) && shiftKey && (key == "f" || key == "F")
    ensures r.executes <==> r.preventDefault && registryOnWindow
  {
    var hit := (ctrlKey || metaKey) && shiftKey && ToLower(key) == "f";
    assert ToLower(key) == "f" <==> key == "f" || key == "F" by {
      if |key| == 1 {
        assert ToLower(key)[0] == LowerChar(key[0]);
      }
    }
    KeyOutcome(hit, hit && registryOnWindow)
  }
}

=== FILE: project_context.dfy ===
/**
 * `ProjectContextBuilder` and `AICodeGenerator.buildSystemPrompt`: the project
 * summary that goes into every AI request and the system prompt built from it.
 */
module ProjectContext {
  import opened Optional
  import opened Strings
  import CodeParser

  /** A project file as the workspace lists it. */
  datatype ProjectFile = ProjectFile(name: string, path: string, kind: string)

  /** At most this many files go into the project structure. */
  const StructureLimit: nat := 10

  /** The per-file summary of `getProjectStructure`: the same name, path and type. */
  function SummariesOf(files: seq<ProjectFile>): (r: seq<ProjectFile>)
    ensures |r| == |files|
    ensures forall i | 0 <= i < |r| :: r[i].name == files[i].name && r[i].path == files[i].path && r[i].kind == files[i].kind
  {
    if files == [] then [] else [ProjectFile(files[0].name, files[0].path, files[0].kind)] + SummariesOf(files[1..])
  }

  /** `getProjectStructure`: the first ten files, in order. */
  function GetProjectStructure(files: seq<ProjectFile>): (r: seq<ProjectFile>)
    ensures |r| == CodeParser.Min(StructureLimit, |files|)
    ensures forall i | 0 <= i < |r| :: r[i] == files[i]
  {
    SummariesOf(files[..CodeParser.Min(StructureLimit, |files|)])
  }

  // ---- detectLanguage ----

  /** The extension table of `detectLanguage`. */
  const LanguageByExtension: map<string, string> := map[
    "js" := "javascript", "jsx" := "react", "ts" := "typescript", "tsx" := "react-typescript",
    "py" := "python", "java" := "java", "cpp" := "cpp", "c" := "c", "cs" := "csharp",
    "go" := "go", "rs" := "rust", "rb" := "ruby", "php" := "php", "swift" := "swift",
    "html" := "html", "css" := "css", "scss" := "scss", "json" := "json", "md" := "markdown"]

  /** The lower-cased text after the last `.`, or the whole lower-cased name when it has none. */
  function Extension(filename: string): string {
    ToLower(LastPiece(filename, '.'))
  }

  /** `detectLanguage`: the table's entry for the extension, `plaintext` otherwise. */
  function DetectLanguage(filename: string): (language: string)
    ensures language == "plaintext" || language in LanguageByExtension.Values
    ensures Extension(filename) !in LanguageByExtension ==> language == "plaintext"
  {
    var ext := Extension(filename);
    if ext in LanguageByExtension then LanguageByExtension[ext] else "plaintext"
  }

  /** The last piece of `a + sep + b` is `b` when `b` holds no `sep`. */
  lemma {:induction false} LastPieceAfter(a: string, sep: char, b: string)
    requires sep !in b
    ensures LastPiece(a + [sep] + b, sep) == b
    decreases |a|
  {
    var s := a + [sep] + b;
    var i := IndexOfChar(s, sep);
    IndexOfCharFirst(s, sep);
    assert s[|a|] == sep;
    if i < |a| {
      assert s[i + 1..] == a[i + 1..] + [sep] + b;
      LastPieceAfter(a[i + 1..], sep, b);
    } else {
      assert i == |a|;
      assert s[i + 1..] == b;
      LastPieceSpec(b, sep);
    }
  }

  /**
   * The language of `stem.ext`, for an extension without a dot, depends on the
   * extension alone, case-insensitively, whatever the stem holds (other dots included).
   */
  lemma DetectLanguageByExtension(stem: string, ext: string)
    requires '.' !in ext
    ensures DetectLanguage(stem + "." + ext)
      == if ToLower(ext) in LanguageByExtension then LanguageByExtension[ToLower(ext)] else "plaintext"
  {
    LastPieceAfter(stem, '.', ext);
  }

  // ---- buildSystemPrompt ----

  /** `context.activeFile` as `buildContext` fills it in. */
  datatype ActiveFile = ActiveFile(name: string, path: string, language: string, content: string)

  /** The parts of the context the prompt reads; an absent list is an empty one. */
  datatype Context = Context(activeFile: Option<ActiveFile>, frameworks: seq<string>, projectStructure: seq<ProjectFile>)

  /** The active-file entry of `buildContext`: its language is detected from the name. */
  function ActiveFileOf(name: string, path: string, content: string): (f: ActiveFile)
    ensures f.language == DetectLanguage(name)
    ensures f.name == name && f.path == path && f.content == content
  {
    ActiveFile(name, path, DetectLanguage(name), content)
  }

  /** The fixed opening of every system prompt (its capability and rule list is not modelled). */
  const Preamble: string := "You are BLACKBOXAI - an advanced coding assistant integrated into DevStudio IDE."

  const PreviewLimit: nat := 800
  const TruncationMark: string := "...(truncated)"
  const WarningSign: string := "⚠️"
  const EmptyNotice: string := "\n\n" + WarningSign + " PROJECT IS EMPTY - Start by creating folder structure using COMMAND"

  /** The content preview: at most 800 characters, marked when something was cut. */
  function Preview(content: string): string {
    content[..CodeParser.Min(PreviewLimit, |content|)] + (if |content| > PreviewLimit then TruncationMark else "")
  }

  /** A short file is previewed whole; a long one by its first 800 characters and the mark. */
  lemma PreviewSpec(content: string)
    ensures |content| <= PreviewLimit ==> Preview(content) == content
    ensures |content| > PreviewLimit ==>
      |Preview(content)| == PreviewLimit + |TruncationMark|
      && StartsWith(content, Preview(content)[..PreviewLimit])
      && EndsWith(Preview(content), TruncationMark)
  {
    if |content| > PreviewLimit {
      var p := Preview(content);
      assert p[..PreviewLimit] == content[..PreviewLimit];
      assert p[|p| - |TruncationMark|..] == TruncationMark;
    } else {
      assert content[..|content|] == content;
    }
  }

  const FileHeading: string := "\n\nCURRENT FILE: "
  const FrameworksHeading: string := "\n\nPROJECT FRAMEWORKS: "

  /** The current-file section. */
  function FileSection(f: ActiveFile): string {
    FileHeading + FileDetails(f)
  }

  /** The name, language, path and fenced preview of the current file. */
  function FileDetails(f: ActiveFile): string {
    f.name + "\nLanguage: " + f.language + "\nPath: " + f.path
    + "\n\nContent (preview):\n```" + f.language + "\n" + Preview(f.content) + "\n```"
  }

  /** The frameworks line, names joined by `, `. */
  function FrameworksSection(frameworks: seq<string>): string {
    FrameworksHeading + Join(frameworks, ", ")
  }

  /** One `- path` line per structure entry. */
  function StructureLines(files: seq<ProjectFile>): (lines: seq<string>)
    ensures |lines| == |files|
    ensures forall k | 0 <= k < |lines| :: lines[k] == "- " + files[k].path
  {
    if files == [] then [] else ["- " + files[0].path] + StructureLines(files[1..])
  }

  const StructureHeading: string := "\n\nPROJECT STRUCTURE:\n"

  /** The structure listing, or the empty-project notice when there is no entry. */
  function StructureSection(files: seq<ProjectFile>): string {
    if |files| > 0 then StructureHeading + Join(StructureLines(files), "\n") else EmptyNotice
  }

  /** Everything after the preamble: the sections the context calls for. */
  function Sections(c: Context): string {
    (if c.activeFile.Some? then FileSection(c.activeFile.value) else "") + Tail(c)
  }

  /** What comes after the current-file section: the frameworks line and the structure section. */
  function Tail(c: Context): string {
    (if |c.frameworks| > 0 then FrameworksSection(c.frameworks) else "") + StructureSection(c.projectStructure)
  }

  /** `buildSystemPrompt`: the preamble, then the sections; an absent context has none of its own. */
  function BuildSystemPrompt(context: Option<Context>): (p: string)
    ensures StartsWith(p, Preamble) && |p| > |Preamble|
  {
    var rest := Sections(context.GetOr(Context(None, [], [])));
    assert |rest| > 0;
    assert (Preamble + rest)[..|Preamble|] == Preamble;
    Preamble + rest
  }

  /** The three other headings differ from the current-file heading in their third character. */
  lemma HeadingsDiffer()
    ensures FileHeading[2] == 'C'
    ensures FrameworksHeading[2] != 'C' && StructureHeading[2] != 'C' && EmptyNotice[2] != 'C'
  {
    assert EmptyNotice[2] == WarningSign[0] == '⚠';
  }

  /** The text after the current-file section opens with a heading other than the current-file one. */
  lemma TailOpening(c: Context)
    ensures |Tail(c)| >= 3 && Tail(c)[2] != FileHeading[2]
  {
    var tail := Tail(c);
    HeadingsDiffer();
    if |c.frameworks| > 0 {
      var f := FrameworksSection(c.frameworks);
      assert tail[2] == f[2] == FrameworksHeading[2];
    } else if |c.projectStructure| > 0 {
      var s := StructureSection(c.projectStructure);
      assert tail[2] == s[2] == StructureHeading[2];
    } else {
      assert tail[2] == EmptyNotice[2];
    }
  }

  /** The sections open with the current-file heading exactly when there is an active file. */
  lemma SectionsOpening(c: Context)
    ensures StartsWith(Sections(c), FileHeading) <==> c.activeFile.Some?
  {
    var all := Sections(c);
    if c.activeFile.Some? {
      var f := FileSection(c.activeFile.value);
      assert forall i | 0 <= i < |FileHeading| :: all[i] == f[i] == FileHeading[i];
      assert all[..|FileHeading|] == FileHeading;
    } else {
      TailOpening(c);
      assert all[2] == Tail(c)[2];
    }
  }

  /** The sections end with the structure listing, or with the empty-project notice. */
  lemma SectionsEnding(c: Context)
    ensures EndsWith(Sections(c), StructureSection(c.projectStructure))
  {
    var s := StructureSection(c.projectStructure);
    assert EndsWith(s, s) by { assert s[|s| - |s|..] == s; }
    EndsWithAfter(if |c.frameworks| > 0 then FrameworksSection(c.frameworks) else "", s, s);
    EndsWithAfter(if c.activeFile.Some? then FileSection(c.activeFile.value) else "", Tail(c), s);
  }

  /**
   * The prompt always opens with the preamble, and the text after it opens with
   * the current-file heading exactly when the context has an active file.
   */
  lemma PromptOpening(context: Option<Context>)
    ensures StartsWith(BuildSystemPrompt(context), Preamble)
    ensures var p := BuildSystemPrompt(context);
      StartsWith(p[|Preamble|..], FileHeading) <==> context.Some? && context.value.activeFile.Some?
  {
    var c := context.GetOr(Context(None, [], []));
    var rest := Sections(c);
    SectionsOpening(c);
    assert (Preamble + rest)[..|Preamble|] == Preamble;
    assert (Preamble + rest)[|Preamble|..] == rest;
  }

  /**
   * The prompt ends with the structure listing when there are entries, and with
   * the empty-project notice otherwise.
   */
  lemma PromptEnding(context: Option<Context>)
    ensures var c := context.GetOr(Context(None, [], []));
      var p := BuildSystemPrompt(context);
      (|c.projectStructure| == 0 ==> EndsWith(p, EmptyNotice))
      && (|c.projectStructure| > 0 ==> EndsWith(p, StructureHeading + Join(StructureLines(c.projectStructure), "\n")))
  {
    var c := context.GetOr(Context(None, [], []));
    SectionsEnding(c);
    EndsWithAfter(Preamble, Sections(c), StructureSection(c.projectStructure));
  }

  /**
   * Reading the structure listing back: splitting it on newlines gives one
   * `- path` line per entry, in order, when no path holds a newline.
   */
  lemma StructureListingRoundTrip(files: seq<ProjectFile>)
    requires |files| > 0
    requires forall k | 0 <= k < |files| :: '\n' !in files[k].path
    ensures Split(Join(StructureLines(files), "\n"), '\n') == StructureLines(files)
  {
    var lines := StructureLines(files);
    forall k | 0 <= k < |lines| ensures '\n' !in lines[k] {
      assert lines[k] == "- " + files[k].path;
    }
    assert "\n" == ['\n'];
    SplitJoin(lines, '\n');
  }
}

=== FILE: publish_modal.dfy ===
/**
 * The publish dialog (`PublishModal.jsx`): the step, the repository name and
 * visibility, and the files chosen for the first commit.
 */
module PublishModal {
  import opened Optional
  import opened Strings
  import opened Lists

  const DefaultRepoName: string := "my-project"

  /** The name proposed on opening: the last segment of the stored project path, or `my-project`. */
  function ProposedName(lastProject: Option<string>): (name: string)
    ensures !Truthy(lastProject) ==> name == DefaultRepoName
    ensures Truthy(lastProject) ==> name == BaseName(lastProject.value)
  {
    if Truthy(lastProject) then BaseName(lastProject.value) else DefaultRepoName
  }

  /** `toggleFile`'s update: a chosen path is dropped (every copy), another is appended. */
  function Toggled(selected: seq<string>, path: string): (r: seq<string>)
    ensures path in selected ==> path !in r
    ensures path !in selected ==> r == selected + [path]
    ensures forall p | p != path :: p in r <==> p in selected
  {
    if path in selected then Without(selected, path) else selected + [path]
  }

  /** Toggling a path twice restores which paths are chosen. */
  lemma ToggleTwice(selected: seq<string>, path: string, p: string)
    ensures p in Toggled(Toggled(selected, path), path) <==> p in selected
  {
  }

  /** What the dialog hands to the window on the final step. */
  datatype PublishRequest = PublishRequest(repoName: string, isPrivate: bool, selectedFiles: seq<string>)

  /** The dialog's state. */
  class Dialog {
    var step: nat
    var repoName: string
    var isPrivate: bool
    var selectedFiles: seq<string>

    constructor()
      ensures step == 1 && repoName == "" && isPrivate && selectedFiles == []
    {
      step, repoName, isPrivate, selectedFiles := 1, "", true, [];
    }

    /**
     * Opening: the first step, private, the proposed name; every file path is
     * chosen when there are files, and the earlier choice stays otherwise.
     */
    method Open(paths: seq<string>, lastProject: Option<string>)
      modifies this
      ensures step == 1 && isPrivate && repoName == ProposedName(lastProject)
      ensures |paths| > 0 ==> selectedFiles == paths
      ensures |paths| == 0 ==> selectedFiles == old(selectedFiles)
    {
      step := 1;
      repoName := "";
      isPrivate := true;
      if |paths| > 0 {
        selectedFiles := paths;
      }
      repoName := ProposedName(lastProject);
    }

    method SetRepoName(name: string)
      modifies this
      ensures repoName == name && step == old(step) && isPrivate == old(isPrivate) && selectedFiles == old(selectedFiles)
    {
      repoName := name;
    }

    method SetPrivate(value: bool)
      modifies this
      ensures isPrivate == value && step == old(step) && repoName == old(repoName) && selectedFiles == old(selectedFiles)
    {
      isPrivate := value;
    }

    /** `toggleFile`. */
    method ToggleFile(path: string)
      modifies this
      ensures selectedFiles == Toggled(old(selectedFiles), path)
      ensures step == old(step) && repoName == old(repoName) && isPrivate == old(isPrivate)
    {
      selectedFiles := Toggled(selectedFiles, path);
    }

    /** `handleNext`: to the second step only with a name that is not all white space. */
    method Next()
      modifies this
      ensures !Blank(repoName) ==> step == 2
      ensures Blank(repoName) ==> step == old(step)
      ensures repoName == old(repoName) && isPrivate == old(isPrivate) && selectedFiles == old(selectedFiles)
    {
      TrimEmptyIffBlank(repoName);
      if Trim(repoName) != "" {
        step := 2;
      }
    }

    /** `handleFinalPublish`: exactly the name, the visibility and the chosen files (the dialog then closes). */
    method FinalPublish() returns (request: PublishRequest)
      ensures request == PublishRequest(repoName, isPrivate, selectedFiles)
    {
      request := PublishRequest(repoName, isPrivate, selectedFiles);
    }
  }
}

=== FILE: regex_scan.dfy ===
/**
 * The global regular expressions the AI workflow runs over a model's reply,
 * as hand-written scanners with the matching rules of a JavaScript `RegExp`
 * with the `g` flag:
 *
 *   FileBlock  `FILE:\s*([^\n]+)\n```(\w+)?\n([\s\S]*?)````  (optionally with `i`)
 *   Fence      ````(\w+)\n([\s\S]*?)```` or ````(\w+)?\n([\s\S]*?)````
 *   Directive  `KEYWORD\s*([^\n]+)` with `i`, for `COMMAND:` and `GIT:`
 *
 * `MatchAt` is a match that starts exactly at one index, with the backtracking
 * order of the engine; `Exec` is one call of `exec` (the leftmost match at or
 * after `lastIndex`); `Scan` is the list a `while ((m = re.exec(s)) !== null)`
 * loop collects, and `Collect` is that loop.
 */
module RegexScan {
  import opened Optional
  import opened Strings

  datatype Pattern =
    | FileBlock(ignoreCase: bool)
    | Fence(languageRequired: bool)
    | Directive(keyword: string)

  /**
   * One match: the index it starts at, the index after it (the new `lastIndex`),
   * the first `[^\n]+` group (FILE path or directive text; empty for a fence),
   * the `(\w+)` language group, and the lazy `[\s\S]*?` body group.
   */
  datatype Match = Match(start: nat, end: nat, head: string, language: Option<string>, body: string)

  /** The text after the closing fence of a block: the language, the body and the end index. */
  datatype FenceTail = FenceTail(language: Option<string>, body: string, end: nat)

  /** `kw` occurs at `i`, compared case-insensitively when `ignoreCase` (ASCII letters). */
  predicate KeywordAt(s: string, kw: string, i: nat, ignoreCase: bool) {
    i + |kw| <= |s| && (if ignoreCase then ToLower(s[i..i + |kw|]) == ToLower(kw) else s[i..i + |kw|] == kw)
  }

  /** The end of the greedy `\s*` run that starts at `j`. */
  function SkipSpace(s: string, j: nat): (r: nat)
    requires j <= |s|
    ensures j <= r <= |s|
    ensures forall k | j <= k < r :: IsSpace(s[k])
    ensures r < |s| ==> !IsSpace(s[r])
    decreases |s| - j
  {
    if j < |s| && IsSpace(s[j]) then SkipSpace(s, j + 1) else j
  }

  /** The end of the greedy `[^\n]*` run that starts at `p`: the next line break, or the end. */
  function LineEnd(s: string, p: nat): (r: nat)
    requires p <= |s|
    ensures p <= r <= |s|
    ensures forall k | p <= k < r :: s[k] != '\n'
    ensures r < |s| ==> s[r] == '\n'
    decreases |s| - p
  {
    if p < |s| && s[p] != '\n' then LineEnd(s, p + 1) else p
  }

  /** The end of the greedy `\w*` run that starts at `p`. */
  function WordEnd(s: string, p: nat): (r: nat)
    requires p <= |s|
    ensures p <= r <= |s|
    ensures forall k | p <= k < r :: IsWordChar(s[k])
    ensures r < |s| ==> !IsWordChar(s[r])
    decreases |s| - p
  {
    if p < |s| && IsWordChar(s[p]) then WordEnd(s, p + 1) else p
  }

  /**
   * A fenced block that opens at `q`: three backticks, the word run as language,
   * a line break, then everything up to the first following three backticks.
   * A word run not followed by a line break cannot match with a shorter run,
   * so no backtracking is needed here.
   */
  function FenceAt(s: string, q: nat, languageRequired: bool): (r: Option<FenceTail>)
    ensures r.Some? ==> OccursAt(s, "```", q) && q + 4 <= r.value.end <= |s|
    ensures r.Some? ==> OccursAt(s, "```", r.value.end - 3) && !Contains(r.value.body, "```")
    ensures r.Some? && languageRequired ==> r.value.language.Some?
  {
    if !OccursAt(s, "```", q) then None
    else
      var w := WordEnd(s, q + 3);
      var language := if w > q + 3 then Some(s[q + 3..w]) else None;
      if languageRequired && language.None? then None
      else if w == |s| || s[w] != '\n' then None
      else
        match IndexOfFrom(s, "```", w + 1)
        case None => None
        case Some(e) =>
          var body := s[w + 1..e];
          assert !Contains(body, "```") by {
            forall k | 0 <= k <= |body| - 3 ensures !OccursAt(body, "```", k) {
              if OccursAt(body, "```", k) {
                SliceOccurs(s, "```", w + 1, e, k);
              }
            }
          }
          Some(FenceTail(language, body, e + 3))
  }

  /**
   * The rest of a FILE or directive match once `[^\n]+` starts at `p`: the group
   * runs to the end of the line; a FILE match then needs a fenced block on the
   * next line.
   */
  function CaptureAt(pat: Pattern, s: string, i: nat, p: nat): (r: Option<Match>)
    requires !pat.Fence? && i < p <= |s|
    ensures r.Some? ==> r.value.start == i && p < r.value.end <= |s|
    ensures r.Some? ==> r.value.head != "" && '\n' !in r.value.head
  {
    if p == |s| || s[p] == '\n' then None
    else
      var e := LineEnd(s, p);
      var head := s[p..e];
      assert head[0] == s[p];
      assert forall k | 0 <= k < |head| :: head[k] == s[p + k];
      if pat.Directive? then Some(Match(i, e, head, None, ""))
      else if e == |s| then None
      else
        match FenceAt(s, e + 1, false)
        case None => None
        case Some(t) => Some(Match(i, t.end, head, t.language, t.body))
  }

  /**
   * The backtracking of `\s*`: the candidate starts of the group are tried from
   * the longest white-space run (`j + n`) down to the empty one (`j`).
   */
  function TryCaptures(pat: Pattern, s: string, i: nat, j: nat, n: nat): (r: Option<Match>)
    requires !pat.Fence? && i < j && j + n <= |s|
    ensures r.Some? ==> r.value.start == i && j < r.value.end <= |s|
    ensures r.Some? ==> r.value.head != "" && '\n' !in r.value.head
    decreases n
  {
    match CaptureAt(pat, s, i, j + n)
    case Some(m) => Some(m)
    case None => if n == 0 then None else TryCaptures(pat, s, i, j, n - 1)
  }

  /** The match of `pat` that starts exactly at `i`, if any. */
  function MatchAt(pat: Pattern, s: string, i: nat): (r: Option<Match>)
    ensures r.Some? ==> r.value.start == i && i < r.value.end <= |s|
  {
    match pat
    case Fence(required) =>
      (match FenceAt(s, i, required)
       case None => None
       case Some(t) => Some(Match(i, t.end, "", t.language, t.body)))
    case FileBlock(ignoreCase) =>
      if !KeywordAt(s, "FILE:", i, ignoreCase) then None
      else
        var j := i + 5;
        TryCaptures(pat, s, i, j, SkipSpace(s, j) - j)
    case Directive(kw) =>
      if kw == [] || !KeywordAt(s, kw, i, true) then None
      else
        var j := i + |kw|;
        TryCaptures(pat, s, i, j, SkipSpace(s, j) - j)
  }

  /**
   * A table of the match starting at each index of a text of length `|t|`:
   * each entry starts where it is stored and ends inside the text.
   */
  predicate WellFormed(t: seq<Option<Match>>) {
    forall i | 0 <= i < |t| :: t[i].Some? ==> t[i].value.start == i && i < t[i].value.end <= |t|
  }

  /** The match of `pat` at every index of `s` from `i` on. */
  function TableFrom(pat: Pattern, s: string, i: nat): (t: seq<Option<Match>>)
    requires i <= |s|
    ensures |t| == |s| - i
    ensures forall k | 0 <= k < |t| :: t[k].Some? ==> t[k].value.start == i + k && i + k < t[k].value.end <= |s|
    decreases |s| - i
  {
    if i == |s| then [] else [MatchAt(pat, s, i)] + TableFrom(pat, s, i + 1)
  }

  /** The match of `pat` at every index of `s`. */
  function Table(pat: Pattern, s: string): (t: seq<Option<Match>>)
    ensures |t| == |s| && WellFormed(t)
  {
    TableFrom(pat, s, 0)
  }

  lemma {:induction false} TableFromAt(pat: Pattern, s: string, i: nat, j: nat)
    requires i <= j < |s|
    ensures TableFrom(pat, s, i)[j - i] == MatchAt(pat, s, j)
    decreases j - i
  {
    if i < j {
      TableFromAt(pat, s, i + 1, j);
    }
  }

  /** Entry `i` of the table is the match at `i`. */
  lemma TableAt(pat: Pattern, s: string, i: nat)
    requires i < |s|
    ensures Table(pat, s)[i] == MatchAt(pat, s, i)
  {
    TableFromAt(pat, s, 0, i);
  }

  /** No entry of the table from `a` up to (not including) `b` holds a match. */
  predicate NoneBetween(t: seq<Option<Match>>, a: int, b: int) {
    forall j | a <= j < b && 0 <= j < |t| :: t[j].None?
  }

  /** One `re.exec(s)` with `re.lastIndex == from`: the leftmost match at or after `from`. */
  function Exec(t: seq<Option<Match>>, from: nat): (r: Option<Match>)
    requires WellFormed(t)
    ensures r.Some? ==> from <= r.value.start < |t| && t[r.value.start] == r
    ensures r.Some? ==> NoneBetween(t, from, r.value.start)
    ensures r.None? ==> NoneBetween(t, from, |t|)
    decreases |t| - from
  {
    if from >= |t| then None
    else if t[from].Some? then t[from]
    else Exec(t, from + 1)
  }

  /** The matches an `exec` loop collects from `lastIndex == from` on. */
  function Scan(t: seq<Option<Match>>, from: nat): seq<Match>
    requires WellFormed(t)
    decreases |t| + 1 - from
  {
    match Exec(t, from)
    case None => []
    case Some(m) => [m] + Scan(t, m.end)
  }

  /**
   * What the loop collects are entries of the table, in text order and
   * non-overlapping, and no match starts before the first of them, between two
   * consecutive ones, or after the last: no match is skipped.
   */
  lemma {:induction false} ScanSound(t: seq<Option<Match>>, from: nat)
    requires WellFormed(t)
    ensures var r := Scan(t, from);
      && (forall k | 0 <= k < |r| :: from <= r[k].start < |t| && t[r[k].start] == Some(r[k]))
      && (forall k | 0 <= k < |r| - 1 :: r[k].end <= r[k + 1].start)
      && NoneBetween(t, from, if r == [] then |t| else r[0].start)
      && (forall k | 0 <= k < |r| - 1 :: NoneBetween(t, r[k].end, r[k + 1].start))
      && (r != [] ==> NoneBetween(t, r[|r| - 1].end, |t|))
    decreases |t| + 1 - from
  {
    match Exec(t, from)
    case None =>
    case Some(m) =>
      ScanSound(t, m.end);
      var rest := Scan(t, m.end);
      var r := Scan(t, from);
      assert r == [m] + rest;
      forall k | 0 <= k < |r| ensures from <= r[k].start < |t| && t[r[k].start] == Some(r[k]) {
        if k > 0 {
          assert r[k] == rest[k - 1];
        }
      }
      forall k | 0 <= k < |r| - 1
        ensures r[k].end <= r[k + 1].start && NoneBetween(t, r[k].end, r[k + 1].start)
      {
        assert r[k + 1] == rest[k];
        if k > 0 {
          assert r[k] == rest[k - 1];
        }
      }
      if rest != [] {
        assert r[|r| - 1] == rest[|rest| - 1];
      }
  }

  /** All matches of `pat` in `s`, as the `exec` loop collects them. */
  function AllMatches(pat: Pattern, s: string): seq<Match> {
    Scan(Table(pat, s), 0)
  }

  /**
   * The `while ((m = re.exec(s)) !== null) list.push(m)` loop, over the table of
   * the pattern's matches in the text (`Collect(Table(pat, s))`).
   */
  method Collect(t: seq<Option<Match>>) returns (ms: seq<Match>)
    requires WellFormed(t)
    ensures ms == Scan(t, 0)
  {
    ms := [];
    var pos := 0;
    var m := Exec(t, pos);
    while m.Some?
      invariant pos <= |t|
      invariant m == Exec(t, pos)
      invariant ms + Scan(t, pos) == Scan(t, 0)
      decreases |t| - pos
    {
      ms := ms + [m.value];
      pos := m.value.end;
      m := Exec(t, pos);
    }
  }

  /**
   * The three conditions `Scan` guarantees determine the list completely: any
   * list of matches that are in order, non-overlapping and miss no match is the
   * one the loop collects.
   */
  lemma {:induction false} ScanUnique(t: seq<Option<Match>>, from: nat, ms: seq<Match>)
    requires WellFormed(t)
    requires forall k | 0 <= k < |ms| :: from <= ms[k].start < |t| && t[ms[k].start] == Some(ms[k])
    requires forall k | 0 <= k < |ms| - 1 :: ms[k].end <= ms[k + 1].start
    requires NoneBetween(t, from, if ms == [] then |t| else ms[0].start)
    requires forall k | 0 <= k < |ms| - 1 :: NoneBetween(t, ms[k].end, ms[k + 1].start)
    requires ms != [] ==> NoneBetween(t, ms[|ms| - 1].end, |t|)
    ensures ms == Scan(t, from)
    decreases |t| + 1 - from
  {
    var e := Exec(t, from);
    if e.Some? {
      var m := e.value;
      assert ms != [] by {
        assert t[m.start].Some?;
      }
      assert ms[0].start == m.start by {
        assert t[ms[0].start].Some?;
        assert t[m.start].Some?;
      }
      assert ms[0] == m;
      var rest := ms[1..];
      assert forall k | 0 <= k < |rest| :: rest[k] == ms[k + 1];
      forall k | 0 <= k < |rest| ensures m.end <= rest[k].start {
        OrderedStarts(t, ms, 0, k + 1);
      }
      ScanUnique(t, m.end, rest);
      assert ms == [m] + rest;
    }
  }

  /** In a list of table entries whose consecutive members do not overlap, earlier ones end before later ones start. */
  lemma {:induction false} OrderedStarts(t: seq<Option<Match>>, ms: seq<Match>, a: nat, b: nat)
    requires WellFormed(t)
    requires forall k | 0 <= k < |ms| :: ms[k].start < |t| && t[ms[k].start] == Some(ms[k])
    requires forall k | 0 <= k < |ms| - 1 :: ms[k].end <= ms[k + 1].start
    requires a < b < |ms|
    ensures ms[a].end <= ms[b].start
    decreases b - a
  {
    if a + 1 < b {
      OrderedStarts(t, ms, a + 1, b);
      assert t[ms[a + 1].start].Some?;
    }
  }

  /** A fenced block as the documented reply format writes it. */
  function RenderFence(language: string, code: string): string {
    "```" + language + "\n" + code + "```"
  }

  /** A FILE block as the documented reply format writes it. */
  function RenderFile(path: string, language: string, code: string): string {
    "FILE: " + path + "\n" + RenderFence(language, code)
  }

  /** A language name the `\w+` group reads whole. */
  predicate IsWord(w: string) {
    |w| >= 1 && forall k | 0 <= k < |w| :: IsWordChar(w[k])
  }

  /** No three backticks start inside `code`, even ones that run into a closing fence. */
  predicate FenceFree(code: string) {
    !Contains(code + "``", "```")
  }

  /** A path the FILE pattern reads whole: one line that does not start with white space. */
  predicate IsPathLine(path: string) {
    |path| >= 1 && !IsSpace(path[0]) && '\n' !in path
  }

  lemma {:induction false} WordEndAt(s: string, p: nat, q: nat)
    requires p <= q < |s|
    requires forall k | p <= k < q :: IsWordChar(s[k])
    requires !IsWordChar(s[q])
    ensures WordEnd(s, p) == q
    decreases q - p
  {
    if p < q {
      WordEndAt(s, p + 1, q);
    }
  }

  lemma {:induction false} LineEndAt(s: string, p: nat, q: nat)
    requires p <= q < |s|
    requires forall k | p <= k < q :: s[k] != '\n'
    requires s[q] == '\n'
    ensures LineEnd(s, p) == q
    decreases q - p
  {
    if p < q {
      LineEndAt(s, p + 1, q);
    }
  }

  /** The first occurrence at or after `from` is `e` when nothing occurs in between. */
  lemma IndexOfFromAt(s: string, sub: string, from: nat, e: nat)
    requires from <= e && OccursAt(s, sub, e)
    requires forall j | from <= j < e :: !OccursAt(s, sub, j)
    ensures IndexOfFrom(s, sub, from) == Some(e)
  {
  }

  /** A fenced block written after any text is read back from where it starts. */
  lemma FenceAtRendered(pre: string, language: string, code: string)
    requires IsWord(language) && FenceFree(code)
    ensures var s := pre + RenderFence(language, code);
      FenceAt(s, |pre|, false) == Some(FenceTail(Some(language), code, |s|))
  {
    var s := pre + RenderFence(language, code);
    var w := |pre| + 3 + |language|;
    var e := w + 1 + |code|;
    RenderedOpening(pre, language, code);
    RenderedBody(s, pre, language, code, w, e);
    FenceAtParts(s, |pre|, w, e, language, code);
  }

  /** The opening backticks, the language and the line break of a written block. */
  lemma RenderedOpening(pre: string, language: string, code: string)
    requires IsWord(language)
    ensures var s := pre + RenderFence(language, code);
      var q := |pre|;
      var w := q + 3 + |language|;
      OccursAt(s, "```", q) && WordEnd(s, q + 3) == w && s[q + 3..w] == language && s[w] == '\n'
  {
    var s := pre + RenderFence(language, code);
    var q := |pre|;
    var w := q + 3 + |language|;
    assert s[q..q + 3] == "```";
    assert forall k | q + 3 <= k < w :: s[k] == language[k - q - 3];
    assert s[w] == '\n';
    WordEndAt(s, q + 3, w);
    assert s[q + 3..w] == language;
  }

  /** The body of a written block, from after the line break `w` to `e`, runs to the closing backticks, which end the text. */
  lemma RenderedBody(s: string, pre: string, language: string, code: string, w: nat, e: nat)
    requires FenceFree(code)
    requires s == pre + RenderFence(language, code) && w == |pre| + 3 + |language| && e == w + 1 + |code|
    ensures IndexOfFrom(s, "```", w + 1) == Some(e) && s[w + 1..e] == code && e + 3 == |s|
  {
    var c := w + 1;
    assert s[e..e + 3] == "```";
    forall j | c <= j < e ensures !OccursAt(s, "```", j) {
      var tail := code + "``";
      assert s[j..j + 3] == tail[j - c..j - c + 3];
      assert !OccursAt(tail, "```", j - c);
    }
    IndexOfFromAt(s, "```", c, e);
    assert s[c..e] == code;
  }

  /** `FenceAt` from the positions of its parts. */
  lemma FenceAtParts(s: string, q: nat, w: nat, e: nat, language: string, code: string)
    requires OccursAt(s, "```", q) && q + 3 < w < |s|
    requires WordEnd(s, q + 3) == w && s[q + 3..w] == language && s[w] == '\n'
    requires IndexOfFrom(s, "```", w + 1) == Some(e) && s[w + 1..e] == code && e + 3 == |s|
    ensures FenceAt(s, q, false) == Some(FenceTail(Some(language), code, |s|))
  {
  }

  /** A fenced block written on its own is the one block the fence scanners find. */
  lemma FenceRoundTrip(language: string, code: string, languageRequired: bool)
    requires IsWord(language) && FenceFree(code)
    ensures AllMatches(Fence(languageRequired), RenderFence(language, code))
      == [Match(0, |RenderFence(language, code)|, "", Some(language), code)]
  {
    var s := RenderFence(language, code);
    FenceAtRendered("", language, code);
    assert "" + s == s;
    var t := Table(Fence(languageRequired), s);
    TableAt(Fence(languageRequired), s, 0);
    assert t[0] == Some(Match(0, |s|, "", Some(language), code));
    assert Exec(t, 0) == t[0];
    assert Scan(t, |s|) == [];
  }

  /** A FILE block written on its own is the one match the FILE scanner finds, with its path, language and code. */
  lemma FileRoundTrip(path: string, language: string, code: string, ignoreCase: bool)
    requires IsPathLine(path) && IsWord(language) && FenceFree(code)
    ensures AllMatches(FileBlock(ignoreCase), RenderFile(path, language, code))
      == [Match(0, |RenderFile(path, language, code)|, path, Some(language), code)]
  {
    var pre := "FILE: " + path + "\n";
    var s := RenderFile(path, language, code);
    assert s == pre + RenderFence(language, code);
    var e := 6 + |path|;
    assert s[..5] == "FILE:";
    assert KeywordAt(s, "FILE:", 0, ignoreCase);
    assert IsSpace(s[5]) && s[6] == path[0];
    assert SkipSpace(s, 5) == 6 by {
      assert SkipSpace(s, 6) == 6;
    }
    assert forall k | 6 <= k < e :: s[k] == path[k - 6];
    LineEndAt(s, 6, e);
    assert s[6..e] == path;
    FenceAtRendered(pre, language, code);
    var m := Match(0, |s|, path, Some(language), code);
    assert CaptureAt(FileBlock(ignoreCase), s, 0, 6) == Some(m);
    assert MatchAt(FileBlock(ignoreCase), s, 0) == Some(m);
    var t := Table(FileBlock(ignoreCase), s);
    TableAt(FileBlock(ignoreCase), s, 0);
    assert Exec(t, 0) == Some(m);
    assert Scan(t, |s|) == [];
  }
}

=== FILE: registry.dfy ===
/**
 * The extension host. It keeps six contribution collections (a command map, a
 * sidebar item list and panel map, a settings schema, status-bar items and editor
 * buttons), two subscriber lists and an `initialized` flag. `initialize` clears the
 * six collections and loads a fixed list of modules; the per-module context
 * closures register contributions and push new status-bar items and editor
 * buttons to every subscriber; late subscribers get a replay.
 *
 * What the host does to the outside world (toasts, subscriber callbacks, handler
 * calls, window listeners) is returned as a list of `Effect`s.
 */
module ExtensionRegistry {
  import opened Optional
  import opened ExtensionApi
  import Gemini
  import Prettier
  import LiveServer
  import AiHistoryChat

  /** A subscriber callback, identified by a token: equal tokens are the same function. */
  datatype Subscriber = Subscriber(id: nat)

  /** What a subscriber is handed. */
  datatype Contribution = Item(item: StatusBarItem) | Button(button: EditorButton)

  /** An observable action of the host. */
  datatype Effect =
    | ToastShown(kind: ToastKind, message: string)
    | Delivered(subscriber: Subscriber, contribution: Contribution)
    | HandlerCalled(handler: Handler, args: Args)
    | KeydownListenerAdded

  /** The registry's fields. */
  datatype Snapshot = Snapshot(
    commands: map<string, Handler>,
    sidebarItems: seq<SidebarItem>,
    sidebarPanels: map<string, Renderer>,
    settingsSchema: seq<SettingItem>,
    statusBarItems: seq<StatusBarItem>,
    editorButtons: seq<EditorButton>,
    statusBarCallbacks: seq<Subscriber>,
    editorButtonCallbacks: seq<Subscriber>,
    initialized: bool)

  /** A new state together with the effects that produced it. */
  datatype Outcome = Outcome(state: Snapshot, effects: seq<Effect>)

  /** The registry's constructor. */
  const Empty: Snapshot := Snapshot(map[], [], map[], [], [], [], [], [], false)

  /** The modules the registry loads, in order. */
  const BuiltIns: seq<ExtModule> := [Gemini.Module, Prettier.Module, LiveServer.Module, AiHistoryChat.Module]

  /** One call of each subscriber, in subscription order. */
  function Notify(subscribers: seq<Subscriber>, c: Contribution): seq<Effect> {
    seq(|subscribers|, i requires 0 <= i < |subscribers| => Delivered(subscribers[i], c))
  }

  /** One call of `callback` per stored contribution, in stored order. */
  function Replay(callback: Subscriber, cs: seq<Contribution>): seq<Effect> {
    seq(|cs|, i requires 0 <= i < |cs| => Delivered(callback, cs[i]))
  }

  function Items(items: seq<StatusBarItem>): seq<Contribution> {
    seq(|items|, i requires 0 <= i < |items| => Item(items[i]))
  }

  function Buttons(buttons: seq<EditorButton>): seq<Contribution> {
    seq(|buttons|, i requires 0 <= i < |buttons| => Button(buttons[i]))
  }

  /**
   * One call on the activation context: `registerCommand`, `registerSidebarPanel`,
   * the `window` functions (information, warning and error messages go to the
   * host's success, warning and error toasts), or a `toast` function passed through.
   */
  function ApplyCall(s: Snapshot, c: Call): Outcome {
    match c
    case RegisterCommand(id, handler) =>
      Outcome(s.(commands := s.commands[id := handler]), [])
    case RegisterSidebarPanel(id, icon, caption, panel) =>
      Outcome(s.(sidebarItems := s.sidebarItems + [SidebarItem(id, icon, caption)],
                 sidebarPanels := s.sidebarPanels[id := panel]), [])
    case CreateStatusBarItem(item) =>
      Outcome(s.(statusBarItems := s.statusBarItems + [item]), Notify(s.statusBarCallbacks, Item(item)))
    case RegisterEditorButton(button) =>
      Outcome(s.(editorButtons := s.editorButtons + [button]), Notify(s.editorButtonCallbacks, Button(button)))
    case ShowInformationMessage(m) => Outcome(s, [ToastShown(Success, m)])
    case ShowWarningMessage(m) => Outcome(s, [ToastShown(Warning, m)])
    case ShowErrorMessage(m) => Outcome(s, [ToastShown(Error, m)])
    case Toast(kind, m) => Outcome(s, [ToastShown(kind, m)])
    case AddKeydownListener => Outcome(s, [KeydownListenerAdded])
    case Throw => Outcome(s, [])
  }

  /** The calls made before the first `Throw`: an exception ends the script there. */
  function UntilThrow(calls: seq<Call>): (r: seq<Call>)
    ensures |r| <= |calls| && r == calls[..|r|]
    ensures forall j | 0 <= j < |r| :: !r[j].Throw?
    ensures |r| < |calls| ==> calls[|r|].Throw?
  {
    if calls == [] then []
    else if calls[0].Throw? then []
    else
      var rest := UntilThrow(calls[1..]);
      assert [calls[0]] + rest == calls[..1 + |rest|];
      [calls[0]] + rest
  }

  /**
   * Nothing registered is lost from `s` to `t`: each list keeps its entries as
   * a prefix and each map keeps its ids.
   */
  predicate Extends(s: Snapshot, t: Snapshot) {
    && s.commands.Keys <= t.commands.Keys
    && s.sidebarItems <= t.sidebarItems
    && s.sidebarPanels.Keys <= t.sidebarPanels.Keys
    && s.settingsSchema <= t.settingsSchema
    && s.statusBarItems <= t.statusBarItems
    && s.editorButtons <= t.editorButtons
  }

  /** Applies calls in order, none of which throws: registrations only add, and the settings are not touched. */
  function ApplyAll(s: Snapshot, calls: seq<Call>): (o: Outcome)
    ensures Extends(s, o.state) && o.state.settingsSchema == s.settingsSchema
  {
    if calls == [] then Outcome(s, [])
    else
      var o := ApplyAll(s, calls[..|calls| - 1]);
      var p := ApplyCall(o.state, calls[|calls| - 1]);
      Outcome(p.state, o.effects + p.effects)
  }

  /** Runs a script of context calls inside `try`: the calls before a throw take effect. */
  function RunScript(s: Snapshot, script: seq<Call>): Outcome {
    ApplyAll(s, UntilThrow(script))
  }

  /**
   * One step of `initialize`'s `forEach`: a module without metadata is
   * skipped; otherwise its manifest settings are appended and its activation
   * script only adds to the rest.
   */
  function LoadModule(s: Snapshot, m: ExtModule): (o: Outcome)
    ensures m.metadata.None? ==> o == Outcome(s, [])
    ensures m.metadata.Some? ==> o.state.settingsSchema == s.settingsSchema + m.settings.GetOr([])
    ensures Extends(s, o.state)
  {
    if m.metadata.None? then Outcome(s, [])
    else
      var s1 := s.(settingsSchema := s.settingsSchema + m.settings.GetOr([]));
      if m.activate.Some? then RunScript(s1, m.activate.value) else Outcome(s1, [])
  }

  /** `initialize`'s `forEach` over a module list: loading only adds to what is registered. */
  function LoadAll(s: Snapshot, mods: seq<ExtModule>): (o: Outcome)
    ensures Extends(s, o.state)
  {
    if mods == [] then Outcome(s, [])
    else
      var o := LoadAll(s, mods[..|mods| - 1]);
      var p := LoadModule(o.state, mods[|mods| - 1]);
      Outcome(p.state, o.effects + p.effects)
  }

  /** The six collections emptied; subscribers and the flag kept. */
  function Cleared(s: Snapshot): Snapshot {
    s.(commands := map[], sidebarItems := [], sidebarPanels := map[], settingsSchema := [],
       statusBarItems := [], editorButtons := [])
  }

  /** `initialize(context)` over a module list. */
  function AfterInitialize(s: Snapshot, mods: seq<ExtModule>): Outcome {
    var o := LoadAll(Cleared(s), mods);
    Outcome(o.state.(initialized := true), o.effects)
  }

  /** `onStatusBarUpdate(callback)`: subscribe, and replay the stored items if initialized. */
  function SubscribeStatusBar(s: Snapshot, callback: Subscriber): Outcome {
    Outcome(s.(statusBarCallbacks := s.statusBarCallbacks + [callback]),
            if s.initialized then Replay(callback, Items(s.statusBarItems)) else [])
  }

  /** `onEditorButtonUpdate(callback)`: subscribe, and replay the stored buttons if initialized. */
  function SubscribeEditorButtons(s: Snapshot, callback: Subscriber): Outcome {
    Outcome(s.(editorButtonCallbacks := s.editorButtonCallbacks + [callback]),
            if s.initialized then Replay(callback, Buttons(s.editorButtons)) else [])
  }

  /** The cleanup function's `filter(cb => cb !== callback)`. */
  function Remove(subscribers: seq<Subscriber>, callback: Subscriber): seq<Subscriber> {
    if subscribers == [] then []
    else (if subscribers[0] == callback then [] else [subscribers[0]]) + Remove(subscribers[1..], callback)
  }

  /** The settings of the modules that have metadata, concatenated in list order. */
  function SettingsOf(mods: seq<ExtModule>): seq<SettingItem> {
    if mods == [] then []
    else
      var m := mods[|mods| - 1];
      SettingsOf(mods[..|mods| - 1]) + (if m.metadata.Some? then m.settings.GetOr([]) else [])
  }

  /** The handler the last `registerCommand(id, …)` among `calls` registered, if any. */
  function LastHandler(calls: seq<Call>, id: string): Option<Handler> {
    if calls == [] then None
    else
      var c := calls[|calls| - 1];
      if c.RegisterCommand? && c.commandId == id then Some(c.handler) else LastHandler(calls[..|calls| - 1], id)
  }

  /** The renderer the last `registerSidebarPanel(id, …)` among `calls` registered, if any. */
  function LastPanel(calls: seq<Call>, id: string): Option<Renderer> {
    if calls == [] then None
    else
      var c := calls[|calls| - 1];
      if c.RegisterSidebarPanel? && c.panelId == id then Some(c.panel) else LastPanel(calls[..|calls| - 1], id)
  }

  /** The contributions handed to `callback` by a list of effects, in order. */
  function DeliveredTo(effects: seq<Effect>, callback: Subscriber): seq<Contribution> {
    if effects == [] then []
    else
      var e := effects[|effects| - 1];
      DeliveredTo(effects[..|effects| - 1], callback)
        + (if e.Delivered? && e.subscriber == callback then [e.contribution] else [])
  }

  // ---------------------------------------------------------------------------
  // Properties of the specification.
  // ---------------------------------------------------------------------------

  /** Context calls never touch the subscriber lists or the flag. */
  lemma {:induction false} ApplyAllKeepsSubscribers(s: Snapshot, calls: seq<Call>)
    ensures var t := ApplyAll(s, calls).state;
      t.statusBarCallbacks == s.statusBarCallbacks && t.editorButtonCallbacks == s.editorButtonCallbacks
      && t.initialized == s.initialized
  {
    if calls != [] {
      ApplyAllKeepsSubscribers(s, calls[..|calls| - 1]);
    }
  }

  lemma {:induction false} LoadAllKeepsSubscribers(s: Snapshot, mods: seq<ExtModule>)
    ensures var t := LoadAll(s, mods).state;
      t.statusBarCallbacks == s.statusBarCallbacks && t.editorButtonCallbacks == s.editorButtonCallbacks
      && t.initialized == s.initialized
  {
    if mods != [] {
      var o := LoadAll(s, mods[..|mods| - 1]);
      LoadAllKeepsSubscribers(s, mods[..|mods| - 1]);
      var m := mods[|mods| - 1];
      if m.metadata.Some? && m.activate.Some? {
        var s1 := o.state.(settingsSchema := o.state.settingsSchema + m.settings.GetOr([]));
        ApplyAllKeepsSubscribers(s1, UntilThrow(m.activate.value));
      }
    }
  }

  /** `initialize` keeps both subscriber lists as they were and sets the flag. */
  lemma InitializeKeepsSubscribers(s: Snapshot, mods: seq<ExtModule>)
    ensures var t := AfterInitialize(s, mods).state;
      t.statusBarCallbacks == s.statusBarCallbacks && t.editorButtonCallbacks == s.editorButtonCallbacks
      && t.initialized
  {
    LoadAllKeepsSubscribers(Cleared(s), mods);
  }

  /** One context call never reads the flag. */
  lemma ApplyCallIgnoresFlag(s: Snapshot, c: Call, b: bool)
    ensures ApplyCall(s.(initialized := b), c) == Outcome(ApplyCall(s, c).state.(initialized := b), ApplyCall(s, c).effects)
  {
  }

  /** Context calls never read the flag: loading from a state differing only in it differs only in it. */
  lemma {:induction false} ApplyAllIgnoresFlag(s: Snapshot, calls: seq<Call>, b: bool)
    ensures ApplyAll(s.(initialized := b), calls)
         == Outcome(ApplyAll(s, calls).state.(initialized := b), ApplyAll(s, calls).effects)
  {
    if calls != [] {
      var init := calls[..|calls| - 1];
      ApplyAllIgnoresFlag(s, init, b);
      ApplyCallIgnoresFlag(ApplyAll(s, init).state, calls[|calls| - 1], b);
    }
  }

  lemma {:induction false} LoadAllIgnoresFlag(s: Snapshot, mods: seq<ExtModule>, b: bool)
    ensures LoadAll(s.(initialized := b), mods)
         == Outcome(LoadAll(s, mods).state.(initialized := b), LoadAll(s, mods).effects)
  {
    if mods != [] {
      var init := mods[..|mods| - 1];
      LoadAllIgnoresFlag(s, init, b);
      var o := LoadAll(s, init);
      var m := mods[|mods| - 1];
      if m.metadata.Some? && m.activate.Some? {
        var s1 := o.state.(settingsSchema := o.state.settingsSchema + m.settings.GetOr([]));
        ApplyAllIgnoresFlag(s1, UntilThrow(m.activate.value), b);
        assert s1.(initialized := b)
            == o.state.(initialized := b).(settingsSchema := o.state.settingsSchema + m.settings.GetOr([]));
      }
    }
  }

  /**
   * After `initialize` the registry holds only what this pass registered: two
   * registries with the same subscribers end up identical, whatever commands,
   * panels, settings, items and buttons they held before.
   */
  lemma InitializeForgetsPreviousContributions(s1: Snapshot, s2: Snapshot, mods: seq<ExtModule>)
    requires s1.statusBarCallbacks == s2.statusBarCallbacks
    requires s1.editorButtonCallbacks == s2.editorButtonCallbacks
    ensures AfterInitialize(s1, mods) == AfterInitialize(s2, mods)
  {
    assert Cleared(s1) == Cleared(s2).(initialized := s1.initialized);
    LoadAllIgnoresFlag(Cleared(s2), mods, s1.initialized);
  }

  /** Context calls never touch the settings schema. */
  lemma {:induction false} ApplyAllKeepsSettings(s: Snapshot, calls: seq<Call>)
    ensures ApplyAll(s, calls).state.settingsSchema == s.settingsSchema
  {
    if calls != [] {
      ApplyAllKeepsSettings(s, calls[..|calls| - 1]);
    }
  }

  lemma {:induction false} LoadAllSettings(s: Snapshot, mods: seq<ExtModule>)
    ensures LoadAll(s, mods).state.settingsSchema == s.settingsSchema + SettingsOf(mods)
  {
    if mods != [] {
      var init := mods[..|mods| - 1];
      LoadAllSettings(s, init);
      var o := LoadAll(s, init);
      var m := mods[|mods| - 1];
      if m.metadata.Some? && m.activate.Some? {
        var s1 := o.state.(settingsSchema := o.state.settingsSchema + m.settings.GetOr([]));
        ApplyAllKeepsSettings(s1, UntilThrow(m.activate.value));
      }
    }
  }

  /**
   * The settings schema after `initialize` is the concatenation of the settings of
   * the modules that have metadata, in list order, whatever their `activate` does;
   * a module without metadata contributes nothing at all.
   */
  lemma InitializeSettings(s: Snapshot, mods: seq<ExtModule>)
    ensures AfterInitialize(s, mods).state.settingsSchema == SettingsOf(mods)
    ensures forall m: ExtModule | m.metadata.None? :: LoadModule(s, m) == Outcome(s, [])
  {
    LoadAllSettings(Cleared(s), mods);
  }

  /** `LoadAll` over a list with one more module at its end. */
  lemma LoadAllSnoc(s: Snapshot, mods: seq<ExtModule>, m: ExtModule)
    ensures var o := LoadAll(s, mods); var p := LoadModule(o.state, m);
      LoadAll(s, mods + [m]) == Outcome(p.state, o.effects + p.effects)
  {
    assert (mods + [m])[..|mods|] == mods;
  }

  /** Loading `a + b` is loading `a`, then `b` from where `a` left off. */
  lemma {:induction false} LoadAllAppend(s: Snapshot, a: seq<ExtModule>, b: seq<ExtModule>)
    ensures var o := LoadAll(s, a); var p := LoadAll(o.state, b);
      LoadAll(s, a + b) == Outcome(p.state, o.effects + p.effects)
    decreases |b|
  {
    if b == [] {
      assert a + b == a;
    } else {
      var b0, last := b[..|b| - 1], b[|b| - 1];
      var o := LoadAll(s, a);
      var q := LoadAll(o.state, b0);
      var r := LoadModule(q.state, last);
      assert LoadAll(o.state, b) == Outcome(r.state, q.effects + r.effects) by {
        assert b == b0 + [last];
        LoadAllSnoc(o.state, b0, last);
      }
      assert LoadAll(s, a + b) == Outcome(r.state, (o.effects + q.effects) + r.effects) by {
        assert a + b == (a + b0) + [last];
        LoadAllAppend(s, a, b0);
        LoadAllSnoc(s, a + b0, last);
      }
      assert (o.effects + q.effects) + r.effects == o.effects + (q.effects + r.effects);
    }
  }

  lemma {:induction false} UntilThrowAt(script: seq<Call>, k: nat)
    requires k < |script| && script[k].Throw?
    requires forall j | 0 <= j < k :: !script[j].Throw?
    ensures UntilThrow(script) == script[..k]
  {
    if k > 0 {
      UntilThrowAt(script[1..], k - 1);
      assert [script[0]] + script[1..][..k - 1] == script[..k];
    }
  }

  /**
   * A module whose `activate` throws after its first `k` calls: its settings and
   * those `k` registrations stay, and every later module is loaded exactly as if
   * the failing module had stopped cleanly there.
   */
  lemma ThrowingActivateIsContained(s: Snapshot, before: seq<ExtModule>, m: ExtModule, after: seq<ExtModule>, k: nat)
    requires m.metadata.Some? && m.activate.Some?
    requires k < |m.activate.value| && m.activate.value[k].Throw?
    requires forall j | 0 <= j < k :: !m.activate.value[j].Throw?
    ensures var o := LoadAll(s, before);
      var s1 := o.state.(settingsSchema := o.state.settingsSchema + m.settings.GetOr([]));
      var f := ApplyAll(s1, m.activate.value[..k]);
      var p := LoadAll(f.state, after);
      LoadAll(s, before + [m] + after) == Outcome(p.state, o.effects + f.effects + p.effects)
  {
    UntilThrowAt(m.activate.value, k);
    LoadAllAppend(s, before + [m], after);
    assert (before + [m])[..|before + [m]| - 1] == before;
  }

  /** `registerCommand` is last-write-wins by id. */
  lemma {:induction false} CommandsLastWriteWins(s: Snapshot, calls: seq<Call>, id: string)
    ensures var t := ApplyAll(s, calls).state;
      (id in t.commands <==> id in s.commands || LastHandler(calls, id).Some?)
      && (LastHandler(calls, id).Some? ==> t.commands[id] == LastHandler(calls, id).value)
      && (LastHandler(calls, id).None? && id in s.commands ==> t.commands[id] == s.commands[id])
  {
    if calls != [] {
      CommandsLastWriteWins(s, calls[..|calls| - 1], id);
    }
  }

  /**
   * `registerSidebarPanel` appends `{id, ...item}` every time, while the panel map
   * keeps only the last renderer per id.
   */
  lemma {:induction false} SidebarPanels(s: Snapshot, calls: seq<Call>, id: string)
    ensures var t := ApplyAll(s, calls).state;
      t.sidebarItems == s.sidebarItems + SidebarItemsOf(calls)
      && (id in t.sidebarPanels <==> id in s.sidebarPanels || LastPanel(calls, id).Some?)
      && (LastPanel(calls, id).Some? ==> t.sidebarPanels[id] == LastPanel(calls, id).value)
  {
    if calls != [] {
      SidebarPanels(s, calls[..|calls| - 1], id);
    }
  }

  /**
   * Status-bar items and editor buttons are appended, one per call, with no
   * de-duplication by id.
   */
  lemma {:induction false} ItemsAndButtonsAppended(s: Snapshot, calls: seq<Call>)
    ensures ApplyAll(s, calls).state.statusBarItems == s.statusBarItems + StatusBarItemsOf(calls)
    ensures ApplyAll(s, calls).state.editorButtons == s.editorButtons + EditorButtonsOf(calls)
  {
    if calls != [] {
      ItemsAndButtonsAppended(s, calls[..|calls| - 1]);
    }
  }

  lemma {:induction false} DeliveredToAppend(a: seq<Effect>, b: seq<Effect>, callback: Subscriber)
    ensures DeliveredTo(a + b, callback) == DeliveredTo(a, callback) + DeliveredTo(b, callback)
    decreases |b|
  {
    if b == [] {
      assert a + b == a;
    } else {
      DeliveredToAppend(a, b[..|b| - 1], callback);
      assert (a + b)[..|a + b| - 1] == a + b[..|b| - 1];
    }
  }

  /** A subscriber listed once receives a notification exactly once; one not listed, never. */
  lemma {:induction false} NotifyReaches(subscribers: seq<Subscriber>, c: Contribution, callback: Subscriber)
    ensures multiset(subscribers)[callback] == 0 ==> DeliveredTo(Notify(subscribers, c), callback) == []
    ensures multiset(subscribers)[callback] == 1 ==> DeliveredTo(Notify(subscribers, c), callback) == [c]
  {
    if subscribers != [] {
      var init := subscribers[..|subscribers| - 1];
      NotifyReaches(init, c, callback);
      assert Notify(subscribers, c)[..|subscribers| - 1] == Notify(init, c);
      assert subscribers == init + [subscribers[|subscribers| - 1]];
    }
  }

  /** A replay hands the callback every stored contribution, in stored order. */
  lemma {:induction false} ReplayDelivers(callback: Subscriber, cs: seq<Contribution>)
    ensures DeliveredTo(Replay(callback, cs), callback) == cs
  {
    if cs != [] {
      ReplayDelivers(callback, cs[..|cs| - 1]);
      assert Replay(callback, cs)[..|cs| - 1] == Replay(callback, cs[..|cs| - 1]);
    }
  }

  lemma {:induction false} ItemsOfAppend(a: seq<StatusBarItem>, b: seq<StatusBarItem>)
    ensures Items(a + b) == Items(a) + Items(b)
  {
  }

  /** What one context call hands a subscriber listed once for status-bar items and not for buttons. */
  lemma ApplyCallDelivers(s: Snapshot, c: Call, callback: Subscriber)
    requires multiset(s.statusBarCallbacks)[callback] == 1
    requires multiset(s.editorButtonCallbacks)[callback] == 0
    ensures DeliveredTo(ApplyCall(s, c).effects, callback) == Items(if c.CreateStatusBarItem? then [c.item] else [])
  {
    match c {
      case CreateStatusBarItem(item) =>
        NotifyReaches(s.statusBarCallbacks, Item(item), callback);
      case RegisterEditorButton(button) =>
        NotifyReaches(s.editorButtonCallbacks, Button(button), callback);
      case _ =>
        NoDeliveries(ApplyCall(s, c).effects, callback);
    }
  }

  lemma {:induction false} NoDeliveries(effects: seq<Effect>, callback: Subscriber)
    requires forall i | 0 <= i < |effects| :: !effects[i].Delivered?
    ensures DeliveredTo(effects, callback) == []
  {
    if effects != [] {
      NoDeliveries(effects[..|effects| - 1], callback);
    }
  }

  /**
   * A subscriber present (once) while calls run receives each created status-bar
   * item once, in creation order, and nothing else.
   */
  lemma {:induction false} EarlySubscriberSeesCreatedItems(s: Snapshot, calls: seq<Call>, callback: Subscriber)
    requires multiset(s.statusBarCallbacks)[callback] == 1
    requires multiset(s.editorButtonCallbacks)[callback] == 0
    ensures DeliveredTo(ApplyAll(s, calls).effects, callback) == Items(StatusBarItemsOf(calls))
  {
    if calls != [] {
      var init := calls[..|calls| - 1];
      EarlySubscriberSeesCreatedItems(s, init, callback);
      var o := ApplyAll(s, init);
      ApplyAllKeepsSubscribers(s, init);
      var c := calls[|calls| - 1];
      var p := ApplyCall(o.state, c);
      DeliveredToAppend(o.effects, p.effects, callback);
      ItemsOfAppend(StatusBarItemsOf(init), if c.CreateStatusBarItem? then [c.item] else []);
      ApplyCallDelivers(o.state, c, callback);
    }
  }

  lemma {:induction false} EarlySubscriberLoadAll(s: Snapshot, mods: seq<ExtModule>, callback: Subscriber)
    requires multiset(s.statusBarCallbacks)[callback] == 1
    requires multiset(s.editorButtonCallbacks)[callback] == 0
    ensures Items(s.statusBarItems) + DeliveredTo(LoadAll(s, mods).effects, callback)
         == Items(LoadAll(s, mods).state.statusBarItems)
  {
    if mods != [] {
      var init := mods[..|mods| - 1];
      EarlySubscriberLoadAll(s, init, callback);
      LoadAllKeepsSubscribers(s, init);
      var o := LoadAll(s, init);
      var m := mods[|mods| - 1];
      var p := LoadModule(o.state, m);
      DeliveredToAppend(o.effects, p.effects, callback);
      if m.metadata.Some? && m.activate.Some? {
        var s1 := o.state.(settingsSchema := o.state.settingsSchema + m.settings.GetOr([]));
        var calls := UntilThrow(m.activate.value);
        EarlySubscriberSeesCreatedItems(s1, calls, callback);
        ItemsAndButtonsAppended(s1, calls);
        ItemsOfAppend(s1.statusBarItems, StatusBarItemsOf(calls));
      }
    }
  }

  /**
   * Early and late subscribers see the same thing: a status-bar subscriber
   * registered before `initialize` is handed, during it, exactly the items the
   * registry stores afterwards, in order; one registered after it is handed the
   * same items by the replay.
   */
  lemma SubscribersSeeStoredItems(s: Snapshot, mods: seq<ExtModule>, early: Subscriber, late: Subscriber)
    requires multiset(s.statusBarCallbacks)[early] == 1
    requires multiset(s.editorButtonCallbacks)[early] == 0
    ensures var o := AfterInitialize(s, mods);
      DeliveredTo(o.effects, early) == Items(o.state.statusBarItems)
      && DeliveredTo(SubscribeStatusBar(o.state, late).effects, late) == Items(o.state.statusBarItems)
  {
    EarlySubscriberLoadAll(Cleared(s), mods, early);
    InitializeKeepsSubscribers(s, mods);
    var o := AfterInitialize(s, mods);
    ReplayDelivers(late, Items(o.state.statusBarItems));
  }

  /** Before the first `initialize` a subscription replays nothing. */
  lemma NoReplayBeforeInitialize(s: Snapshot, callback: Subscriber)
    requires !s.initialized
    ensures SubscribeStatusBar(s, callback).effects == []
    ensures SubscribeEditorButtons(s, callback).effects == []
    ensures SubscribeStatusBar(s, callback).state.statusBarCallbacks == s.statusBarCallbacks + [callback]
  {
  }

  lemma {:induction false} RemoveKeepsOthers(subscribers: seq<Subscriber>, callback: Subscriber, d: Subscriber)
    ensures multiset(Remove(subscribers, callback))[callback] == 0
    ensures d != callback ==> multiset(Remove(subscribers, callback))[d] == multiset(subscribers)[d]
  {
    if subscribers != [] {
      RemoveKeepsOthers(subscribers[1..], callback, d);
      assert subscribers == [subscribers[0]] + subscribers[1..];
    }
  }

  lemma {:induction false} RemoveAbsent(subscribers: seq<Subscriber>, callback: Subscriber)
    requires callback !in subscribers
    ensures Remove(subscribers, callback) == subscribers
  {
    if subscribers != [] {
      RemoveAbsent(subscribers[1..], callback);
      assert subscribers == [subscribers[0]] + subscribers[1..];
    }
  }

  /** One step of the filter: the head stays, in front, exactly when it is another callback. */
  lemma RemoveCons(head: Subscriber, tail: seq<Subscriber>, callback: Subscriber)
    ensures Remove([head] + tail, callback) == (if head == callback then [] else [head]) + Remove(tail, callback)
  {
    assert ([head] + tail)[0] == head && ([head] + tail)[1..] == tail;
  }

  /**
   * The cleanup keeps the order of the callbacks it leaves: removing from a
   * concatenation removes from each part. With `RemoveCons` this makes `Remove`
   * the order-preserving filter, so the notification order is kept.
   */
  lemma {:induction false} RemoveAppend(xs: seq<Subscriber>, ys: seq<Subscriber>, callback: Subscriber)
    ensures Remove(xs + ys, callback) == Remove(xs, callback) + Remove(ys, callback)
  {
    if xs == [] {
      assert xs + ys == ys;
    } else {
      var head, tail := xs[0], xs[1..];
      var kept := if head == callback then [] else [head];
      assert xs + ys == [head] + (tail + ys) && xs == [head] + tail;
      RemoveCons(head, tail + ys, callback);
      RemoveCons(head, tail, callback);
      RemoveAppend(tail, ys, callback);
      assert kept + (Remove(tail, callback) + Remove(ys, callback))
        == (kept + Remove(tail, callback)) + Remove(ys, callback);
    }
  }

  /**
   * The cleanup function removes every entry equal to its callback and keeps all
   * other entries with their multiplicity; calling it again changes nothing.
   */
  lemma RemoveExactlyThatCallback(subscribers: seq<Subscriber>, callback: Subscriber)
    ensures callback !in Remove(subscribers, callback)
    ensures forall d | d != callback :: multiset(Remove(subscribers, callback))[d] == multiset(subscribers)[d]
    ensures Remove(Remove(subscribers, callback), callback) == Remove(subscribers, callback)
    ensures callback !in subscribers ==> Remove(subscribers, callback) == subscribers
  {
    RemoveKeepsOthers(subscribers, callback, callback);
    forall d | d != callback
      ensures multiset(Remove(subscribers, callback))[d] == multiset(subscribers)[d]
    {
      RemoveKeepsOthers(subscribers, callback, d);
    }
    RemoveAbsent(Remove(subscribers, callback), callback);
    if callback !in subscribers {
      RemoveAbsent(subscribers, callback);
    }
  }

  /** A script without `Throw` runs to its end. */
  lemma RunScriptNoThrow(s: Snapshot, script: seq<Call>)
    requires forall j | 0 <= j < |script| :: !script[j].Throw?
    ensures RunScript(s, script) == ApplyAll(s, script)
  {
    var r := UntilThrow(script);
    if |r| < |script| {
      assert false;
    }
    assert script[..|script|] == script;
  }

  lemma LoadGemini(s: Snapshot)
    ensures LoadModule(s, Gemini.Module).state == s.(
      settingsSchema := s.settingsSchema + Gemini.Settings,
      sidebarItems := s.sidebarItems + [SidebarItem(Gemini.PanelId, "sparkles", "Gemini AI")],
      sidebarPanels := s.sidebarPanels[Gemini.PanelId := Gemini.Panel],
      commands := s.commands[Gemini.HelloCommand := Gemini.HelloHandler])
  {
    var s1 := s.(settingsSchema := s.settingsSchema + Gemini.Settings);
    var a := Gemini.Activation;
    RunScriptNoThrow(s1, a);
    assert a[..1][..0] == [] && a[..|a| - 1] == a[..1];
    var o0 := ApplyAll(s1, a[..0]);
    assert o0.state == s1;
    var o1 := ApplyAll(s1, a[..1]);
    assert o1.state == ApplyCall(s1, a[0]).state;
    assert ApplyAll(s1, a).state == ApplyCall(o1.state, a[1]).state;
  }

  lemma LoadPrettier(s: Snapshot)
    ensures LoadModule(s, Prettier.Module).state == s.(
      commands := s.commands[Prettier.FormatCommand := Prettier.FormatHandler],
      editorButtons := s.editorButtons + [Prettier.FormatButton])
  {
    var a := Prettier.Activation;
    RunScriptNoThrow(s.(settingsSchema := s.settingsSchema + []), a);
    assert s.(settingsSchema := s.settingsSchema + []) == s;
    assert a[..1][..0] == [] && a[..2][..1] == a[..1] && a[..|a| - 1] == a[..2];
    assert ApplyAll(s, a[..0]).state == s;
    var o1 := ApplyAll(s, a[..1]);
    assert o1.state == ApplyCall(s, a[0]).state;
    var o2 := ApplyAll(s, a[..2]);
    assert o2.state == ApplyCall(o1.state, a[1]).state;
    assert ApplyAll(s, a).state == ApplyCall(o2.state, a[2]).state;
  }

  lemma LoadLiveServer(s: Snapshot)
    ensures LoadModule(s, LiveServer.Module).state == s.(
      commands := s.commands[LiveServer.StartCommand := LiveServer.StartHandler][LiveServer.StopCommand := LiveServer.StopHandler],
      statusBarItems := s.statusBarItems + [LiveServer.GoLiveItem])
  {
    var a := LiveServer.Activation;
    RunScriptNoThrow(s.(settingsSchema := s.settingsSchema + []), a);
    assert s.(settingsSchema := s.settingsSchema + []) == s;
    assert a[..1][..0] == [] && a[..2][..1] == a[..1] && a[..|a| - 1] == a[..2];
    assert ApplyAll(s, a[..0]).state == s;
    var o1 := ApplyAll(s, a[..1]);
    assert o1.state == ApplyCall(s, a[0]).state;
    var o2 := ApplyAll(s, a[..2]);
    assert o2.state == ApplyCall(o1.state, a[1]).state;
    assert ApplyAll(s, a).state == ApplyCall(o2.state, a[2]).state;
  }

  lemma LoadAiHistoryChat(s: Snapshot)
    ensures LoadModule(s, AiHistoryChat.Module).state == s.(
      settingsSchema := s.settingsSchema + AiHistoryChat.Settings,
      sidebarItems := s.sidebarItems + [SidebarItem(AiHistoryChat.PanelId, "sparkles", "AI Chat")],
      sidebarPanels := s.sidebarPanels[AiHistoryChat.PanelId := AiHistoryChat.Panel],
      commands := s.commands[AiHistoryChat.ChatCommand := AiHistoryChat.ChatHandler])
  {
    var s1 := s.(settingsSchema := s.settingsSchema + AiHistoryChat.Settings);
    var a := AiHistoryChat.Activation;
    RunScriptNoThrow(s1, a);
    assert a[..1][..0] == [] && a[..|a| - 1] == a[..1];
    assert ApplyAll(s1, a[..0]).state == s1;
    var o1 := ApplyAll(s1, a[..1]);
    assert o1.state == ApplyCall(s1, a[0]).state;
    assert ApplyAll(s1, a).state == ApplyCall(o1.state, a[1]).state;
  }

  /** `initialize`'s `forEach` over the four built-in modules, one module after the other. */
  lemma LoadBuiltIns(c: Snapshot)
    ensures LoadAll(c, BuiltIns).state == LoadModule(LoadModule(LoadModule(LoadModule(
      c, Gemini.Module).state, Prettier.Module).state, LiveServer.Module).state, AiHistoryChat.Module).state
  {
    var m := BuiltIns;
    assert m[..3][..2][..1][..0] == [];
    assert m[..3][..2][..1] == m[..1] && m[..3][..2] == m[..2] && m[..|m| - 1] == m[..3];
    assert LoadAll(c, m[..0]).state == c;
    assert LoadAll(c, m[..1]).state == LoadModule(c, Gemini.Module).state;
    assert LoadAll(c, m[..2]).state == LoadModule(LoadAll(c, m[..1]).state, Prettier.Module).state;
    assert LoadAll(c, m[..3]).state == LoadModule(LoadAll(c, m[..2]).state, LiveServer.Module).state;
  }

  /**
   * Loading the four built-in modules into any registry: five commands, two
   * sidebar panels, the `Go Live` item, the Format button, and the Gemini then AI
   * History Chat settings.
   */
  lemma BuiltInContributions(s: Snapshot)
    ensures var t := AfterInitialize(s, BuiltIns).state;
      t.commands.Keys == {"gemini.hello", "prettier.format", "liveServer.start", "liveServer.stop", "ai.chat"}
      && t.sidebarItems == [SidebarItem("gemini-panel-view", "sparkles", "Gemini AI"),
                            SidebarItem("ai-history-panel", "sparkles", "AI Chat")]
      && t.statusBarItems == [LiveServer.GoLiveItem]
      && t.editorButtons == [Prettier.FormatButton]
      && t.settingsSchema == Gemini.Settings + AiHistoryChat.Settings
  {
    var c := Cleared(s);
    BuiltInsFrom(c);
    var t := LoadAll(c, BuiltIns).state;
    assert t.commands.Keys == {"gemini.hello", "prettier.format", "liveServer.start", "liveServer.stop", "ai.chat"};
  }

  /** What loading the four built-in modules adds to any registry. */
  lemma BuiltInsFrom(c: Snapshot)
    ensures var t := LoadAll(c, BuiltIns).state;
      && t.commands == c.commands[Gemini.HelloCommand := Gemini.HelloHandler]
           [Prettier.FormatCommand := Prettier.FormatHandler]
           [LiveServer.StartCommand := LiveServer.StartHandler][LiveServer.StopCommand := LiveServer.StopHandler]
           [AiHistoryChat.ChatCommand := AiHistoryChat.ChatHandler]
      && t.sidebarItems == c.sidebarItems + [SidebarItem(Gemini.PanelId, "sparkles", "Gemini AI")]
           + [SidebarItem(AiHistoryChat.PanelId, "sparkles", "AI Chat")]
      && t.statusBarItems == c.statusBarItems + [LiveServer.GoLiveItem]
      && t.editorButtons == c.editorButtons + [Prettier.FormatButton]
      && t.settingsSchema == c.settingsSchema + Gemini.Settings + AiHistoryChat.Settings
  {
    LoadBuiltIns(c);
    var s1 := LoadModule(c, Gemini.Module).state;
    LoadGemini(c);
    var s2 := LoadModule(s1, Prettier.Module).state;
    LoadPrettier(s1);
    var s3 := LoadModule(s2, LiveServer.Module).state;
    LoadLiveServer(s2);
    LoadAiHistoryChat(s3);
  }

  // ---------------------------------------------------------------------------
  // The registry object.
  // ---------------------------------------------------------------------------

  /** The `ExtensionRegistry` class; `registry` is its one instance. */
  class Registry {
    const extensions: seq<ExtModule>
    var commands: map<string, Handler>
    var sidebarItems: seq<SidebarItem>
    var sidebarPanels: map<string, Renderer>
    var settingsSchema: seq<SettingItem>
    var statusBarItems: seq<StatusBarItem>
    var editorButtons: seq<EditorButton>
    var statusBarCallbacks: seq<Subscriber>
    var editorButtonCallbacks: seq<Subscriber>
    var initialized: bool

    /** The fields as one value. */
    function State(): Snapshot
      reads this
    {
      Snapshot(commands, sidebarItems, sidebarPanels, settingsSchema, statusBarItems,
        editorButtons, statusBarCallbacks, editorButtonCallbacks, initialized)
    }

    constructor ()
      ensures extensions == BuiltIns && State() == Empty
    {
      extensions := BuiltIns;
      commands := map[];
      sidebarItems := [];
      sidebarPanels := map[];
      settingsSchema := [];
      statusBarItems := [];
      editorButtons := [];
      statusBarCallbacks := [];
      editorButtonCallbacks := [];
      initialized := false;
    }

    /** The context's `registerCommand` closure. */
    method RegisterCommand(id: string, handler: Handler)
      modifies this
      ensures State() == old(State()).(commands := old(commands)[id := handler])
    {
      commands := commands[id := handler];
    }

    /** The context's `registerSidebarPanel` closure. */
    method RegisterSidebarPanel(id: string, icon: string, caption: string, panel: Renderer)
      modifies this
      ensures State() == old(State()).(sidebarItems := old(sidebarItems) + [SidebarItem(id, icon, caption)],
                                       sidebarPanels := old(sidebarPanels)[id := panel])
    {
      sidebarItems := sidebarItems + [SidebarItem(id, icon, caption)];
      sidebarPanels := sidebarPanels[id := panel];
    }

    /** `window.createStatusBarItem`: store the item, then call every subscriber in order. */
    method CreateStatusBarItem(item: StatusBarItem) returns (effects: seq<Effect>)
      modifies this
      ensures State() == old(State()).(statusBarItems := old(statusBarItems) + [item])
      ensures effects == Notify(statusBarCallbacks, Item(item))
    {
      statusBarItems := statusBarItems + [item];
      effects := [];
      var i := 0;
      while i < |statusBarCallbacks|
        invariant 0 <= i <= |statusBarCallbacks|
        invariant effects == Notify(statusBarCallbacks[..i], Item(item))
      {
        effects := effects + [Delivered(statusBarCallbacks[i], Item(item))];
        i := i + 1;
      }
      assert statusBarCallbacks[..i] == statusBarCallbacks;
    }

    /** `window.registerEditorButton`: store the button, then call every subscriber in order. */
    method RegisterEditorButton(button: EditorButton) returns (effects: seq<Effect>)
      modifies this
      ensures State() == old(State()).(editorButtons := old(editorButtons) + [button])
      ensures effects == Notify(editorButtonCallbacks, Button(button))
    {
      editorButtons := editorButtons + [button];
      effects := [];
      var i := 0;
      while i < |editorButtonCallbacks|
        invariant 0 <= i <= |editorButtonCallbacks|
        invariant effects == Notify(editorButtonCallbacks[..i], Button(button))
      {
        effects := effects + [Delivered(editorButtonCallbacks[i], Button(button))];
        i := i + 1;
      }
      assert editorButtonCallbacks[..i] == editorButtonCallbacks;
    }

    /** One call on the activation context, dispatched to its closure. */
    method Apply(c: Call) returns (effects: seq<Effect>)
      requires !c.Throw?
      modifies this
      ensures Outcome(State(), effects) == ApplyCall(old(State()), c)
    {
      match c {
        case RegisterCommand(id, handler) =>
          RegisterCommand(id, handler);
          effects := [];
        case RegisterSidebarPanel(id, icon, caption, panel) =>
          RegisterSidebarPanel(id, icon, caption, panel);
          effects := [];
        case CreateStatusBarItem(item) =>
          effects := CreateStatusBarItem(item);
        case RegisterEditorButton(button) =>
          effects := RegisterEditorButton(button);
        case ShowInformationMessage(m) => effects := [ToastShown(Success, m)];
        case ShowWarningMessage(m) => effects := [ToastShown(Warning, m)];
        case ShowErrorMessage(m) => effects := [ToastShown(Error, m)];
        case Toast(kind, m) => effects := [ToastShown(kind, m)];
        case AddKeydownListener => effects := [KeydownListenerAdded];
      }
    }

    /**
     * Runs a script of context calls (an `activate` or a handler body) inside
     * `try`: it stops at the first `Throw`, keeping what the earlier calls did.
     */
    method Run(script: seq<Call>) returns (effects: seq<Effect>)
      modifies this
      ensures Outcome(State(), effects) == RunScript(old(State()), script)
    {
      effects := [];
      var i := 0;
      while i < |script| && !script[i].Throw?
        invariant 0 <= i <= |script|
        invariant forall j | 0 <= j < i :: !script[j].Throw?
        invariant Outcome(State(), effects) == ApplyAll(old(State()), script[..i])
      {
        var e := Apply(script[i]);
        effects := effects + e;
        assert script[..i + 1][..i] == script[..i];
        i := i + 1;
      }
      if i < |script| {
        UntilThrowAt(script, i);
      } else {
        RunScriptNoThrow(old(State()), script);
        assert script[..i] == script;
      }
    }

    /** One step of `initialize`'s `forEach`. */
    method Load(m: ExtModule) returns (effects: seq<Effect>)
      modifies this
      ensures Outcome(State(), effects) == LoadModule(old(State()), m)
    {
      if m.metadata.None? {
        return [];
      }
      if m.settings.Some? {
        settingsSchema := settingsSchema + m.settings.value;
      } else {
        settingsSchema := settingsSchema + [];
      }
      if m.activate.Some? {
        effects := Run(m.activate.value);
      } else {
        effects := [];
      }
    }

    /** `initialize(context)`. */
    method Initialize() returns (effects: seq<Effect>)
      modifies this
      ensures Outcome(State(), effects) == AfterInitialize(old(State()), extensions)
    {
      commands := map[];
      sidebarItems := [];
      sidebarPanels := map[];
      settingsSchema := [];
      statusBarItems := [];
      editorButtons := [];
      effects := [];
      var i := 0;
      while i < |extensions|
        invariant 0 <= i <= |extensions|
        invariant Outcome(State(), effects) == LoadAll(Cleared(old(State())), extensions[..i])
      {
        var e := Load(extensions[i]);
        effects := effects + e;
        assert extensions[..i + 1][..i] == extensions[..i];
        i := i + 1;
      }
      assert extensions[..i] == extensions;
      initialized := true;
    }

    function GetCommands(): map<string, Handler>
      reads this
    {
      commands
    }

    function GetSidebarItems(): seq<SidebarItem>
      reads this
    {
      sidebarItems
    }

    /** `sidebarPanels.get(id)`: `undefined` for an unknown id. */
    function GetSidebarPanel(id: string): (r: Option<Renderer>)
      reads this
      ensures r.Some? <==> id in sidebarPanels
      ensures r.Some? ==> r.value == sidebarPanels[id]
    {
      if id in sidebarPanels then Some(sidebarPanels[id]) else None
    }

    function GetSettings(): seq<SettingItem>
      reads this
    {
      settingsSchema
    }

    function GetStatusBarItems(): seq<StatusBarItem>
      reads this
    {
      statusBarItems
    }

    function GetEditorButtons(): seq<EditorButton>
      reads this
    {
      editorButtons
    }

    /**
     * `executeCommand(id, args)`: a registered handler is called exactly once with
     * `args` (what it throws is caught); an unknown id does nothing. No result is
     * returned to the caller, and the registry is not changed.
     */
    method ExecuteCommand(id: string, args: Args) returns (effects: seq<Effect>)
      ensures id in commands ==> effects == [HandlerCalled(commands[id], args)]
      ensures id !in commands ==> effects == []
    {
      if id in commands {
        effects := [HandlerCalled(commands[id], args)];
      } else {
        effects := [];
      }
    }

    /** `onStatusBarUpdate(callback)`: subscribe; if initialized, replay every stored item. */
    method OnStatusBarUpdate(callback: Subscriber) returns (effects: seq<Effect>)
      modifies this
      ensures Outcome(State(), effects) == SubscribeStatusBar(old(State()), callback)
    {
      statusBarCallbacks := statusBarCallbacks + [callback];
      effects := [];
      if initialized {
        var i := 0;
        while i < |statusBarItems|
          invariant 0 <= i <= |statusBarItems|
          invariant effects == Replay(callback, Items(statusBarItems[..i]))
        {
          effects := effects + [Delivered(callback, Item(statusBarItems[i]))];
          i := i + 1;
        }
        assert statusBarItems[..i] == statusBarItems;
      }
    }

    /** The cleanup function `onStatusBarUpdate` returns. */
    method UnsubscribeStatusBar(callback: Subscriber)
      modifies this
      ensures State() == old(State()).(statusBarCallbacks := Remove(old(statusBarCallbacks), callback))
    {
      statusBarCallbacks := Remove(statusBarCallbacks, callback);
    }

    /** `onEditorButtonUpdate(callback)`: subscribe; if initialized, replay every stored button. */
    method OnEditorButtonUpdate(callback: Subscriber) returns (effects: seq<Effect>)
      modifies this
      ensures Outcome(State(), effects) == SubscribeEditorButtons(old(State()), callback)
    {
      editorButtonCallbacks := editorButtonCallbacks + [callback];
      effects := [];
      if initialized {
        var i := 0;
        while i < |editorButtons|
          invariant 0 <= i <= |editorButtons|
          invariant effects == Replay(callback, Buttons(editorButtons[..i]))
        {
          effects := effects + [Delivered(callback, Button(editorButtons[i]))];
          i := i + 1;
        }
        assert editorButtons[..i] == editorButtons;
      }
    }

    /** The cleanup function `onEditorButtonUpdate` returns. */
    method UnsubscribeEditorButtons(callback: Subscriber)
      modifies this
      ensures State() == old(State()).(editorButtonCallbacks := Remove(old(editorButtonCallbacks), callback))
    {
      editorButtonCallbacks := Remove(editorButtonCallbacks, callback);
    }
  }
}

=== FILE: settings_panel.dfy ===
/**
 * The settings editor (`SettingsPanel.jsx`): the category schema and its
 * search filter, the value each control shows, the number parsing of numeric
 * controls, the local edits with their unsaved flag, and the search of the
 * extensions manager.
 */
module SettingsPanel {
  import opened Optional
  import opened Strings
  import opened Lists
  import opened ExtensionApi

  /** A schema entry as the panel reads it: `title` is its `label`, `kind` its `type`; `desc` may be missing. */
  datatype Item = Item(id: string, title: string, kind: string, options: seq<string>, default: Option<SettingValue>, desc: Option<string>)

  /** A schema category under its key. */
  datatype Category = Category(key: string, title: string, items: seq<Item>)

  /** The built-in schema, in its key order. */
  const DefaultSchema: seq<Category> := [
    Category("editor", "Text Editor", [
      Item("fontSize", "Font Size", "number", [], Some(Num(14)), Some("Controls the font size in pixels.")),
      Item("fontFamily", "Font Family", "text", [], Some(Str("'Cascadia Code', monospace")), Some("Controls the font family.")),
      Item("tabSize", "Tab Size", "number", [], Some(Num(2)), Some("The number of spaces a tab is equal to.")),
      Item("wordWrap", "Word Wrap", "select", ["off", "on"], Some(Str("off")), Some("Controls how lines should wrap.")),
      Item("lineNumbers", "Line Numbers", "select", ["on", "off", "relative"], Some(Str("on")), Some("Control the display of line numbers."))]),
    Category("ai", "AI Assistant", [
      Item("aiProvider", "AI Provider", "select", ["gemini", "openai", "openrouter"], Some(Str("gemini")), Some("Select the AI service provider.")),
      Item("aiModel", "AI Model", "text", [], Some(Str("gemini-pro")), Some("Model name to use"))]),
    Category("window", "Window", [
      Item("minimap", "Minimap", "toggle", [], Some(Bool(true)), Some("Controls whether the minimap is shown."))]),
    Category("files", "Files", [
      Item("autoSave", "Auto Save", "toggle", [], Some(Bool(false)), Some("Automatically save files on change."))]),
    Category("extensionsManage", "Extensions Manager", []),
    Category("extensionSettings", "Extension Settings", []),
    Category("accounts", "Accounts", [])]

  /** The categories a search never hides. */
  predicate Pinned(key: string) {
    key == "extensionsManage" || key == "accounts"
  }

  /** An entry matches when its label or its `desc` contains the search, ignoring case. */
  predicate Matches(item: Item, search: string) {
    ContainsIgnoringCase(item.title, search) || (item.desc.Some? && ContainsIgnoringCase(item.desc.value, search))
  }

  /** What the search leaves of one category: a pinned one whole; another only with its matching entries, and only when there is one. */
  function KeepCategory(cat: Category, search: string): (r: Option<Category>)
    ensures Pinned(cat.key) ==> r == Some(cat)
    ensures !Pinned(cat.key) ==> (r.Some? <==> exists i | i in cat.items :: Matches(i, search))
    ensures !Pinned(cat.key) && r.Some? ==>
      && r.value.key == cat.key && r.value.title == cat.title
      && (forall i :: i in r.value.items <==> i in cat.items && Matches(i, search))
  {
    if Pinned(cat.key) then Some(cat)
    else
      var items := Filter(cat.items, (i: Item) => Matches(i, search));
      if |items| > 0 then
        assert items[0] in items;
        Some(cat.(items := items))
      else
        assert forall i | i in cat.items :: !Matches(i, search);
        None
  }

  /** The kept categories, in schema order. */
  function KeptCategories(cats: seq<Category>, search: string): (r: seq<Category>)
    ensures |r| <= |cats|
  {
    if cats == [] then []
    else
      var rest := KeptCategories(cats[1..], search);
      match KeepCategory(cats[0], search)
      case Some(c) => [c] + rest
      case None => rest
  }

  /** `filteredSchema`: the schema itself for an empty search, else the kept categories. */
  function FilteredSchema(schema: seq<Category>, search: string): (r: seq<Category>)
    ensures search == "" ==> r == schema
    ensures |r| <= |schema|
    ensures search != "" ==> forall c :: c in r <==> exists k | 0 <= k < |schema| :: KeepCategory(schema[k], search) == Some(c)
  {
    if search == "" then schema
    else
      var r := KeptCategories(schema, search);
      assert forall c :: c in r <==> exists k | 0 <= k < |schema| :: KeepCategory(schema[k], search) == Some(c) by {
        forall c ensures c in r <==> exists k | 0 <= k < |schema| :: KeepCategory(schema[k], search) == Some(c) {
          KeptCategoriesMembers(schema, search, c);
        }
      }
      r
  }

  /** A category is in the filtered list exactly when the search keeps it: nothing kept is invented or lost. */
  lemma {:induction false} KeptCategoriesMembers(cats: seq<Category>, search: string, c: Category)
    ensures c in KeptCategories(cats, search) <==> exists k | 0 <= k < |cats| :: KeepCategory(cats[k], search) == Some(c)
    decreases |cats|
  {
    if cats != [] {
      KeptCategoriesMembers(cats[1..], search, c);
      if exists k | 1 <= k < |cats| :: KeepCategory(cats[k], search) == Some(c) {
        var k :| 1 <= k < |cats| && KeepCategory(cats[k], search) == Some(c);
        assert KeepCategory(cats[1..][k - 1], search) == Some(c);
      }
      if exists k | 0 <= k < |cats[1..]| :: KeepCategory(cats[1..][k], search) == Some(c) {
        var k :| 0 <= k < |cats[1..]| && KeepCategory(cats[1..][k], search) == Some(c);
        assert KeepCategory(cats[k + 1], search) == Some(c);
      }
    }
  }

  /** With any search, the pinned categories of a schema stay as they are. */
  lemma PinnedAlwaysShown(schema: seq<Category>, search: string, k: nat)
    requires k < |schema| && Pinned(schema[k].key)
    ensures schema[k] in FilteredSchema(schema, search)
  {
    if search != "" {
      KeptCategoriesMembers(schema, search, schema[k]);
    }
  }

  /** A category that holds no entries is hidden by any search unless it is pinned: in the built-in schema, Extension Settings. */
  lemma EmptyCategoryHidden(cats: seq<Category>, search: string, k: nat)
    requires k < |cats| && cats[k].items == [] && !Pinned(cats[k].key)
    ensures KeepCategory(cats[k], search).None?
  {
  }

  // ---- values of the controls ----

  /** The value a control shows: the local setting, else the entry's default, else `''`. */
  function DisplayValue(local: map<string, SettingValue>, item: Item): (v: SettingValue)
    ensures item.id in local ==> v == local[item.id]
    ensures item.id !in local && item.default.Some? ==> v == item.default.value
    ensures item.id !in local && item.default.None? ==> v == Str("")
  {
    if item.id in local then local[item.id] else item.default.GetOr(Str(""))
  }

  predicate IsDigit(c: char) {
    '0' <= c <= '9'
  }

  /** The number of leading digits of `s`. */
  function DigitRun(s: string): (n: nat)
    ensures n <= |s|
    ensures forall k | 0 <= k < n :: IsDigit(s[k])
    ensures n < |s| ==> !IsDigit(s[n])
  {
    if s == [] || !IsDigit(s[0]) then 0 else 1 + DigitRun(s[1..])
  }

  /** The value of a string of decimal digits. */
  function DigitsValue(s: string): nat
    requires forall k | 0 <= k < |s| :: IsDigit(s[k])
  {
    if s == [] then 0
    else
      assert IsDigit(s[|s| - 1]);
      10 * DigitsValue(s[..|s| - 1]) + (s[|s| - 1] as int - '0' as int)
  }

  /**
   * `parseInt(text) || 0` for decimal text: leading white space, an optional
   * sign, then the longest run of digits; no digit at all gives 0.
   */
  function NumberValue(text: string): (n: int)
    ensures TrimStart(text) == "" ==> n == 0
    ensures n < 0 ==> |TrimStart(text)| > 0 && TrimStart(text)[0] == '-'
    ensures |text| > 0 && (forall k | 0 <= k < |text| :: IsDigit(text[k])) ==> n == DigitsValue(text)
  {
    var t := TrimStart(text);
    var negative := |t| > 0 && t[0] == '-';
    var u := if |t| > 0 && (t[0] == '-' || t[0] == '+') then t[1..] else t;
    var n := DigitRun(u);
    assert |text| > 0 && (forall k | 0 <= k < |text| :: IsDigit(text[k])) ==> u[..n] == text by {
      if |text| > 0 && (forall k | 0 <= k < |text| :: IsDigit(text[k])) {
        assert !IsSpace(text[0]) && t == text;
        assert u == text;
        assert n == |u|;
      }
    }
    var v: int := DigitsValue(u[..n]);
    if negative then -v else v
  }

  lemma {:induction false} NatToStringDigits(n: nat)
    ensures forall k | 0 <= k < |NatToString(n)| :: IsDigit(NatToString(n)[k])
    ensures DigitsValue(NatToString(n)) == n
    decreases n
  {
    if n >= 10 {
      NatToStringDigits(n / 10);
      var s := NatToString(n);
      assert s[..|s| - 1] == NatToString(n / 10);
    }
  }

  /** Typing the decimal form of a whole number stores that number. */
  lemma NumberValueRoundTrip(n: int)
    ensures NumberValue(if n < 0 then "-" + NatToString(-n) else NatToString(n)) == n
  {
    var d := NatToString(if n < 0 then -n else n);
    NatToStringDigits(if n < 0 then -n else n);
    var text := if n < 0 then "-" + d else d;
    assert TrimStart(text) == text by {
      TrimStartSpec(text);
      assert !IsSpace(text[0]);
    }
    var u := if n < 0 then text[1..] else text;
    assert u == d;
    assert DigitRun(u) == |u|;
    assert u[..|u|] == u;
  }

  /** The extensions manager's view of an installed extension. */
  datatype Installed = Installed(id: string, name: string, description: Option<string>, enabled: bool)

  /** The manager's search: the list itself for an empty search, else the extensions whose name or description contains it. */
  function ManagerFilter(extensions: seq<Installed>, search: string): (r: seq<Installed>)
    ensures search == "" ==> r == extensions
    ensures search != "" ==> forall e :: e in r <==>
      (e in extensions && (ContainsIgnoringCase(e.name, search) || (e.description.Some? && ContainsIgnoringCase(e.description.value, search))))
  {
    if search == "" then extensions
    else Filter(extensions, (e: Installed) => ContainsIgnoringCase(e.name, search) || (e.description.Some? && ContainsIgnoringCase(e.description.value, search)))
  }

  /** The panel's state. */
  class Panel {
    var localSettings: map<string, SettingValue>
    var hasChanges: bool
    var search: string
    var schema: seq<Category>

    constructor(settings: map<string, SettingValue>)
      ensures localSettings == settings && !hasChanges && search == "" && schema == DefaultSchema
    {
      localSettings, hasChanges, search, schema := settings, false, "", DefaultSchema;
    }

    /** New settings from the window replace the local ones and clear the unsaved flag. */
    method Sync(settings: map<string, SettingValue>)
      modifies this
      ensures localSettings == settings && !hasChanges && search == old(search) && schema == old(schema)
    {
      localSettings, hasChanges := settings, false;
    }

    /** `handleChange`: one key takes the value, the others stay, and the flag is set. */
    method Change(key: string, value: SettingValue)
      modifies this
      ensures localSettings == old(localSettings)[key := value] && hasChanges
      ensures search == old(search) && schema == old(schema)
    {
      localSettings := localSettings[key := value];
      hasChanges := true;
    }

    /** A numeric control's change: the parsed number. */
    method ChangeNumber(key: string, text: string)
      modifies this
      ensures localSettings == old(localSettings)[key := Num(NumberValue(text))] && hasChanges
      ensures search == old(search) && schema == old(schema)
    {
      Change(key, Num(NumberValue(text)));
    }

    /** `handleSave`: the local settings go to the window and the flag clears. */
    method Save() returns (saved: map<string, SettingValue>)
      modifies this
      ensures saved == localSettings && localSettings == old(localSettings) && !hasChanges
      ensures search == old(search) && schema == old(schema)
    {
      saved := localSettings;
      hasChanges := false;
    }

    method SetSearch(text: string)
      modifies this
      ensures search == text && localSettings == old(localSettings) && hasChanges == old(hasChanges) && schema == old(schema)
    {
      search := text;
    }

    /** The categories on show. */
    function Shown(): seq<Category>
      reads this
    {
      FilteredSchema(schema, search)
    }
  }
}

=== FILE: stream_handlers.dfy ===
/**
 * `AICodeGenerator.handleStreamResponse` and `handleAnthropicStream`: a simplified
 * reading of server-sent events (section 9.2 of the WHATWG HTML Living Standard).
 * Each chunk the reader yields is split on newlines on its own; every non-blank
 * line starting with `data: ` carries a JSON payload, and the non-empty text a
 * payload yields is appended to the full text and passed to `onChunk`.
 *
 * The JSON step is a parameter: `extract(data)` is `None` when parsing the payload
 * or reaching into it throws (the handler catches that and goes on), and otherwise
 * the text it yields (`choices[0]?.delta?.content || ''` for the OpenAI-style
 * handler, the delta text of a `content_block_delta` event for the Anthropic one).
 */
module StreamHandlers {
  import opened Optional
  import opened Strings

  /** One `reader.read()`: a decoded chunk, or a read that throws. */
  datatype Read = Chunk(text: string) | ReadFailure

  /** The concatenation of a list of strings, in order. */
  function Concat(parts: seq<string>): string {
    if parts == [] then "" else parts[0] + Concat(parts[1..])
  }

  lemma {:induction false} ConcatAppend(a: seq<string>, b: seq<string>)
    ensures Concat(a + b) == Concat(a) + Concat(b)
    decreases |a|
  {
    if a == [] {
      assert a + b == b;
    } else {
      assert (a + b)[0] == a[0];
      assert (a + b)[1..] == a[1..] + b;
      ConcatAppend(a[1..], b);
    }
  }

  const DataPrefix: string := "data: "
  const DoneMarker: string := "[DONE]"

  /** The text one line passes to `onChunk`, if any. */
  function LineDelta(line: string, extract: string -> Option<string>, skipDone: bool): (r: Option<string>)
    ensures r.Some? ==> r.value != "" && StartsWith(line, DataPrefix)
    ensures r.Some? ==> extract(line[|DataPrefix|..]) == r
    ensures StartsWith(line, DataPrefix) && !(skipDone && line[|DataPrefix|..] == DoneMarker)
      && extract(line[|DataPrefix|..]).Some? && extract(line[|DataPrefix|..]).value != ""
      ==> r == extract(line[|DataPrefix|..])
  {
    if !StartsWith(line, DataPrefix) then None
    else
      var data := line[|DataPrefix|..];
      if skipDone && data == DoneMarker then None
      else
        match extract(data)
        case None => None
        case Some(content) => if content != "" then Some(content) else None
  }

  /** `chunk.split('\n').filter(line => line.trim() !== '')`. */
  function NonBlank(lines: seq<string>): seq<string> {
    if lines == [] then []
    else
      var last := lines[|lines| - 1];
      NonBlank(lines[..|lines| - 1]) + (if Trim(last) != "" then [last] else [])
  }

  /** What one line passes to `onChunk`: its text, or nothing. */
  function LineOutput(line: string, extract: string -> Option<string>, skipDone: bool): seq<string> {
    var d := LineDelta(line, extract, skipDone);
    if d.Some? then [d.value] else []
  }

  /** The `onChunk` arguments of a list of lines, in order. */
  function LinesDeltas(lines: seq<string>, extract: string -> Option<string>, skipDone: bool): (r: seq<string>)
    ensures |r| <= |lines|
  {
    if lines == [] then []
    else LinesDeltas(lines[..|lines| - 1], extract, skipDone) + LineOutput(lines[|lines| - 1], extract, skipDone)
  }

  lemma {:induction false} LinesDeltasAppend(a: seq<string>, b: seq<string>, extract: string -> Option<string>, skipDone: bool)
    ensures LinesDeltas(a + b, extract, skipDone) == LinesDeltas(a, extract, skipDone) + LinesDeltas(b, extract, skipDone)
    decreases |b|
  {
    if b == [] {
      assert a + b == a;
    } else {
      var b0 := b[..|b| - 1];
      assert (a + b)[..|a + b| - 1] == a + b0;
      assert (a + b)[|a + b| - 1] == b[|b| - 1];
      LinesDeltasAppend(a, b0, extract, skipDone);
    }
  }

  /**
   * The `onChunk` arguments of one chunk, line by line from its start: the
   * text of the line before the first newline, then those of the rest.
   */
  function ChunkDeltas(chunk: string, extract: string -> Option<string>, skipDone: bool): (r: seq<string>)
    ensures |r| <= |chunk| + 1
    decreases |chunk|
  {
    var i := IndexOfChar(chunk, '\n');
    LineOutput(chunk[..i], extract, skipDone)
    + (if i == |chunk| then [] else ChunkDeltas(chunk[i + 1..], extract, skipDone))
  }

  /** The most lines the chunks read hold: one more than the length of each chunk, none past a failure. */
  function LineBound(steps: seq<Read>): nat {
    if steps == [] then 0
    else match steps[0]
      case ReadFailure => 0
      case Chunk(text) => |text| + 1 + LineBound(steps[1..])
  }

  /**
   * The `onChunk` arguments of a whole stream, in order: reading stops at the
   * first failure, so a stream whose first read fails passes nothing, and no
   * line of a chunk passes more than one delta.
   */
  function StreamDeltas(steps: seq<Read>, extract: string -> Option<string>, skipDone: bool): (r: seq<string>)
    ensures |steps| > 0 && steps[0].ReadFailure? ==> r == []
    ensures |r| <= LineBound(steps)
  {
    if steps == [] then []
    else match steps[0]
      case ReadFailure => []
      case Chunk(text) => ChunkDeltas(text, extract, skipDone) + StreamDeltas(steps[1..], extract, skipDone)
  }

  /** A blank line yields nothing: it cannot start with `data: `. */
  lemma BlankLineYieldsNothing(line: string, extract: string -> Option<string>, skipDone: bool)
    requires Trim(line) == ""
    ensures LineDelta(line, extract, skipDone).None?
  {
    TrimEmptyIffBlank(line);
  }

  /** The blank-line filter changes nothing. */
  lemma {:induction false} BlankFilterRedundant(lines: seq<string>, extract: string -> Option<string>, skipDone: bool)
    ensures LinesDeltas(NonBlank(lines), extract, skipDone) == LinesDeltas(lines, extract, skipDone)
    decreases |lines|
  {
    if lines != [] {
      var init := lines[..|lines| - 1];
      var last := lines[|lines| - 1];
      BlankFilterRedundant(init, extract, skipDone);
      if Trim(last) != "" {
        var f := NonBlank(init) + [last];
        assert NonBlank(lines) == f;
        assert f[..|f| - 1] == NonBlank(init);
      } else {
        BlankLineYieldsNothing(last, extract, skipDone);
        assert NonBlank(lines) == NonBlank(init);
      }
    }
  }

  /** The texts of a line followed by more lines: that line's, then theirs. */
  lemma LinesDeltasCons(line: string, rest: seq<string>, extract: string -> Option<string>, skipDone: bool)
    ensures LinesDeltas([line] + rest, extract, skipDone) == LineOutput(line, extract, skipDone) + LinesDeltas(rest, extract, skipDone)
  {
    assert [line][..0] == [];
    LinesDeltasAppend([line], rest, extract, skipDone);
  }

  /** The fused reading of a chunk is the split-and-filter the handlers write out. */
  lemma {:induction false} ChunkDeltasSplit(chunk: string, extract: string -> Option<string>, skipDone: bool)
    ensures ChunkDeltas(chunk, extract, skipDone) == LinesDeltas(Split(chunk, '\n'), extract, skipDone)
    decreases |chunk|
  {
    var i := IndexOfChar(chunk, '\n');
    if i < |chunk| {
      ChunkDeltasSplit(chunk[i + 1..], extract, skipDone);
      LinesDeltasCons(chunk[..i], Split(chunk[i + 1..], '\n'), extract, skipDone);
    } else {
      assert chunk[..i] == chunk;
      LinesDeltasCons(chunk, [], extract, skipDone);
      assert [chunk] + [] == [chunk];
    }
  }

  lemma ChunkDeltasSpec(chunk: string, extract: string -> Option<string>, skipDone: bool)
    ensures ChunkDeltas(chunk, extract, skipDone) == LinesDeltas(NonBlank(Split(chunk, '\n')), extract, skipDone)
  {
    ChunkDeltasSplit(chunk, extract, skipDone);
    BlankFilterRedundant(Split(chunk, '\n'), extract, skipDone);
  }

  /** Every `onChunk` argument is non-empty. */
  lemma {:induction false} LinesDeltasNonEmpty(lines: seq<string>, extract: string -> Option<string>, skipDone: bool)
    ensures forall k | 0 <= k < |LinesDeltas(lines, extract, skipDone)| :: LinesDeltas(lines, extract, skipDone)[k] != ""
    decreases |lines|
  {
    if lines != [] {
      LinesDeltasNonEmpty(lines[..|lines| - 1], extract, skipDone);
    }
  }

  /** The inner `for (const line of lines)` loop of one chunk. */
  method HandleLines(lines: seq<string>, extract: string -> Option<string>, skipDone: bool) returns (deltas: seq<string>)
    ensures deltas == LinesDeltas(lines, extract, skipDone)
  {
    deltas := [];
    for i := 0 to |lines|
      invariant deltas == LinesDeltas(lines[..i], extract, skipDone)
    {
      assert lines[..i + 1][..i] == lines[..i];
      var line := lines[i];
      if StartsWith(line, DataPrefix) {
        var data := line[|DataPrefix|..];
        if !(skipDone && data == DoneMarker) {
          var parsed := extract(data);
          if parsed.Some? && parsed.value != "" {
            deltas := deltas + [parsed.value];
          }
        }
      }
    }
    assert lines[..|lines|] == lines;
  }

  /** One chunk: split it into lines, drop the blank ones, and read the rest. */
  method HandleChunk(chunk: string, extract: string -> Option<string>, skipDone: bool) returns (deltas: seq<string>)
    ensures deltas == ChunkDeltas(chunk, extract, skipDone)
  {
    var lines := NonBlank(Split(chunk, '\n'));
    deltas := HandleLines(lines, extract, skipDone);
    ChunkDeltasSpec(chunk, extract, skipDone);
  }

  /** What the stream yields from position `i` on: nothing after a failure, else that chunk's text first. */
  lemma StreamStep(steps: seq<Read>, i: nat, extract: string -> Option<string>, skipDone: bool)
    requires i < |steps|
    ensures steps[i].ReadFailure? ==> StreamDeltas(steps[i..], extract, skipDone) == []
    ensures steps[i].Chunk? ==>
      StreamDeltas(steps[i..], extract, skipDone)
      == ChunkDeltas(steps[i].text, extract, skipDone) + StreamDeltas(steps[i + 1..], extract, skipDone)
  {
    assert steps[i..][0] == steps[i];
    assert steps[i..][1..] == steps[i + 1..];
  }

  /**
   * A stream handler: `chunks` are the `onChunk` arguments in order, `completed` is
   * what the `finally` block passes to `onComplete`, and `result` is the returned
   * text, `None` when a read throws (the error then propagates to the caller).
   * `skipDone` is the OpenAI-style handler's `[DONE]` check.
   */
  method HandleStream(steps: seq<Read>, extract: string -> Option<string>, skipDone: bool)
    returns (chunks: seq<string>, completed: string, result: Option<string>)
    ensures chunks == StreamDeltas(steps, extract, skipDone)
    ensures forall k | 0 <= k < |chunks| :: chunks[k] != ""
    ensures completed == Concat(chunks)
    ensures result.None? <==> ReadFailure in steps
    ensures result.Some? ==> result.value == completed
  {
    var fullText, i;
    chunks, fullText, i := ReadLoop(steps, extract, skipDone);
    var threw := i < |steps|;
    StreamUpToFailure(steps, i, extract, skipDone);
    if threw {
      assert steps[i] == ReadFailure;
    } else {
      assert forall j | 0 <= j < |steps| :: steps[j] != ReadFailure;
    }
    StreamDeltasNonEmpty(steps, extract, skipDone);
    completed := fullText;
    result := if threw then None else Some(fullText);
  }

  /**
   * The `while (true)` loop: reads chunks until the stream ends (`i == |steps|`)
   * or a read throws (`steps[i]`); `fullText` is the concatenation of `chunks`.
   */
  method ReadLoop(steps: seq<Read>, extract: string -> Option<string>, skipDone: bool)
    returns (chunks: seq<string>, fullText: string, i: nat)
    ensures i <= |steps| && (i < |steps| ==> steps[i].ReadFailure?)
    ensures forall j | 0 <= j < i :: steps[j].Chunk?
    ensures chunks == StreamDeltas(steps[..i], extract, skipDone)
    ensures fullText == Concat(chunks)
  {
    fullText := "";
    chunks := [];
    i := 0;
    while i < |steps| && steps[i].Chunk?
      invariant 0 <= i <= |steps|
      invariant forall j | 0 <= j < i :: steps[j].Chunk?
      invariant chunks == StreamDeltas(steps[..i], extract, skipDone)
      invariant fullText == Concat(chunks)
    {
      chunks, fullText := ReadChunk(steps, i, chunks, fullText, extract, skipDone);
      i := i + 1;
    }
  }

  /** What a stream yields when the read at `i` throws, or when it ends at `i`, is what its first `i` reads yield. */
  lemma StreamUpToFailure(steps: seq<Read>, i: nat, extract: string -> Option<string>, skipDone: bool)
    requires i <= |steps| && (i < |steps| ==> steps[i].ReadFailure?)
    requires forall j | 0 <= j < i :: steps[j].Chunk?
    ensures StreamDeltas(steps, extract, skipDone) == StreamDeltas(steps[..i], extract, skipDone)
  {
    if i < |steps| {
      assert steps == steps[..i] + steps[i..];
      StreamDeltasAppend(steps[..i], steps[i..], extract, skipDone);
      StreamStep(steps, i, extract, skipDone);
    } else {
      assert steps[..i] == steps;
    }
  }

  /**
   * One pass of the `while (true)` loop over a chunk read at `i`: its texts go
   * to `onChunk` and are appended to `fullText`.
   */
  method ReadChunk(steps: seq<Read>, i: nat, chunks: seq<string>, fullText: string,
                   extract: string -> Option<string>, skipDone: bool)
    returns (chunks': seq<string>, fullText': string)
    requires i < |steps| && steps[i].Chunk?
    requires forall j | 0 <= j < i :: steps[j].Chunk?
    requires chunks == StreamDeltas(steps[..i], extract, skipDone) && fullText == Concat(chunks)
    ensures chunks' == StreamDeltas(steps[..i + 1], extract, skipDone)
    ensures fullText' == Concat(chunks')
  {
    var deltas := HandleChunk(steps[i].text, extract, skipDone);
    StreamDeltasSnoc(steps, i, extract, skipDone);
    ConcatAppend(chunks, deltas);
    chunks' := chunks + deltas;
    fullText' := fullText + Concat(deltas);
  }

  /** One more chunk adds its text after what the reads before it yield. */
  lemma StreamDeltasSnoc(steps: seq<Read>, i: nat, extract: string -> Option<string>, skipDone: bool)
    requires i < |steps| && steps[i].Chunk?
    requires forall j | 0 <= j < i :: steps[j].Chunk?
    ensures StreamDeltas(steps[..i + 1], extract, skipDone) == StreamDeltas(steps[..i], extract, skipDone) + ChunkDeltas(steps[i].text, extract, skipDone)
  {
    assert steps[..i + 1] == steps[..i] + [steps[i]];
    StreamDeltasAppend(steps[..i], [steps[i]], extract, skipDone);
    assert StreamDeltas([steps[i]], extract, skipDone) == ChunkDeltas(steps[i].text, extract, skipDone) + StreamDeltas([], extract, skipDone);
  }

  /** Every `onChunk` argument of a stream is non-empty. */
  lemma {:induction false} StreamDeltasNonEmpty(steps: seq<Read>, extract: string -> Option<string>, skipDone: bool)
    ensures forall k | 0 <= k < |StreamDeltas(steps, extract, skipDone)| :: StreamDeltas(steps, extract, skipDone)[k] != ""
    decreases |steps|
  {
    if steps != [] && steps[0].Chunk? {
      ChunkDeltasSplit(steps[0].text, extract, skipDone);
      LinesDeltasNonEmpty(Split(steps[0].text, '\n'), extract, skipDone);
      StreamDeltasNonEmpty(steps[1..], extract, skipDone);
    }
  }

  /**
   * The `[DONE]` check changes nothing: `[DONE]` is not JSON, so a payload parser
   * that rejects it already makes the line yield no text.
   */
  lemma {:induction false} DoneCheckRedundantForChunk(chunk: string, extract: string -> Option<string>)
    requires extract(DoneMarker) == None
    ensures ChunkDeltas(chunk, extract, true) == ChunkDeltas(chunk, extract, false)
    decreases |chunk|
  {
    var i := IndexOfChar(chunk, '\n');
    assert LineDelta(chunk[..i], extract, true) == LineDelta(chunk[..i], extract, false);
    if i < |chunk| {
      DoneCheckRedundantForChunk(chunk[i + 1..], extract);
    }
  }

  lemma {:induction false} DoneCheckRedundant(steps: seq<Read>, extract: string -> Option<string>)
    requires extract(DoneMarker) == None
    ensures StreamDeltas(steps, extract, true) == StreamDeltas(steps, extract, false)
    decreases |steps|
  {
    if steps != [] && steps[0].Chunk? {
      DoneCheckRedundantForChunk(steps[0].text, extract);
      DoneCheckRedundant(steps[1..], extract);
    }
  }

  /** Reading on past a chunk adds that chunk's text after what came before. */
  lemma {:induction false} StreamDeltasAppend(a: seq<Read>, b: seq<Read>, extract: string -> Option<string>, skipDone: bool)
    requires ReadFailure !in a
    ensures StreamDeltas(a + b, extract, skipDone) == StreamDeltas(a, extract, skipDone) + StreamDeltas(b, extract, skipDone)
    decreases |a|
  {
    if a == [] {
      assert a + b == b;
    } else {
      assert (a + b)[0] == a[0];
      assert (a + b)[1..] == a[1..] + b;
      StreamDeltasAppend(a[1..], b, extract, skipDone);
    }
  }
}

=== FILE: strings.dfy ===
/**
 * The JavaScript string operations the editor's code relies on, over `seq<char>`:
 * `trim`, `toLowerCase` (ASCII letters), `includes`, `startsWith`, `endsWith`,
 * `indexOf`, `lastIndexOf`, `split` on one character, `join`, `replace` of the
 * first occurrence, and the regular-expression classes `\s` and `\w`.
 */
module Strings {
  import opened Optional

  /** An optional string used as a condition: present and non-empty (JavaScript truthiness). */
  predicate Truthy(v: Option<string>) {
    v.Some? && v.value != ""
  }

  /** `a || b` on an optional string. */
  function OrElse(v: Option<string>, fallback: string): (r: string)
    ensures Truthy(v) ==> r == v.value
    ensures !Truthy(v) ==> r == fallback
  {
    if Truthy(v) then v.value else fallback
  }

  /** The characters JavaScript's `\s` matches and `trim` removes (WhiteSpace and LineTerminator). */
  predicate IsSpace(c: char) {
    c == ' ' || c == '\t' || c == '\n' || c == '\r' || c == '\U{B}' || c == '\U{C}'
    || c == '\U{A0}' || c == '\U{1680}' || ('\U{2000}' <= c <= '\U{200A}')
    || c == '\U{2028}' || c == '\U{2029}' || c == '\U{202F}' || c == '\U{205F}'
    || c == '\U{3000}' || c == '\U{FEFF}'
  }

  /** The characters JavaScript's `\w` matches. */
  predicate IsWordChar(c: char) {
    ('a' <= c <= 'z') || ('A' <= c <= 'Z') || ('0' <= c <= '9') || c == '_'
  }

  /** Every character is white space (also true of the empty string). */
  predicate Blank(s: string) {
    forall i | 0 <= i < |s| :: IsSpace(s[i])
  }

  function LowerChar(c: char): char {
    if 'A' <= c <= 'Z' then (c as int + 32) as char else c
  }

  function ToLower(s: string): (r: string)
    ensures |r| == |s|
    ensures forall i | 0 <= i < |s| :: r[i] == LowerChar(s[i])
  {
    seq(|s|, i requires 0 <= i < |s| => LowerChar(s[i]))
  }

  function UpperChar(c: char): char {
    if 'a' <= c <= 'z' then (c as int - 32) as char else c
  }

  function ToUpper(s: string): (r: string)
    ensures |r| == |s|
    ensures forall i | 0 <= i < |s| :: r[i] == UpperChar(s[i])
  {
    seq(|s|, i requires 0 <= i < |s| => UpperChar(s[i]))
  }

  /** `s` without its leading white space. */
  function TrimStart(s: string): (r: string)
    ensures |r| <= |s|
  {
    if s != [] && IsSpace(s[0]) then TrimStart(s[1..]) else s
  }

  /** `s` without its trailing white space. */
  function TrimEnd(s: string): string {
    if s != [] && IsSpace(s[|s| - 1]) then TrimEnd(s[..|s| - 1]) else s
  }

  /** `s.trim()`. */
  function Trim(s: string): string {
    TrimEnd(TrimStart(s))
  }

  /** `TrimStart` drops exactly the leading run of white space. */
  lemma {:induction false} TrimStartSpec(s: string)
    ensures var r := TrimStart(s);
      && |r| <= |s| && r == s[|s| - |r|..]
      && (r == [] || !IsSpace(r[0]))
      && forall i | 0 <= i < |s| - |r| :: IsSpace(s[i])
  {
    if s != [] && IsSpace(s[0]) {
      TrimStartSpec(s[1..]);
    }
  }

  /** `TrimEnd` drops exactly the trailing run of white space. */
  lemma {:induction false} TrimEndSpec(s: string)
    ensures var r := TrimEnd(s);
      && |r| <= |s| && r == s[..|r|]
      && (r == [] || !IsSpace(r[|r| - 1]))
      && forall i | |r| <= i < |s| :: IsSpace(s[i])
  {
    if s != [] && IsSpace(s[|s| - 1]) {
      TrimEndSpec(s[..|s| - 1]);
    }
  }

  /** How much leading white space `trim` removes. */
  function TrimOffset(s: string): nat {
    |s| - |TrimStart(s)|
  }

  /**
   * `s.trim()` is the slice of `s` between its leading and its trailing white
   * space: everything cut off is white space, and the result neither starts nor
   * ends with white space.
   */
  lemma TrimSpec(s: string)
    ensures var r := Trim(s); var a := TrimOffset(s);
      && a + |r| <= |s|
      && r == s[a..a + |r|]
      && (forall i | 0 <= i < a :: IsSpace(s[i]))
      && (forall i | a + |r| <= i < |s| :: IsSpace(s[i]))
      && (r == [] || (!IsSpace(r[0]) && !IsSpace(r[|r| - 1])))
  {
    var t := TrimStart(s);
    var r := Trim(s);
    TrimStartSpec(s);
    TrimEndSpec(t);
    var a := |s| - |t|;
    assert r == t[..|r|];
    assert r == s[a..a + |r|];
    forall i | a + |r| <= i < |s| ensures IsSpace(s[i]) {
      assert s[i] == t[i - a];
    }
    if r != [] {
      assert r[0] == t[0];
    }
  }

  /** `!s.trim()` holds exactly for the strings made only of white space. */
  lemma TrimEmptyIffBlank(s: string)
    ensures Trim(s) == [] <==> Blank(s)
  {
    var t := TrimStart(s);
    TrimStartSpec(s);
    TrimEndSpec(t);
    if Trim(s) == [] {
      assert t == [];
    } else {
      var r := Trim(s);
      assert !IsSpace(r[0]);
      assert r[0] == t[0] == s[|s| - |t|];
    }
  }

  /** `s.startsWith(p)`. */
  predicate StartsWith(s: string, p: string) {
    |p| <= |s| && s[..|p|] == p
  }

  /** `s.endsWith(p)`. */
  predicate EndsWith(s: string, p: string) {
    |p| <= |s| && s[|s| - |p|..] == p
  }

  /** Text put in front keeps an ending. */
  lemma EndsWithAfter(a: string, s: string, p: string)
    requires EndsWith(s, p)
    ensures EndsWith(a + s, p)
  {
    assert (a + s)[|a + s| - |p|..] == s[|s| - |p|..];
  }

  /** `sub` occurs in `s` starting at index `i`. */
  predicate OccursAt(s: string, sub: string, i: int) {
    0 <= i && i + |sub| <= |s| && s[i..i + |sub|] == sub
  }

  /** `s.includes(sub)`. */
  predicate Contains(s: string, sub: string) {
    exists i | 0 <= i <= |s| - |sub| :: OccursAt(s, sub, i)
  }

  /** A slice holds `sub` only where `sub` occurs in the whole string. */
  lemma SliceOccurs(s: string, sub: string, a: nat, b: nat, k: nat)
    requires a <= b <= |s| && OccursAt(s[a..b], sub, k)
    ensures OccursAt(s, sub, a + k)
  {
    var t := s[a..b][k..k + |sub|];
    assert |t| == |sub|;
    forall i | 0 <= i < |sub| ensures t[i] == s[a + k + i] {
      assert t[i] == s[a..b][k + i];
    }
    assert t == s[a + k..a + k + |sub|];
  }

  /** `s.toLowerCase().includes(q.toLowerCase())`. */
  predicate ContainsIgnoringCase(s: string, q: string) {
    Contains(ToLower(s), ToLower(q))
  }

  /** `s.indexOf(sub, from)`, absent when `sub` does not occur at or after `from`. */
  function IndexOfFrom(s: string, sub: string, from: nat): (r: Option<nat>)
    decreases |s| - from
    ensures r.Some? ==> from <= r.value && OccursAt(s, sub, r.value)
    ensures r.Some? ==> forall j | from <= j < r.value :: !OccursAt(s, sub, j)
    ensures r.None? ==> forall j | from <= j :: !OccursAt(s, sub, j)
  {
    if from + |sub| > |s| then None
    else if OccursAt(s, sub, from) then Some(from)
    else IndexOfFrom(s, sub, from + 1)
  }

  /** Index of the first `c` in `s`, or `|s|` when there is none. */
  function IndexOfChar(s: string, c: char): (r: nat)
    ensures r <= |s|
    ensures r < |s| ==> s[r] == c
  {
    if s == [] then 0 else if s[0] == c then 0 else 1 + IndexOfChar(s[1..], c)
  }

  /** No `c` comes before the index `IndexOfChar` finds. */
  lemma {:induction false} IndexOfCharFirst(s: string, c: char)
    ensures forall j | 0 <= j < IndexOfChar(s, c) :: s[j] != c
    decreases |s|
  {
    if s != [] && s[0] != c {
      IndexOfCharFirst(s[1..], c);
      assert forall j | 1 <= j < IndexOfChar(s, c) :: s[j] == s[1..][j - 1];
    }
  }

  /** `s.lastIndexOf(c)`: -1 when `c` does not occur. */
  function LastIndexOfChar(s: string, c: char): (r: int)
    ensures -1 <= r < |s|
    ensures r >= 0 ==> s[r] == c
    ensures forall j | r < j < |s| :: s[j] != c
  {
    if s == [] then -1
    else if s[|s| - 1] == c then |s| - 1
    else LastIndexOfChar(s[..|s| - 1], c)
  }

  /** `s.split(sep)` for a one-character separator: never empty. */
  function Split(s: string, sep: char): (r: seq<string>)
    ensures |r| >= 1
    decreases |s|
  {
    var i := IndexOfChar(s, sep);
    if i == |s| then [s] else [s[..i]] + Split(s[i + 1..], sep)
  }

  /** No piece of `s.split(sep)` holds `sep`. */
  lemma {:induction false} SplitPieces(s: string, sep: char)
    ensures forall k | 0 <= k < |Split(s, sep)| :: sep !in Split(s, sep)[k]
    decreases |s|
  {
    var i := IndexOfChar(s, sep);
    IndexOfCharFirst(s, sep);
    if i == |s| {
      assert forall j | 0 <= j < |s| :: s[j] != sep;
    } else {
      SplitPieces(s[i + 1..], sep);
      var rest := Split(s[i + 1..], sep);
      assert forall j | 0 <= j < |s[..i]| :: s[..i][j] != sep;
      assert Split(s, sep) == [s[..i]] + rest;
      forall k | 1 <= k < |Split(s, sep)| ensures sep !in Split(s, sep)[k] {
        assert Split(s, sep)[k] == rest[k - 1];
      }
    }
  }

  /** The first `c` of a string is also the first `c` of anything it starts. */
  lemma {:induction false} IndexOfCharPrefix(a: string, t: string, c: char)
    requires IndexOfChar(a, c) < |a|
    ensures IndexOfChar(a + t, c) == IndexOfChar(a, c)
    decreases |a|
  {
    if a[0] != c {
      assert (a + t)[1..] == a[1..] + t;
      IndexOfCharPrefix(a[1..], t, c);
    }
  }

  /** Splitting two texts joined by the separator splits each of them. */
  lemma {:induction false} SplitAppend(a: string, sep: char, b: string)
    ensures Split(a + [sep] + b, sep) == Split(a, sep) + Split(b, sep)
    decreases |a|
  {
    var i := IndexOfChar(a, sep);
    if i == |a| {
      SplitAppendNoSep(a, sep, b);
    } else {
      SplitAppend(a[i + 1..], sep, b);
      SplitAppendStep(a, sep, b);
      var head, rest, tail := [a[..i]], Split(a[i + 1..], sep), Split(b, sep);
      assert head + (rest + tail) == (head + rest) + tail;
    }
  }

  lemma SplitAppendNoSep(a: string, sep: char, b: string)
    requires IndexOfChar(a, sep) == |a|
    ensures Split(a + [sep] + b, sep) == [a] + Split(b, sep)
    ensures Split(a, sep) == [a]
  {
    var s := a + [sep] + b;
    IndexOfCharFirst(a, sep);
    assert sep !in a by {
      assert forall j | 0 <= j < |a| :: a[j] != sep;
    }
    IndexOfCharAfter(a, sep, b);
    assert s[..|a|] == a && s[|a| + 1..] == b;
  }

  lemma SplitAppendStep(a: string, sep: char, b: string)
    requires IndexOfChar(a, sep) < |a|
    ensures var i := IndexOfChar(a, sep);
      && Split(a + [sep] + b, sep) == [a[..i]] + Split(a[i + 1..] + [sep] + b, sep)
      && Split(a, sep) == [a[..i]] + Split(a[i + 1..], sep)
  {
    var t := [sep] + b;
    var i := IndexOfChar(a, sep);
    IndexOfCharPrefix(a, t, sep);
    SplitAt(a + t, sep, i, a[..i], a[i + 1..] + t);
    assert a + [sep] + b == a + t;
    assert a[i + 1..] + [sep] + b == a[i + 1..] + t;
  }

  /** Splitting at the first separator. */
  lemma SplitAt(s: string, sep: char, i: nat, head: string, rest: string)
    requires i < |s| && IndexOfChar(s, sep) == i && s[..i] == head && s[i + 1..] == rest
    ensures Split(s, sep) == [head] + Split(rest, sep)
  {
  }

  /** `parts.join(sep)`. */
  function Join(parts: seq<string>, sep: string): string {
    if |parts| == 0 then ""
    else if |parts| == 1 then parts[0]
    else parts[0] + sep + Join(parts[1..], sep)
  }

  /** Splitting on a character and joining the pieces with it gives the string back. */
  lemma {:induction false} JoinSplit(s: string, sep: char)
    ensures Join(Split(s, sep), [sep]) == s
    decreases |s|
  {
    var i := IndexOfChar(s, sep);
    if i < |s| {
      var rest := Split(s[i + 1..], sep);
      JoinSplit(s[i + 1..], sep);
      assert Split(s, sep) == [s[..i]] + rest;
      assert s == s[..i] + [sep] + s[i + 1..];
    }
  }

  /** Joining pieces that hold no `sep` and splitting the result on `sep` gives the pieces back. */
  lemma {:induction false} SplitJoin(parts: seq<string>, sep: char)
    requires |parts| >= 1
    requires forall k | 0 <= k < |parts| :: sep !in parts[k]
    ensures Split(Join(parts, [sep]), sep) == parts
    decreases |parts|
  {
    var p := parts[0];
    IndexOfCharAbsent(p, sep);
    if |parts| == 1 {
      assert Join(parts, [sep]) == p;
    } else {
      var rest := Join(parts[1..], [sep]);
      var s := Join(parts, [sep]);
      assert s == p + [sep] + rest;
      IndexOfCharAfter(p, sep, rest);
      assert s[..|p|] == p;
      assert s[|p| + 1..] == rest;
      SplitJoin(parts[1..], sep);
      assert parts == [p] + parts[1..];
    }
  }

  /** A string without `c` has no index of `c`. */
  lemma IndexOfCharAbsent(s: string, c: char)
    requires c !in s
    ensures IndexOfChar(s, c) == |s|
  {
  }

  /** The first `c` of `p + [c] + rest`, for `p` without `c`, is right after `p`. */
  lemma {:induction false} IndexOfCharAfter(p: string, c: char, rest: string)
    requires c !in p
    ensures IndexOfChar(p + [c] + rest, c) == |p|
    decreases |p|
  {
    if p != [] {
      assert (p + [c] + rest)[1..] == p[1..] + [c] + rest;
      assert p[0] in p;
      assert forall x | x in p[1..] :: x in p;
      IndexOfCharAfter(p[1..], c, rest);
    }
  }

  /** `Join` of a piece followed by at least one more. */
  lemma JoinCons(p: string, rest: seq<string>, sep: string)
    requires |rest| >= 1
    ensures Join([p] + rest, sep) == p + sep + Join(rest, sep)
  {
    assert ([p] + rest)[1..] == rest;
  }

  /** Joining the first `m` parts gives a prefix of joining them all. */
  lemma {:induction false} JoinPrefix(parts: seq<string>, sep: string, m: nat)
    requires 1 <= m <= |parts|
    ensures StartsWith(Join(parts, sep), Join(parts[..m], sep))
    decreases m
  {
    if m == 1 {
      assert Join(parts[..1], sep) == parts[0];
      if |parts| > 1 {
        assert Join(parts, sep) == parts[0] + (sep + Join(parts[1..], sep));
      }
    } else {
      var rest := parts[1..];
      JoinPrefix(rest, sep, m - 1);
      assert parts[..m] == [parts[0]] + rest[..m - 1];
      JoinCons(parts[0], rest[..m - 1], sep);
      assert parts == [parts[0]] + rest;
      JoinCons(parts[0], rest, sep);
      PrefixAfter(parts[0] + sep, Join(rest, sep), Join(rest[..m - 1], sep));
    }
  }

  /** The first `n` pieces of `s.split(sep)`, joined again: a prefix of `s`, all of it when there are no more pieces. */
  lemma JoinFirstPieces(s: string, sep: char, n: nat)
    requires 1 <= n
    ensures var ps := Split(s, sep);
      var head := Join(ps[..if n < |ps| then n else |ps|], [sep]);
      StartsWith(s, head) && (n >= |ps| ==> head == s)
  {
    var ps := Split(s, sep);
    var m := if n < |ps| then n else |ps|;
    JoinSplit(s, sep);
    JoinPrefix(ps, [sep], m);
    if n >= |ps| {
      assert ps[..m] == ps;
    }
  }

  /** Putting the same text in front of a string and of a prefix of it keeps it a prefix. */
  lemma PrefixAfter(a: string, t: string, p: string)
    requires StartsWith(t, p)
    ensures StartsWith(a + t, a + p)
  {
    assert (a + t)[..|a + p|] == a + t[..|p|];
  }

  /** `s.split(sep).pop()`: the text after the last `sep` (all of `s` when there is none). */
  function LastPiece(s: string, sep: char): string
    decreases |s|
  {
    var i := IndexOfChar(s, sep);
    if i == |s| then s else LastPiece(s[i + 1..], sep)
  }

  /** `LastPiece` is the last of the pieces `Split` produces. */
  lemma {:induction false} LastPieceIsLastSplit(s: string, sep: char)
    ensures LastPiece(s, sep) == Split(s, sep)[|Split(s, sep)| - 1]
    decreases |s|
  {
    var i := IndexOfChar(s, sep);
    if i < |s| {
      var t := s[i + 1..];
      LastPieceIsLastSplit(t, sep);
      var rest := Split(t, sep);
      assert Split(s, sep) == [s[..i]] + rest;
    }
  }

  /** The last piece holds no `sep` and ends `s`; it is `s` itself when `s` holds no `sep`. */
  lemma {:induction false} LastPieceSpec(s: string, sep: char)
    ensures sep !in LastPiece(s, sep) && EndsWith(s, LastPiece(s, sep))
    ensures sep !in s ==> LastPiece(s, sep) == s
    decreases |s|
  {
    var i := IndexOfChar(s, sep);
    IndexOfCharFirst(s, sep);
    if i == |s| {
      assert forall j | 0 <= j < |s| :: s[j] != sep;
    } else {
      var t := s[i + 1..];
      LastPieceSpec(t, sep);
      var r := LastPiece(t, sep);
      assert s[|s| - |r|..] == t[|t| - |r|..];
      assert s[i] in s;
    }
  }

  /** `path.split('\\').pop().split('/').pop()`: the last segment of a path with either separator. */
  function BaseName(path: string): (name: string)
    ensures '\\' !in name && '/' !in name
    ensures EndsWith(path, name)
  {
    var m := LastPiece(path, '\\');
    LastPieceSpec(path, '\\');
    LastPieceSpec(m, '/');
    var name := LastPiece(m, '/');
    assert name == m[|m| - |name|..];
    assert forall k | 0 <= k < |name| :: name[k] == m[|m| - |name| + k];
    assert path[|path| - |name|..] == m[|m| - |name|..] by {
      assert m == path[|path| - |m|..];
    }
    name
  }

  /** `s.replace(a, b)` for every occurrence of the single character `a` (`/a/g`). */
  function ReplaceAllChar(s: string, a: char, b: char): (r: string)
    ensures |r| == |s|
    ensures forall i | 0 <= i < |s| :: r[i] == if s[i] == a then b else s[i]
  {
    seq(|s|, i requires 0 <= i < |s| => if s[i] == a then b else s[i])
  }

  /** `s.replace(pat, rep)` with a string pattern: only the first occurrence is replaced, by the expanded `rep`. */
  function ReplaceFirst(s: string, pat: string, rep: string): string {
    match IndexOfFrom(s, pat, 0)
    case None => s
    case Some(i) => ReplaceAt(s, pat, rep, i)
  }

  /** `s` with the occurrence of `pat` at `i` replaced by the expanded `rep`. */
  function ReplaceAt(s: string, pat: string, rep: string, i: nat): string
    requires i + |pat| <= |s|
  {
    s[..i] + Substitution(rep, s[..i], pat, s[i + |pat|..]) + s[i + |pat|..]
  }

  /** A pattern found at the very start is replaced there. */
  lemma ReplaceFirstAtStart(s: string, pat: string, rep: string)
    requires OccursAt(s, pat, 0)
    ensures ReplaceFirst(s, pat, rep) == Substitution(rep, "", pat, s[|pat|..]) + s[|pat|..]
  {
    assert IndexOfFrom(s, pat, 0) == Some(0);
    assert ReplaceFirst(s, pat, rep) == ReplaceAt(s, pat, rep, 0);
    assert s[..0] == "";
  }

  /** The characters that may follow `$` in a replacement with a string pattern. */
  predicate Special(c: char) {
    c == '$' || c == '&' || c == '`' || c == '\''
  }

  /**
   * The text `replace` puts in place of a match of a string pattern: `rep` with
   * `$$` read as a dollar sign, `$&` as the match, `` $` `` as the text before it
   * and `$'` as the text after it; every other `$` stays as it is (a string
   * pattern has no groups, so `$1` and `$<name>` are literal).
   */
  function Substitution(rep: string, before: string, matched: string, after: string): string
    decreases |rep|
  {
    if rep == [] then []
    else if |rep| >= 2 && rep[0] == '$' && Special(rep[1]) then
      var part := if rep[1] == '$' then "$" else if rep[1] == '&' then matched else if rep[1] == '`' then before else after;
      part + Substitution(rep[2..], before, matched, after)
    else [rep[0]] + Substitution(rep[1..], before, matched, after)
  }

  /** A replacement without `$` is inserted as it is. */
  lemma {:induction false} SubstitutionPlain(rep: string, before: string, matched: string, after: string)
    requires '$' !in rep
    ensures Substitution(rep, before, matched, after) == rep
    decreases |rep|
  {
    if rep != [] {
      assert rep[0] != '$';
      assert rep == [rep[0]] + rep[1..];
      SubstitutionPlain(rep[1..], before, matched, after);
    }
  }

  /** A prefix without `$` is inserted as it is, before the expansion of the rest. */
  lemma {:induction false} SubstitutionPrefix(p: string, rep: string, before: string, matched: string, after: string)
    requires '$' !in p
    ensures Substitution(p + rep, before, matched, after) == p + Substitution(rep, before, matched, after)
    decreases |p|
  {
    if p != [] {
      var r := p + rep;
      assert r[0] == p[0] != '$';
      assert r[1..] == p[1..] + rep;
      SubstitutionPrefix(p[1..], rep, before, matched, after);
      assert Substitution(r, before, matched, after) == [p[0]] + Substitution(r[1..], before, matched, after);
      assert [p[0]] + p[1..] == p;
    } else {
      assert p + rep == rep;
    }
  }

  /** A last character that cannot follow `$` is inserted as it is, after the expansion of the rest. */
  lemma {:induction false} SubstitutionSnoc(rep: string, c: char, before: string, matched: string, after: string)
    requires !Special(c)
    ensures Substitution(rep + [c], before, matched, after) == Substitution(rep, before, matched, after) + [c]
    decreases |rep|
  {
    var r := rep + [c];
    if rep == [] {
      assert r == [c];
      assert r[1..] == [];
    } else if |rep| >= 2 && rep[0] == '$' && Special(rep[1]) {
      assert r[2..] == rep[2..] + [c];
      SubstitutionSnoc(rep[2..], c, before, matched, after);
    } else {
      assert r[1..] == rep[1..] + [c];
      SubstitutionSnoc(rep[1..], c, before, matched, after);
    }
  }

  /** How a template literal prints an optional string: `undefined` when absent. */
  function TemplateText(v: Option<string>): string {
    v.GetOr("undefined")
  }

  function DigitChar(d: nat): char
    requires d < 10
  {
    "0123456789"[d]
  }

  /** The decimal text of a natural number, as a template literal prints it. */
  function NatToString(n: nat): (r: string)
    ensures |r| >= 1
    decreases n
  {
    if n < 10 then [DigitChar(n)] else NatToString(n / 10) + [DigitChar(n % 10)]
  }
}

=== FILE: terminal_panel.dfy ===
/**
 * The bottom panel (`Terminal.jsx`): its terminal tabs and the active one, the
 * terminals attached so far that incoming data goes to, and the text copied
 * from a problem entry.
 */
module TerminalPanel {
  import opened Optional
  import opened Strings
  import opened Lists

  /** A terminal tab: the back end's terminal id and the shown name. */
  datatype Tab = Tab(id: string, name: string)

  const ShellName: string := "PowerShell"

  /** The ids of the tabs, in order (`Layout.Ids` does the same for editor tabs, a different record). */
  function TabIds(tabs: seq<Tab>): (ids: seq<string>)
    ensures |ids| == |tabs|
    ensures forall k | 0 <= k < |tabs| :: ids[k] == tabs[k].id
  {
    seq(|tabs|, k requires 0 <= k < |tabs| => tabs[k].id)
  }

  /** The tabs left once the tab of `id` is removed. */
  function Removing(tabs: seq<Tab>, id: string): (r: seq<Tab>)
    ensures |r| <= |tabs|
  {
    Filter(tabs, (t: Tab) => t.id != id)
  }

  /** Removing keeps exactly the other tabs, in order: the removal of the others' list is their list. */
  lemma RemovingKeepsOthers(tabs: seq<Tab>, id: string, t: Tab)
    ensures t in Removing(tabs, id) <==> t in tabs && t.id != id
    ensures id !in TabIds(Removing(tabs, id))
  {
    var r := Removing(tabs, id);
    forall k | 0 <= k < |r| ensures TabIds(r)[k] != id {
      assert r[k] in r;
    }
  }

  /** Removing a tab that is not there changes nothing. */
  lemma {:induction false} RemovingAbsent(tabs: seq<Tab>, id: string)
    requires id !in TabIds(tabs)
    ensures Removing(tabs, id) == tabs
  {
    forall k | 0 <= k < |tabs| ensures tabs[k].id != id {
      assert TabIds(tabs)[k] == tabs[k].id;
    }
    FilterKeepsAll(tabs, (t: Tab) => t.id != id);
  }

  /** A problem of the Problems tab. */
  datatype Problem = Problem(severity: string, file: string, line: nat, message: string)

  /** The text a right click copies: `[severity] file:line - message`. */
  function CopyText(p: Problem): (t: string)
    ensures StartsWith(t, "[" + p.severity + "] " + p.file + ":")
    ensures EndsWith(t, " - " + p.message)
    ensures var head, tail := "[" + p.severity + "] " + p.file + ":", " - " + p.message;
      |t| >= |head| + |tail| && t[|head|..|t| - |tail|] == NatToString(p.line)
  {
    var head := "[" + p.severity + "] " + p.file + ":";
    var tail := " - " + p.message;
    var t := head + NatToString(p.line) + tail;
    assert t[..|head|] == head;
    assert t[|t| - |tail|..] == tail;
    assert t[|head|..|t| - |tail|] == NatToString(p.line);
    t
  }

  /** The copied text opens with the bracketed severity and ends with the message. */
  lemma CopyTextParts(p: Problem)
    requires ']' !in p.severity
    ensures var t := CopyText(p);
      && t[0] == '['
      && IndexOfChar(t[1..], ']') == |p.severity|
      && t[1..1 + |p.severity|] == p.severity
      && EndsWith(t, " - " + p.message)
  {
    var t := CopyText(p);
    var rest := p.severity + "] " + p.file + ":" + NatToString(p.line) + " - " + p.message;
    assert t[1..] == rest;
    assert rest[..|p.severity|] == p.severity;
    assert rest[|p.severity|] == ']';
    IndexOfCharFirst(rest, ']');
    forall j | 0 <= j < |p.severity| ensures rest[j] != ']' {
      assert rest[j] == p.severity[j];
    }
    var tail := " - " + p.message;
    assert t == ("[" + p.severity + "] " + p.file + ":" + NatToString(p.line)) + tail;
    assert t[|t| - |tail|..] == tail;
  }

  /** The panel's state: its tabs, the active one, and what each attached terminal has been sent. */
  class Panel {
    var terminals: seq<Tab>
    var activeTermId: Option<string>
    var attached: map<string, seq<string>>

    constructor()
      ensures terminals == [] && activeTermId.None? && attached == map[]
    {
      terminals, activeTermId, attached := [], None, map[];
    }

    /**
     * `addTerminal`: without the desktop API, or when the back end fails to
     * create one, nothing; otherwise a `PowerShell` tab of the new id goes last
     * and becomes active.
     */
    method AddTerminal(hasApi: bool, created: Option<string>)
      modifies this
      ensures hasApi && created.Some? ==> terminals == old(terminals) + [Tab(created.value, ShellName)] && activeTermId == created
      ensures !(hasApi && created.Some?) ==> terminals == old(terminals) && activeTermId == old(activeTermId)
      ensures attached == old(attached)
    {
      if hasApi && created.Some? {
        terminals := terminals + [Tab(created.value, ShellName)];
        activeTermId := created;
      }
    }

    /** Opening the panel: with no tab a terminal is requested, and otherwise nothing happens. */
    method Open(hasApi: bool, created: Option<string>)
      modifies this
      ensures old(terminals) == [] && hasApi && created.Some? ==> terminals == [Tab(created.value, ShellName)] && activeTermId == created
      ensures old(terminals) != [] || !hasApi || created.None? ==> terminals == old(terminals) && activeTermId == old(activeTermId)
      ensures attached == old(attached)
    {
      if terminals == [] {
        AddTerminal(hasApi, created);
      }
    }

    /**
     * `removeTerminal`: without the desktop API nothing; otherwise the terminal
     * is killed (`killed`), its tab goes and the others stay in order, its
     * attachment goes, and a removed active tab gives way to the last remaining
     * one; with none left the active id stays as it was.
     */
    method RemoveTerminal(id: string, hasApi: bool) returns (killed: bool)
      modifies this
      ensures killed == hasApi
      ensures !hasApi ==> terminals == old(terminals) && activeTermId == old(activeTermId) && attached == old(attached)
      ensures hasApi ==> terminals == Removing(old(terminals), id) && attached == old(attached) - {id}
      ensures hasApi && old(activeTermId) == Some(id) && terminals != [] ==> activeTermId == Some(terminals[|terminals| - 1].id)
      ensures !(hasApi && old(activeTermId) == Some(id) && terminals != []) ==> activeTermId == old(activeTermId)
    {
      if !hasApi {
        return false;
      }
      var remaining := Removing(terminals, id);
      if activeTermId == Some(id) && remaining != [] {
        activeTermId := Some(remaining[|remaining| - 1].id);
      }
      terminals := remaining;
      attached := attached - {id};
      killed := true;
    }

    /** A terminal view reports itself once mounted; from then on data for its id reaches it. */
    method Attach(id: string)
      modifies this
      ensures attached == old(attached)[id := []]
      ensures terminals == old(terminals) && activeTermId == old(activeTermId)
    {
      attached := attached[id := []];
    }

    /** Data from the back end is written to the terminal of its id when one is attached, and dropped otherwise. */
    method Incoming(id: string, data: string)
      modifies this
      ensures id in old(attached) ==> attached == old(attached)[id := old(attached)[id] + [data]]
      ensures id !in old(attached) ==> attached == old(attached)
      ensures terminals == old(terminals) && activeTermId == old(activeTermId)
    {
      if id in attached {
        attached := attached[id := attached[id] + [data]];
      }
    }

    /** Clicking a tab makes it active. */
    method Select(id: string)
      modifies this
      ensures activeTermId == Some(id)
      ensures terminals == old(terminals) && attached == old(attached)
    {
      activeTermId := Some(id);
    }
  }
}
